=== FILE: README.md ===
# libpsx-rs core, modelled in Dafny

This project models the deterministic core of libpsx-rs, a PlayStation
emulator written in Rust, and proves properties of the model. The core is
the bit-level and state-machine logic of the emulated hardware:

- the `Bitfield` helper, little-endian sub-word access, and the
  level, edge and read-only register types;
- the R3000 (MIPS I) CPU:
  - instruction decode;
  - the integer ALU;
  - branches and the branch delay slot;
  - loads and stores, including the unaligned `lwl`/`lwr`/`swl`/`swr`;
  - segment address translation;
  - exception entry and interrupts;
- the DMA controller:
  - the DICR and CHCR register rules;
  - the continuous, block and linked-list transfer counters;
  - the OTC (ordering-table clear) channel;
  - the FIFO rules;
  - the interrupt edge logic;
- the SPU voice:
  - the pitch counter;
  - the ADPCM block decoder;
  - the integer ADSR envelope;
- the GPU:
  - GP0 command framing and command lengths;
  - the E1-E6 register commands;
  - C0 framebuffer read packing;
  - the integer coordinate helpers;
- the CD-ROM command state machine and status byte;
- the interrupt controller's status register, the root counters (timers) and
  their interrupt rules;
- the row-flipping and rectangle helpers and the page-table memory mapper.

Every hardware value is a `bv32`, `bv16` or `bv8` word, or an integer
subset type with its range spelled out (`Byte`, `U16`, `I16`, `U32`).
State is an immutable record. Every operation is a pure function from a
state to the next one.

The source's error paths are part of the model:
- `Result`/`Option` values;
- `Panicked`/`Stalled` outcomes;
- panics and failed assertions are modelled as error results (`None`, a
  `Panicked` outcome, a `Misaligned` bus access). A failed assertion
  becomes a precondition only where "## Left out" says so.

There is one module per source area. The modules import one another the
way the source's modules do. `Wrappers` holds `Option` and `Result`.
`Shifts` and `Ints` hold shift and integer-arithmetic helper lemmas.

## Model

| member | source | states |
|---|---|---|
| Bits.UnshiftedMaskComplement | libpsx-rs/src/types/bitfield.rs:20-25 | `unshifted_mask` is the low `length` bits: the complement of all-ones shifted up by `length` |
| Bits.ShiftedMaskHigh | libpsx-rs/src/types/bitfield.rs:28-33 | the shifted mask has no bit below `start` |
| Bits.ShiftedMaskBack | libpsx-rs/src/types/bitfield.rs:28-33 | for a field inside the word, shifting the shifted mask back down gives the unshifted mask |
| Bits.ShiftedMaskNative | libpsx-rs/src/types/bitfield.rs:20-33 | the shifted mask equals `((1 << length) - 1) << start` computed with native shifts |
| Bits.UnshiftedMaskNative | libpsx-rs/src/types/bitfield.rs:20-25 | the unshifted mask equals `(1 << length) - 1` computed with native shifts |
| Bits.ExtractBounded | libpsx-rs/src/types/bitfield.rs:36-45 | an extracted value is below 2^length |
| Bits.ExtractInPlace | libpsx-rs/src/types/bitfield.rs:36-45 | shifting an extracted value back up gives exactly the field bits of the input |
| Bits.ExtractAtNative | libpsx-rs/src/types/bitfield.rs:36-45 | `extract_from` is `(value & shifted_mask) >> start` |
| Bits.InsertAtNative | libpsx-rs/src/types/bitfield.rs:48-61 | `insert_into` is `(destination & !shifted_mask) \| ((source & unshifted_mask) << start)` |
| Bits.InsertFrame | libpsx-rs/src/types/bitfield.rs:48-61 | `insert_into` leaves every bit outside the field unchanged |
| Bits.ExtractInsert | libpsx-rs/src/types/bitfield.rs:48-61 | round trip: extracting a field just inserted gives the source cut to the field width |
| Bits.InsertExtract | libpsx-rs/src/types/bitfield.rs:36-61 | inserting the value a field already holds changes nothing |
| Bits.InsertZero | libpsx-rs/src/types/bitfield.rs:48-61 | inserting zero clears exactly the field |
| Bits.BitOfInsert | libpsx-rs/src/types/bitfield.rs:48-61 | a one-bit insert sets that bit to the source's low bit and keeps every other bit |
| Bits.AcknowledgeNeverSets | libpsx-rs/src/types/bitfield.rs:80-89 | `acknowledge` never sets a bit |
| Bits.AcknowledgeOutside | libpsx-rs/src/types/bitfield.rs:68-89 | `acknowledge` leaves the bits outside the field alone |
| Bits.AcknowledgeInside | libpsx-rs/src/types/bitfield.rs:68-89 | inside the field `acknowledge` clears exactly the bits set in the acknowledge value |
| Bits.AcknowledgeMaskExample | libpsx-rs/src/types/bitfield.rs:63-66 | the documented example: mask 0b1111_0000 and value 0b0110_0000 give 0b1001_1111 |
| Bits.CopyFrame | libpsx-rs/src/types/bitfield.rs:92-103 | `copy` changes only the destination's field |
| Bits.CopyField | libpsx-rs/src/types/bitfield.rs:92-103 | after `copy` the destination's field reads as the source's field |
| Primitive.LeBytes32RoundTrip | libpsx-rs/src/utilities/primitive.rs:13-21 | the little-endian byte view of a word and its inverse are mutually inverse |
| Primitive.LeBytes16RoundTrip | libpsx-rs/src/utilities/primitive.rs:47-56 | the same for a half-word |
| Primitive.WordOfHalves | libpsx-rs/src/utilities/primitive.rs:23-36 | a word's four bytes are its two half-words, low half first |
| Primitive.InsertU8Bytes | libpsx-rs/src/utilities/primitive.rs:13-21 | `insert_u8_le` replaces exactly byte `offset`; extracting it gives the byte, the other three bytes keep their values |
| Primitive.InsertU16Halves | libpsx-rs/src/utilities/primitive.rs:23-36 | `extract_u16_le(insert_u16_le(v, o, h), o) == h`, and the other half-word is unchanged |
| Primitive.InsertU8Of16Bytes | libpsx-rs/src/utilities/primitive.rs:47-56 | the byte round trip on a 16-bit value, with the other byte unchanged |
| Primitive.ExtractU8Bits | libpsx-rs/src/utilities/primitive.rs:13-15 | byte k is bits 8k to 8k+7 of the value |
| Primitive.ExtractU16Bits | libpsx-rs/src/utilities/primitive.rs:23-27 | half-word 0 is the low 16 bits and half-word 1 the high 16 bits |
| Memory.New | libpsx-rs/src/types/memory.rs:17-21 | a new memory has `size` zero bytes |
| Memory.NewInitialized | libpsx-rs/src/types/memory.rs:23-27 | `new_initialized` fills every byte with the given value |
| Memory.ReadRaw | libpsx-rs/src/types/memory.rs:30-32 | `read_raw` returns the bytes from the offset to the end, and panics exactly when the offset is past the end |
| Memory.WriteRaw | libpsx-rs/src/types/memory.rs:34-38 | `write_raw` panics exactly when the range runs past the end |
| Memory.ReadU8 | libpsx-rs/src/types/memory.rs:40-42 | `read_u8` panics exactly past the end |
| Memory.WriteU8 | libpsx-rs/src/types/memory.rs:44-48 | `write_u8` panics exactly past the end |
| Memory.ReadU16 | libpsx-rs/src/types/memory.rs:50-53 | `read_u16` panics exactly at an odd offset or past the end |
| Memory.WriteU16 | libpsx-rs/src/types/memory.rs:55-60 | `write_u16` panics exactly at an odd offset or past the end |
| Memory.ReadU32 | libpsx-rs/src/types/memory.rs:62-65 | `read_u32` panics exactly at an offset not divisible by 4 or past the end |
| Memory.WriteU32 | libpsx-rs/src/types/memory.rs:67-72 | `write_u32` panics exactly at an offset not divisible by 4 or past the end |
| Memory.WriteRawExact | libpsx-rs/src/types/memory.rs:34-38 | `write_raw` changes exactly the bytes [offset, offset+len), which then hold the data |
| Memory.ReadRawWriteRaw | libpsx-rs/src/types/memory.rs:30-38 | reading back a written raw range gives the data |
| Memory.ReadWriteU16 | libpsx-rs/src/types/memory.rs:50-60 | a half-word write panics exactly at an odd offset or past the end; otherwise it reads back as written, and every other byte is unchanged |
| Memory.ReadWriteU32 | libpsx-rs/src/types/memory.rs:62-72 | a word write panics exactly at an offset not divisible by 4 or past the end; otherwise it reads back as written, and every other byte is unchanged |
| Memory.WordFromHalves | libpsx-rs/src/types/memory.rs:50-72 | an aligned word is its two half-words, low half first |
| Memory.LayoutExample | libpsx-rs/src/types/memory.rs:114-132 | the layout test: bytes 00,11,22,33 read as u16 0x1100 and 0x3322 and as u32 0x33221100; a u16 read at 1 and a u32 read at 2 panic |
| Registers.Level32Bitfield | libpsx-rs/src/types/memory/level.rs:57-63 | `write_bitfield` changes only the field, and `read_bitfield` then returns the written value |
| Registers.Level32Bytes | libpsx-rs/src/types/memory/level.rs:33-39 | a byte write reads back, and the other three bytes keep their values |
| Registers.Level32LayoutExample | libpsx-rs/src/types/memory/level.rs:189-243 | the 32-bit layout and bitfield tests: bytes 00,33,22,11 read as 0x11223300, u16 0x3300 and 0x1122, and `Bitfield(9,4)` is 9 |
| Registers.Level16And8Examples | libpsx-rs/src/types/memory/level.rs:209-266 | the 16- and 8-bit layout and bitfield tests |
| Registers.ReadOnlyIgnoresWrites | libpsx-rs/src/types/register/b32_register.rs:42-75 | a read-only register ignores every u32, u16, u8 and bitfield write |
| Registers.WritableWrites | libpsx-rs/src/types/register/b32_register.rs:38-75 | on a writable register a word write replaces the value, and a bitfield write changes only the field, which then reads back |
| Registers.MappedReadU16 | libpsx-rs/src/types/register/b32_register.rs:88-91 | a mapped half-word read panics exactly at an odd offset or past the word's two halves |
| Registers.MappedWriteU16 | libpsx-rs/src/types/register/b32_register.rs:93-97 | a mapped half-word write panics exactly at an odd offset or past the word's two halves, and keeps the read-only flag |
| Registers.MappedReadU32 | libpsx-rs/src/types/register/b32_register.rs:99-102 | a mapped word read panics exactly at a non-zero offset, and otherwise gives the value |
| Registers.MappedWriteU32 | libpsx-rs/src/types/register/b32_register.rs:104-108 | a mapped word write panics exactly at a non-zero offset, and otherwise stores the value unless the register is read-only |
| Registers.MappedHalves | libpsx-rs/src/types/register/b32_register.rs:88-97 | mapped half-word offset 2 is the word's high half, writing it keeps the low half, and the odd, past-the-end and non-zero word offsets panic |
| Registers.Acknowledge | libpsx-rs/src/types/memory/edge.rs:80-91 | after `acknowledge` no latch is pending |
| Registers.Update | libpsx-rs/src/types/memory/edge.rs:93-99 | `update` never touches the latch |
| Registers.EdgeAccessLatches | libpsx-rs/src/types/memory/edge.rs:31-78 | an access fails exactly while a latch is pending; otherwise it succeeds and records its latch kind |
| Registers.EdgeAcknowledgeReopens | libpsx-rs/src/types/memory/edge.rs:31-91 | after one access a second fails; acknowledging applies the handler to the value and the latch kind and reopens the register |
| Registers.AcknowledgeIdle | libpsx-rs/src/types/memory/edge.rs:80-91 | `acknowledge` with no latch pending changes nothing |
| Fifos.WriteThenRead | libpsx-rs/src/types/fifo.rs:22-28 | items leave in arrival order: a write does not change what the next read returns, and into an empty queue the written item is what is read |
| Fifos.ValidPreserved | libpsx-rs/src/types/fifo.rs:16-36 | reads and writes keep a queue within its capacity |
| BranchDelay.AdvanceAll | libpsx-rs/src/types/mips1/branch_delay_slot.rs:36-44 | `advance_all` returns any pending target and leaves none |
| BranchDelay.Set | libpsx-rs/src/types/mips1/branch_delay_slot.rs:52-56 | after `set`, `branching()` holds |
| BranchDelay.TargetOrNull | libpsx-rs/src/types/mips1/branch_delay_slot.rs:62-64 | `target_or_null` is 0 with nothing pending, and the target otherwise |
| BranchDelay.AdvanceCases | libpsx-rs/src/types/mips1/branch_delay_slot.rs:21-34 | `advance` with no target changes nothing; with slots 0 it returns and clears the target; otherwise it uses up one slot and returns nothing |
| BranchDelay.BackCases | libpsx-rs/src/types/mips1/branch_delay_slot.rs:46-50 | `back` increments the slots exactly when a target is pending |
| BranchDelay.NewSlotIdle | libpsx-rs/src/types/mips1/branch_delay_slot.rs:14-19 | a new slot is not branching and its target reads as 0 |
| BranchDelay.AdvanceDelay | libpsx-rs/src/types/mips1/branch_delay_slot.rs:21-34 | a target with n slots left is returned by exactly the (n+1)-th `advance`, and by no earlier one |
| BranchDelay.SetThenAdvance | libpsx-rs/src/types/mips1/branch_delay_slot.rs:21-60 | after `set(t, 1)` the next instruction still executes, and the one after it is fetched from `t` |
| Instructions.Opcode | libpsx-rs/src/system/r3000/controllers/instruction.rs:10 | the opcode field is below 64 (the other field accessors likewise stay within their widths) |
| Instructions.LookupCost | libpsx-rs/src/system/r3000/controllers/instruction.rs:9-271 | every cost `lookup` returns is the cost of its handler's kind: 1 or 2, and 2 for every load and store |
| Instructions.LookupCostsAgree | libpsx-rs/src/system/r3000/controllers/instruction.rs:9-271 | whatever `lookup` decodes carries the cost the reference `Cost` gives its handler |
| Instructions.MemoryAccessCost | libpsx-rs/src/system/r3000/controllers/instruction.rs:222-257 | the reference cost is 1 or 2, and 2 for every load and store |
| Instructions.SpecialDecodes | libpsx-rs/src/system/r3000/controllers/instruction.rs:11-100 | a SPECIAL word decodes exactly when its function code is one the table lists; any other is None |
| Instructions.RegimmDecodes | libpsx-rs/src/system/r3000/controllers/instruction.rs:102-120 | a REGIMM word decodes exactly when rt is 0, 1, 16 or 17, and only to a branch |
| Instructions.Cop0Decodes | libpsx-rs/src/system/r3000/controllers/instruction.rs:163-221 | a COP0 word without `c` decodes only for rs4 0, 4, 8; with `c` it decodes exactly when rs4 is 0 and the function code is 1, 2, 6, 8 or 16 |
| Instructions.Cop2Decodes | libpsx-rs/src/system/r3000/controllers/instruction.rs:258-300 | opcode 18 is `lookup_cop2`; a non-zero function code decodes exactly when listed, and function code 0 exactly for rs 0, 2, 4, 6 |
| Instructions.UnlistedOpcode | libpsx-rs/src/system/r3000/controllers/instruction.rs:267-269 | a primary opcode the table does not list decodes to None |
| Instructions.DecodeEncode | libpsx-rs/src/system/r3000/controllers/instruction.rs:9-300 | every handler has an instruction word that `lookup` decodes back to that handler, with the handler's cost |
| MemoryController.TranslateAddress | libpsx-rs/src/system/r3000/controllers/memory_controller.rs:11-25 | kuseg and the cache-control window translate to themselves, kseg0 subtracts 0x8000_0000, kseg1 0xA000_0000, and kseg2 (and only kseg2) is an error |
| MemoryController.KernelSegmentsAlias | libpsx-rs/src/system/r3000/controllers/memory_controller.rs:17-19 | the kseg0 and kseg1 windows both map onto the same low 512 MiB |
| MemoryController.TranslateIdempotent | libpsx-rs/src/system/r3000/controllers/memory_controller.rs:11-25 | every translated address translates to itself again |
| MemoryController.Read | libpsx-rs/src/system/r3000/controllers/memory_controller.rs:27-42 | a locked bus gives the bus-locked read hazard; an unmapped address the memory-read hazard; otherwise the bytes read |
| MemoryController.Write | libpsx-rs/src/system/r3000/controllers/memory_controller.rs:44-59 | a locked bus gives the bus-locked write hazard without touching the bus; an unmapped address the memory-write hazard; otherwise the bytes written |
| MemoryController.BusWrite | libpsx-rs/src/system/r3000/controllers/memory_controller.rs:44-59 | a bus write replaces exactly the written bytes and keeps the lock and the mapping |
| MemoryController.ReadAccess | libpsx-rs/src/system/r3000/controllers/memory_controller.rs:61-110 | a typed read is the lock or mapping hazard when there is one, otherwise panics exactly when the address is not aligned to the width (types/memory.rs:51,63 and the registers' check), otherwise gives the bytes read |
| MemoryController.WriteAccess | libpsx-rs/src/system/r3000/controllers/memory_controller.rs:78-127 | a typed write is the lock or mapping hazard when there is one, otherwise panics exactly when the address is not aligned to the width, otherwise gives the written bus |
| MemoryController.MisalignedPanics | libpsx-rs/src/types/register/b32_register.rs:88-96 | byte accesses never panic; on an unlocked bus a mapped half-word or word access panics exactly when misaligned, reads and writes alike |
| MemoryController.LockedBusIsHazard | libpsx-rs/src/system/r3000/controllers/memory_controller.rs:27-31 | while the bus is locked every read and write of every width is a hazard naming the address |
| MemoryController.WriteThenReadU32 | libpsx-rs/src/system/r3000/controllers/memory_controller.rs:95-127 | on an unlocked bus a word write to the passive byte map panics at an address not divisible by 4 and otherwise reads back |
| MemoryController.WriteFrame | libpsx-rs/src/system/r3000/controllers/memory_controller.rs:44-59 | a write leaves every byte outside the written range as it was |
| R3000State.SetGpr | libpsx-rs/src/system/r3000/controllers/register.rs:4 | a register write followed by `handle_zero` sets the register, keeps register 0 at zero and changes no other register |
| R3000State.StatusFields | libpsx-rs/src/system/r3000/cp0/constants.rs:6-15 | the IEc, IsC, BEV and IM fields of status are bits 0, 16, 22 and 8-15 |
| R3000State.CauseExccodeField | libpsx-rs/src/system/r3000/cp0/constants.rs:19 | the exception code field of cause is bits 2-6, read and written as a mask and shift |
| R3000State.CauseIpField | libpsx-rs/src/system/r3000/cp0/constants.rs:20 | the pending-interrupt field of cause is bits 8-15 |
| R3000State.CauseIntcField | libpsx-rs/src/system/r3000/cp0/constants.rs:27 | the interrupt controller's pending bit is cause bit 10 |
| R3000State.CauseIpClear | libpsx-rs/src/system/r3000/controllers/exception.rs:21-24 | clearing the pending field clears bits 8-15 of cause and nothing else |
| R3000State.PushException | libpsx-rs/src/system/r3000/controllers/exception.rs:38-41 | entry pushes the KU/IE stack: the current pair is (0, 0), each pair moves up one place, and bits 6 and up are unchanged |
| R3000State.PopUndoesPush | libpsx-rs/src/system/r3000/controllers/instruction_impl.rs:626-633 | `rfe` after entry restores the interrupt-enable and mode bits 0-3 and the rest of status |
| R3000State.JumpTarget | libpsx-rs/src/system/r3000/controllers/instruction_impl.rs:421-425 | a `j` target is word-aligned and in the same 256 MiB region as the program counter |
| Alu.Wrap | libpsx-rs/src/system/r3000/controllers/instruction_impl.rs:276-285 | wrapping reduces an integer modulo 2^32 into a word |
| Alu.Signed | libpsx-rs/src/system/r3000/controllers/instruction_impl.rs:216-221 | `as i32` gives the two's-complement value, which wraps back to the same word |
| Alu.SignExtend16 | libpsx-rs/src/system/r3000/controllers/instruction_impl.rs:491-516 | a sign-extended immediate lies in [-0x8000, 0x8000) |
| Alu.SignExtend8 | libpsx-rs/src/system/r3000/controllers/instruction_impl.rs:647-666 | a sign-extended byte lies in [-0x80, 0x80) and is the byte itself when its top bit is clear |
| Alu.BytesWordRoundTrip | libpsx-rs/src/system/r3000/controllers/instruction_impl.rs:720-739 | a word's little-endian bytes assemble back to the word |
| Alu.SravSaturates | libpsx-rs/src/system/r3000/controllers/instruction_impl.rs:97-116 | `srav` by 32 or more fills the word with the sign bit, as an arithmetic shift by 31 does |
| Alu.SravOfNonNegative | libpsx-rs/src/system/r3000/controllers/instruction_impl.rs:80-116 | on a non-negative value `srav` and `srlv` agree for every amount |
| Alu.VariableShifts | libpsx-rs/src/system/r3000/controllers/instruction_impl.rs:63-95 | `sllv`/`srlv` by 32 or more write 0; below 32 they multiply by 2^rs modulo 2^32 or divide by 2^rs |
| Alu.AddOverflow | libpsx-rs/src/system/r3000/controllers/instruction_impl.rs:258-274 | `add` fails exactly when the signed sum leaves the i32 range; otherwise it is the exact signed sum and equals `addu` |
| Alu.SubAgrees | libpsx-rs/src/system/r3000/controllers/instruction_impl.rs:287-307 | `sub` (wrapping i32) and `subu` give the same word |
| Alu.SltBySltu | libpsx-rs/src/system/r3000/controllers/instruction_impl.rs:353-385 | `slt` is `sltu` on the operands with their sign bits flipped |
| Alu.Multu | libpsx-rs/src/system/r3000/controllers/instruction_impl.rs:197-214 | hi:lo is the exact 64-bit unsigned product |
| Alu.Mult | libpsx-rs/src/system/r3000/controllers/instruction_impl.rs:178-195 | hi:lo is the signed product modulo 2^64 |
| Alu.MultLowAgrees | libpsx-rs/src/system/r3000/controllers/instruction_impl.rs:178-214 | the signed and unsigned products have the same low word |
| Alu.TruncatingDivision | libpsx-rs/src/system/r3000/controllers/instruction_impl.rs:216-235 | Rust's `/` and `%` on i32: a = b*q + r with \|r\| < \|b\|, r having the dividend's sign |
| Alu.Divu | libpsx-rs/src/system/r3000/controllers/instruction_impl.rs:237-256 | `divu` leaves lo*rt + hi == rs with hi < rt |
| Alu.DivAsWritten | libpsx-rs/src/system/r3000/controllers/instruction_impl.rs:216-235 | the source's `div` fails (Rust panics) exactly on -2^31 / -1 |
| Alu.DivOverflowPanics | libpsx-rs/src/system/r3000/controllers/instruction_impl.rs:224-225 | the register pair 0x8000_0000 / 0xFFFF_FFFF reaches that panic |
| Alu.Div | libpsx-rs/src/system/r3000/controllers/instruction_impl.rs:216-235 | the corrected `div` agrees with the source everywhere else and gives quotient 0x8000_0000, remainder 0 on -2^31 / -1 |
| Alu.DivRegular | libpsx-rs/src/system/r3000/controllers/instruction_impl.rs:216-235 | outside the overflow case the corrected `div` writes the i32 quotient and remainder |
| Alu.DivIsTruncating | libpsx-rs/src/system/r3000/controllers/instruction_impl.rs:216-235 | the corrected `div` is a truncating division for every non-zero divisor (exactly, or modulo 2^32 in the overflow case) |
| Alu.DivAgreesWithDivu | libpsx-rs/src/system/r3000/controllers/instruction_impl.rs:216-256 | on non-negative operands `div` and `divu` agree |
| Unaligned.UnalignedLoad | libpsx-rs/src/system/r3000/controllers/instruction_impl.rs:689-812 | `lwr` at an address then `lwl` at address+3 load the four bytes starting at the address, whatever the register held |
| Unaligned.UnalignedStore | libpsx-rs/src/system/r3000/controllers/instruction_impl.rs:850-938 | `swr` then `swl` at address+3 write the register's four bytes across the two aligned words |
| Unaligned.UnalignedStoreLoad | libpsx-rs/src/system/r3000/controllers/instruction_impl.rs:689-938 | storing with `swr`/`swl` and loading back with `lwr`/`lwl` into any register returns the stored value |
| Unaligned.UnalignedStoreFrame | libpsx-rs/src/system/r3000/controllers/instruction_impl.rs:850-938 | the unaligned stores keep every byte of the two words outside the stored word |
| Execute.WriteReg | libpsx-rs/src/system/r3000/controllers/register.rs:4 | a register write keeps register 0 at zero and changes nothing else |
| Execute.ExecShift | libpsx-rs/src/system/r3000/controllers/instruction_impl.rs:33-116 | the shifts write only rd |
| Execute.ExecRegisterArith | libpsx-rs/src/system/r3000/controllers/instruction_impl.rs:258-385 | the register arithmetic writes only rd, and fails exactly for `add` on signed overflow |
| Execute.ExecImmediateArith | libpsx-rs/src/system/r3000/controllers/instruction_impl.rs:491-583 | the immediate arithmetic writes only rt, and fails exactly for `addi` on signed overflow |
| Execute.ImmediateArithWrites | libpsx-rs/src/system/r3000/controllers/instruction_impl.rs:508-583 | every immediate instruction but `addi` writes its value to rt and cannot fail |
| Execute.AddiWrites | libpsx-rs/src/system/r3000/controllers/instruction_impl.rs:491-506 | `addi` without overflow writes the exact signed sum |
| Execute.AddiuValue | libpsx-rs/src/system/r3000/controllers/instruction_impl.rs:508-516 | `addiu` writes rs plus the sign-extended immediate modulo 2^32 |
| Execute.ExecHiLo | libpsx-rs/src/system/r3000/controllers/instruction_impl.rs:148-256 | `mfhi`/`mflo` copy hi or lo to rd; `mthi`/`mtlo` copy rs to hi or lo; the multiplications and divisions leave (hi, lo) as the ALU rows state, and a division by zero changes nothing; `div` panics exactly when the source's `i32` remainder does (-2^31 / -1, line 224); otherwise no other register and nothing outside the CPU changes |
| Execute.BranchTarget | libpsx-rs/src/system/r3000/controllers/instruction_impl.rs:387-398 | a branch target is pc + 4 * the signed immediate, modulo 2^32 |
| Execute.ExecJump | libpsx-rs/src/system/r3000/controllers/instruction_impl.rs:118-131 | every jump leaves a branch pending and touches neither hi, lo, coprocessor 0 nor the bus |
| Execute.ExecSystem | libpsx-rs/src/system/r3000/controllers/instruction_impl.rs:133-142 | `syscall` fails exactly inside a branch delay slot; `syscall`, `mfc0`, `mtc0` and `rfe` never touch the bus |
| Execute.AlignDown | libpsx-rs/src/system/r3000/controllers/instruction_impl.rs:689-718 | the aligned word address is a multiple of 4 within 3 bytes below the address |
| Execute.ByteLoadValues | libpsx-rs/src/system/r3000/controllers/instruction_impl.rs:647-760 | `lb` and `lbu` read the same byte, sign- and zero-extended, and report the same hazard |
| Execute.LwValue | libpsx-rs/src/system/r3000/controllers/instruction_impl.rs:720-739 | `lw` loads the word read |
| Execute.ExecLoad | libpsx-rs/src/system/r3000/controllers/instruction_impl.rs:647-812 | a load panics exactly on a kseg2 address or, off the isolated cache, a misaligned half-word or word access that reaches a device; otherwise it writes only rt or stalls |
| Execute.LoadThroughBus | libpsx-rs/src/system/r3000/controllers/instruction_impl.rs:647-781 | off the isolated cache a load stalls on the bus hazard, panics where the bus access does, or writes the value read |
| Execute.MergeLoadThroughBus | libpsx-rs/src/system/r3000/controllers/instruction_impl.rs:689-812 | `lwl`/`lwr` stall on the hazard of reading the aligned word and never panic off the isolated cache |
| Execute.StoreThroughBus | libpsx-rs/src/system/r3000/controllers/instruction_impl.rs:814-938 | off the isolated cache a store stalls on the bus hazard, panics where the bus access does, or changes only the bus |
| Execute.SwBus | libpsx-rs/src/system/r3000/controllers/instruction_impl.rs:886-902 | `sw` writes the whole register as a word |
| Execute.StoreBusLocked | libpsx-rs/src/system/r3000/controllers/instruction_impl.rs:814-938 | on a locked bus a store reports the hazard of its first access: the aligned read for `swl`/`swr`, the write otherwise |
| Execute.ExecStore | libpsx-rs/src/system/r3000/controllers/instruction_impl.rs:814-938 | a store panics exactly on a kseg2 address or, off the isolated cache, a misaligned half-word or word access that reaches a device; it never changes the CPU registers |
| Execute.Step | libpsx-rs/src/system/r3000/controllers/instruction_impl.rs:33-938 | COP2 (the GTE) is outside the model; of the rest only loads and stores stall, only loads, stores and `div` panic (loads and stores on kseg2 or a misaligned access, `div` exactly on -2^31 / -1), and only the unimplemented handlers, `add`, `addi` and `syscall` fail |
| ExecuteProperties.VariableShiftMatchesConstant | libpsx-rs/src/system/r3000/controllers/instruction_impl.rs:33-95 | a variable shift by a register holding the shamt does what the constant shift does |
| ExecuteProperties.SravSaturatesLikeSra31 | libpsx-rs/src/system/r3000/controllers/instruction_impl.rs:97-116 | `srav` by 32 or more fills the register with the sign bit |
| ExecuteProperties.AddFailsExactlyOnOverflow | libpsx-rs/src/system/r3000/controllers/instruction_impl.rs:258-285 | `add` fails exactly on signed overflow and otherwise does what `addu` does |
| ExecuteProperties.SubMatchesSubu | libpsx-rs/src/system/r3000/controllers/instruction_impl.rs:287-307 | `sub` and `subu` write the same value |
| ExecuteProperties.AddiMatchesAddiu | libpsx-rs/src/system/r3000/controllers/instruction_impl.rs:491-516 | `addi` that does not overflow writes what `addiu` writes |
| ExecuteProperties.AddiuAddsSignedImmediate | libpsx-rs/src/system/r3000/controllers/instruction_impl.rs:508-516 | `addiu` writes rs plus the sign-extended immediate, modulo 2^32 |
| ExecuteProperties.SltIsBiasedSltu | libpsx-rs/src/system/r3000/controllers/instruction_impl.rs:353-385 | `slt` is `sltu` on sign-flipped operands |
| ExecuteProperties.DivideByZeroKeepsHiLo | libpsx-rs/src/system/r3000/controllers/instruction_impl.rs:216-256 | a division by zero changes nothing |
| ExecuteProperties.DivuQuotientRemainder | libpsx-rs/src/system/r3000/controllers/instruction_impl.rs:237-256 | `divu` leaves the quotient in lo and the remainder in hi |
| ExecuteProperties.DivOverflowPanicsInStep | libpsx-rs/src/system/r3000/controllers/instruction_impl.rs:216-235 | an instruction `div` with rs = 0x8000_0000 and rt = 0xFFFF_FFFF panics, in `ExecHiLo` and in `Step` |
| ExecuteProperties.DivTruncates | libpsx-rs/src/system/r3000/controllers/instruction_impl.rs:216-235 | `div` leaves the truncated signed quotient in lo and the remainder in hi |
| ExecuteProperties.MultLoMatchesMultu | libpsx-rs/src/system/r3000/controllers/instruction_impl.rs:178-214 | `mult` and `multu` leave the same low word |
| ExecuteProperties.MoveThroughHiLo | libpsx-rs/src/system/r3000/controllers/instruction_impl.rs:148-176 | `mthi` then `mfhi` (and `mtlo` then `mflo`) copy a register |
| ExecuteProperties.ComplementaryBranches | libpsx-rs/src/system/r3000/controllers/instruction_impl.rs:387-489 | of `bltz`/`bgez`, `blez`/`bgtz` and `beq`/`bne` exactly one of each pair is taken |
| ExecuteProperties.BranchThroughDelaySlot | libpsx-rs/src/system/r3000/controllers/instruction_impl.rs:387-489 | a taken branch runs the delay slot and then continues at pc + 4 * imm; an untaken branch changes nothing |
| ExecuteProperties.JalLinks | libpsx-rs/src/system/r3000/controllers/instruction_impl.rs:427-435 | `jal` writes pc + 4 to r31 and jumps within the current 256 MiB region |
| ExecuteProperties.JalrReadsTargetFirst | libpsx-rs/src/system/r3000/controllers/instruction_impl.rs:124-131 | `jalr r, r` jumps to the old value of r |
| ExecuteProperties.MoveThroughCp0 | libpsx-rs/src/system/r3000/controllers/instruction_impl.rs:585-600 | `mtc0` then `mfc0` copy a register through coprocessor 0 |
| ExecuteProperties.SyscallEntersHandler | libpsx-rs/src/system/r3000/controllers/instruction_impl.rs:133-142 | `syscall` saves its own address in EPC, writes code 8, disables interrupts and jumps to the general vector |
| ExecuteProperties.RfePopsStatus | libpsx-rs/src/system/r3000/controllers/instruction_impl.rs:626-645 | `rfe` pops the status stack and leaves no interrupt requested |
| ExecuteProperties.RfeAfterSyscall | libpsx-rs/src/system/r3000/controllers/instruction_impl.rs:626-645 | `rfe` after a `syscall` restores status bits 0-3 and 6-31 as they were before entry |
| ExecuteProperties.RfeFlushesBranch | libpsx-rs/src/system/r3000/controllers/instruction_impl.rs:634-638 | `rfe` moves a pending branch target into the program counter and leaves nothing pending |
| ExecuteProperties.IsolatedLoadReadsZero | libpsx-rs/src/system/r3000/controllers/instruction_impl.rs:647-781 | with the cache isolated a load writes 0 without touching the bus |
| ExecuteProperties.IsolatedStoreWritesNothing | libpsx-rs/src/system/r3000/controllers/instruction_impl.rs:814-938 | with the cache isolated a store writes nothing |
| ExecuteProperties.Kseg2Panics | libpsx-rs/src/system/r3000/controllers/memory_controller.rs:21 | a kseg2 address panics before the bus is consulted |
| ExecuteProperties.LockedLoadStalls | libpsx-rs/src/system/r3000/controllers/memory_controller.rs:27-31 | on a locked bus a load stalls with the read hazard for its address and changes nothing |
| ExecuteProperties.LockedStoreStalls | libpsx-rs/src/system/r3000/controllers/memory_controller.rs:44-48 | on a locked bus a store stalls and changes nothing |
| ExecuteProperties.SignedAndUnsignedByteLoads | libpsx-rs/src/system/r3000/controllers/instruction_impl.rs:647-760 | `lb` and `lbu` agree when the byte's top bit is clear; `lb` fills the upper bits with ones when it is set |
| ExecuteProperties.StoreThenLoadWord | libpsx-rs/src/system/r3000/controllers/instruction_impl.rs:720-739 | a word stored with `sw` to the passive byte map panics at an address not divisible by 4 and otherwise reads back with `lw` |
| ExecuteProperties.MisalignedAccessPanics | libpsx-rs/src/system/r3000/controllers/instruction_impl.rs:647-938 | a mapped half-word or word load or store on an unlocked bus panics exactly when misaligned; byte accesses and `lwl`/`lwr`/`swl`/`swr` never do |
| Exception.SetException | libpsx-rs/src/system/r3000/controllers/exception.rs:26-69 | exception entry is only defined outside a branch delay slot (the source asserts it) and keeps the CPU and coprocessor state well-formed; its effects are the Entry rows below |
| Exception.InterruptRestartsAtPc | libpsx-rs/src/system/r3000/controllers/exception.rs:30-34 | for an interrupt the 4 taken off and added back cancel: EPC is pc |
| Exception.PushKeepsBev | libpsx-rs/src/system/r3000/controllers/exception.rs:39-51 | the stack push does not touch BEV, so the vector is chosen as before entry |
| Exception.EntryRegisters | libpsx-rs/src/system/r3000/controllers/exception.rs:30-56 | entry writes code 0 or 8 into cause, pushes the status stack and jumps to the vector |
| Exception.EntryEpcRegister | libpsx-rs/src/system/r3000/controllers/exception.rs:30-48 | EPC holds the restart address of the exception taken |
| Exception.EntryEpc | libpsx-rs/src/system/r3000/controllers/exception.rs:30-48 | EPC is pc - 4 for a syscall and pc for an interrupt |
| Exception.EntryCause | libpsx-rs/src/system/r3000/controllers/exception.rs:44 | the exception code field of cause holds the code taken |
| Exception.CauseAfterEntry | libpsx-rs/src/system/r3000/controllers/exception.rs:44 | entry keeps every cause bit outside the exception code field |
| Exception.EntryVector | libpsx-rs/src/system/r3000/controllers/exception.rs:50-68 | entry disables interrupts and jumps to 0xBF80_0180 when BEV is set and to 0x8000_0080 otherwise |
| Exception.EntryFrame | libpsx-rs/src/system/r3000/controllers/exception.rs:26-69 | entry leaves the registers, hi, lo, the delay slot and the other coprocessor registers alone |
| Exception.SampleIntcLine | libpsx-rs/src/system/r3000/controllers/exception.rs:16-19 | sampling sets cause bit 10 to the interrupt controller's line and keeps every other cause bit and coprocessor register |
| Exception.ClearIpField | libpsx-rs/src/system/r3000/controllers/exception.rs:21-24 | after clearing, the interrupt controller's line is released |
| Exception.HandleInterrupts | libpsx-rs/src/system/r3000/controllers/exception.rs:71-96 | polling keeps the machine well-formed; when it takes an interrupt is stated by the two rows below |
| Exception.InterruptsHeld | libpsx-rs/src/system/r3000/controllers/exception.rs:75-82 | with IEc clear or a branch pending, polling changes nothing |
| Exception.InterruptTaken | libpsx-rs/src/system/r3000/controllers/exception.rs:84-95 | otherwise an interrupt is taken exactly when IM & IP is non-zero after sampling the line; if not, only cause bit 10 changes |
| Exception.IntcRequestTaken | libpsx-rs/src/system/r3000/controllers/exception.rs:84-95 | an interrupt controller request with its mask bit set is taken, with EPC = pc |
| Exception.ClearedNothingRequested | libpsx-rs/src/system/r3000/controllers/exception.rs:21-24 | after `clear_ip_field` no interrupt is requested, whatever the mask |
| Intc.LineIndex | libpsx-rs/src/resources/intc.rs:9-19 | each of the eleven lines owns one of the status bits 0-10 |
| Intc.LineOf | libpsx-rs/src/resources/intc.rs:9-19 | every bit 0-10 belongs to a line |
| Intc.LineIndexInjective | libpsx-rs/src/resources/intc.rs:9-19 | distinct lines own distinct bits |
| Intc.NewStat | libpsx-rs/src/system/intc/types.rs:49-63 | a new status has no line pending |
| Intc.AssertLine | libpsx-rs/src/system/intc/types.rs:65-79 | asserting a line makes it pending and changes no other line |
| Intc.ValueBits | libpsx-rs/src/system/intc/types.rs:104-118 | `value()` has a line's bit set exactly when the line is pending |
| Intc.ValueHigh | libpsx-rs/src/system/intc/types.rs:104-118 | `value()` sets no bit above bit 10 |
| Intc.AcknowledgeClears | libpsx-rs/src/system/intc/types.rs:81-102 | after a write a line is pending exactly when it was and its bit of the written word is 1 |
| Intc.AcknowledgeShrinks | libpsx-rs/src/system/intc/types.rs:81-102 | acknowledging never makes a line pending |
| Intc.AcknowledgeIgnoresHighBits | libpsx-rs/src/system/intc/types.rs:97-98 | bits 11-31 of the written word make no difference |
| Intc.WriteBackValue | libpsx-rs/src/system/intc/types.rs:81-118 | writing back the value just read clears nothing |
| Intc.AcknowledgeZero | libpsx-rs/src/system/intc/types.rs:81-102 | writing zero clears every line |
| Intc.AssertLineRead | libpsx-rs/src/system/intc/types.rs:65-132 | a line just asserted reads back as set and the other lines read as before |
| Intc.ReadU16 | libpsx-rs/src/system/intc/types.rs:120-123 | only offset 0 reads (the source asserts it), and it reads the status value |
| Intc.WriteU16 | libpsx-rs/src/system/intc/types.rs:125-128 | only offset 0 writes; a line stays pending exactly when its bit of the halfword is 1 |
| Timers.IrqLine | libpsx-rs/src/system/timers/controllers/interrupt.rs:49-54 | each timer signals its own line, Tmr0, Tmr1 or Tmr2 |
| Timers.IrqLineInjective | libpsx-rs/src/system/timers/controllers/interrupt.rs:49-54 | distinct timers signal distinct lines |
| Timers.IrqTriggerAsWritten | libpsx-rs/src/system/timers/controllers/interrupt.rs:13-56 | the source's trigger: a blocked one-shot timer or a disabled event does nothing, and no other line is touched |
| Timers.ToggleNeverRaises | libpsx-rs/src/system/timers/controllers/interrupt.rs:28-44 | as written, toggle mode never asserts the line and always leaves `irq_raised` false |
| Timers.ToggleNeverRaisesExample | libpsx-rs/src/system/timers/controllers/interrupt.rs:28-44 | an enabled overflow event in toggle mode leaves the interrupt controller untouched |
| Timers.IrqTrigger | libpsx-rs/src/system/timers/controllers/interrupt.rs:13-56 | the corrected trigger: pulse and one-shot modes assert the line on every enabled event, toggle mode when the flag flips on; nothing else changes |
| Timers.ToggleAlternates | libpsx-rs/src/system/timers/controllers/interrupt.rs:38-40 | in toggle mode two enabled events in a row assert the line on the first and not the second |
| Timers.OneshotRaisesOnce | libpsx-rs/src/system/timers/controllers/interrupt.rs:16-21 | in one-shot mode, after the first interrupt further events change nothing |
| Timers.Tick | libpsx-rs/src/system/timers/controllers/count.rs:31-50 | one count step keeps the count within 16 bits, never leaves it at the target with reset-on-target, never at 0xFFFF without, and touches only its own line; its events go through `handle_irq_trigger` as written, so in toggle mode it leaves the interrupt controller alone |
| Timers.TickTarget | libpsx-rs/src/system/timers/controllers/count.rs:35-40 | reaching the target resets the count, sets `target_hit` and asserts the line when that event may interrupt |
| Timers.TickOverflow | libpsx-rs/src/system/timers/controllers/count.rs:41-46 | reaching 0xFFFF without reset-on-target resets the count, sets `overflow_hit` and asserts the line when that event may interrupt |
| Timers.TickQuiet | libpsx-rs/src/system/timers/controllers/count.rs:31-49 | without an event the count only advances |
| Timers.HandleCounter | libpsx-rs/src/system/timers/controllers/count.rs:14-51 | the loop runs exactly `ticks` count steps of the as-written `Tick` |
| Timers.FreeRunning | libpsx-rs/src/system/timers/controllers/count.rs:41-47 | without reset-on-target the count advances modulo 0xFFFF |
| Timers.ResetOnTarget | libpsx-rs/src/system/timers/controllers/count.rs:35-40 | with reset-on-target and a target in 1 to 0xFFFF the count advances modulo the target |
| Timers.FreeResetKeeps | libpsx-rs/src/system/timers/controllers/count.rs:27 | counting never changes the reset-on-target mode |
| Timers.ToggleRunSilent | libpsx-rs/src/system/timers/controllers/count.rs:31-50 | as written, a timer in toggle mode asserts no interrupt however many ticks it runs |
| Timers.ToggleTargetExample | libpsx-rs/src/system/timers/controllers/count.rs:35-40 | reset-on-target, target interrupts and toggle on, count 4, target 5: the tick resets the count and leaves the interrupt controller untouched |
| Timers.TickResetCount | libpsx-rs/src/system/timers/controllers/count.rs:32-40 | below the target one step is one step modulo the target |
| Timers.RunOnlyOwnLine | libpsx-rs/src/system/timers/controllers/count.rs:31-50 | any number of steps leaves the other interrupt lines alone |
| Cdrom.ReadSeekPlay | libpsx-rs/src/system/cdrom/controllers/state.rs:17 | the READ/SEEK/PLAY field is three bits wide |
| Cdrom.StatValue | libpsx-rs/src/system/cdrom/controllers/state.rs:7-39 | the status byte always has the motor bit, has READ exactly when reading and SEEK exactly when seeking, no other bit, and reading while seeking panics |
| Cdrom.StatRoundTrip | libpsx-rs/src/system/cdrom/controllers/state.rs:7-39 | the reading and seeking flags can be read back from the status byte |
| Cdrom.StatExamples | libpsx-rs/src/system/cdrom/controllers/state.rs:24-36 | idle, reading and seeking give 0x02, 0x22 and 0x42 |
| Cdrom.ParameterCount | libpsx-rs/src/system/cdrom/controllers/command.rs:65-77 | exactly commands 0x01, 0x02, 0x06, 0x09, 0x0E, 0x15, 0x19 and 0x1A are implemented, and they need at most 3 parameter bytes |
| Cdrom.Intake | libpsx-rs/src/system/cdrom/controllers/command.rs:18-31 | taking a command sets busy, clears the latch and starts the command at iteration 0 |
| Cdrom.HandleCommand | libpsx-rs/src/system/cdrom/controllers/command.rs:17-63 | with nothing latched or running nothing happens; a step that ran leaves busy clear and the parameter FIFO empty; a call that did not run changes at most the intake |
| Cdrom.UnknownCommandRejected | libpsx-rs/src/system/cdrom/controllers/command.rs:75 | an unimplemented command panics as soon as it is current |
| Cdrom.WaitsForParameters | libpsx-rs/src/system/cdrom/controllers/command.rs:37-40 | with too few parameter bytes the call returns false and a new command stays busy |
| Cdrom.ResponsesMustBeEmpty | libpsx-rs/src/system/cdrom/controllers/command.rs:42-45 | a step with bytes left in the response FIFO panics |
| Cdrom.StepRuns | libpsx-rs/src/system/cdrom/controllers/command.rs:47-62 | a step runs the handler on the current command and iteration, clears the command when it finishes or advances the iteration, clears busy, and panics if parameters remain |
| Cdrom.OneShotCommand | libpsx-rs/src/system/cdrom/controllers/command.rs:17-63 | a command that finishes in one step completes in one call, and the next call does nothing |
| DmacTypes.DicrWrite | libpsx-rs/src/system/dmac/types.rs:60-71 | a bus write to DICR takes bits 0-5 and 15-23 from the value, keeps bits 6-14, clears each flag in 24-30 written as 1, and always clears the master flag bit 31 |
| DmacTypes.DicrWriteIdempotent | libpsx-rs/src/system/dmac/types.rs:60-71 | writing the same value twice is writing it once |
| DmacTypes.DicrWriteClosed | libpsx-rs/src/system/dmac/types.rs:60-71 | the five field copies and the acknowledge compose to one mask expression |
| DmacTypes.OtcChcrWrite | libpsx-rs/src/system/dmac/types.rs:119-125 | a bus write to the OTC CHCR copies bits 24, 28 and 30 and keeps every other bit |
| DmacTypes.OtcChcrKeepsDirection | libpsx-rs/src/system/dmac/types.rs:105-125 | from power-on (0x2) the OTC CHCR keeps every bit outside 24, 28 and 30 through any sequence of writes |
| DmacTypes.StepAddress | libpsx-rs/src/system/dmac/types.rs:153-157 | a step moves the address one word forwards or backwards, modulo 2^32 |
| DmacTypes.ContinuousRemaining | libpsx-rs/src/system/dmac/types.rs:162-164 | the remaining count is target minus current, undefined (a panic) where it would underflow |
| DmacTypes.ContinuousIncrement | libpsx-rs/src/system/dmac/types.rs:153-160 | an increment steps the address and counts one more word |
| DmacTypes.BlocksRemaining | libpsx-rs/src/system/dmac/types.rs:190-195 | the remaining count is block size times block amount minus the words done, undefined where it would underflow |
| DmacTypes.BlocksCount | libpsx-rs/src/system/dmac/controllers/transfer/blocks.rs:36-45 | counting a word either moves within the block or, on the block's last word, resets the word count and starts the next block, reporting which |
| DmacTypes.BlocksIncrement | libpsx-rs/src/system/dmac/types.rs:177-188 | an increment steps the address and adds exactly one to the words done |
| DmacTypes.BlocksCountDone | libpsx-rs/src/system/dmac/types.rs:183-187 | counting adds exactly one to the words done, whether or not a block ends |
| DmacTypes.BlocksValidRemaining | libpsx-rs/src/system/dmac/types.rs:190-195 | counters that have not overrun never underflow the remaining count |
| DmacTypes.BlocksCountStep | libpsx-rs/src/system/dmac/types.rs:177-195 | while words remain, counting one keeps the counters valid and leaves one fewer |
| DmacTypes.LinkedListRemaining | libpsx-rs/src/system/dmac/types.rs:211-213 | the remaining count is target minus current, undefined where it would underflow |
| DmacTypes.ResetTransfer | libpsx-rs/src/system/dmac/types.rs:136-142 | a reset channel is not started and has no sync mode |
| DmacTypes.NewController | libpsx-rs/src/system/dmac/types.rs:261-295 | at power-on every channel is reset: none started, none interrupted |
| DmacDicr.CalculateDicrBit | libpsx-rs/src/system/dmac/controllers/register.rs:112-126 | every bit of the calculated DICR is the state it reports (master enable 23, channel enables 16-22, channel flags 24-30, master flag 31), and bits 0-15 are 0 |
| DmacDicr.PackChannelsBit | libpsx-rs/src/system/dmac/controllers/register.rs:117-121 | the channel loop sets the enable and flag bits of the channels from i on and keeps every other bit |
| DmacDicr.WriteChannel | libpsx-rs/src/system/dmac/controllers/register.rs:96-104 | a write sets a channel's enable from bit 16+i and clears its flag when bit 24+i is 1 |
| DmacDicr.HandleDicr | libpsx-rs/src/system/dmac/controllers/register.rs:85-110 | a write fails exactly when the force bit 15 is set; otherwise the master enable follows bit 23, the master flag is kept, every channel takes its part of the write, and the register holds the recalculated value |
| DmacDicr.HandleDicrReadBack | libpsx-rs/src/system/dmac/controllers/register.rs:85-126 | after a write the register reads back the written enables, the flags not acknowledged, and 0 in bits 0-15 |
| DmacInterrupt.IrqTrigger | libpsx-rs/src/system/dmac/controllers/interrupt.rs:17-21 | a finished channel is marked interrupted exactly when its interrupt is enabled; nothing else changes |
| DmacInterrupt.IrqTriggerEffect | libpsx-rs/src/system/dmac/controllers/interrupt.rs:17-21 | an enabled channel reports a trigger afterwards and a disabled one is left alone |
| DmacInterrupt.AnyTriggeredExists | libpsx-rs/src/system/dmac/controllers/interrupt.rs:28-31 | the OR loop finds a trigger exactly when some channel has one |
| DmacInterrupt.MasterTrigger | libpsx-rs/src/system/dmac/controllers/interrupt.rs:26-32 | the master trigger is the master enable and some channel both enabled and interrupted |
| DmacInterrupt.IrqRaise | libpsx-rs/src/system/dmac/controllers/interrupt.rs:23-50 | the master flag follows the trigger, DICR is recalculated, and the DMA line is asserted only on the edge where the trigger is on and the flag was off |
| DmacInterrupt.IrqRaiseTwice | libpsx-rs/src/system/dmac/controllers/interrupt.rs:34-42 | raising again with nothing changed asserts nothing new |
| DmacInterrupt.NoTriggerClears | libpsx-rs/src/system/dmac/controllers/interrupt.rs:40-42 | without a trigger the master flag is cleared and no line is asserted |
| DmacInterrupt.FinishedChannelRaises | libpsx-rs/src/system/dmac/controllers/interrupt.rs:17-42 | a channel that finishes with its interrupt enabled, under the master enable and a clear master flag, gets the DMA line asserted |
| DmacChannel.OtcEntry | libpsx-rs/src/system/dmac/controllers/transfer/fifo.rs:23-29 | the OTC channel writes a 24-bit pointer to the entry one word below, or the end marker 0xFF_FFFF for the last entry |
| DmacChannel.PopChannelData | libpsx-rs/src/system/dmac/controllers/transfer/fifo.rs:6-32 | the GPU channel pops one word of the GPU read FIFO, stalling when it is empty; the CD-ROM channel needs four bytes and packs them little-endian; the OTC channel generates its entry; any other channel panics |
| DmacChannel.PushChannelData | libpsx-rs/src/system/dmac/controllers/transfer/fifo.rs:34-40 | only the GPU channel pushes, onto GP0, stalling when it is full; the OTC and every other channel panic |
| DmacChannel.ReadWord | libpsx-rs/src/types/memory.rs:62-65 | `read_u32` of main memory gives the stored word, and panics exactly at an unaligned address or one past the end of memory |
| DmacChannel.WriteWord | libpsx-rs/src/types/memory.rs:67-72 | `write_u32` of main memory replaces only the word at the address, and panics exactly at an unaligned address or one past the end of memory |
| DmacChannel.MoveWord | libpsx-rs/src/system/dmac/controllers/transfer/continuous.rs:13-23 | towards memory the popped word lands at the address, a panic outside memory once the pop succeeded; towards the channel the word at the address is pushed, a panic outside memory before the push |
| DmacChannel.ContinuousStep | libpsx-rs/src/system/dmac/controllers/transfer/continuous.rs:10-34 | a step moves one word in either direction, steps the address, counts it and finishes exactly when none remain; a stall changes nothing |
| DmacChannel.BlocksStep | libpsx-rs/src/system/dmac/controllers/transfer/blocks.rs:10-34 | a step moves one word in either direction, steps the address, counts it and finishes exactly when none remain |
| DmacChannel.ProcessHeader | libpsx-rs/src/system/dmac/controllers/transfer/linked_list.rs:48-53 | a header holds a 24-bit next address and an 8-bit word count |
| DmacChannel.ProcessHeaderFields | libpsx-rs/src/system/dmac/controllers/transfer/linked_list.rs:48-53 | those are the bitfields 0-23 and 24-31 of the header |
| DmacChannel.WordOffsetExamples | libpsx-rs/src/system/dmac/controllers/transfer/linked_list.rs:36-37 | the words of a node sit 0, 4, 8 and 12 bytes past its first data word |
| DmacChannel.LinkedListStep | libpsx-rs/src/system/dmac/controllers/transfer/linked_list.rs:13-46 | an exhausted node finishes at the end marker or loads the next header; otherwise the next word of the node, at header + 4 + 4 * count, is pushed and counted; reading a header or a word outside memory panics |
| DmacChannel.LinkedListLoadsHeader | libpsx-rs/src/system/dmac/controllers/transfer/linked_list.rs:16-34 | a null next address ends the transfer; otherwise the header's node becomes current with its count |
| DmacTransfer.BcrCount | libpsx-rs/src/system/dmac/controllers/transfer.rs:28-34 | a BCR field of 0 stands for 0x1_0000 words, any other value for itself |
| DmacTransfer.RegisterFields | libpsx-rs/src/system/dmac/controllers/transfer.rs:36-39 | the start address is MADR's low 24 bits and the block fields are BCR's two halves |
| DmacTransfer.TransferInit | libpsx-rs/src/system/dmac/controllers/transfer.rs:20-63 | initialization sets a delay of 0x80 cycles on the GPU channel and none elsewhere, keeps the sync mode, and panics on a channel with none |
| DmacTransfer.InitBlocksRemaining | libpsx-rs/src/system/dmac/controllers/transfer.rs:47-54 | a fresh blocks transfer has valid counters and block size times block amount words to go |
| DmacTransfer.InitContinuousRemaining | libpsx-rs/src/system/dmac/controllers/transfer.rs:42-46 | a fresh continuous transfer has the block size, at least one word, to go |
| DmacTransfer.TransferFinal | libpsx-rs/src/system/dmac/controllers/transfer.rs:65-88 | finalization clears CHCR's start/busy bit; blocks write their end address to MADR and 0 to BCR; linked lists write 0xFF_FFFF to MADR; continuous transfers leave both |
| DmacTransfer.StartBusyCleared | libpsx-rs/src/system/dmac/controllers/transfer.rs:66 | the field insert of 0 at bit 24 clears exactly that bit |
| DmacTransfer.SyncStep | libpsx-rs/src/system/dmac/controllers/transfer.rs:111-127 | a channel with no sync mode, or a linked list not running towards the channel, panics; a step changes only the sync state |
| DmacTransfer.Burst | libpsx-rs/src/system/dmac/controllers/transfer.rs:108-143 | a burst moves at most its budget of words, stops at the first finish or stall, and runs the whole budget otherwise |
| DmacTransfer.HandleTransfer | libpsx-rs/src/system/dmac/controllers/transfer.rs:90-154 | a call changes only its own channel and moves at most 16 words |
| DmacTransfer.AfterBurst | libpsx-rs/src/system/dmac/controllers/transfer.rs:138-153 | after the loop the call reports the words moved, or an error on a stall |
| DmacTransfer.HandleTransferIdle | libpsx-rs/src/system/dmac/controllers/transfer.rs:91-99 | a disabled or idle channel changes nothing and moves no words |
| DmacTransfer.HandleTransferDelay | libpsx-rs/src/system/dmac/controllers/transfer.rs:101-104 | a pending delay only counts down by one |
| DmacTransfer.HandleTransferOutcome | libpsx-rs/src/system/dmac/controllers/transfer.rs:129-153 | an error leaves the registers alone and the channel started; a channel that stops had CHCR's start/busy bit cleared and its interrupt flag raised if enabled |
| DmacTransfer.AfterBurstOutcome | libpsx-rs/src/system/dmac/controllers/transfer.rs:138-149 | the same for the end of the loop on its own |
| DmacTransfer.StallChangesNothing | libpsx-rs/src/system/dmac/controllers/transfer.rs:138-141 | a stall on the first word changes neither the channel nor the bus and reports an error |
| DmacTransfer.BlocksRunRemaining | libpsx-rs/src/system/dmac/types.rs:177-195 | k counted words of a valid blocks transfer leave it valid with exactly k fewer to go |
| DmacTransfer.OtcStepWrites | libpsx-rs/src/system/dmac/controllers/transfer/fifo.rs:23-29 | a step of the OTC channel writes the pointer to the entry below at the current address and moves one word down; it never stalls, and panics exactly outside memory |
| DmacTransfer.OtcNext | libpsx-rs/src/system/dmac/controllers/transfer/fifo.rs:23-29 | the pointer an entry holds is the address the next step writes, masked to 24 bits |
| DmacChcr.ControlBits | libpsx-rs/src/system/dmac/constants.rs:42-48 | direction, step and start/busy are the one-bit fields 0, 1 and 24 |
| DmacChcr.OtcValue | libpsx-rs/src/system/dmac/controllers/register.rs:25-33 | on the OTC channel only bits 24, 28 and 30 of a write count; the direction is forced to 0 and the step to backwards |
| DmacChcr.SyncField | libpsx-rs/src/system/dmac/constants.rs:42 | the sync mode field is bits 9-10 |
| DmacChcr.NewSyncMode | libpsx-rs/src/system/dmac/controllers/register.rs:67-73 | codes 0, 1 and 2 give a fresh continuous, blocks or linked-list state, and 3 is an error |
| DmacChcr.WriteControl | libpsx-rs/src/system/dmac/controllers/register.rs:43-79 | a successful write returns the value written and leaves the interrupt bits alone |
| DmacChcr.HandleChcr | libpsx-rs/src/system/dmac/controllers/register.rs:20-83 | a write changes only its own channel |
| DmacChcr.AlreadyStartedRejected | libpsx-rs/src/system/dmac/controllers/register.rs:45-48 | starting a started channel is an error that changes nothing |
| DmacChcr.WriteControlDecodes | libpsx-rs/src/system/dmac/controllers/register.rs:45-73 | any other write takes started, direction and step from bits 24, 0 and 1, and fails exactly on the reserved sync mode |
| DmacChcr.OtcChannelForced | libpsx-rs/src/system/dmac/controllers/register.rs:25-33 | the OTC channel always runs towards memory and steps backwards, whatever is written |
| DmacChcr.StartInitializes | libpsx-rs/src/system/dmac/controllers/register.rs:75-77 | a write that starts a channel initializes it: it has a sync mode, the GPU channel waits 0x80 cycles, and a continuous transfer has words to go |
| SpuPitch.PitchCounter | libpsx-rs/src/system/spu/controllers/dac/pitch.rs:12-34 | the pitch counter keeps its interpolation part below 0x1000, its sample index below 28 and the address within sound memory, and changes nothing else |
| SpuPitch.PitchAdvances | libpsx-rs/src/system/spu/controllers/dac/pitch.rs:19-33 | the counter (index * 0x1000 + interpolation) advances by the sample rate modulo one block, and the address moves 16 bytes per block crossed |
| SpuPitch.UnitRateSteps | libpsx-rs/src/system/spu/controllers/dac/pitch.rs:19-33 | at rate 0x1000 the counter steps exactly one sample per tick |
| SpuPitch.WithinBlockKeepsAddress | libpsx-rs/src/system/spu/controllers/dac/pitch.rs:27-33 | a tick that crosses no block boundary leaves the block address alone |
| SpuPitch.PositionSplits | libpsx-rs/src/system/spu/controllers/dac/pitch.rs:13-14 | the index and interpolation part are the quotient and remainder of the counter by 0x1000 |
| SpuPitch.HalfRateTwoTicks | libpsx-rs/src/system/spu/controllers/dac/pitch.rs:19-33 | at rate 0x800 two ticks step exactly one sample |
| SpuAdpcm.DecodeHeader | libpsx-rs/src/system/spu/controllers/dac/adpcm.rs:80-88 | the shift and filter are the low and high nibbles of the first header byte, and the loop flags bits 0-2 of the second |
| SpuAdpcm.FilterCoefficients | libpsx-rs/src/system/spu/controllers/dac/adpcm.rs:103-112 | filters 0-4 have their table coefficients; any other filter indexes past the tables and panics |
| SpuAdpcm.SignedNibble | libpsx-rs/src/system/spu/controllers/dac/adpcm.rs:106-115 | a nibble is read as a 4-bit two's-complement number |
| SpuAdpcm.NibbleShift | libpsx-rs/src/system/spu/controllers/dac/adpcm.rs:115 | shifting a nibble into the top of an i16 makes it a signed 4-bit value times 0x1000 |
| SpuAdpcm.DecodeSample | libpsx-rs/src/system/spu/controllers/dac/adpcm.rs:115-120 | a sample is the prediction when it fits in an i16, and otherwise the nearer i16 bound |
| SpuAdpcm.PredictedFitsI32 | libpsx-rs/src/system/spu/controllers/dac/adpcm.rs:115-118 | with the table coefficients the prediction never leaves the i32 range it is computed in |
| SpuAdpcm.DecodeFrames | libpsx-rs/src/system/spu/controllers/dac/adpcm.rs:90-100 | decoding gives two samples per byte and carries the last two samples on as the decoder's memory |
| SpuAdpcm.Nibbles | libpsx-rs/src/system/spu/controllers/dac/adpcm.rs:106-109 | the nibbles come low first, then high, for each byte |
| SpuAdpcm.DecodeFramesIsStream | libpsx-rs/src/system/spu/controllers/dac/adpcm.rs:90-127 | decoding frame by frame equals decoding the nibble stream sample by sample |
| SpuAdpcm.DecodeStreamRecurrence | libpsx-rs/src/system/spu/controllers/dac/adpcm.rs:114-124 | each sample is the clamped prediction from its nibble and the two samples before it, the first two coming from the decoder's memory |
| SpuAdpcm.StreamLength | libpsx-rs/src/system/spu/controllers/dac/adpcm.rs:90-100 | one sample per nibble |
| SpuAdpcm.DecodingAddress | libpsx-rs/src/system/spu/controllers/dac/adpcm.rs:25-31 | after a loop end the block comes from the repeat address times 8, otherwise from the current address |
| SpuAdpcm.HandleAdpcmBlock | libpsx-rs/src/system/spu/controllers/dac/adpcm.rs:10-58 | the call panics exactly on an unaligned address, a block past the end of sound memory or a filter above 4; a block already decoded is left alone |
| SpuAdpcm.BlockDecoded | libpsx-rs/src/system/spu/controllers/dac/adpcm.rs:25-57 | a new block is played from the decoding address; its 28 samples are the stream decode of its 14 bytes, the decoder keeps the last two, a loop start stores the address / 8, and a loop end without repeat mutes the envelope into Release |
| SpuAdpcm.DecodedOnce | libpsx-rs/src/system/spu/controllers/dac/adpcm.rs:21-23 | a second call on the result changes nothing |
| SpuAdsr.ExtractPhaseParams | libpsx-rs/src/system/spu/controllers/dac/adsr.rs:69-112 | Attack increases; Decay and Release decrease with step 0; Decay is always exponential |
| SpuAdsr.SustainLevel | libpsx-rs/src/system/spu/controllers/dac/adsr.rs:64-67 | the sustain volume is (raw + 1) * 0x800, capped at 0x7FFF |
| SpuAdsr.TruncDiv8000 | libpsx-rs/src/system/spu/controllers/dac/adsr.rs:128 | Rust's signed division by 0x8000 rounds towards zero |
| SpuAdsr.WaitCycles | libpsx-rs/src/system/spu/controllers/dac/adsr.rs:115-127 | the wait is at least one cycle, and exactly one up to shift 11 unless an exponential increase is above 0x6000 |
| SpuAdsr.WaitQuadruples | libpsx-rs/src/system/spu/controllers/dac/adsr.rs:124-126 | an exponential increase above 0x6000 waits four times as long as at a lower level |
| SpuAdsr.WaitDoubles | libpsx-rs/src/system/spu/controllers/dac/adsr.rs:115 | above shift 11 each step of the shift doubles the wait |
| SpuAdsr.RawStep | libpsx-rs/src/system/spu/controllers/dac/adsr.rs:117-130 | an increasing step is at least 1; a decreasing step on a non-negative volume is at most 0, and at most -5 when linear |
| SpuAdsr.EnvelopeDeltaAsWritten | libpsx-rs/src/system/spu/controllers/dac/adsr.rs:114-135 | as written the step is clamped to [0, 0x7FFF], so a decreasing step is always 0 |
| SpuAdsr.EnvelopeDelta | libpsx-rs/src/system/spu/controllers/dac/adsr.rs:114-135 | with the clamp to the i16 range the raw step passes through when it fits; increases stay positive and decreases non-positive |
| SpuAdsr.ApplyPhase | libpsx-rs/src/system/spu/controllers/dac/adsr.rs:37-58 | Attack caps at 0x7FFF and moves to Decay there; Decay stops at the sustain level and moves to Sustain there; Sustain clamps to [0, 0x7FFF]; Release stops at 0 |
| SpuAdsr.HandleAdsrEnvelopeAsWritten | libpsx-rs/src/system/spu/controllers/dac/adsr.rs:17-62 | the source's envelope tick: a wait counts down; otherwise the next volume takes effect, is written to the volume register, and a new wait starts |
| SpuAdsr.HandleAdsrEnvelope | libpsx-rs/src/system/spu/controllers/dac/adsr.rs:17-62 | the corrected envelope tick, with the same waiting and register write |
| SpuAdsr.EnvelopeStaysValid | libpsx-rs/src/system/spu/controllers/dac/adsr.rs:35-60 | every tick keeps both volumes in [0, 0x7FFF], so the final cast to i16 never wraps |
| SpuAdsr.AttackRises | libpsx-rs/src/system/spu/controllers/dac/adsr.rs:38-43 | Attack rises by at least one each active tick and moves to Decay exactly at 0x7FFF |
| SpuAdsr.DecayAndReleaseFall | libpsx-rs/src/system/spu/controllers/dac/adsr.rs:44-57 | Decay and Release never raise the volume; Decay stops at the sustain level, entering Sustain exactly there |
| SpuAdsr.LinearReleaseStrictlyFalls | libpsx-rs/src/system/spu/controllers/dac/adsr.rs:54-57 | a linear Release above 0 strictly lowers the volume every active tick |
| SpuAdsr.AsWrittenNeverFalls | libpsx-rs/src/system/spu/controllers/dac/adsr.rs:132 | as written Decay and Release never lower the volume |
| SpuAdsr.AsWrittenDecayStalls | libpsx-rs/src/system/spu/controllers/dac/adsr.rs:132 | at full volume in Decay with a zero register, the envelope returns to the same state every two ticks |
| SpuAdsr.DecayFallsFromFull | libpsx-rs/src/system/spu/controllers/dac/adsr.rs:128-132 | with the i16 clamp the same state falls to 0x4000 in one tick |
| SpuAdsr.SustainLevelMonotone | libpsx-rs/src/system/spu/controllers/dac/adsr.rs:64-67 | a higher raw sustain level never gives a lower sustain volume |
| GpuData.RenderPosition | libpsx-rs/src/system/gpu/controllers/data.rs:13-23 | the render position is in [-1024, 1024) and agrees with the input in its low 11 bits |
| GpuData.RenderPositionUnique | libpsx-rs/src/system/gpu/controllers/data.rs:13-23 | it is the only value with those two properties, so it is the 11-bit two's complement reading |
| GpuData.FillXPosition | libpsx-rs/src/system/gpu/controllers/data.rs:25-27 | the fill x position is a multiple of 16 no greater than 0x3F0, the low 10 bits rounded down |
| GpuData.FillXSize | libpsx-rs/src/system/gpu/controllers/data.rs:41-43 | the fill width is a multiple of 16 up to 1024, the low 10 bits rounded up |
| GpuData.CopyXSize | libpsx-rs/src/system/gpu/controllers/data.rs:57-59 | the copy width is in 1..=1024 and agrees with the input modulo 1024 |
| GpuData.CopyYSize | libpsx-rs/src/system/gpu/controllers/data.rs:61-63 | the copy height is in 1..=512 and agrees with the input modulo 512 |
| GpuData.CopySizeZeroIsMaximum | libpsx-rs/src/system/gpu/controllers/data.rs:57-63 | a zero copy size means the full 1024 or 512, and a size already in range is kept |
| GpuData.ModeCodesRoundTrip | libpsx-rs/src/system/gpu/controllers/data.rs:65-83 | the transparency and CLUT code tables are bijections on the four 2-bit codes, so the `unreachable!` arms are never reached |
| GpuData.TexpageTransparency | libpsx-rs/src/system/gpu/controllers/data.rs:65-73 | the transparency mode's code is the 2-bit field at bit 21 of the word |
| GpuData.TexpageClut | libpsx-rs/src/system/gpu/controllers/data.rs:75-83 | the CLUT mode's code is the 2-bit field at bit 23 of the word |
| GpuData.ColorRgb | libpsx-rs/src/system/gpu/controllers/data.rs:85-87 | red, green and blue are bytes 0, 1 and 2 of the word and together make up its low 24 bits; alpha is the given one |
| GpuData.ClutBase | libpsx-rs/src/system/gpu/controllers/data.rs:221-227 | the CLUT x is a multiple of 16 below 0x400 and y is below 512, and x/16 + 64y is bits 16-30 of the word |
| GpuData.RenderVertex | libpsx-rs/src/system/gpu/controllers/data.rs:104-106 | each half-word of a vertex word is read as an 11-bit two's complement position |
| GpuGp0.CommandIndex | libpsx-rs/src/system/gpu/constants.rs:11 | the command index is the top byte of the word |
| GpuGp0.A0Length | libpsx-rs/src/system/gpu/controllers/command_gp0_impl.rs:269-280 | the length is known exactly when three words have arrived; it is three header words plus the width times height half-words, two per word, rounded up |
| GpuGp0.RequiredLength | libpsx-rs/src/system/gpu/controllers/command_gp0_impl.rs:26-476 | every known command other than A0 has a fixed length of at least one word; A0's is computed from its size word |
| GpuGp0.DrawLength | libpsx-rs/src/system/gpu/controllers/command_gp0_impl.rs:94-256 | a drawing command's length as its index describes it is at least two words |
| GpuGp0.DrawLengthsAgree | libpsx-rs/src/system/gpu/controllers/command_gp0_impl.rs:94-256 | every drawing command in the table has the length its shading, vertex-count and texture bits describe |
| GpuGp0.StatFields | libpsx-rs/src/system/gpu/constants.rs:12-22 | in the packed status bits, bits 0-10 are the draw-mode part and bits 11-12 the mask and pixel bits |
| GpuGp0.E1Stat | libpsx-rs/src/system/gpu/controllers/command_gp0_impl.rs:363-385 | E1 copies bits 0-10 of the word to status bits 0-10 and bit 11 to the texture-disable bit, leaving the mask bits alone |
| GpuGp0.E1AsWritten | libpsx-rs/src/system/gpu/controllers/command_gp0_impl.rs:360-393 | as written E1 sets the controller's transparency and CLUT modes from bits 21-22 and 23-24 of the word |
| GpuGp0.E1AsWrittenClutIgnoresWord | libpsx-rs/src/system/gpu/controllers/command_gp0_impl.rs:377-379 | as written every E1 word selects the 15-bit or reserved CLUT mode, since bit 24 belongs to the index 0xE1 |
| GpuGp0.E1AsWrittenExample | libpsx-rs/src/system/gpu/controllers/command_gp0_impl.rs:377-379 | the word 0xE100_0000 asks for 4-bit colours; as written E1 picks 15-bit ones |
| GpuGp0.E1 | libpsx-rs/src/system/gpu/controllers/command_gp0_impl.rs:360-393 | E1 with the modes from bits 5-6 and 7-8: the controller's texture page, modes and rectangle flips agree with the status bits it writes, and nothing else changes |
| GpuGp0.E2 | libpsx-rs/src/system/gpu/controllers/command_gp0_impl.rs:399-409 | the four texture-window fields are 5 bits each and together make up the low 20 bits of the word; nothing else changes |
| GpuGp0.AreaCorner | libpsx-rs/src/system/gpu/controllers/command_gp0_impl.rs:418-419 | a drawing-area corner is a 10-bit x and a 9-bit y that together make up the low 19 bits of the word |
| GpuGp0.E3 | libpsx-rs/src/system/gpu/controllers/command_gp0_impl.rs:415-428 | E3 sets only the top-left drawing-area corner, from the word |
| GpuGp0.E4 | libpsx-rs/src/system/gpu/controllers/command_gp0_impl.rs:434-447 | E4 sets only the bottom-right drawing-area corner, from the word |
| GpuGp0.SignExtend11 | libpsx-rs/src/system/gpu/controllers/command_gp0_impl.rs:456-462 | an 11-bit field widened through i16 by shifting left and then right by 5 is its two's complement value |
| GpuGp0.E5 | libpsx-rs/src/system/gpu/controllers/command_gp0_impl.rs:453-472 | the drawing offsets are in [-1024, 1024) and agree with bits 0-10 and 11-21 of the word modulo 2048; nothing else changes |
| GpuGp0.E5MatchesRenderPosition | libpsx-rs/src/system/gpu/controllers/command_gp0_impl.rs:453-472 | the drawing offset is what the render position modifier gives for the same 11 bits |
| GpuGp0.E6 | libpsx-rs/src/system/gpu/controllers/command_gp0_impl.rs:478-487 | E6 sets status bits 11 and 12 from bits 0 and 1 of the word and changes nothing else |
| GpuGp0.PackRoundTrip | libpsx-rs/src/system/gpu/controllers/command_gp0_impl.rs:338-351 | unpacking the packed words gives the half-words back, with one 0 of padding for an odd count |
| GpuGp0.UnpackRoundTrip | libpsx-rs/src/system/gpu/controllers/command_gp0_impl.rs:346-351 | packing the half-words of any words gives the words back |
| GpuGp0.C0 | libpsx-rs/src/system/gpu/controllers/command_gp0_impl.rs:320-354 | with no backend C0 fails; on success only the GPUREAD queue (cleared) and the read buffer change, and the read buffer holds the rectangle's area in half-words, rounded up |
| GpuGp0.C0ReadBuffer | libpsx-rs/src/system/gpu/controllers/command_gp0_impl.rs:334-351 | on success the read buffer is the framebuffer's rows in reverse order, two pixels to a word, low half first |
| GpuGp0.C0Succeeds | libpsx-rs/src/system/gpu/controllers/command_gp0_impl.rs:326-336 | C0 succeeds exactly when the backend returns as many pixels as the rectangle's area |
| GpuCommand.HandleCommand | libpsx-rs/src/system/gpu/controllers/command_gp0.rs:13-78 | an empty buffer waits; an unknown head index is rejected exactly when there is one; a run takes a non-empty prefix of buffer plus incoming words, leaves the rest and clears the cache; waiting keeps every word |
| GpuCommand.RequiredLengthStable | libpsx-rs/src/system/gpu/controllers/command_gp0.rs:41-54 | once a command's length is known, more words do not change it, so caching it is sound |
| GpuCommand.HandleCommandConsistent | libpsx-rs/src/system/gpu/controllers/command_gp0.rs:41-77 | every call keeps the cached length equal to the length of the command at the head, and the zero-length run cannot happen |
| GpuCommand.CacheTransparent | libpsx-rs/src/system/gpu/controllers/command_gp0.rs:41-76 | with a consistent cache a command runs exactly when the buffer holds its length, and on exactly its first that many words |
| GpuCommand.A0LengthPositive | libpsx-rs/src/system/gpu/controllers/command_gp0_impl.rs:269-280 | a known length of any command is at least one word |
| GpuCommand.EmptyWaits | libpsx-rs/src/system/gpu/controllers/command_gp0.rs:26-29 | an empty buffer with nothing arriving is left as it is |
| GpuCommand.UnknownRejected | libpsx-rs/src/system/gpu/controllers/command_gp0.rs:80-107 | an index outside the table is rejected as soon as it is at the head of the buffer |
| GpuCommand.SingleWordRuns | libpsx-rs/src/system/gpu/controllers/command_gp0.rs:57-77 | a lone E1-E6 word runs at once and leaves the buffer and cache empty |
| GpuCommand.A0WaitsForSize | libpsx-rs/src/system/gpu/controllers/command_gp0.rs:45-60 | an A0 copy waits uncached until its size word arrives, caches the length, then runs once all its words are there |
| ArrayUtils.FlipRows | libpsx-rs/src/utilities/array.rs:10-27 | flipping succeeds exactly when the row length is non-zero and divides the length (the assertion, or a division by zero), and keeps the length |
| ArrayUtils.ReverseRowsElement | libpsx-rs/src/utilities/array.rs:18-24 | element c of output row i is element c of input row rows-1-i |
| ArrayUtils.ReverseRowsTwice | libpsx-rs/src/utilities/array.rs:18-24 | reversing the rows twice gives the array back |
| ArrayUtils.ReverseRowsAppend | libpsx-rs/src/utilities/array.rs:18-24 | one more row at the end of the input comes first in the output |
| ArrayUtils.FlipRowsTwice | libpsx-rs/src/utilities/array.rs:10-27 | flipping a flippable array twice gives it back |
| ArrayUtils.FlipRowsElement | libpsx-rs/src/utilities/array.rs:10-27 | element c of row i of the flipped array is element c of row rows-1-i of the input |
| ArrayUtils.RectRowsFits | libpsx-rs/src/utilities/array.rs:51-57 | the row loop stays inside the array exactly when its last row ends inside it |
| ArrayUtils.RectRowsElement | libpsx-rs/src/utilities/array.rs:51-57 | element c of rectangle row k is the array element c places past that row's start |
| ArrayUtils.ExtractRectangle | libpsx-rs/src/utilities/array.rs:40-60 | a negative origin or size is rejected (the assertions), and a result holds width times height elements |
| ArrayUtils.ExtractRectangleFits | libpsx-rs/src/utilities/array.rs:40-60 | extraction succeeds exactly when origin and size are not negative and the last row ends inside the array |
| ArrayUtils.ExtractRectangleElement | libpsx-rs/src/utilities/array.rs:51-57 | element c of rectangle row k is element (oy + k) * row length + ox + c of the array |
| MemoryMapper.New | libpsx-rs/src/types/b8_memory_mapper.rs:55-69 | a new mapper exists exactly when the directory and page bits fit in the word; its directory, page and offset fields tile the word and nothing is mapped |
| MemoryMapper.PageNumber | libpsx-rs/src/types/b8_memory_mapper.rs:82-83 | the page number of an address (its directory and page fields) is below the table's page count |
| MemoryMapper.Partition | libpsx-rs/src/types/b8_memory_mapper.rs:56-61 | an address is its directory, page and offset fields put back together, and its page number times the page size plus its offset |
| MemoryMapper.PagesForCovers | libpsx-rs/src/types/b8_memory_mapper.rs:84-106 | map writes the fewest pages whose bytes cover the size, and at least one |
| MemoryMapper.MapPagesEffect | libpsx-rs/src/types/b8_memory_mapper.rs:87-110 | mapping pages succeeds exactly when none of them is mapped yet; then they map to the entry and every other page is unchanged |
| MemoryMapper.Map | libpsx-rs/src/types/b8_memory_mapper.rs:74-111 | a zero size fails; a successful map changes only the page table and keeps it valid |
| MemoryMapper.Lookup | libpsx-rs/src/types/b8_memory_mapper.rs:113-129 | an address finds a page exactly when its page number is mapped, and then finds that page's owner and base |
| MemoryMapper.NewLookupPanics | libpsx-rs/src/types/b8_memory_mapper.rs:63-69 | every access to a new mapper panics |
| MemoryMapper.MapThenLookup | libpsx-rs/src/types/b8_memory_mapper.rs:74-129 | after a map, addresses in the mapped pages find the owner and the mapping's address and every other address finds what it found before |
| MemoryMapper.MapTwicePanics | libpsx-rs/src/types/b8_memory_mapper.rs:98-100 | mapping the same address a second time panics |
| MemoryMapper.AccessAsWritten | libpsx-rs/src/types/b8_memory_mapper.rs:131-143 | as written an access hands the owner the distance from the mapping's address plus the offset field |
| MemoryMapper.AccessAsWrittenCountsOffsetTwice | libpsx-rs/src/types/b8_memory_mapper.rs:137 | with 8 directory and 8 page bits of a 32-bit word, 0x1000_0004 in a mapping at 0x1000_0000 is handed offset 8, not 4 |
| MemoryMapper.Access | libpsx-rs/src/types/b8_memory_mapper.rs:131-143 | the corrected access hands the owner the distance from the mapping's address |
| MemoryMapper.AccessAgreesWithoutOffsetBits | libpsx-rs/src/types/b8_memory_mapper.rs:137 | with no offset bits the access as written and the corrected one agree |
| MemoryMapper.MapCoversRange | libpsx-rs/src/types/b8_memory_mapper.rs:74-143 | after mapping an aligned range, every address in it reaches the owner at its distance from the start |

## Left out

- Concurrency: the source's atomics, mutexes and `write_bitfield_atomic` are modelled as sequential updates, because the model has one thread.
- Time: `calc_ticks` and its `Duration` arithmetic are left out; the timer loop takes the tick count as a `nat` parameter, because the clock is outside the core.
- Logging, debug and trace output (including the DMAC chopping and start/trigger warnings and the GP0 render trace) are left out, because they change no state.
- The bus lock is a boolean input to the memory controller, because the lock belongs to the threads that share the bus.
- The CD-ROM command handlers' effects are left out, because the handlers are separate code; the dispatch table's parameter counts are modelled as `Cdrom.ParameterCount`.
- The GTE (coprocessor 2) is left out: `Execute.Step` returns None for a COP2 instruction, because the GTE is a separate unit.
- `bltzal` and `bgezal` report "not implemented", as the source's handlers do.
- `types/mips1/instruction.rs` is not part of this model: the standard MIPS I field layout is used, with the COP0 `c` bit at bit 25 and `rs4` at bits 21-24.
- `status_push_exception` and `status_pop_exception` are not part of this model: the standard R3000 KU/IE stack shift is used.
- `pc_calc_jump_target` is not part of this model: the standard `(pc & 0xF000_0000) | (target << 2)` is used.
- Exception entry in a branch delay slot is left out: the source asserts against it, and `Exception.SetException` requires that no branch is pending.
- kseg2 addresses are the source's `unimplemented!`, modelled as an error result.
- A half-word or word access to a memory whose last bytes do not fill the width reads or writes past the end through an unchecked pointer cast in the source; `Memory` treats it as a panic, like the index past the end.
- MemoryController.Bus: peripheral side effects of bus accesses are left out; the bus is a passive byte map. The source's `bus_read_*`/`bus_write_*` reach RAM and peripheral registers alike, and a register write can act (an INTC status write acknowledges lines). So `MemoryController.WriteThenReadU32` and `ExecuteProperties.StoreThenLoadWord` hold for RAM, not for every mapped address. A misaligned half-word or word access panics at every mapped address, as both RAM's alignment assertions and the registers' offset checks do.
- R3000State.Cp0: the coprocessor's named registers (breakpoint registers, status, cause, EPC, PRId) are a flat file of 32 words indexed by `rd`; which indices are backed by a register (3, 5-7, 9 and 11-15 in `resources/r3000/cp0.rs` lines 81-90) is left out, so the model gives every index storage.
- DMAC `ControllerState::new` is not part of this model: channels start with zeroed counters.
- The DMAC snapshot is inconsistent: `types.rs` has the blocks and linked-list steps return a pair, while `transfer.rs` uses a boolean. The model follows `transfer.rs` and reads the pair's first component as "finished".
- An underflowing `transfers_remaining` (a `usize` subtraction) is a panic result. DMA address arithmetic, the R3000 program counter's `pc + 4` (the `jal`/`jalr` link and the next instruction) and the restart address `pc - 4` of an exception all wrap at 32 bits, as a release build computes them; the panic of a debug build's overflow check is left out.
- The blocks-mode final MADR is modelled as written: the address the transfer has reached plus `(ba + bs) * 4` (`transfer.rs` lines 77-79), not MADR plus that amount.
- The DMA model's main memory is a map from word addresses to words with a size in bytes, because byte-level RAM layout is covered by `Memory`. `MAIN_MEMORY_SIZE` is in `constants.rs`, which is not part of this model, so the size is a field of `DmacChannel.Bus`; an unaligned or past-the-end word access is a panic result.
- The GPU's rendering backends, the draw handlers and the framebuffer read are left out; C0 takes the framebuffer read as a parameter. The A0 upload is modelled only through its length, because its effect is drawing.
- The render size modifiers are the identity, so they are not modelled separately.
- Floating-point normalisation and the texture-coordinate helpers are left out, because they are floating point.
- The GPU status register is modelled as a `DrawStat` record of the bits GP0 sets; the other status bits belong to GP1 and the display.
- `GpuCommand.HandleCommand` takes `incoming`, the words already drained from the GP0 FIFO, instead of reading the FIFO itself.
- Command 0x20 has a length function but no entry in the dispatch table, so the model treats it as unknown, as the table does.
- The ADPCM header and ADSR parameter layouts follow the older `controllers/spu` files, because the current constants file is not part of this model.
- `usize` overflow, the `f64` ADSR and volume arithmetic, and the `sample_buffer` `Vec` are left out: overflow cannot occur at the sizes involved, and the rest is floating point or storage.
- The memory mapper's two-level table is a flat map from page numbers to pages. An owner's trait object is modelled as an (owner, offset) pair. Debug assertions are panics.
- MemoryMapper.MapCoversRange: requires a page-aligned mapping address, because `map` counts pages from the size alone, so an unaligned start leaves its last bytes unmapped.
- Exception.HandleInterrupts: its own contract states only that the machine stays well-formed. What it does is stated by `Exception.InterruptsHeld`, `Exception.InterruptTaken` and `Exception.IntcRequestTaken`.
- Timers.IrqTrigger and Timers.IrqTriggerAsWritten: the write-back of the mode register at the end of `handle_irq_raise` (`mode.update(|_| calculate_mode_value(timer_state))`, `interrupt.rs` line 46) is left out, because `calculate_mode_value` is outside the modelled files. So the models do not promise the mode register's reached and IRQ flags after a trigger.
- Intc: a 16-bit read or write at an offset other than 0 is the source's panic, modelled as None.
- These files are not part of this model, because they are outside the core:
  - the GTE FIFO in the R3000 `register.rs`;
  - the SPU `transfer.rs`;
  - the timers' `irq.rs`;
  - the SPU `sound.rs`.

## Findings

For the `div` and timer-toggle rows below, the instruction and timer models run the program as written: `Execute.ExecHiLo` panics on the overflowing `div`, and `Timers.Tick` signals through `Timers.IrqTriggerAsWritten`. `Alu.Div` and `Timers.IrqTrigger` state the intended behaviour beside them.

| source | as written | input that shows it | evidently intended | confidence | as-written member | corrected member |
|---|---|---|---|---|---|---|
| libpsx-rs/src/system/r3000/controllers/instruction_impl.rs:216-235 | `div` divides as `i32`, which panics on overflow | rs = 0x8000_0000, rt = 0xFFFF_FFFF (-2^31 / -1) | the R3000 result: lo = 0x8000_0000, hi = 0 | not executed | ExecuteProperties.DivOverflowPanicsInStep | Alu.DivIsTruncating |
| libpsx-rs/src/system/timers/controllers/interrupt.rs:28-44 | `irq_raised` is set to true and then flipped by the toggle, so toggle mode never asserts the line | toggle mode, IRQ enabled, overflow event, not yet raised (`Timers.ToggleNeverRaisesExample`) | toggle flips the previous level, asserting the line on every other event | not executed | Timers.ToggleRunSilent | Timers.ToggleAlternates |
| libpsx-rs/src/system/spu/controllers/dac/adsr.rs:132 | the envelope step is clamped to [0, 0x7FFF], so a decreasing step becomes 0 | Decay at volume 0x7FFF with register 0: the state returns to itself every two ticks | clamp to the `i16` range [-0x8000, 0x7FFF], so Decay and Release fall | not executed | SpuAdsr.AsWrittenDecayStalls | SpuAdsr.DecayFallsFromFull |
| libpsx-rs/src/system/gpu/controllers/command_gp0_impl.rs:375-379 | E1 reads the controller's transparency and CLUT modes from bits 21-22 and 23-24, the polygon texpage layout | word 0xE100_0000 (4-bit colours) selects 15-bit colours | the modes from bits 5-6 and 7-8, the fields E1 writes to the status register | not executed | GpuGp0.E1AsWrittenExample | GpuGp0.E1 |
| libpsx-rs/src/types/b8_memory_mapper.rs:137 | the access offset adds the offset field to the distance from the mapping's address, counting the in-page offset twice | 8 directory and 8 page bits of a 32-bit word, mapping at 0x1000_0000, address 0x1000_0004 gets offset 8; latent in the program as built, whose only mapper is `new(16, 16)` (resources/r3000.rs:42) with no offset bits, where `MemoryMapper.AccessAgreesWithoutOffsetBits` shows both agree | the distance from the mapping's address alone | not executed | MemoryMapper.AccessAsWrittenCountsOffsetTwice | MemoryMapper.MapCoversRange |

=== FILE: alu.dfy ===
/**
 * The integer arithmetic of the R3000 instructions on 32-bit register
 * values. A register value is a `Word`, an integer in [0, 2^32); the
 * source's casts between `u32`, `i32`, `i64` and `u64` and its wrapping
 * operations are written out as two's-complement reinterpretation and
 * reduction modulo 2^32.
 */
module Alu {
  import opened Wrappers
  import opened Primitive
  import Ints

  const Two31: int := 0x8000_0000
  const Two32: int := 0x1_0000_0000
  const Two64: int := 0x1_0000_0000_0000_0000

  /**
   * A register value as an integer. The ALU states its results as integer
   * facts: a sum's signed overflow, a 64-bit product, a truncating quotient,
   * all across the source's `u32`/`i32`/`i64`/`u64` casts. Bit patterns
   * elsewhere in the model are `bv32`, and `FromWord`/`ToWord` convert
   * where the two meet.
   */
  type Word = x: int | 0 <= x < Two32

  /** Reduction modulo 2^32: a `u32` wrapping result, or an `as u32` cast of a wider or signed value. */
  function Wrap(n: int): (r: Word)
    ensures (r - n) % Two32 == 0
  {
    n % Two32
  }

  // A word as a 32-bit bit-vector and back, through its four
  // little-endian bytes (the view `to_le_bytes`/`from_le_bytes` give).

  /** The four-bit value `k` as a byte, counted up from zero. */
  function Nibble(k: int): (r: bv8)
    requires 0 <= k < 16
    ensures r as int == k
  {
    if k == 0 then 0 else Nibble(k - 1) + 1
  }

  lemma PackNibbles(hi: bv8, lo: bv8)
    requires hi as int < 16 && lo as int < 16
    ensures ((hi << 4) | lo) as int == 16 * (hi as int) + lo as int
  {
  }

  /** The byte with value `n`, from its two hexadecimal digits. */
  function ByteOf(n: int): bv8
    requires 0 <= n < 0x100
  {
    (Nibble(n / 16) << 4) | Nibble(n % 16)
  }

  lemma ByteRoundTrip(n: int)
    requires 0 <= n < 0x100
    ensures ByteOf(n) as int == n
  {
    PackNibbles(Nibble(n / 16), Nibble(n % 16));
  }

  /** The `n` low-order bytes of `x`, least significant first. */
  function LeBytesOf(x: nat, n: nat): (r: seq<bv8>)
    ensures |r| == n
  {
    if n == 0 then [] else [ByteOf(x % 0x100)] + LeBytesOf(x / 0x100, n - 1)
  }

  /** The little-endian bytes of a word. */
  function WordBytes(x: Word): (r: seq<bv8>)
    ensures |r| == 4
  {
    LeBytesOf(x, 4)
  }

  /** The word whose little-endian bytes are `b`. */
  function BytesWord(b: seq<bv8>): Word
    requires |b| == 4
  {
    b[0] as int + 0x100 * b[1] as int + 0x1_0000 * b[2] as int + 0x100_0000 * b[3] as int
  }

  /** Bytes whose top one is below 4 make a word below 2^26. */
  lemma BytesWordBelow(b: seq<bv8>)
    requires |b| == 4 && b[3] < 4
    ensures BytesWord(b) < 0x400_0000
  {
    var x0, x1, x2, x3 := b[0] as int, b[1] as int, b[2] as int, b[3] as int;
    assert x0 < 0x100 && x1 < 0x100 && x2 < 0x100 && x3 < 4;
  }

  /** A register value as the bit-vector the bitwise operations work on. */
  function FromWord(x: Word): bv32 {
    FromLeBytes32(WordBytes(x))
  }

  /** A bit-vector as a register value. */
  function ToWord(v: bv32): Word {
    BytesWord(LeBytes32(v))
  }

  /** A word is the sum of its bytes' place values. */
  lemma BytesWordRoundTrip(x: Word)
    ensures BytesWord(WordBytes(x)) == x
  {
    var q1 := x / 0x100; var q2 := q1 / 0x100; var q3 := q2 / 0x100;
    WordBytesDigits(x);
    var d0, d1, d2, d3 := x % 0x100, q1 % 0x100, q2 % 0x100, q3 % 0x100;
    ByteRoundTrip(d0);
    ByteRoundTrip(d1);
    ByteRoundTrip(d2);
    ByteRoundTrip(d3);
    var b := [ByteOf(d0), ByteOf(d1), ByteOf(d2), ByteOf(d3)];
    assert BytesWord(b) == d0 + 0x100 * d1 + 0x1_0000 * d2 + 0x100_0000 * d3;
    Digits(x);
  }

  /** Base-256 digits add back up to the number. */
  lemma Digits(x: Word)
    ensures var q1 := x / 0x100; var q2 := q1 / 0x100; var q3 := q2 / 0x100;
      x == x % 0x100 + 0x100 * (q1 % 0x100) + 0x1_0000 * (q2 % 0x100) + 0x100_0000 * (q3 % 0x100)
  {
    var q1 := x / 0x100; var q2 := q1 / 0x100; var q3 := q2 / 0x100;
    assert x == 0x100 * q1 + x % 0x100;
    assert q1 == 0x100 * q2 + q1 % 0x100;
    assert q2 == 0x100 * q3 + q2 % 0x100;
    assert q3 < 0x100;
  }

  /** The bytes of a word are its base-256 digits. */
  lemma WordBytesDigits(x: Word)
    ensures var q1 := x / 0x100; var q2 := q1 / 0x100; var q3 := q2 / 0x100;
      q3 < 0x100 && WordBytes(x) == [ByteOf(x % 0x100), ByteOf(q1 % 0x100), ByteOf(q2 % 0x100), ByteOf(q3 % 0x100)]
  {
    var q1 := x / 0x100; var q2 := q1 / 0x100; var q3 := q2 / 0x100;
    assert LeBytesOf(q3, 1) == [ByteOf(q3 % 0x100)] + LeBytesOf(q3 / 0x100, 0);
    assert LeBytesOf(q2, 2) == [ByteOf(q2 % 0x100)] + LeBytesOf(q3, 1);
    assert LeBytesOf(q1, 3) == [ByteOf(q1 % 0x100)] + LeBytesOf(q2, 2);
  }

  /** Converting a word to a bit-vector and back gives the word. */
  lemma ToFromWord(x: Word)
    ensures ToWord(FromWord(x)) == x
  {
    LeBytes32RoundTrip(0, WordBytes(x));
    BytesWordRoundTrip(x);
  }

  /** `w as i32`: the two's-complement value of a word. */
  function Signed(w: Word): (r: int)
    ensures -Two31 <= r < Two31
    ensures Wrap(r) == w
  {
    if w < Two31 then w else w - Two32
  }

  /** `imm as i32` for a 16-bit immediate read as `i16`. */
  function SignExtend16(imm: bv16): (r: int)
    ensures -0x8000 <= r < 0x8000
  {
    var u := imm as int;
    if u < 0x8000 then u else u - 0x1_0000
  }

  /** `b as i8 as i32` for a byte read as `i8`. */
  function SignExtend8(b: bv8): (r: int)
    ensures -0x80 <= r < 0x80
    ensures b < 0x80 ==> r == b as int
  {
    var u := b as int;
    if u < 0x80 then u else u - 0x100
  }

  // Shifts. A shift by a constant takes the 5-bit shamt field; the
  // variable shifts take a register value.

  /** `value << n` on a `u32`, `n < 32`. */
  function ShiftLeft(x: Word, n: nat): Word
    requires n < 32
  {
    Wrap(x * Ints.Pow2(n))
  }

  /** `value >> n` on a `u32`. */
  function ShiftRightLogical(x: Word, n: nat): (r: Word)
    requires n < 32
  {
    DivideDown(x, Ints.Pow2(n))
  }

  /** The quotient of a word by a positive divisor is again a word. */
  function DivideDown(x: Word, p: nat): (r: Word)
    requires p > 0
  {
    DivLe(x, p);
    x / p
  }

  /** `(value as i32 >> n) as u32`: the arithmetic shift, rounding towards minus infinity. */
  function ShiftRightArithmetic(x: Word, n: nat): Word
    requires n < 32
  {
    Wrap(Signed(x) / Ints.Pow2(n))
  }

  /** `sllv`: a shift amount of 32 or more writes 0. */
  function Sllv(rt: Word, rs: Word): Word {
    if rs >= 32 then 0 else ShiftLeft(rt, rs)
  }

  /** `srlv`: a shift amount of 32 or more writes 0. */
  function Srlv(rt: Word, rs: Word): Word {
    if rs >= 32 then 0 else ShiftRightLogical(rt, rs)
  }

  /** `srav`: a shift amount of 32 or more writes all ones for a negative value and 0 otherwise. */
  function Srav(rt: Word, rs: Word): Word {
    if rs >= 32 then (if Signed(rt) < 0 then Two32 - 1 else 0)
    else ShiftRightArithmetic(rt, rs)
  }

  lemma Pow2Of31()
    ensures Ints.Pow2(31) == Two31
  {
    assert Ints.Pow2(8) == 256;
    assert Ints.Pow2(16) == 65536;
    assert Ints.Pow2(24) == 0x100_0000;
  }

  lemma MulLe(a: int, b: int, c: int)
    requires 0 <= a && b <= c
    ensures a * b <= a * c
  {
  }

  lemma DivLe(x: nat, p: nat)
    requires p > 0
    ensures x / p <= x
  {
    var q := x / p;
    assert x == q * p + x % p;
    MulLe(q, 1, p);
  }

  /** Adding a multiple of 2^32 does not change the remainder modulo 2^32. */
  lemma ModShift(x: int, k: int)
    ensures (x + k * Two32) % Two32 == x % Two32
  {
    var q := x / Two32;
    var r := x % Two32;
    assert x + k * Two32 == (q + k) * Two32 + r;
  }

  lemma ModMod(x: int)
    ensures (x % Two64) % Two32 == x % Two32
  {
    var q := x / Two64;
    assert x == (q * Two32) * Two32 + x % Two64;
    ModShift(x % Two64, q * Two32);
  }

  /** A large `srav` gives what a shift by 31 gives: the sign bit copied into every bit. */
  lemma SravSaturates(rt: Word, rs: Word)
    requires rs >= 32
    ensures Srav(rt, rs) == ShiftRightArithmetic(rt, 31)
  {
    Pow2Of31();
  }

  /** On a non-negative value the arithmetic and logical variable shifts agree, for every amount. */
  lemma SravOfNonNegative(rt: Word, rs: Word)
    requires Signed(rt) >= 0
    ensures Srav(rt, rs) == Srlv(rt, rs)
  {
  }

  /** `sllv` and `srlv` by 32 or more clear the register; below 32 they multiply or divide by 2^rs. */
  lemma VariableShifts(rt: Word, rs: Word)
    ensures rs >= 32 ==> Sllv(rt, rs) == 0 && Srlv(rt, rs) == 0
    ensures rs < 32 ==> Sllv(rt, rs) == (rt * Ints.Pow2(rs)) % Two32 && Srlv(rt, rs) * Ints.Pow2(rs) <= rt
  {
  }

  // Addition and subtraction.

  /** `i32::overflowing_add`: the wrapped sum and whether the exact sum leaves the i32 range. */
  function OverflowingAdd(a: int, b: int): (int, bool)
    requires -Two31 <= a < Two31 && -Two31 <= b < Two31
  {
    var s := a + b;
    (Signed(Wrap(s)), s < -Two31 || s >= Two31)
  }

  /** `add`: the sum, or None on signed overflow (the overflow exception is not implemented). */
  function Add(rs: Word, rt: Word): (r: Option<Word>)
  {
    var (sum, overflow) := OverflowingAdd(Signed(rs), Signed(rt));
    if overflow then None else Some(Wrap(sum))
  }

  /** `addu`: `u32::wrapping_add`. */
  function Addu(rs: Word, rt: Word): Word {
    Wrap(rs + rt)
  }

  /** `sub`: `i32::wrapping_sub`, with no overflow check. */
  function Sub(rs: Word, rt: Word): Word {
    Wrap(Signed(rs) - Signed(rt))
  }

  /** `subu`: `u32::wrapping_sub`. */
  function Subu(rs: Word, rt: Word): Word {
    Wrap(rs - rt)
  }

  /** Wrapping an inner sum first does not change the wrapped total. */
  lemma WrapInnerSum(a: int, b: int)
    ensures (Wrap(a + Wrap(b)) - (a + b)) % Two32 == 0
  {
    var q1, q2 := b / Two32, (a + Wrap(b)) / Two32;
    assert Wrap(b) == b - Two32 * q1;
    assert Wrap(a + Wrap(b)) == a + Wrap(b) - Two32 * q2;
    assert Wrap(a + Wrap(b)) - (a + b) == Two32 * (-q1 - q2);
  }

  /** Wrapping depends only on the value modulo 2^32. */
  lemma WrapCongruent(a: int, b: int)
    requires (a - b) % Two32 == 0
    ensures Wrap(a) == Wrap(b)
  {
  }

  /**
   * `add` fails exactly when the signed sum leaves the i32 range; when it
   * does not, its result is the exact signed sum and equals `addu`'s.
   */
  lemma AddOverflow(rs: Word, rt: Word)
    ensures Add(rs, rt).None? <==> !(-Two31 <= Signed(rs) + Signed(rt) < Two31)
    ensures Add(rs, rt).Some? ==> Signed(Add(rs, rt).value) == Signed(rs) + Signed(rt)
    ensures Add(rs, rt).Some? ==> Add(rs, rt).value == Addu(rs, rt)
  {
    var s := Signed(rs) + Signed(rt);
    if -Two31 <= s < Two31 {
      WrapCongruent(s, rs + rt);
      WrapSigned(s);
    }
  }

  /** A value in the i32 range is the signed reading of its own wrap. */
  lemma WrapSigned(s: int)
    requires -Two31 <= s < Two31
    ensures Signed(Wrap(s)) == s
  {
  }

  /** The signed and unsigned subtractions give the same word. */
  lemma SubAgrees(rs: Word, rt: Word)
    ensures Sub(rs, rt) == Subu(rs, rt)
  {
    WrapCongruent(Signed(rs) - Signed(rt), rs - rt);
  }

  // Comparisons.

  function Slt(rs: Word, rt: Word): Word {
    if Signed(rs) < Signed(rt) then 1 else 0
  }

  function Sltu(rs: Word, rt: Word): Word {
    if rs < rt then 1 else 0
  }

  /** Adding 2^31 (flipping the sign bit) turns the signed comparison into the unsigned one. */
  lemma SltBySltu(rs: Word, rt: Word)
    ensures Slt(rs, rt) == Sltu(Wrap(rs + Two31), Wrap(rt + Two31))
  {
  }

  // Multiplication and division.

  /** A value in [0, 2^64) split into its high and low 32-bit halves. */
  function Split64(p: int): (r: (Word, Word))
    requires 0 <= p < Two64
    ensures r.0 * Two32 + r.1 == p
  {
    (p / Two32, p % Two32)
  }

  lemma ProductBound(a: int, b: int)
    requires 0 <= a < Two32 && 0 <= b < Two32
    ensures 0 <= a * b < Two64
  {
    MulLe(a, 0, b);
    MulLe(a, b, Two32 - 1);
    MulLe(Two32 - 1, a, Two32 - 1);
  }

  /** `multu`: the 64-bit unsigned product, as (hi, lo). */
  function Multu(rs: Word, rt: Word): (r: (Word, Word))
    ensures r.0 * Two32 + r.1 == rs * rt
  {
    var p: int := rs * rt;
    assert 0 <= p < Two64 by {
      ProductBound(rs, rt);
    }
    Split64(p)
  }

  /** `mult`: the product of the signed values as `i64`, reinterpreted as `u64`, as (hi, lo). */
  function Mult(rs: Word, rt: Word): (r: (Word, Word))
    ensures (r.0 * Two32 + r.1 - Signed(rs) * Signed(rt)) % Two64 == 0
  {
    Split64((Signed(rs) * Signed(rt)) % Two64)
  }

  /** The low words of the signed and unsigned products agree. */
  lemma MultLowAgrees(rs: Word, rt: Word)
    ensures Mult(rs, rt).1 == Multu(rs, rt).1
  {
    var a, b := Signed(rs), Signed(rt);
    var x: int, y: int := rs, rt;
    ModMod(a * b);
    if x < Two31 && y < Two31 {
    } else if x < Two31 {
      assert a * b == x * y + (-x) * Two32;
      ModShift(x * y, -x);
    } else if y < Two31 {
      assert a * b == x * y + (-y) * Two32;
      ModShift(x * y, -y);
    } else {
      assert a * b == x * y + (Two32 - x - y) * Two32;
      ModShift(x * y, Two32 - x - y);
    }
  }

  /** `i32 / i32`: the quotient rounded towards zero. */
  function Quot(a: int, b: int): int
    requires b != 0
  {
    var q := Abs(a) / Abs(b);
    if (a < 0) == (b < 0) then q else -q
  }

  /** `i32 % i32`: the remainder of the quotient rounded towards zero. */
  function Rem(a: int, b: int): int
    requires b != 0
  {
    a - b * Quot(a, b)
  }

  function Abs(a: int): nat {
    if a < 0 then -a else a
  }

  lemma DivNonNegative(x: int, y: int)
    requires x >= 0 && y > 0
    ensures x / y >= 0 && x % y >= 0
  {
  }

  /** The magnitude of the quotient is the quotient of the magnitudes. */
  lemma QuotMagnitude(a: int, b: int)
    requires b != 0
    ensures Abs(Quot(a, b)) == Abs(a) / Abs(b)
  {
    DivNonNegative(Abs(a), Abs(b));
  }

  /** The remainder is the remainder of the magnitudes, with the dividend's sign. */
  lemma RemSign(a: int, b: int)
    requires b != 0
    ensures Rem(a, b) == (if a < 0 then -(Abs(a) % Abs(b)) else Abs(a) % Abs(b))
  {
    var A: int, B: int := Abs(a), Abs(b);
    var q: int := A / B;
    var p: int := B * q;
    assert A == p + A % B;
    MulSigns(B, q);
    assert b * Quot(a, b) == (if a < 0 then -p else p) by {
      if b < 0 {
        assert b == -B;
      } else {
        assert b == B;
      }
    }
  }

  lemma MulSigns(x: int, y: int)
    ensures (-x) * y == -(x * y) && x * (-y) == -(x * y) && (-x) * (-y) == x * y
  {
  }

  /** Truncating division: the remainder is smaller than the divisor and takes the sign of the dividend. */
  lemma TruncatingDivision(a: int, b: int)
    requires b != 0
    ensures a == b * Quot(a, b) + Rem(a, b)
    ensures Abs(Rem(a, b)) < Abs(b)
    ensures Rem(a, b) == 0 || (Rem(a, b) < 0 <==> a < 0)
    ensures Abs(Quot(a, b)) * Abs(b) <= Abs(a)
  {
    QuotMagnitude(a, b);
    RemSign(a, b);
    var A: int, B: int := Abs(a), Abs(b);
    var q: int := A / B;
    assert A == q * B + A % B;
  }

  /** `divu` on a non-zero divisor: (remainder, quotient) as (hi, lo). */
  function Divu(rs: Word, rt: Word): (r: (Word, Word))
    requires rt != 0
    ensures r.1 * rt + r.0 == rs && r.0 < rt
  {
    DivNonNegative(rs, rt);
    DivLe(rs, rt);
    (rs % rt, rs / rt)
  }

  /**
   * `div` as the source writes it: `value1 % value2` and `value1 / value2`
   * on `i32`, as (hi, lo). Rust panics on `i32::MIN / -1` and
   * `i32::MIN % -1`, because the quotient 2^31 does not fit in an `i32`;
   * that case is None here.
   */
  function DivAsWritten(rs: Word, rt: Word): (r: Option<(Word, Word)>)
    requires rt != 0
    ensures r.None? <==> Signed(rs) == -Two31 && Signed(rt) == -1
  {
    var a, b := Signed(rs), Signed(rt);
    if a == -Two31 && b == -1 then None
    else Some((Wrap(Rem(a, b)), Wrap(Quot(a, b))))
  }

  /** The register values `div` is given when its dividend is -2^31 and its divisor -1. */
  lemma DivOverflowPanics()
    ensures DivAsWritten(0x8000_0000, 0xFFFF_FFFF).None?
  {
  }

  /**
   * `div` with the overflow case defined the way the R3000 defines it and
   * `i32::wrapping_div`/`wrapping_rem` compute it: quotient -2^31
   * (0x8000_0000) and remainder 0. Every other input gives what the source
   * gives.
   */
  function Div(rs: Word, rt: Word): (r: (Word, Word))
    requires rt != 0
    ensures DivAsWritten(rs, rt).Some? ==> r == DivAsWritten(rs, rt).value
    ensures DivAsWritten(rs, rt).None? ==> r == (0, 0x8000_0000)
  {
    match DivAsWritten(rs, rt)
    case Some(hilo) => hilo
    case None => (0, 0x8000_0000)
  }

  /** The quotient of two i32 values lies in the i32 range except for -2^31 / -1. */
  lemma QuotInRange(a: int, b: int)
    requires -Two31 <= a < Two31 && -Two31 <= b < Two31 && b != 0
    requires !(a == -Two31 && b == -1)
    ensures -Two31 <= Quot(a, b) < Two31
  {
    TruncatingDivision(a, b);
    var q := Quot(a, b);
    if Abs(b) >= 2 {
      MulLe(Abs(q), 2, Abs(b));
    } else if b == 1 {
      assert Quot(a, b) == a;
    } else {
      assert Quot(a, b) == -a;
    }
  }

  /** Outside the overflow case the corrected `div` writes the i32 quotient and remainder. */
  lemma DivRegular(rs: Word, rt: Word)
    requires rt != 0 && !(Signed(rs) == -Two31 && Signed(rt) == -1)
    ensures Signed(Div(rs, rt).1) == Quot(Signed(rs), Signed(rt))
    ensures Signed(Div(rs, rt).0) == Rem(Signed(rs), Signed(rt))
  {
    var a, b := Signed(rs), Signed(rt);
    TruncatingDivision(a, b);
    QuotInRange(a, b);
    WrapSigned(Quot(a, b));
    assert -Two31 <= Rem(a, b) < Two31;
    WrapSigned(Rem(a, b));
  }

  /**
   * The corrected `div` is a truncating signed division for every non-zero
   * divisor: read as i32, the quotient times the divisor plus the remainder
   * is the dividend modulo 2^32 (exactly, outside the overflow case), and the
   * remainder is smaller than the divisor and has the dividend's sign.
   */
  lemma DivIsTruncating(rs: Word, rt: Word)
    requires rt != 0
    ensures var (hi, lo) := Div(rs, rt);
      (Signed(lo) * Signed(rt) + Signed(hi) - Signed(rs)) % Two32 == 0
    ensures var (hi, lo) := Div(rs, rt);
      !(Signed(rs) == -Two31 && Signed(rt) == -1) ==>
        Signed(lo) * Signed(rt) + Signed(hi) == Signed(rs)
        && Abs(Signed(hi)) < Abs(Signed(rt))
        && (Signed(hi) == 0 || (Signed(hi) < 0 <==> Signed(rs) < 0))
  {
    var a, b := Signed(rs), Signed(rt);
    if a == -Two31 && b == -1 {
      var (hi, lo) := Div(rs, rt);
      assert Signed(lo) == -Two31 && Signed(hi) == 0;
      assert Signed(lo) * Signed(rt) + Signed(hi) - Signed(rs) == Two32;
    } else {
      TruncatingDivision(a, b);
      DivRegular(rs, rt);
    }
  }

  /** `divu` is the unsigned division; for the same non-negative operands `div` agrees with it. */
  lemma DivAgreesWithDivu(rs: Word, rt: Word)
    requires 0 < rt < Two31 && rs < Two31
    ensures Div(rs, rt) == Divu(rs, rt)
  {
    var a: int, b: int := rs, rt;
    assert Signed(rs) == a && Signed(rt) == b;
    assert Quot(a, b) == a / b;
    assert a == b * (a / b) + a % b;
    assert Rem(a, b) == a % b;
  }
}

=== FILE: array_utils.dfy ===
/**
 * Two helpers on row-major pixel arrays: flipping the order of the rows,
 * and cutting a rectangle out of an array with a given row length.
 */
module ArrayUtils {
  import opened Wrappers

  /**
   * `rows * rowLength` written as repeated addition, so that the solver
   * unfolds it only as far as a proof asks.
   */
  function Mul(rows: nat, rowLength: nat): nat
    decreases rows
  {
    if rows == 0 then 0 else Mul(rows - 1, rowLength) + rowLength
  }

  lemma {:induction false} MulIsProduct(rows: nat, rowLength: nat)
    ensures Mul(rows, rowLength) == rows * rowLength
    decreases rows
  {
    if rows > 0 {
      MulIsProduct(rows - 1, rowLength);
    }
  }

  /** A position inside row `i` of `n` rows lies inside the array. */
  lemma {:induction false} InsideRows(i: nat, n: nat, rowLength: nat, c: nat)
    requires i < n && c < rowLength
    ensures Mul(i, rowLength) + c < Mul(n, rowLength)
    decreases n
  {
    if i < n - 1 {
      InsideRows(i, n - 1, rowLength, c);
    }
  }

  /** The rows of `a` (each `rowLength` long) in reverse order. */
  function ReverseRows<T>(a: seq<T>, rowLength: nat, rows: nat): (r: seq<T>)
    requires |a| == Mul(rows, rowLength)
    ensures |r| == |a|
    decreases rows
  {
    if rows == 0 then []
    else ReverseRows(a[rowLength..], rowLength, rows - 1) + a[..rowLength]
  }

  /**
   * `flip_rows`: the row count is the length divided by the row length
   * (a panic on a row length of 0), the length must be a whole number of
   * rows (a panic otherwise), and the rows are copied last to first.
   */
  function FlipRows<T>(a: seq<T>, rowLength: nat): (r: Option<seq<T>>)
    ensures r.Some? <==> rowLength > 0 && |a| % rowLength == 0
    ensures r.Some? ==> |r.value| == |a|
  {
    if rowLength == 0 || |a| % rowLength != 0 then None
    else
      var rows := |a| / rowLength;
      MulIsProduct(rows, rowLength);
      Some(ReverseRows(a, rowLength, rows))
  }

  /** Element `c` of output row `i` is element `c` of input row `rows - 1 - i`. */
  lemma {:induction false} ReverseRowsElement<T>(a: seq<T>, rowLength: nat, rows: nat, i: nat, c: nat)
    requires |a| == Mul(rows, rowLength) && i < rows && c < rowLength
    ensures Mul(i, rowLength) + c < |a| && Mul(rows - 1 - i, rowLength) + c < |a|
    ensures ReverseRows(a, rowLength, rows)[Mul(i, rowLength) + c] == a[Mul(rows - 1 - i, rowLength) + c]
    decreases rows
  {
    var L := rowLength;
    InsideRows(i, rows, L, c);
    InsideRows(rows - 1 - i, rows, L, c);
    var tail := a[L..];
    if i < rows - 1 {
      InsideRows(i, rows - 1, L, c);
      ReverseRowsElement(tail, L, rows - 1, i, c);
    } else {
      assert Mul(rows - 1 - i, L) == 0;
    }
  }

  /** Reversing rows twice gives the array back. */
  lemma {:induction false} ReverseRowsTwice<T>(a: seq<T>, rowLength: nat, rows: nat)
    requires |a| == Mul(rows, rowLength)
    ensures ReverseRows(ReverseRows(a, rowLength, rows), rowLength, rows) == a
    decreases rows
  {
    if rows > 0 {
      var L := rowLength;
      var tail := a[L..];
      var rt := ReverseRows(tail, L, rows - 1);
      ReverseRowsAppend(rt, a[..L], L, rows - 1);
      ReverseRowsTwice(tail, L, rows - 1);
      assert a[..L] + tail == a;
    }
  }

  /** Reversing the rows of `x` followed by one more row puts that row first. */
  lemma {:induction false} ReverseRowsAppend<T>(x: seq<T>, row: seq<T>, rowLength: nat, rows: nat)
    requires |x| == Mul(rows, rowLength) && |row| == rowLength
    ensures |x + row| == Mul(rows + 1, rowLength)
    ensures ReverseRows(x + row, rowLength, rows + 1) == row + ReverseRows(x, rowLength, rows)
    decreases rows
  {
    var L := rowLength;
    if rows == 0 {
      assert (x + row)[L..] == [];
      assert (x + row)[..L] == row;
    } else {
      assert (x + row)[L..] == x[L..] + row;
      assert (x + row)[..L] == x[..L];
      ReverseRowsAppend(x[L..], row, L, rows - 1);
    }
  }

  /** A whole number of rows: the length is the row count times the row length. */
  lemma RowCount(n: nat, rowLength: nat)
    requires rowLength > 0 && n % rowLength == 0
    ensures Mul(n / rowLength, rowLength) == n
  {
    MulIsProduct(n / rowLength, rowLength);
  }

  /** `flip_rows` applied twice is the identity. */
  lemma FlipRowsTwice<T>(a: seq<T>, rowLength: nat)
    requires FlipRows(a, rowLength).Some?
    ensures FlipRows(FlipRows(a, rowLength).value, rowLength) == Some(a)
  {
    var rows := |a| / rowLength;
    RowCount(|a|, rowLength);
    var f := ReverseRows(a, rowLength, rows);
    assert FlipRows(a, rowLength).value == f;
    assert |f| == |a|;
    ReverseRowsTwice(a, rowLength, rows);
  }

  /** Element `c` of row `i` of the flipped array is element `c` of row `rows - 1 - i` of the input. */
  lemma FlipRowsElement<T>(a: seq<T>, rowLength: nat, rows: nat, i: nat, c: nat)
    requires FlipRows(a, rowLength).Some? && |a| == Mul(rows, rowLength) && i < rows && c < rowLength
    ensures Mul(i, rowLength) + c < |a| && Mul(rows - 1 - i, rowLength) + c < |a|
    ensures FlipRows(a, rowLength).value[Mul(i, rowLength) + c] == a[Mul(rows - 1 - i, rowLength) + c]
  {
    RowCount(|a|, rowLength);
    MulInjective(|a| / rowLength, rows, rowLength);
    ReverseRowsElement(a, rowLength, rows, i, c);
  }

  /** With a non-zero row length, equal lengths have equal row counts. */
  lemma {:induction false} MulInjective(m: nat, n: nat, rowLength: nat)
    requires rowLength > 0 && Mul(m, rowLength) == Mul(n, rowLength)
    ensures m == n
    decreases m
  {
    if m > 0 && n > 0 {
      MulInjective(m - 1, n - 1, rowLength);
    }
  }

  /** The start of rectangle row `k` in the array. */
  function RowStart(rowLength: nat, ox: nat, oy: nat, k: nat): nat {
    (oy + k) * rowLength + ox
  }

  /** The first `rows` rows of the rectangle, or None when one of them runs past the array. */
  function RectRows<T>(a: seq<T>, rowLength: nat, ox: nat, oy: nat, width: nat, rows: nat): (r: Option<seq<T>>)
    ensures r.Some? ==> |r.value| == rows * width
    decreases rows
  {
    if rows == 0 then Some([])
    else
      match RectRows(a, rowLength, ox, oy, width, rows - 1)
      case None => None
      case Some(prefix) =>
        var base := RowStart(rowLength, ox, oy, rows - 1);
        if base + width > |a| then None
        else
          assert (rows - 1) * width + width == rows * width;
          Some(prefix + a[base..base + width])
  }

  /**
   * `extract_rectangle`: a negative origin or size is a panic, and so is a
   * row that runs past the end of the array; otherwise the rows of the
   * rectangle, bottom first, concatenated.
   */
  function ExtractRectangle<T>(a: seq<T>, rowLength: nat, ox: int, oy: int, width: int, height: int): (r: Option<seq<T>>)
    ensures ox < 0 || oy < 0 || width < 0 || height < 0 ==> r.None?
    ensures r.Some? ==> |r.value| == width * height
  {
    if ox < 0 || oy < 0 || width < 0 || height < 0 then None
    else RectRows(a, rowLength, ox, oy, width, height)
  }

  /** Rows are laid out one row length apart, so later rows start further on. */
  lemma RowStartMonotone(rowLength: nat, ox: nat, oy: nat, k: nat, m: nat)
    requires k <= m
    ensures RowStart(rowLength, ox, oy, k) <= RowStart(rowLength, ox, oy, m)
  {
    assert (oy + m) * rowLength == (oy + k) * rowLength + (m - k) * rowLength;
  }

  /** The rectangle fits exactly when its last row ends inside the array. */
  lemma {:induction false} RectRowsFits<T>(a: seq<T>, rowLength: nat, ox: nat, oy: nat, width: nat, rows: nat)
    ensures RectRows(a, rowLength, ox, oy, width, rows).Some? <==>
      rows == 0 || RowStart(rowLength, ox, oy, rows - 1) + width <= |a|
    decreases rows
  {
    if rows > 1 {
      RectRowsFits(a, rowLength, ox, oy, width, rows - 1);
      RowStartMonotone(rowLength, ox, oy, rows - 2, rows - 1);
    }
  }

  /** Element `c` of rectangle row `k` is the array element `c` places past that row's start. */
  lemma {:induction false} RectRowsElement<T>(a: seq<T>, rowLength: nat, ox: nat, oy: nat, width: nat, rows: nat, k: nat, c: nat)
    requires RectRows(a, rowLength, ox, oy, width, rows).Some? && k < rows && c < width
    ensures k * width + c < rows * width && RowStart(rowLength, ox, oy, k) + c < |a|
    ensures RectRows(a, rowLength, ox, oy, width, rows).value[k * width + c] == a[RowStart(rowLength, ox, oy, k) + c]
    decreases rows
  {
    var prefix := RectRows(a, rowLength, ox, oy, width, rows - 1).value;
    assert rows * width == (rows - 1) * width + width;
    if k < rows - 1 {
      RectRowsElement(a, rowLength, ox, oy, width, rows - 1, k, c);
    } else {
      assert k * width == (rows - 1) * width;
    }
  }

  /**
   * `extract_rectangle` succeeds exactly when the origin and size are not
   * negative and the last row of the rectangle ends inside the array.
   */
  lemma ExtractRectangleFits<T>(a: seq<T>, rowLength: nat, ox: int, oy: int, width: int, height: int)
    ensures ExtractRectangle(a, rowLength, ox, oy, width, height).Some? <==>
      ox >= 0 && oy >= 0 && width >= 0 && height >= 0 &&
      (height == 0 || (oy + height - 1) * rowLength + ox + width <= |a|)
  {
    if ox >= 0 && oy >= 0 && width >= 0 && height >= 0 {
      RectRowsFits(a, rowLength, ox, oy, width, height);
    }
  }

  /** Element `c` of rectangle row `k` is `a[(oy + k) * rowLength + ox + c]`. */
  lemma ExtractRectangleElement<T>(a: seq<T>, rowLength: nat, ox: int, oy: int, width: int, height: int, k: nat, c: nat)
    requires ExtractRectangle(a, rowLength, ox, oy, width, height).Some? && k < height && c < width
    ensures k * width + c < width * height && (oy + k) * rowLength + ox + c < |a|
    ensures ExtractRectangle(a, rowLength, ox, oy, width, height).value[k * width + c] == a[(oy + k) * rowLength + ox + c]
  {
    RectRowsElement(a, rowLength, ox, oy, width, height, k, c);
  }
}

=== FILE: bits.dfy ===
/**
 * The `Bitfield` helper: a (start, length) window of a register value, with
 * the mask, extract, insert, acknowledge and copy operations every peripheral
 * register of the emulator is built from. Registers here are 32 bits wide;
 * a 16- or 8-bit register is its value zero-extended to 32 bits, which
 * gives the same field values for every field that lies inside it.
 *
 * The operations are computed from an explicit start and length by the
 * `...At` functions, which the `Bitfield` operations delegate to; each fact
 * is proved once about the former and restated about the latter.
 */
module Bits {
  import opened Shifts

  /** A boolean as a one-bit value. */
  function Flag(b: bool): (r: bv32)
    ensures r <= 1 && (r == 1 <==> b)
  {
    if b then 1 else 0
  }

  /** A window of `length` bits starting at bit `start`. */
  datatype Bitfield = Bitfield(start: nat, length: nat)

  /**
   * The window lies wholly inside the 32-bit word. The shifts `1 << length`
   * and `mask << start` on a u32 are defined only for amounts below 32; the
   * operations here are total, shifting every bit out for larger amounts,
   * and the facts that need the window inside the word ask for this.
   */
  predicate FitsAt(st: nat, len: nat) {
    len < 32 && st < 32 && st + len <= 32
  }

  predicate Fits(f: Bitfield) {
    FitsAt(f.start, f.length)
  }

  // The operations on an explicit start and length.

  function LowMask(len: nat): bv32 {
    Shl(1, len) - 1
  }

  function FieldMask(st: nat, len: nat): bv32 {
    Shl(LowMask(len), st)
  }

  function ExtractAt(st: nat, len: nat, v: bv32): bv32 {
    Shr(v & FieldMask(st, len), st)
  }

  function InsertAt(st: nat, len: nat, d: bv32, s: bv32): bv32 {
    (d & !FieldMask(st, len)) | Shl(s & LowMask(len), st)
  }

  function AcknowledgeAt(st: nat, len: nat, v: bv32, a: bv32): bv32 {
    v & !(a & FieldMask(st, len))
  }

  // The `Bitfield` operations.

  /** `(1 << length) - 1`. */
  function UnshiftedMask(f: Bitfield): bv32 {
    LowMask(f.length)
  }

  /** The unshifted mask moved up to the field's position. */
  function ShiftedMask(f: Bitfield): bv32 {
    FieldMask(f.start, f.length)
  }

  /** `(value & shifted_mask) >> start`. */
  function Extract(f: Bitfield, v: bv32): bv32 {
    ExtractAt(f.start, f.length, v)
  }

  /** `destination` with the field replaced by the low bits of `source`. */
  function Insert(f: Bitfield, d: bv32, s: bv32): bv32 {
    InsertAt(f.start, f.length, d, s)
  }

  /** The mask that clears the field bits set in an acknowledge value. */
  function AcknowledgeMask(f: Bitfield, a: bv32): bv32 {
    !(a & ShiftedMask(f))
  }

  function Acknowledge(f: Bitfield, v: bv32, a: bv32): bv32 {
    AcknowledgeAt(f.start, f.length, v, a)
  }

  /** Copies the field of `source` into the same field of `destination`. */
  function Copy(f: Bitfield, d: bv32, s: bv32): bv32 {
    InsertAt(f.start, f.length, d, ExtractAt(f.start, f.length, s))
  }

  // Plain bitwise steps, one per lemma.

  lemma WithinIdentity(x: bv32, m: bv32)
    ensures Within(x, m) ==> x & m == x
  {
  }

  lemma Recombine(d: bv32, m: bv32, y: bv32)
    ensures y == d & m ==> (d & !m) | y == d
  {
  }

  lemma ComplementCover(a: bv32, b: bv32)
    ensures a | b == Ones ==> !a & b == !a
  {
  }

  lemma MinusOneComplement(p: bv32, q: bv32)
    ensures q == -p ==> p - 1 == !q
  {
  }

  lemma AndOnes(x: bv32)
    ensures x & Ones == x
  {
  }

  lemma AndAbsorb(x: bv32, m: bv32)
    ensures (x & m) & m == x & m
  {
  }

  lemma SubsetWithin(x: bv32, m: bv32)
    ensures x == x & m ==> Within(x, m)
  {
  }

  lemma AndWithin(a: bv32, m: bv32, b: bv32)
    ensures Within(a & (m & b), m)
  {
  }

  // Facts about the operations on an explicit start and length.

  lemma LowMaskComplement(len: nat)
    ensures LowMask(len) == !Shl(Ones, len)
  {
    OnesShlNeg(len);
    MinusOneComplement(Shl(1, len), Shl(Ones, len));
  }

  lemma FieldMaskHigh(st: nat, len: nat)
    ensures Within(FieldMask(st, len), Shl(Ones, st))
  {
    ShlAnd(LowMask(len), Ones, st);
    AndOnes(LowMask(len));
  }

  lemma LowMaskFits(st: nat, len: nat)
    ensures FitsAt(st, len) ==> LowMask(len) & Shr(Ones, st) == LowMask(len)
  {
    LowMaskComplement(len);
    OnesCover(len, st);
    ComplementCover(Shl(Ones, len), Shr(Ones, st));
  }

  lemma FieldMaskBack(st: nat, len: nat)
    ensures FitsAt(st, len) ==> Shr(FieldMask(st, len), st) == LowMask(len)
  {
    ShlShr(LowMask(len), st);
    LowMaskFits(st, len);
  }

  lemma ExtractAtWithin(st: nat, len: nat, v: bv32)
    ensures Within(ExtractAt(st, len, v), LowMask(len))
  {
    ShrAnd(v, FieldMask(st, len), st);
    ShlShr(LowMask(len), st);
    AndWithin(Shr(v, st), LowMask(len), Shr(Ones, st));
  }

  lemma ExtractAtInPlace(st: nat, len: nat, v: bv32)
    ensures Shl(ExtractAt(st, len, v), st) == v & FieldMask(st, len)
  {
    ShrShl(v & FieldMask(st, len), st);
    FieldMaskHigh(st, len);
  }

  lemma ShiftedIntoField(st: nat, len: nat, s: bv32)
    ensures Within(Shl(s & LowMask(len), st), FieldMask(st, len))
  {
    AndAbsorb(s, LowMask(len));
    ShlSubset(s & LowMask(len), LowMask(len), st);
    SubsetWithin(Shl(s & LowMask(len), st), FieldMask(st, len));
  }

  lemma InsertAtFrame(st: nat, len: nat, d: bv32, s: bv32)
    ensures InsertAt(st, len, d, s) & !FieldMask(st, len) == d & !FieldMask(st, len)
  {
    ShiftedIntoField(st, len, s);
  }

  lemma InsertAtField(st: nat, len: nat, d: bv32, s: bv32)
    ensures InsertAt(st, len, d, s) & FieldMask(st, len) == Shl(s & LowMask(len), st)
  {
    ShiftedIntoField(st, len, s);
  }

  lemma ExtractAtInsertAt(st: nat, len: nat, d: bv32, s: bv32)
    ensures FitsAt(st, len) ==> ExtractAt(st, len, InsertAt(st, len, d, s)) == s & LowMask(len)
  {
    InsertAtField(st, len, d, s);
    ShlShr(s & LowMask(len), st);
    LowMaskFits(st, len);
  }

  lemma InsertAtExtractAt(st: nat, len: nat, v: bv32)
    ensures InsertAt(st, len, v, ExtractAt(st, len, v)) == v
  {
    ExtractAtWithin(st, len, v);
    WithinIdentity(ExtractAt(st, len, v), LowMask(len));
    ExtractAtInPlace(st, len, v);
    Recombine(v, FieldMask(st, len), Shl(ExtractAt(st, len, v), st));
  }

  lemma CopyAtField(st: nat, len: nat, d: bv32, s: bv32)
    ensures FitsAt(st, len) ==> ExtractAt(st, len, InsertAt(st, len, d, ExtractAt(st, len, s))) == ExtractAt(st, len, s)
  {
    ExtractAtInsertAt(st, len, d, ExtractAt(st, len, s));
    ExtractAtWithin(st, len, s);
    WithinIdentity(ExtractAt(st, len, s), LowMask(len));
  }

  // Facts about the `Bitfield` operations.

  /** `unshifted_mask` is the complement of all-ones shifted up by `length`: the `length` low bits. */
  lemma UnshiftedMaskComplement(f: Bitfield)
    ensures UnshiftedMask(f) == !Shl(Ones, f.length)
  {
    LowMaskComplement(f.length);
  }

  /** The shifted mask has no bit below `start` ... */
  lemma ShiftedMaskHigh(f: Bitfield)
    ensures Within(ShiftedMask(f), Shl(Ones, f.start))
  {
    FieldMaskHigh(f.start, f.length);
  }

  /** ... and, when the field fits, moving it back down recovers the unshifted mask. */
  lemma ShiftedMaskBack(f: Bitfield)
    requires Fits(f)
    ensures Shr(ShiftedMask(f), f.start) == UnshiftedMask(f)
  {
    FieldMaskBack(f.start, f.length);
  }

  /** An extracted value is below 2^length. */
  lemma ExtractBounded(f: Bitfield, v: bv32)
    ensures Within(Extract(f, v), UnshiftedMask(f))
  {
    ExtractAtWithin(f.start, f.length, v);
  }

  /** Shifting an extracted value back up gives the field bits of `v` in place. */
  lemma ExtractInPlace(f: Bitfield, v: bv32)
    ensures Shl(Extract(f, v), f.start) == v & ShiftedMask(f)
  {
    ExtractAtInPlace(f.start, f.length, v);
  }

  /** `insert_into` leaves every bit outside the field unchanged. */
  lemma InsertFrame(f: Bitfield, d: bv32, s: bv32)
    ensures Insert(f, d, s) & !ShiftedMask(f) == d & !ShiftedMask(f)
  {
    InsertAtFrame(f.start, f.length, d, s);
  }

  /** Reading a field back after writing it gives the written value, cut to the field. */
  lemma ExtractInsert(f: Bitfield, d: bv32, s: bv32)
    requires Fits(f)
    ensures Extract(f, Insert(f, d, s)) == s & UnshiftedMask(f)
  {
    ExtractAtInsertAt(f.start, f.length, d, s);
  }

  /** Writing back the value a field holds changes nothing. */
  lemma InsertExtract(f: Bitfield, v: bv32)
    ensures Insert(f, v, Extract(f, v)) == v
  {
    InsertAtExtractAt(f.start, f.length, v);
  }

  /** `acknowledge` never sets a bit. */
  lemma AcknowledgeNeverSets(f: Bitfield, v: bv32, a: bv32)
    ensures Within(Acknowledge(f, v, a), v)
  {
  }

  /** `acknowledge` leaves the bits outside the field alone. */
  lemma AcknowledgeOutside(f: Bitfield, v: bv32, a: bv32)
    ensures Acknowledge(f, v, a) & !ShiftedMask(f) == v & !ShiftedMask(f)
  {
  }

  /** Inside the field, `acknowledge` clears exactly the bits set in the acknowledge value. */
  lemma AcknowledgeInside(f: Bitfield, v: bv32, a: bv32)
    ensures Acknowledge(f, v, a) & ShiftedMask(f) == v & ShiftedMask(f) & !a
  {
  }

  /** `copy` changes only the field ... */
  lemma CopyFrame(f: Bitfield, d: bv32, s: bv32)
    ensures Copy(f, d, s) & !ShiftedMask(f) == d & !ShiftedMask(f)
  {
    InsertAtFrame(f.start, f.length, d, ExtractAt(f.start, f.length, s));
  }

  /** ... which then holds the source's field. */
  lemma CopyField(f: Bitfield, d: bv32, s: bv32)
    requires Fits(f)
    ensures Extract(f, Copy(f, d, s)) == Extract(f, s)
  {
    CopyAtField(f.start, f.length, d, s);
  }

  /** The documented example: mask 0b1111_0000 and value 0b0110_0000 give 0b1001_1111 in the low byte. */
  lemma AcknowledgeMaskExample()
    ensures ShiftedMask(Bitfield(4, 4)) == 0xF0
    ensures AcknowledgeMask(Bitfield(4, 4), 0x60) & 0xFF == 0x9F
  {
  }

  // The operations at a position below 32, in native shifts. A field at a
  // fixed position then evaluates to a plain mask-and-shift expression.

  /** `((1 << len) - 1) << st` in native shifts. */
  function NativeMask(st: nat, len: nat): bv32
    requires st < 32 && len < 32
  {
    (((1 as bv32) << (len as bv5)) - 1) << (st as bv5)
  }

  lemma FieldMaskNative(st: nat, len: nat)
    ensures st < 32 && len < 32 ==> FieldMask(st, len) == NativeMask(st, len)
  {
    if st < 32 && len < 32 {
      ShlNative(1, len);
      ShlNative(LowMask(len), st);
    }
  }

  lemma ExtractAtNative(st: nat, len: nat, v: bv32)
    ensures st < 32 ==> ExtractAt(st, len, v) == (v & FieldMask(st, len)) >> (st as bv5)
  {
    ShrNative(v & FieldMask(st, len), st);
  }

  lemma InsertAtNative(st: nat, len: nat, d: bv32, s: bv32)
    ensures st < 32 ==> InsertAt(st, len, d, s) == (d & !FieldMask(st, len)) | ((s & LowMask(len)) << (st as bv5))
  {
    ShlNative(s & LowMask(len), st);
  }

  /** The shifted mask of a field inside the word, in native shifts. */
  lemma ShiftedMaskNative(f: Bitfield)
    ensures f.start < 32 && f.length < 32 ==> ShiftedMask(f) == NativeMask(f.start, f.length)
  {
    FieldMaskNative(f.start, f.length);
  }

  lemma UnshiftedMaskNative(f: Bitfield)
    ensures f.length < 32 ==> UnshiftedMask(f) == ((1 as bv32) << (f.length as bv5)) - 1
  {
    ShlNative(1, f.length);
  }

  /** Whether bit `k` of `v` is set. */
  predicate BitSet(v: bv32, k: nat) {
    Shr(v, k) & 1 == 1
  }

  /** Bit `k` of `v`, read as `extract_from` reads a one-bit field. */
  function BitOf(v: bv32, k: nat): (r: bv32)
    ensures r <= 1
  {
    ExtractBounded(Bitfield(k, 1), v);
    UnshiftedMaskNative(Bitfield(k, 1));
    Extract(Bitfield(k, 1), v)
  }

  /** Writing one bit with `insert_into` sets that bit to the low bit of the source and keeps every other bit. */
  lemma BitOfInsert(v: bv32, j: nat, b: bv32, k: nat)
    requires j < 32 && k < 32
    ensures BitOf(Insert(Bitfield(j, 1), v, b), k) == if k == j then b & 1 else BitOf(v, k)
  {
    var w := Insert(Bitfield(j, 1), v, b);
    ExtractAtNative(k, 1, w);
    ExtractAtNative(k, 1, v);
    InsertAtNative(j, 1, v, b);
    FieldMaskNative(k, 1);
    FieldMaskNative(j, 1);
    UnshiftedMaskNative(Bitfield(j, 1));
    CastInjective(j, k);
    NativeBitInsert(v, b, j as bv5, k as bv5);
  }

  lemma CastInjective(j: nat, k: nat)
    requires j < 32 && k < 32
    ensures (j as bv5 == k as bv5) == (j == k)
  {
    if j != k {
      CastBack(j);
      CastBack(k);
    }
  }

  lemma CastBack(j: nat)
    requires j < 32
    ensures (j as bv5) as int == j
  {
  }

  lemma NativeBitInsert(v: bv32, b: bv32, j: bv5, k: bv5)
    ensures (((v & !(1 << j)) | ((b & 1) << j)) & (1 << k)) >> k == if k == j then b & 1 else (v & (1 << k)) >> k
  {
  }

  /** `insert_into` of a zero source clears the field. */
  lemma InsertZero(f: Bitfield, d: bv32)
    ensures Insert(f, d, 0) == d & !ShiftedMask(f)
  {
    ShlZero(f.start);
  }
}

=== FILE: branch_delay.dfy ===
/**
 * The branch delay slot of the MIPS I pipeline: a pending branch target
 * together with the number of instructions still to execute before the
 * branch takes effect.
 */
module BranchDelay {
  import opened Wrappers
  import opened Alu

  datatype BranchDelaySlot = BranchDelaySlot(target: Option<Word>, slots: nat)

  /** `new()`: nothing pending. */
  const NewSlot := BranchDelaySlot(None, 0)

  predicate Branching(s: BranchDelaySlot) {
    s.target.Some?
  }

  /**
   * `advance`, called once per executed instruction: with no target pending
   * nothing happens; with no slot left the target is returned and cleared;
   * otherwise one slot is used up.
   */
  function Advance(s: BranchDelaySlot): (BranchDelaySlot, Option<Word>) {
    if s.target.None? then (s, None)
    else if s.slots == 0 then (s.(target := None), s.target)
    else (s.(slots := s.slots - 1), None)
  }

  /** `advance_all`: returns any pending target at once and leaves nothing pending. */
  function AdvanceAll(s: BranchDelaySlot): (r: (BranchDelaySlot, Option<Word>))
    ensures !Branching(r.0) && r.1 == s.target
  {
    if s.target.Some? then (BranchDelaySlot(None, 0), s.target) else (s, None)
  }

  /** `back`: gives one slot back while a target is pending (used when an instruction is retried). */
  function Back(s: BranchDelaySlot): BranchDelaySlot {
    if s.target.Some? then s.(slots := s.slots + 1) else s
  }

  /** `set`: a new target taking effect after `slots` further instructions; `slots` must be positive. */
  function Set(s: BranchDelaySlot, target: Word, slots: nat): (r: BranchDelaySlot)
    requires slots > 0
    ensures Branching(r)
  {
    BranchDelaySlot(Some(target), slots)
  }

  function TargetOrNull(s: BranchDelaySlot): (r: Word)
    ensures s.target.None? ==> r == 0
    ensures s.target.Some? ==> r == s.target.value
  {
    s.target.GetOr(0)
  }

  /** `advance` with no target changes nothing; with a target it either fires (slots 0) or uses up a slot. */
  lemma AdvanceCases(s: BranchDelaySlot)
    ensures !Branching(s) ==> Advance(s) == (s, None)
    ensures Branching(s) && s.slots == 0 ==> Advance(s).1 == s.target && !Branching(Advance(s).0)
    ensures Branching(s) && s.slots > 0 ==>
      Advance(s).1 == None && Advance(s).0 == BranchDelaySlot(s.target, s.slots - 1)
  {
  }

  /** `back` increments the slots exactly when a target is pending. */
  lemma BackCases(s: BranchDelaySlot)
    ensures Branching(s) ==> Back(s).slots == s.slots + 1 && Back(s).target == s.target
    ensures !Branching(s) ==> Back(s) == s
  {
  }

  /** The new slot is not branching and its target reads as 0. */
  lemma NewSlotIdle()
    ensures !Branching(NewSlot) && TargetOrNull(NewSlot) == 0
  {
  }

  /** The state after `k` calls of `advance`, and every target they returned, in order. */
  function AdvanceTimes(s: BranchDelaySlot, k: nat): (BranchDelaySlot, seq<Word>)
    decreases k
  {
    if k == 0 then (s, [])
    else
      var step := Advance(s);
      var after := AdvanceTimes(step.0, k - 1);
      (after.0, (if step.1.Some? then [step.1.value] else []) + after.1)
  }

  /** A step that returns nothing adds nothing to the returned targets. */
  lemma UnfoldQuiet(s: BranchDelaySlot, k: nat)
    ensures k > 0 && Advance(s).1.None? ==> AdvanceTimes(s, k) == AdvanceTimes(Advance(s).0, k - 1)
  {
    if k > 0 && Advance(s).1.None? {
      var after := AdvanceTimes(Advance(s).0, k - 1);
      assert [] + after.1 == after.1;
    }
  }

  /**
   * A pending target with `n` slots left is returned by exactly the
   * `(n + 1)`-th `advance`: the first `n` return nothing and keep it
   * pending, and one more returns it and clears it.
   */
  lemma {:induction false} AdvanceDelay(s: BranchDelaySlot, t: Word)
    requires s.target == Some(t)
    ensures AdvanceTimes(s, s.slots) == (BranchDelaySlot(Some(t), 0), [])
    ensures AdvanceTimes(s, s.slots + 1) == (BranchDelaySlot(None, 0), [t])
    decreases s.slots
  {
    if s.slots > 0 {
      var s1 := BranchDelaySlot(Some(t), s.slots - 1);
      AdvanceDelay(s1, t);
      assert Advance(s) == (s1, None);
      UnfoldQuiet(s, s.slots);
      UnfoldQuiet(s, s.slots + 1);
    } else {
      assert Advance(s) == (BranchDelaySlot(None, 0), Some(t));
      assert AdvanceTimes(BranchDelaySlot(None, 0), 0) == (BranchDelaySlot(None, 0), []);
      assert AdvanceTimes(s, 1) == (BranchDelaySlot(None, 0), [t] + []);
      assert [t] + [] == [t];
    }
  }

  /** The delayed branch after `set(t, 1)`: the next instruction executes, and the one after it is fetched from `t`. */
  lemma SetThenAdvance(s: BranchDelaySlot, t: Word)
    ensures Advance(Set(s, t, 1)) == (BranchDelaySlot(Some(t), 0), None)
    ensures Advance(Advance(Set(s, t, 1)).0) == (BranchDelaySlot(None, 0), Some(t))
  {
  }
}

=== FILE: cdrom.dfy ===
/**
 * The CD-ROM controller's command sequencing and its status byte.
 *
 * A command byte written by the CPU sets a write latch; `handle_command`
 * takes it, waits until the command's parameter bytes are in the parameter
 * FIFO, then runs the command's handler once per call (an "iteration")
 * until the handler reports that it has finished. The handlers themselves
 * talk to the disc backend and are a parameter of this model.
 */
module Cdrom {
  import opened Wrappers

  /** The parts of the controller state that sequencing and the status byte use. */
  datatype Controller = Controller(
    latch: bool,               // a command byte was written and not yet taken
    command: bv8,              // the command register
    index: Option<bv8>,        // the command being run
    iteration: nat,            // how many steps of it have run
    busy: bool,                // the BUSYSTS bit of the status register
    parameters: nat,           // bytes available in the parameter FIFO
    responses: nat,            // bytes available in the response FIFO
    reading: bool,
    seeking: bool)

  // The status byte.

  /** The READ/SEEK/PLAY field, bits 5-7 of a status byte. */
  function ReadSeekPlay(v: bv8): (r: bv8)
    ensures r < 8
  {
    (v >> 5) & 0x7
  }

  /**
   * `stat_value`: the motor-on bit is always set, bit 5 reports reading and
   * bit 6 seeking. At most one of the two may be on; the source asserts
   * this, so both at once is a panic, here `None`.
   */
  function StatValue(reading: bool, seeking: bool): (r: Option<bv8>)
    ensures r.Some? <==> !(reading && seeking)
    ensures r.Some? ==> r.value & 0x02 == 0x02
    ensures r.Some? ==> (r.value & 0x20 == 0x20 <==> reading)
    ensures r.Some? ==> (r.value & 0x40 == 0x40 <==> seeking)
    ensures r.Some? ==> r.value & 0x9D == 0
  {
    var motor: bv8 := 0x02;
    if reading && ReadSeekPlay(motor) != 0 then None
    else
      var v := if reading then motor | 0x20 else motor;
      if seeking && ReadSeekPlay(v) != 0 then None
      else Some(if seeking then v | 0x40 else v)
  }

  /** The drive activity a status byte reports: (reading, seeking). */
  function StatActivity(v: bv8): (bool, bool) {
    (v & 0x20 != 0, v & 0x40 != 0)
  }

  /** The status byte reports back exactly the activity it was built from. */
  lemma StatRoundTrip(reading: bool, seeking: bool)
    requires !(reading && seeking)
    ensures StatValue(reading, seeking).Some?
    ensures StatActivity(StatValue(reading, seeking).value) == (reading, seeking)
  {
  }

  /** An idle drive reports 0x02, a reading one 0x22 and a seeking one 0x42. */
  lemma StatExamples()
    ensures StatValue(false, false) == Some(0x02)
    ensures StatValue(true, false) == Some(0x22)
    ensures StatValue(false, true) == Some(0x42)
    ensures StatValue(true, true) == None
  {
  }

  // Command sequencing.

  /**
   * The number of parameter bytes a command needs before a step may run;
   * `None` for a command that is not implemented. No command's requirement
   * depends on the iteration.
   */
  function ParameterCount(code: bv8): (r: Option<nat>)
    ensures r.Some? <==> code in {0x01, 0x02, 0x06, 0x09, 0x0E, 0x15, 0x19, 0x1A}
    ensures r.Some? ==> r.value <= 3
  {
    match code
    case 0x01 => Some(0)
    case 0x02 => Some(3)
    case 0x06 => Some(0)
    case 0x09 => Some(0)
    case 0x0E => Some(1)
    case 0x15 => Some(0)
    case 0x19 => Some(1)
    case 0x1A => Some(0)
    case _ => None
  }

  /**
   * A command handler: given the controller, the command and the iteration,
   * the controller afterwards and whether the command has finished.
   */
  type Handler = (Controller, bv8, nat) -> (Controller, bool)

  /** Taking a new command: busy is set, the latch cleared, and the command starts at iteration 0. */
  function Intake(c: Controller): (r: Controller)
    ensures r.index == Some(c.command) && r.iteration == 0
    ensures r.busy && !r.latch
    ensures r == c.(latch := r.latch, index := r.index, iteration := r.iteration, busy := r.busy)
  {
    c.(busy := true, latch := false, index := Some(c.command), iteration := 0)
  }

  /**
   * `handle_command`: `Some((c', ran))`, with `ran` true when a handler step
   * ran, or `None` when the source panics: an unimplemented command, a
   * response FIFO that still holds bytes before the step, or a parameter
   * FIFO that still holds bytes after it.
   */
  function HandleCommand(c: Controller, run: Handler): (r: Option<(Controller, bool)>)
    ensures c.index.None? && !c.latch ==> r == Some((c, false))
    ensures r.Some? && r.value.1 ==> !r.value.0.busy && r.value.0.parameters == 0
    ensures r.Some? && !r.value.1 && (c.index.Some? || c.latch) ==> r.value.0 == (if c.index.None? then Intake(c) else c)
    ensures r.None? ==> c.index.Some? || c.latch
  {
    var d := if c.index.None? && c.latch then Intake(c) else c;
    if d.index.None? then Some((c, false))
    else
      var code := d.index.value;
      match ParameterCount(code)
      case None => None
      case Some(needed) =>
        if d.parameters < needed then Some((d, false))
        else if d.responses != 0 then None
        else
          var (e, finished) := run(d, code, d.iteration);
          var f := if finished then e.(index := None) else e.(iteration := e.iteration + 1);
          if f.parameters != 0 then None
          else Some((f.(busy := false), true))
  }

  /** The command a call works on: the one in progress, or a newly latched one. */
  function Current(c: Controller): Option<bv8> {
    if c.index.Some? then c.index else if c.latch then Some(c.command) else None
  }

  /** An unimplemented command panics as soon as it is the current command. */
  lemma UnknownCommandRejected(c: Controller, run: Handler)
    requires Current(c).Some? && ParameterCount(Current(c).value).None?
    ensures HandleCommand(c, run).None?
  {
  }

  /** Too few parameter bytes: the call waits, and a newly taken command stays busy while it does. */
  lemma WaitsForParameters(c: Controller, run: Handler)
    requires Current(c).Some? && ParameterCount(Current(c).value).Some?
    requires c.parameters < ParameterCount(Current(c).value).value
    ensures HandleCommand(c, run).Some?
    ensures !HandleCommand(c, run).value.1
    ensures c.index.None? ==> HandleCommand(c, run).value.0.busy
  {
  }

  /** A step needs an empty response FIFO. */
  lemma ResponsesMustBeEmpty(c: Controller, run: Handler)
    requires Current(c).Some? && ParameterCount(Current(c).value).Some?
    requires c.parameters >= ParameterCount(Current(c).value).value
    requires c.responses != 0
    ensures HandleCommand(c, run).None?
  {
  }

  /**
   * A step that runs: the handler sees the current command and iteration;
   * if it finishes the command is cleared, otherwise the iteration advances;
   * busy is cleared; a handler that leaves parameter bytes behind panics.
   */
  lemma StepRuns(c: Controller, run: Handler)
    requires Current(c).Some? && ParameterCount(Current(c).value).Some?
    requires c.parameters >= ParameterCount(Current(c).value).value
    requires c.responses == 0
    ensures var it := if c.index.Some? then c.iteration else 0;
      var d := if c.index.Some? then c else Intake(c);
      var (e, finished) := run(d, Current(c).value, it);
      && (HandleCommand(c, run).Some? <==> e.parameters == 0)
      && (HandleCommand(c, run).Some? ==>
            && HandleCommand(c, run).value.1
            && !HandleCommand(c, run).value.0.busy
            && (finished ==> HandleCommand(c, run).value.0.index.None?)
            && (!finished ==> HandleCommand(c, run).value.0.index == e.index
                              && HandleCommand(c, run).value.0.iteration == e.iteration + 1))
  {
  }

  /**
   * A command whose handler finishes on its first step and consumes its
   * parameters runs to completion in one call; the next call, with no new
   * command latched, does nothing.
   */
  lemma OneShotCommand(c: Controller, run: Handler)
    requires c.index.None? && c.latch && ParameterCount(c.command).Some?
    requires c.parameters >= ParameterCount(c.command).value && c.responses == 0
    requires run(Intake(c), c.command, 0).1
    requires run(Intake(c), c.command, 0).0.parameters == 0
    requires !run(Intake(c), c.command, 0).0.latch
    ensures HandleCommand(c, run).Some? && HandleCommand(c, run).value.1
    ensures var c1 := HandleCommand(c, run).value.0;
      c1.index.None? && !c1.busy && HandleCommand(c1, run) == Some((c1, false))
  {
  }
}

=== FILE: dmac_channel.dfy ===
/**
 * One word of a DMA transfer: where the word comes from or goes to (the
 * channel's FIFO or the OTC generator), and how each sync mode's counters
 * move with it.
 *
 * Main memory is a map from word addresses to words, 0 where nothing has
 * been written, of `ramSize` bytes: a word access at an unaligned address
 * or at an address past the end panics, as the memory's `read_u32` and
 * `write_u32` do. A step either moves one word, stalls because a FIFO is
 * empty or full (the source's `Err(())`, with nothing changed), or panics.
 */
module DmacChannel {
  import opened Wrappers
  import opened Fifos
  import opened Primitive
  import opened Bits
  import opened DmacTypes

  /** What a transfer touches: main memory (its contents and its size in bytes) and the FIFOs of the GPU and the CD-ROM drive. */
  datatype Bus = Bus(ram: map<bv32, bv32>, ramSize: nat, gpuRead: Fifo<bv32>, gp0: Fifo<bv32>, cdromData: Fifo<bv8>)

  /** The word stored at `a`; memory starts zeroed. */
  function RamWord(ram: map<bv32, bv32>, a: bv32): bv32 {
    if a in ram then ram[a] else 0
  }

  /** A word access at `a` is word-aligned and starts inside main memory. */
  predicate InRam(bus: Bus, a: bv32) {
    a & 3 == 0 && (a as int) < bus.ramSize
  }

  /** `read_u32` of main memory: the stored word, or a panic (None) outside memory or unaligned. */
  function ReadWord(bus: Bus, a: bv32): (r: Option<bv32>)
    ensures r.Some? <==> InRam(bus, a)
    ensures r.Some? ==> r.value == RamWord(bus.ram, a)
  {
    if InRam(bus, a) then Some(RamWord(bus.ram, a)) else None
  }

  /** `write_u32` of main memory: only the word at `a` changes, or a panic (None) outside memory or unaligned. */
  function WriteWord(bus: Bus, a: bv32, w: bv32): (r: Option<Bus>)
    ensures r.Some? <==> InRam(bus, a)
    ensures r.Some? ==> r.value == bus.(ram := bus.ram[a := w])
  {
    if InRam(bus, a) then Some(bus.(ram := bus.ram[a := w])) else None
  }

  /** The result of one step: it moved a word, stalled on a FIFO, or panicked. */
  datatype Outcome<T> = Moved(value: T) | Stalled | Panicked

  /** The word the OTC channel writes at `address`: a pointer to the entry below it, or the end marker for the last one. */
  function OtcEntry(address: bv32, last: bool): (r: bv32)
    ensures r <= 0x00FF_FFFF
    ensures last ==> r == 0x00FF_FFFF
    ensures !last ==> r == (address - DataSize) & 0x00FF_FFFF
  {
    if !last then (address - DataSize) & 0x00FF_FFFF else 0x00FF_FFFF
  }

  /**
   * `pop_channel_data`: channel 2 reads the GPU's read FIFO; channel 3 needs
   * four bytes of CD-ROM data and packs them little-endian; channel 6
   * generates the ordering-table entry; any other channel panics.
   */
  function PopChannelData(bus: Bus, channel: nat, address: bv32, last: bool): (r: Outcome<(bv32, Bus)>)
    ensures r.Panicked? <==> channel !in {ChannelGpu, ChannelCdrom, ChannelOtc}
    ensures channel == ChannelGpu ==> (r.Stalled? <==> |bus.gpuRead.items| == 0)
    ensures channel == ChannelGpu && r.Moved? ==>
      [r.value.0] + r.value.1.gpuRead.items == bus.gpuRead.items && r.value.1 == bus.(gpuRead := r.value.1.gpuRead)
    ensures channel == ChannelCdrom ==> (r.Stalled? <==> |bus.cdromData.items| < 4)
    ensures channel == ChannelCdrom && r.Moved? ==>
      LeBytes32(r.value.0) + r.value.1.cdromData.items == bus.cdromData.items && r.value.1 == bus.(cdromData := r.value.1.cdromData)
    ensures channel == ChannelOtc ==> r == Moved((OtcEntry(address, last), bus))
  {
    if channel == ChannelGpu then
      match bus.gpuRead.ReadOne()
      case None => Stalled
      case Some((w, q)) => Moved((w, bus.(gpuRead := q)))
    else if channel == ChannelCdrom then
      var q := bus.cdromData;
      if q.ReadAvailable() < 4 then Stalled
      else
        var w := FromLeBytes32(q.items[..4]);
        LeBytes32RoundTrip(w, q.items[..4]);
        assert q.items == q.items[..4] + q.items[4..];
        Moved((w, bus.(cdromData := Fifo(q.items[4..], q.capacity))))
    else if channel == ChannelOtc then
      Moved((OtcEntry(address, last), bus))
    else Panicked
  }

  /** `push_channel_data`: channel 2 writes GP0; the OTC channel and every other channel panic. */
  function PushChannelData(bus: Bus, channel: nat, value: bv32): (r: Outcome<Bus>)
    ensures r.Panicked? <==> channel != ChannelGpu
    ensures channel == ChannelGpu ==> (r.Stalled? <==> |bus.gp0.items| >= bus.gp0.capacity)
    ensures r.Moved? ==> r.value == bus.(gp0 := Fifo(bus.gp0.items + [value], bus.gp0.capacity))
  {
    if channel == ChannelGpu then
      match bus.gp0.WriteOne(value)
      case None => Stalled
      case Some(q) => Moved(bus.(gp0 := q))
    else Panicked
  }

  /**
   * The data half of a step: from the channel the popped word is stored at
   * `address` (the pop comes first, so an empty FIFO stalls before the
   * write can panic); to the channel the word at `address` is read first,
   * then pushed.
   */
  function MoveWord(bus: Bus, channel: nat, direction: TransferDirection, address: bv32, last: bool): (r: Outcome<Bus>)
    ensures direction == FromChannel ==> match PopChannelData(bus, channel, address, last)
      case Moved((w, b)) => r == (if InRam(bus, address) then Moved(b.(ram := b.ram[address := w])) else Panicked)
      case Stalled => r.Stalled?
      case Panicked => r.Panicked?
    ensures direction == ToChannel ==>
      r == (if InRam(bus, address) then PushChannelData(bus, channel, RamWord(bus.ram, address)) else Panicked)
  {
    match direction
    case FromChannel =>
      (match PopChannelData(bus, channel, address, last)
       case Moved((w, b)) =>
         (match WriteWord(b, address, w)
          case Some(b2) => Moved(b2)
          case None => Panicked)
       case Stalled => Stalled
       case Panicked => Panicked)
    case ToChannel =>
      match ReadWord(bus, address)
      case None => Panicked
      case Some(w) => PushChannelData(bus, channel, w)
  }

  /**
   * continuous `handle_transfer`: one word, then the address steps and the
   * count goes up; finished when no transfers remain. A remaining count that
   * would underflow is a panic.
   */
  function ContinuousStep(bus: Bus, cs: ContinuousState, channel: nat, direction: TransferDirection, step: StepDirection)
    : (r: Outcome<(ContinuousState, Bus, bool)>)
    ensures r.Moved? ==> r.value.0 == ContinuousIncrement(cs, step)
    ensures r.Moved? ==> ContinuousRemaining(r.value.0).Some? && (r.value.2 <==> ContinuousRemaining(r.value.0).value == 0)
    ensures r.Moved? ==> MoveWord(bus, channel, direction, cs.address, ContinuousRemaining(cs) == Some(1)) == Moved(r.value.1)
    ensures r.Stalled? ==> MoveWord(bus, channel, direction, cs.address, ContinuousRemaining(cs) == Some(1)).Stalled?
  {
    var last := ContinuousRemaining(cs) == Some(1);
    if direction == FromChannel && ContinuousRemaining(cs).None? then Panicked
    else
      match MoveWord(bus, channel, direction, cs.address, last)
      case Stalled => Stalled
      case Panicked => Panicked
      case Moved(b) =>
        var cs2 := ContinuousIncrement(cs, step);
        match ContinuousRemaining(cs2)
        case None => Panicked
        case Some(n) => Moved((cs2, b, n == 0))
  }

  /**
   * blocks `handle_transfer`: one word, then the address steps and the
   * counters advance; finished when no transfers remain.
   */
  function BlocksStep(bus: Bus, bs: BlocksState, channel: nat, direction: TransferDirection, step: StepDirection)
    : (r: Outcome<(BlocksState, Bus, bool)>)
    ensures r.Moved? ==> r.value.0 == BlocksIncrement(bs, step)
    ensures r.Moved? ==> BlocksRemaining(r.value.0).Some? && (r.value.2 <==> BlocksRemaining(r.value.0).value == 0)
    ensures r.Moved? ==> MoveWord(bus, channel, direction, bs.address, BlocksRemaining(bs) == Some(1)) == Moved(r.value.1)
    ensures r.Stalled? ==> MoveWord(bus, channel, direction, bs.address, BlocksRemaining(bs) == Some(1)).Stalled?
  {
    var last := BlocksRemaining(bs) == Some(1);
    if direction == FromChannel && BlocksRemaining(bs).None? then Panicked
    else
      match MoveWord(bus, channel, direction, bs.address, last)
      case Stalled => Stalled
      case Panicked => Panicked
      case Moved(b) =>
        var bs2 := BlocksIncrement(bs, step);
        match BlocksRemaining(bs2)
        case None => Panicked
        case Some(n) => Moved((bs2, b, n == 0))
  }

  /** `process_header`: the low 24 bits are the next header's address and the top 8 bits the word count. */
  function ProcessHeader(header: bv32): (r: (bv32, nat))
    ensures r.0 <= 0x00FF_FFFF && r.1 < 0x100
  {
    (header & 0x00FF_FFFF, (header >> 24) as int)
  }

  /** The header's fields are the bitfields 0-23 and 24-31 of the header word. */
  lemma ProcessHeaderFields(header: bv32)
    ensures ProcessHeader(header).0 == Extract(Bitfield(0, 24), header)
    ensures ProcessHeader(header).1 == Extract(Bitfield(24, 8), header) as int
  {
    ExtractAtNative(0, 24, header);
    FieldMaskNative(0, 24);
    ExtractAtNative(24, 8, header);
    FieldMaskNative(24, 8);
  }

  /** `(count as u32) * DATA_SIZE`: the byte offset of word `n`, with 32-bit wrap-around; always word-aligned. */
  function WordOffset(n: nat): (r: bv32)
    ensures r & 3 == 0
  {
    if n == 0 then 0 else WordAligned(WordOffset(n - 1)); WordOffset(n - 1) + DataSize
  }

  lemma WordAligned(p: bv32)
    requires p & 3 == 0
    ensures (p + DataSize) & 3 == 0
  {
  }

  /** The first words of a node sit 0, 4, 8 and 12 bytes past its first data word. */
  lemma WordOffsetExamples()
    ensures WordOffset(0) == 0 && WordOffset(1) == 4 && WordOffset(2) == 8 && WordOffset(3) == 12
  {
  }

  /** The address of the node's next data word: past the header word, `count` words in. */
  function NodeWord(ls: LinkedListState): bv32 {
    ls.currentHeader + DataSize + WordOffset(ls.currentCount)
  }

  /**
   * linked-list `handle_transfer`: with no words left in the current node it
   * finishes at the end marker 0xFF_FFFF or a null next address, or loads
   * the next header; otherwise it pushes the next word of the node, read
   * from the header address + 4 + 4 * count. Either read panics outside
   * main memory or unaligned.
   */
  function LinkedListStep(bus: Bus, ls: LinkedListState, channel: nat): (r: Outcome<(LinkedListState, Bus, bool)>)
    ensures r.Panicked? && ls.currentCount < ls.targetCount ==> channel != ChannelGpu || !InRam(bus, NodeWord(ls))
    ensures ls.currentCount > ls.targetCount ==> r.Panicked?
    ensures ls.currentCount == ls.targetCount && r.Moved? ==> r.value.1 == bus
    ensures ls.currentCount == ls.targetCount && ls.nextHeader == 0x00FF_FFFF ==> r == Moved((ls, bus, true))
    ensures ls.currentCount == ls.targetCount && ls.nextHeader != 0x00FF_FFFF ==> (r.Panicked? <==> !InRam(bus, ls.nextHeader))
    ensures ls.currentCount < ls.targetCount && !InRam(bus, NodeWord(ls)) ==> r.Panicked?
    ensures ls.currentCount < ls.targetCount && r.Moved? ==>
      && r.value == (ls.(currentCount := ls.currentCount + 1), r.value.1, false)
      && PushChannelData(bus, channel, RamWord(bus.ram, NodeWord(ls))) == Moved(r.value.1)
  {
    match LinkedListRemaining(ls)
    case None => Panicked
    case Some(remaining) =>
      if remaining == 0 then
        if ls.nextHeader == 0x00FF_FFFF then Moved((ls, bus, true))
        else
          match ReadWord(bus, ls.nextHeader)
          case None => Panicked
          case Some(header) =>
            var (address, count) := ProcessHeader(header);
            if address == 0 then Moved((ls, bus, true))
            else Moved((LinkedListState(ls.nextHeader, address, count, 0), bus, false))
      else
        match ReadWord(bus, NodeWord(ls))
        case None => Panicked
        case Some(w) =>
          match PushChannelData(bus, channel, w)
          case Stalled => Stalled
          case Panicked => Panicked
          case Moved(b) => Moved((ls.(currentCount := ls.currentCount + 1), b, false))
  }

  /**
   * A node with no words left loads the next header: a null address ends the
   * transfer, otherwise the node becomes current with the header's count.
   */
  lemma LinkedListLoadsHeader(bus: Bus, ls: LinkedListState, channel: nat)
    requires ls.currentCount == ls.targetCount && ls.nextHeader != 0x00FF_FFFF && InRam(bus, ls.nextHeader)
    ensures var header := RamWord(bus.ram, ls.nextHeader);
      && (header & 0x00FF_FFFF == 0 ==> LinkedListStep(bus, ls, channel) == Moved((ls, bus, true)))
      && (header & 0x00FF_FFFF != 0 ==>
            LinkedListStep(bus, ls, channel) ==
              Moved((LinkedListState(ls.nextHeader, header & 0x00FF_FFFF, ProcessHeader(header).1, 0), bus, false)))
  {
  }
}

=== FILE: dmac_chcr.dfy ===
/**
 * A CPU write to a channel's control register (CHCR) as the DMA controller
 * takes it: the direction, step and sync mode are decoded, and setting the
 * start/busy bit starts the transfer.
 */
module DmacChcr {
  import opened Wrappers
  import opened Bits
  import opened DmacTypes
  import opened DmacTransfer

  /** The direction bit (0), the step bit (1) and the start/busy bit (24) of CHCR. */
  predicate DirectionBit(v: bv32) { v & 0x1 != 0 }
  predicate StepBit(v: bv32) { v & 0x2 != 0 }
  predicate StartBit(v: bv32) { v & 0x0100_0000 != 0 }

  /** The three bits are the source's one-bit fields at 0, 1 and 24, read with `extract_from(value) > 0`. */
  lemma ControlBits(v: bv32)
    ensures DirectionBit(v) <==> Extract(Bitfield(0, 1), v) > 0
    ensures StepBit(v) <==> Extract(Bitfield(1, 1), v) > 0
    ensures StartBit(v) <==> Extract(Bitfield(24, 1), v) > 0
  {
    ExtractAtNative(0, 1, v);
    FieldMaskNative(0, 1);
    ExtractAtNative(1, 1, v);
    FieldMaskNative(1, 1);
    ExtractAtNative(24, 1, v);
    FieldMaskNative(24, 1);
  }

  /** The value the OTC channel keeps of a write: direction 0, step backwards, and only the start/busy, trigger and bit-30 bits of the write. */
  function OtcValue(value: bv32): (r: bv32)
    ensures !DirectionBit(r) && StepBit(r)
    ensures StartBit(r) == StartBit(value)
    ensures r & 0xAEFF_FFFC == 0 && r & 0x5100_0000 == value & 0x5100_0000
  {
    0x2 | (value & 0x5100_0000)
  }

  /** The sync mode field, bits 9-10. */
  function SyncField(v: bv32): (r: bv32)
    ensures r < 4
  {
    (v >> 9) & 3
  }

  /** A sync mode with its counters at 0; the reserved mode 3 has none. */
  function NewSyncMode(code: bv32): (r: Option<SyncModeState>)
    ensures r.Some? <==> code < 3
    ensures r.Some? ==> !r.value.Undefined?
  {
    if code == 0 then Some(Continuous(ContinuousState(0, 0, 0)))
    else if code == 1 then Some(Blocks(BlocksState(0, 0, 0, 0, 0)))
    else if code == 2 then Some(LinkedList(LinkedListState(0, 0, 0, 0)))
    else None
  }

  /**
   * The channel-level half of a CHCR write of the (already forced) value
   * `v`: the transfer state afterwards and the result. Setting start/busy on
   * a started channel is an error that changes nothing. Otherwise started,
   * direction and step take the written bits; the reserved sync mode 3 is an
   * error after those updates; any other mode restarts its counters, and a
   * started channel is initialized from MADR and BCR.
   */
  function WriteControl(ts: TransferState, channel: nat, v: bv32, regs: ChannelRegisters): (r: (TransferState, Result<bv32, string>))
    ensures r.1.Ok? ==> r.1.value == v
    ensures r.1.Ok? || SyncField(v) == 3 ==> r.0.interruptEnabled == ts.interruptEnabled && r.0.interrupted == ts.interrupted
  {
    var start := StartBit(v);
    if start && ts.started then (ts, Err("DMA transfer already started"))
    else
      var ts1 := ts.(started := start,
                     direction := if DirectionBit(v) then ToChannel else FromChannel,
                     step := if StepBit(v) then Backwards else Forwards);
      match NewSyncMode(SyncField(v))
      case None => (ts1, Err("Reserved sync mode"))
      case Some(sync) =>
        var ts2 := ts1.(sync := sync);
        (if start then TransferInit(ts2, channel, regs).value else ts2, Ok(v))
  }

  /** What a CHCR write did: the controller afterwards and the register value, or the error. */
  datatype ChcrWrite = ChcrWrite(c: Controller, result: Result<bv32, string>)

  /** `handle_chcr` on a write: the OTC channel's value is forced, then the channel takes the write; no other channel changes. */
  function HandleChcr(c: Controller, channel: nat, value: bv32, regs: ChannelRegisters): (r: ChcrWrite)
    requires c.Valid() && channel < ChannelCount
    ensures r.c.Valid() && r.c == c.(channels := c.channels[channel := r.c.channels[channel]])
  {
    var (ts, result) := WriteControl(c.channels[channel], channel, Effective(channel, value), regs);
    ChcrWrite(c.(channels := c.channels[channel := ts]), result)
  }

  /** The value the channel acts on: the write, forced on the OTC channel. */
  function Effective(channel: nat, value: bv32): bv32 {
    if channel == ChannelOtc then OtcValue(value) else value
  }

  /** Starting a channel that is already started is an error, and nothing changes. */
  lemma AlreadyStartedRejected(c: Controller, channel: nat, value: bv32, regs: ChannelRegisters)
    requires c.Valid() && channel < ChannelCount
    requires StartBit(Effective(channel, value)) && c.channels[channel].started
    ensures HandleChcr(c, channel, value, regs) == ChcrWrite(c, Err("DMA transfer already started"))
  {
    assert c.(channels := c.channels[channel := c.channels[channel]]) == c;
  }

  /**
   * Any other write takes started, direction and step from bits 24, 0 and 1,
   * and fails exactly when it selects the reserved sync mode 3; on success
   * the register keeps the value.
   */
  lemma WriteControlDecodes(ts: TransferState, channel: nat, v: bv32, regs: ChannelRegisters)
    requires !(StartBit(v) && ts.started)
    ensures var r := WriteControl(ts, channel, v, regs);
      && (r.0.started <==> StartBit(v))
      && (r.0.direction == ToChannel <==> DirectionBit(v))
      && (r.0.step == Backwards <==> StepBit(v))
      && (r.1.Err? <==> SyncField(v) == 3)
      && (r.1.Ok? ==> r.0.sync.Continuous? == (SyncField(v) == 0) && r.0.sync.Blocks? == (SyncField(v) == 1))
  {
  }

  /** The OTC channel always runs towards memory, stepping backwards, whatever is written. */
  lemma OtcChannelForced(c: Controller, value: bv32, regs: ChannelRegisters)
    requires c.Valid() && HandleChcr(c, ChannelOtc, value, regs).result.Ok?
    ensures HandleChcr(c, ChannelOtc, value, regs).c.channels[ChannelOtc].direction == FromChannel
    ensures HandleChcr(c, ChannelOtc, value, regs).c.channels[ChannelOtc].step == Backwards
  {
    var v := Effective(ChannelOtc, value);
    if StartBit(v) && c.channels[ChannelOtc].started {
      AlreadyStartedRejected(c, ChannelOtc, value, regs);
    } else {
      WriteControlDecodes(c.channels[ChannelOtc], ChannelOtc, v, regs);
    }
  }

  /** A write that starts a channel leaves it ready to run: its counters come from MADR and BCR, and the GPU channel waits 0x80 cycles. */
  lemma StartInitializes(ts: TransferState, channel: nat, v: bv32, regs: ChannelRegisters)
    requires WriteControl(ts, channel, v, regs).1.Ok? && WriteControl(ts, channel, v, regs).0.started
    ensures var ts2 := WriteControl(ts, channel, v, regs).0;
      && !ts2.sync.Undefined?
      && ts2.delayCycles == (if channel == ChannelGpu then 0x80 else 0)
      && (ts2.sync.Continuous? ==> ContinuousRemaining(ts2.sync.cs).Some? && ContinuousRemaining(ts2.sync.cs).value >= 1)
  {
  }
}

=== FILE: dmac_dicr.dfy ===
/**
 * The DMA interrupt register (DICR) as the controller sees it: the value it
 * packs from its interrupt state, and what a write by the CPU does to that
 * state.
 *
 * Bit layout: 15 forces an interrupt, 16-22 enable each channel's
 * interrupt, 23 is the master enable, 24-30 are each channel's flag and 31
 * is the master flag.
 */
module DmacDicr {
  import opened Wrappers
  import opened Bits
  import opened DmacTypes

  function EnableField(i: nat): Bitfield {
    Bitfield(16 + i, 1)
  }

  function FlagField(i: nat): Bitfield {
    Bitfield(24 + i, 1)
  }

  const ForceField: Bitfield := Bitfield(15, 1)
  const MasterEnableField: Bitfield := Bitfield(23, 1)
  const MasterFlagField: Bitfield := Bitfield(31, 1)

  /** What bit `k` of the packed register reports about the controller. */
  function DicrBit(c: Controller, k: nat): bv32
    requires c.Valid()
  {
    if 16 <= k < 23 then Flag(c.channels[k - 16].interruptEnabled)
    else if k == 23 then Flag(c.masterEnabled)
    else if 24 <= k < 31 then Flag(c.channels[k - 24].interrupted)
    else if k == 31 then Flag(c.masterInterrupted)
    else 0
  }

  /** The loop of `calculate_dicr_value` from channel `i` on: each channel's enable bit, then its flag bit. */
  function PackChannels(chs: seq<TransferState>, i: nat, v: bv32): bv32
    requires i <= |chs| == ChannelCount
    decreases ChannelCount - i
  {
    if i == ChannelCount then v
    else
      var v := Insert(EnableField(i), v, Flag(chs[i].interruptEnabled));
      var v := Insert(FlagField(i), v, Flag(chs[i].interrupted));
      PackChannels(chs, i + 1, v)
  }

  /** `calculate_dicr_value`: the master enable, every channel's enable and flag, and the master flag, inserted into 0. */
  function CalculateDicr(c: Controller): bv32
    requires c.Valid()
  {
    var v := Insert(MasterEnableField, 0, Flag(c.masterEnabled));
    var v := PackChannels(c.channels, 0, v);
    Insert(MasterFlagField, v, Flag(c.masterInterrupted))
  }

  /** The loop sets the enable and flag bits of the channels from `i` on and keeps every other bit. */
  lemma {:induction false} PackChannelsBit(chs: seq<TransferState>, i: nat, v: bv32, k: nat)
    requires i <= |chs| == ChannelCount && k < 32
    ensures BitOf(PackChannels(chs, i, v), k) ==
      if 16 + i <= k < 23 then Flag(chs[k - 16].interruptEnabled)
      else if 24 + i <= k < 31 then Flag(chs[k - 24].interrupted)
      else BitOf(v, k)
    decreases ChannelCount - i
  {
    if i < ChannelCount {
      var v1 := Insert(EnableField(i), v, Flag(chs[i].interruptEnabled));
      var v2 := Insert(FlagField(i), v1, Flag(chs[i].interrupted));
      BitOfInsert(v, 16 + i, Flag(chs[i].interruptEnabled), k);
      BitOfInsert(v1, 24 + i, Flag(chs[i].interrupted), k);
      PackChannelsBit(chs, i + 1, v2, k);
    }
  }

  lemma BitOfZero(k: nat)
    requires k < 32
    ensures BitOf(0, k) == 0
  {
    BitOfInsert(0, k, 0, k);
    assert Insert(Bitfield(k, 1), 0, 0) == 0 by {
      InsertZero(Bitfield(k, 1), 0);
    }
  }

  /** Every bit of the packed register is the state it reports, and bits 0-15 are 0. */
  lemma CalculateDicrBit(c: Controller, k: nat)
    requires c.Valid() && k < 32
    ensures BitOf(CalculateDicr(c), k) == DicrBit(c, k)
    ensures k < 16 ==> BitOf(CalculateDicr(c), k) == 0
  {
    var v0 := Insert(MasterEnableField, 0, Flag(c.masterEnabled));
    var v1 := PackChannels(c.channels, 0, v0);
    BitOfZero(k);
    BitOfInsert(0, 23, Flag(c.masterEnabled), k);
    PackChannelsBit(c.channels, 0, v0, k);
    BitOfInsert(v1, 31, Flag(c.masterInterrupted), k);
  }

  /** The state a write leaves in one channel: its enable from bit 16+i, and its flag cleared when bit 24+i is 1. */
  function WriteChannel(ts: TransferState, value: bv32, i: nat): (r: TransferState)
    ensures r.interruptEnabled <==> BitOf(value, 16 + i) == 1
    ensures r.interrupted <==> ts.interrupted && BitOf(value, 24 + i) == 0
    ensures r == ts.(interruptEnabled := r.interruptEnabled, interrupted := r.interrupted)
  {
    ts.(interruptEnabled := BitOf(value, 16 + i) > 0,
        interrupted := if BitOf(value, 24 + i) > 0 then false else ts.interrupted)
  }

  /**
   * `handle_dicr` on a write: a set force bit is an error; otherwise the
   * master enable and each channel's enable are taken from the value, a
   * flag written as 1 clears that channel's interrupted state, and the
   * register becomes the recalculated value.
   */
  function HandleDicr(c: Controller, value: bv32): (r: Result<(Controller, bv32), string>)
    requires c.Valid()
    ensures r.Err? <==> BitOf(value, 15) == 1
    ensures r.Ok? ==> r.value.0.Valid() && r.value.1 == CalculateDicr(r.value.0)
    ensures r.Ok? ==> (r.value.0.masterEnabled <==> BitOf(value, 23) == 1)
    ensures r.Ok? ==> r.value.0.masterInterrupted == c.masterInterrupted
    ensures r.Ok? ==> forall i :: 0 <= i < ChannelCount ==> r.value.0.channels[i] == WriteChannel(c.channels[i], value, i)
  {
    if Extract(ForceField, value) > 0 then Err("IRQ force bit set")
    else
      var chs := seq(ChannelCount, i requires 0 <= i < ChannelCount => WriteChannel(c.channels[i], value, i));
      var d := c.(masterEnabled := Extract(MasterEnableField, value) > 0, channels := chs);
      Ok((d, CalculateDicr(d)))
  }

  /**
   * Reading back after a write: each enable bit and the master enable read
   * as written, each flag bit reads 1 only if the channel was interrupted
   * and the write did not clear it, and the force bit and bits 0-14 read 0.
   */
  lemma HandleDicrReadBack(c: Controller, value: bv32, k: nat)
    requires c.Valid() && k < 32 && HandleDicr(c, value).Ok?
    ensures 16 <= k <= 23 ==> BitOf(HandleDicr(c, value).value.1, k) == BitOf(value, k)
    ensures 24 <= k < 31 ==> (BitOf(HandleDicr(c, value).value.1, k) == 1 <==> c.channels[k - 24].interrupted && BitOf(value, k) == 0)
    ensures k < 16 ==> BitOf(HandleDicr(c, value).value.1, k) == 0
  {
    var d := HandleDicr(c, value).value.0;
    CalculateDicrBit(d, k);
    if 16 <= k < 23 {
      var i := k - 16;
      assert d.channels[i] == WriteChannel(c.channels[i], value, i);
    } else if 24 <= k < 31 {
      var i := k - 24;
      assert d.channels[i] == WriteChannel(c.channels[i], value, i);
    }
  }
}

=== FILE: dmac_interrupt.dfy ===
/**
 * The DMA controller's interrupt logic: a finished transfer marks its
 * channel as interrupted when that channel's interrupt is enabled, and the
 * master flag rises, asserting the DMA line of the interrupt controller,
 * only on the edge where some enabled channel first reports an interrupt.
 */
module DmacInterrupt {
  import opened DmacTypes
  import opened DmacDicr
  import Intc

  /** A channel that both enables and reports an interrupt. */
  predicate Triggered(ts: TransferState) {
    ts.interruptEnabled && ts.interrupted
  }

  /** `handle_irq_trigger`: the channel is marked interrupted only if its interrupt is enabled; nothing else changes. */
  function IrqTrigger(ts: TransferState): (r: TransferState)
    ensures r.interrupted <==> ts.interrupted || ts.interruptEnabled
    ensures r.interruptEnabled == ts.interruptEnabled
    ensures r == ts.(interrupted := r.interrupted)
  {
    if ts.interruptEnabled then ts.(interrupted := true) else ts
  }

  /** A channel with its interrupt enabled always reports a trigger after `handle_irq_trigger`, and a disabled one is left alone. */
  lemma IrqTriggerEffect(ts: TransferState)
    ensures ts.interruptEnabled ==> Triggered(IrqTrigger(ts))
    ensures !ts.interruptEnabled ==> IrqTrigger(ts) == ts && !Triggered(IrqTrigger(ts))
  {
  }

  /** The OR loop of `handle_irq_raise` over the channels from `i` on. */
  function AnyTriggered(chs: seq<TransferState>, i: nat): bool
    requires i <= |chs|
    decreases |chs| - i
  {
    if i == |chs| then false else Triggered(chs[i]) || AnyTriggered(chs, i + 1)
  }

  /** The loop finds a trigger exactly when some channel from `i` on has one. */
  lemma {:induction false} AnyTriggeredExists(chs: seq<TransferState>, i: nat)
    requires i <= |chs|
    ensures AnyTriggered(chs, i) <==> exists j :: i <= j < |chs| && Triggered(chs[j])
    decreases |chs| - i
  {
    if i < |chs| {
      AnyTriggeredExists(chs, i + 1);
      if AnyTriggered(chs, i + 1) {
        var j :| i + 1 <= j < |chs| && Triggered(chs[j]);
        assert i <= j < |chs|;
      }
    }
  }

  /** The master trigger: the master enable is set and some channel is triggered. */
  function MasterTrigger(c: Controller): (r: bool)
    requires c.Valid()
    ensures r <==> c.masterEnabled && exists j :: 0 <= j < ChannelCount && Triggered(c.channels[j])
  {
    AnyTriggeredExists(c.channels, 0);
    c.masterEnabled && AnyTriggered(c.channels, 0)
  }

  /**
   * `handle_irq_raise`: the master flag follows the master trigger, the DICR
   * register is recalculated, and the DMA line is asserted only when the
   * trigger is on and the master flag was off. Returns the controller, the
   * new DICR value and the interrupt controller's status.
   */
  function IrqRaise(c: Controller, stat: Intc.Stat): (r: (Controller, bv32, Intc.Stat))
    requires c.Valid()
    ensures r.0.Valid() && r.0.channels == c.channels && r.0.masterEnabled == c.masterEnabled
    ensures r.0.masterInterrupted <==> c.masterEnabled && exists j :: 0 <= j < ChannelCount && Triggered(c.channels[j])
    ensures r.1 == CalculateDicr(r.0)
    ensures Intc.Pending(r.2, Intc.Dma) <==> Intc.Pending(stat, Intc.Dma) || (MasterTrigger(c) && !c.masterInterrupted)
    ensures forall m: Intc.Line :: m != Intc.Dma ==> Intc.Pending(r.2, m) == Intc.Pending(stat, m)
  {
    var trigger := MasterTrigger(c);
    var raise := trigger && !c.masterInterrupted;
    var d := c.(masterInterrupted := trigger);
    (d, CalculateDicr(d), if raise then Intc.AssertLine(stat, Intc.Dma) else stat)
  }

  /** Raising again with nothing changed asserts nothing new: the DMA line is edge-triggered. */
  lemma IrqRaiseTwice(c: Controller, stat: Intc.Stat, stat2: Intc.Stat)
    requires c.Valid()
    ensures IrqRaise(IrqRaise(c, stat).0, stat2) == (IrqRaise(c, stat).0, IrqRaise(c, stat).1, stat2)
  {
  }

  /** Without a trigger the master flag is cleared and no line is asserted. */
  lemma NoTriggerClears(c: Controller, stat: Intc.Stat)
    requires c.Valid() && !MasterTrigger(c)
    ensures !IrqRaise(c, stat).0.masterInterrupted
    ensures IrqRaise(c, stat).2 == stat
  {
  }

  /**
   * A channel that finishes with its interrupt enabled, under the master
   * enable, while the master flag is clear, gets the DMA line asserted by the
   * next raise.
   */
  lemma FinishedChannelRaises(c: Controller, i: nat, stat: Intc.Stat)
    requires c.Valid() && i < ChannelCount
    requires c.masterEnabled && c.channels[i].interruptEnabled && !c.masterInterrupted
    ensures var d := c.(channels := c.channels[i := IrqTrigger(c.channels[i])]);
      Intc.Pending(IrqRaise(d, stat).2, Intc.Dma) && IrqRaise(d, stat).0.masterInterrupted
  {
    var d := c.(channels := c.channels[i := IrqTrigger(c.channels[i])]);
    assert Triggered(d.channels[i]);
  }
}

=== FILE: dmac_transfer.dfy ===
/**
 * A channel's transfer as the DMA controller runs it: initialization from
 * the MADR and BCR registers when the channel starts, bursts of at most 16
 * words per call, and finalization, which writes the end state back to the
 * registers and raises the channel's interrupt flag.
 */
module DmacTransfer {
  import opened Wrappers
  import opened Bits
  import opened DmacTypes
  import opened DmacChannel
  import opened DmacInterrupt

  /** The channel registers a transfer reads at its start and writes at its end. */
  datatype ChannelRegisters = ChannelRegisters(madr: bv32, bcr: bv32, chcr: bv32)

  /** A 16-bit BCR field as a count: 0 stands for 0x1_0000. */
  function BcrCount(v: bv16): (r: nat)
    ensures 1 <= r <= 0x1_0000
    ensures v == 0 <==> r == 0x1_0000
  {
    if v == 0 then 0x1_0000 else v as int
  }

  /** The block size field, bits 0-15 of BCR. */
  function BlockSize(bcr: bv32): bv16 {
    (bcr & 0xFFFF) as bv16
  }

  /** The block amount field, bits 16-31 of BCR. */
  function BlockAmount(bcr: bv32): bv16 {
    (bcr >> 16) as bv16
  }

  /** The 24-bit start address and the two 16-bit BCR fields are plain masks of the registers. */
  lemma RegisterFields(madr: bv32, bcr: bv32)
    ensures Extract(Bitfield(0, 24), madr) == madr & 0x00FF_FFFF
    ensures Extract(Bitfield(0, 16), bcr) == bcr & 0xFFFF
    ensures Extract(Bitfield(16, 16), bcr) == bcr >> 16
  {
    ExtractAtNative(0, 24, madr);
    FieldMaskNative(0, 24);
    ExtractAtNative(0, 16, bcr);
    FieldMaskNative(0, 16);
    ExtractAtNative(16, 16, bcr);
    FieldMaskNative(16, 16);
  }

  /**
   * `handle_transfer_initialization`: the GPU channel waits 0x80 cycles
   * before its first word, the others none; the counters of the chosen sync
   * mode restart from the masked MADR and the BCR fields. A channel with no
   * sync mode panics (`None`).
   */
  function TransferInit(ts: TransferState, channel: nat, regs: ChannelRegisters): (r: Option<TransferState>)
    ensures r.Some? <==> !ts.sync.Undefined?
    ensures r.Some? ==> r.value.delayCycles == (if channel == ChannelGpu then 0x80 else 0)
    ensures r.Some? ==> r.value == ts.(delayCycles := r.value.delayCycles, sync := r.value.sync)
    ensures r.Some? ==> r.value.sync.Continuous? == ts.sync.Continuous? && r.value.sync.Blocks? == ts.sync.Blocks?
  {
    var delay := if channel == ChannelGpu then 0x80 else 0;
    var address := regs.madr & 0x00FF_FFFF;
    var bsCount := BcrCount(BlockSize(regs.bcr));
    var baCount := BcrCount(BlockAmount(regs.bcr));
    match ts.sync
    case Undefined => None
    case Continuous(_) => Some(ts.(delayCycles := delay, sync := Continuous(ContinuousState(address, bsCount, 0))))
    case Blocks(_) => Some(ts.(delayCycles := delay, sync := Blocks(BlocksState(address, 0, bsCount, 0, baCount))))
    case LinkedList(_) => Some(ts.(delayCycles := delay, sync := LinkedList(LinkedListState(0, address, 0, 0))))
  }

  /** A freshly initialized blocks transfer has valid counters and exactly block size times block amount words to go. */
  lemma InitBlocksRemaining(ts: TransferState, channel: nat, regs: ChannelRegisters)
    requires ts.sync.Blocks?
    ensures var bs := TransferInit(ts, channel, regs).value.sync.bs;
      && BlocksValid(bs)
      && bs.address == regs.madr & 0x00FF_FFFF
      && BlocksRemaining(bs) == Some(BcrCount(BlockSize(regs.bcr)) * BcrCount(BlockAmount(regs.bcr)))
  {
    FreshBlocks(regs.madr & 0x00FF_FFFF, BcrCount(BlockSize(regs.bcr)), BcrCount(BlockAmount(regs.bcr)));
  }

  lemma FreshBlocks(address: bv32, size: nat, amount: nat)
    requires size >= 1 && amount >= 1
    ensures BlocksValid(BlocksState(address, 0, size, 0, amount))
    ensures BlocksRemaining(BlocksState(address, 0, size, 0, amount)) == Some(size * amount)
  {
    assert BlocksDone(BlocksState(address, 0, size, 0, amount)) == 0;
  }

  /** A freshly initialized continuous transfer has the block size, at least one word, to go. */
  lemma InitContinuousRemaining(ts: TransferState, channel: nat, regs: ChannelRegisters)
    requires ts.sync.Continuous?
    ensures var cs := TransferInit(ts, channel, regs).value.sync.cs;
      && cs.address == regs.madr & 0x00FF_FFFF
      && ContinuousRemaining(cs) == Some(BcrCount(BlockSize(regs.bcr))) && ContinuousRemaining(cs).value >= 1
  {
    FreshContinuous(regs.madr & 0x00FF_FFFF, BcrCount(BlockSize(regs.bcr)));
  }

  lemma FreshContinuous(address: bv32, size: nat)
    requires size >= 1
    ensures ContinuousRemaining(ContinuousState(address, size, 0)) == Some(size)
  {
  }

  /** The MADR a blocks transfer leaves: its address advanced by the sum of the block size and amount, in words. */
  function BlocksEndAddress(bs: BlocksState): bv32 {
    bs.address + WordOffset(bs.targetBamount + bs.targetBsize)
  }

  /**
   * `handle_transfer_finalization`: the start/busy bit of CHCR is cleared; a
   * blocks transfer writes its end address to MADR and 0 to BCR; a linked
   * list writes the end marker 0xFF_FFFF to MADR; a continuous transfer
   * leaves MADR and BCR alone. A channel with no sync mode panics.
   */
  function TransferFinal(ts: TransferState, regs: ChannelRegisters): (r: Option<ChannelRegisters>)
    ensures r.Some? <==> !ts.sync.Undefined?
    ensures r.Some? ==> r.value.chcr == regs.chcr & !0x0100_0000
    ensures r.Some? && ts.sync.Continuous? ==> r.value.madr == regs.madr && r.value.bcr == regs.bcr
    ensures r.Some? && ts.sync.Blocks? ==>
      r.value.bcr == 0 && r.value.madr == BlocksEndAddress(ts.sync.bs)
    ensures r.Some? && ts.sync.LinkedList? ==> r.value.madr == 0x00FF_FFFF && r.value.bcr == regs.bcr
  {
    var chcr := regs.chcr & !0x0100_0000;
    match ts.sync
    case Undefined => None
    case Continuous(_) => Some(regs.(chcr := chcr))
    case Blocks(bs) =>
      Some(ChannelRegisters(BlocksEndAddress(bs), 0, chcr))
    case LinkedList(_) => Some(regs.(chcr := chcr, madr := 0x00FF_FFFF))
  }

  /** Clearing the start/busy bit, bit 24 of CHCR, with the field insert the source uses. */
  lemma StartBusyCleared(chcr: bv32)
    ensures Insert(Bitfield(24, 1), chcr, 0) == chcr & !0x0100_0000
  {
    InsertZero(Bitfield(24, 1), chcr);
    FieldMaskNative(24, 1);
  }

  /** One step of whichever sync mode the channel is in; linked lists must run towards the channel. */
  function SyncStep(bus: Bus, ts: TransferState, channel: nat): (r: Outcome<(TransferState, Bus, bool)>)
    ensures ts.sync.Undefined? ==> r.Panicked?
    ensures ts.sync.LinkedList? && ts.direction != ToChannel ==> r.Panicked?
    ensures r.Moved? ==> r.value.0 == ts.(sync := r.value.0.sync) && r.value.0.sync.Undefined? == ts.sync.Undefined?
  {
    match ts.sync
    case Undefined => Panicked
    case Continuous(cs) =>
      (match ContinuousStep(bus, cs, channel, ts.direction, ts.step)
       case Moved((cs2, b, finished)) => Moved((ts.(sync := Continuous(cs2)), b, finished))
       case Stalled => Stalled
       case Panicked => Panicked)
    case Blocks(bs) =>
      (match BlocksStep(bus, bs, channel, ts.direction, ts.step)
       case Moved((bs2, b, finished)) => Moved((ts.(sync := Blocks(bs2)), b, finished))
       case Stalled => Stalled
       case Panicked => Panicked)
    case LinkedList(ls) =>
      if ts.direction != ToChannel then Panicked
      else
        match LinkedListStep(bus, ls, channel)
        case Moved((ls2, b, finished)) => Moved((ts.(sync := LinkedList(ls2)), b, finished))
        case Stalled => Stalled
        case Panicked => Panicked
  }

  /** Where a burst stopped: the channel state, the bus, the words moved, and whether it finished or stalled. */
  datatype BurstEnd = BurstEnd(ts: TransferState, bus: Bus, count: nat, finished: bool, stalled: bool)

  /**
   * The loop of `handle_transfer`: up to `left` more steps, counting each
   * one that moves; it stops early when a step finishes the transfer or
   * stalls. `None` when a step panics.
   */
  function Burst(bus: Bus, ts: TransferState, channel: nat, left: nat, count: nat): (r: Option<BurstEnd>)
    ensures r.Some? ==> count <= r.value.count <= count + left
    ensures r.Some? ==> !(r.value.finished && r.value.stalled)
    ensures r.Some? && !r.value.finished && !r.value.stalled ==> r.value.count == count + left
    ensures r.Some? ==> r.value.ts == ts.(sync := r.value.ts.sync)
    decreases left
  {
    if left == 0 then Some(BurstEnd(ts, bus, count, false, false))
    else
      match SyncStep(bus, ts, channel)
      case Panicked => None
      case Stalled => Some(BurstEnd(ts, bus, count, false, true))
      case Moved((ts2, b, finished)) =>
        if finished then Some(BurstEnd(ts2, b, count + 1, true, false))
        else Burst(b, ts2, channel, left - 1, count + 1)
  }

  /** The number of words one call may move. */
  const BurstLength: nat := 16

  /** Whether DPCR enables channel `channel`: its bit 4 * channel + 3. */
  predicate ChannelEnabled(dpcr: bv32, channel: nat)
    requires channel < ChannelCount
  {
    BitOf(dpcr, 4 * channel + 3) == 1
  }

  /**
   * What one call did: the controller, the channel's registers, the bus,
   * and the result, `Some(words)` or `None` for the source's `Err(())`.
   */
  datatype TransferCall = TransferCall(c: Controller, regs: ChannelRegisters, bus: Bus, result: Option<nat>)

  /**
   * `handle_transfer`: nothing happens on a disabled or idle channel, a
   * pending delay only counts down, and otherwise a burst of at most 16
   * words runs. A finished transfer is finalized, stops, and raises the
   * channel's interrupt flag; a stalled one keeps the words already moved
   * and reports an error. `None` when the source panics.
   */
  function HandleTransfer(c: Controller, channel: nat, dpcr: bv32, regs: ChannelRegisters, bus: Bus): (r: Option<TransferCall>)
    requires c.Valid() && channel < ChannelCount
    ensures r.Some? ==> r.value.c.Valid() && r.value.c == c.(channels := c.channels[channel := r.value.c.channels[channel]])
    ensures r.Some? && r.value.result.Some? ==> r.value.result.value <= BurstLength
  {
    var ts := c.channels[channel];
    if !ChannelEnabled(dpcr, channel) || !ts.started then Some(TransferCall(c, regs, bus, Some(0)))
    else if ts.delayCycles > 0 then
      Some(TransferCall(c.(channels := c.channels[channel := ts.(delayCycles := ts.delayCycles - 1)]), regs, bus, Some(0)))
    else
      match Burst(bus, ts, channel, BurstLength, 0)
      case None => None
      case Some(e) => AfterBurst(c, channel, regs, e)
  }

  /** The end of `handle_transfer` once the loop is over: an error on a stall, finalization on a finished transfer. */
  function AfterBurst(c: Controller, channel: nat, regs: ChannelRegisters, e: BurstEnd): (r: Option<TransferCall>)
    requires c.Valid() && channel < ChannelCount
    ensures r.Some? ==> r.value.c.Valid() && r.value.c == c.(channels := c.channels[channel := r.value.c.channels[channel]])
    ensures r.Some? && r.value.result.Some? ==> r.value.result.value == e.count
    ensures r.Some? ==> r.value.bus == e.bus
  {
    if e.stalled then Some(TransferCall(c.(channels := c.channels[channel := e.ts]), regs, e.bus, None))
    else if !e.finished then Some(TransferCall(c.(channels := c.channels[channel := e.ts]), regs, e.bus, Some(e.count)))
    else
      match TransferFinal(e.ts, regs)
      case None => None
      case Some(regs2) =>
        var done := IrqTrigger(e.ts.(started := false));
        Some(TransferCall(c.(channels := c.channels[channel := done]), regs2, e.bus, Some(e.count)))
  }

  /** A disabled or idle channel: nothing changes and no words move. */
  lemma HandleTransferIdle(c: Controller, channel: nat, dpcr: bv32, regs: ChannelRegisters, bus: Bus)
    requires c.Valid() && channel < ChannelCount
    requires !ChannelEnabled(dpcr, channel) || !c.channels[channel].started
    ensures HandleTransfer(c, channel, dpcr, regs, bus) == Some(TransferCall(c, regs, bus, Some(0)))
  {
  }

  /** A pending delay only counts down by one; no words move. */
  lemma HandleTransferDelay(c: Controller, channel: nat, dpcr: bv32, regs: ChannelRegisters, bus: Bus)
    requires c.Valid() && channel < ChannelCount
    requires ChannelEnabled(dpcr, channel) && c.channels[channel].started && c.channels[channel].delayCycles > 0
    ensures var ts := c.channels[channel];
      HandleTransfer(c, channel, dpcr, regs, bus) ==
        Some(TransferCall(c.(channels := c.channels[channel := ts.(delayCycles := ts.delayCycles - 1)]), regs, bus, Some(0)))
  {
  }

  /**
   * A call that reports an error leaves the registers alone and the channel
   * still started; a call that stops a started channel cleared CHCR's
   * start/busy bit and raised the channel's interrupt flag if it is enabled.
   */
  lemma HandleTransferOutcome(c: Controller, channel: nat, dpcr: bv32, regs: ChannelRegisters, bus: Bus)
    requires c.Valid() && channel < ChannelCount
    requires HandleTransfer(c, channel, dpcr, regs, bus).Some?
    ensures var r := HandleTransfer(c, channel, dpcr, regs, bus).value;
      && (r.result.None? ==> r.regs == regs && r.c.channels[channel].started)
      && (c.channels[channel].started && !r.c.channels[channel].started ==>
            && r.regs.chcr == regs.chcr & !0x0100_0000
            && (r.c.channels[channel].interrupted <==> c.channels[channel].interrupted || c.channels[channel].interruptEnabled))
  {
    var ts := c.channels[channel];
    if ChannelEnabled(dpcr, channel) && ts.started && ts.delayCycles == 0 {
      var e := Burst(bus, ts, channel, BurstLength, 0).value;
      assert HandleTransfer(c, channel, dpcr, regs, bus) == AfterBurst(c, channel, regs, e);
      AfterBurstOutcome(c, channel, regs, e);
    }
  }

  lemma AfterBurstOutcome(c: Controller, channel: nat, regs: ChannelRegisters, e: BurstEnd)
    requires c.Valid() && channel < ChannelCount && e.ts.started
    requires AfterBurst(c, channel, regs, e).Some?
    ensures var r := AfterBurst(c, channel, regs, e).value;
      && (r.result.None? ==> r.regs == regs && r.c.channels[channel].started)
      && (!r.c.channels[channel].started ==>
            && r.regs.chcr == regs.chcr & !0x0100_0000
            && (r.c.channels[channel].interrupted <==> e.ts.interrupted || e.ts.interruptEnabled))
  {
  }

  /** A step that stalls on the first word changes neither the channel nor the bus, and the call reports an error. */
  lemma StallChangesNothing(c: Controller, channel: nat, dpcr: bv32, regs: ChannelRegisters, bus: Bus)
    requires c.Valid() && channel < ChannelCount
    requires ChannelEnabled(dpcr, channel) && c.channels[channel].started && c.channels[channel].delayCycles == 0
    requires SyncStep(bus, c.channels[channel], channel).Stalled?
    ensures HandleTransfer(c, channel, dpcr, regs, bus) == Some(TransferCall(c, regs, bus, None))
  {
    assert c.(channels := c.channels[channel := c.channels[channel]]) == c;
  }

  // Properties of whole transfers.

  /** The counters after `k` words of a blocks transfer. */
  function BlocksRun(bs: BlocksState, step: StepDirection, k: nat): BlocksState
    decreases k
  {
    if k == 0 then bs else BlocksRun(BlocksIncrement(bs, step), step, k - 1)
  }

  /** Counting a word ignores the address: the remaining count after an increment is the one after a plain count. */
  lemma IncrementIsCount(bs: BlocksState, step: StepDirection)
    ensures BlocksIncrement(bs, step) == BlocksCount(bs).0.(address := StepAddress(bs.address, step))
  {
  }

  /**
   * A blocks transfer started with block size `bs` and amount `ba` has
   * `bs * ba - k` words left after `k` words, with valid counters, so it
   * finishes on exactly its `bs * ba`-th word.
   */
  lemma {:induction false} BlocksRunRemaining(bs: BlocksState, step: StepDirection, k: nat)
    requires BlocksValid(bs) && BlocksRemaining(bs).Some? && k <= BlocksRemaining(bs).value
    ensures BlocksValid(BlocksRun(bs, step, k))
    ensures BlocksRemaining(BlocksRun(bs, step, k)) == Some(BlocksRemaining(bs).value - k)
    decreases k
  {
    if k > 0 {
      BlocksCountStep(bs);
      IncrementIsCount(bs, step);
      var next := BlocksIncrement(bs, step);
      assert BlocksValid(next) && BlocksRemaining(next) == Some(BlocksRemaining(bs).value - 1);
      BlocksRunRemaining(next, step, k - 1);
    }
  }

  /**
   * The ordering-table channel, run backwards from the channel into memory,
   * writes at each address a pointer to the next address it writes (masked
   * to 24 bits), and the end marker 0xFF_FFFF at the last one. It never
   * stalls; it panics exactly at an address outside main memory.
   */
  lemma OtcStepWrites(bus: Bus, cs: ContinuousState)
    requires ContinuousRemaining(cs).Some? && ContinuousRemaining(cs).value >= 1
    ensures var r := ContinuousStep(bus, cs, ChannelOtc, FromChannel, Backwards);
      && (r.Moved? <==> InRam(bus, cs.address))
      && (!r.Moved? ==> r.Panicked?)
      && (r.Moved? ==>
            && r.value.0.address == cs.address - DataSize
            && (r.value.2 <==> ContinuousRemaining(cs).value == 1)
            && r.value.1 == bus.(ram := bus.ram[cs.address := if r.value.2 then 0x00FF_FFFF else r.value.0.address & 0x00FF_FFFF]))
  {
    var last := ContinuousRemaining(cs) == Some(1);
    OtcMove(bus, cs.address, last);
    var cs2 := ContinuousIncrement(cs, Backwards);
    OtcNext(cs.address, cs2.address, last);
  }

  lemma OtcMove(bus: Bus, address: bv32, last: bool)
    ensures MoveWord(bus, ChannelOtc, FromChannel, address, last) ==
      if InRam(bus, address) then Moved(bus.(ram := bus.ram[address := OtcEntry(address, last)])) else Panicked
  {
    assert PopChannelData(bus, ChannelOtc, address, last) == Moved((OtcEntry(address, last), bus));
  }

  lemma OtcNext(address: bv32, next: bv32, last: bool)
    requires address - next == DataSize
    ensures next == address - DataSize
    ensures OtcEntry(address, last) == if last then 0x00FF_FFFF else next & 0x00FF_FFFF
  {
  }
}

=== FILE: dmac_types.dfy ===
/**
 * The DMA controller's state: per-channel transfer state, the counters of
 * the three sync modes, and the register rules of DICR and the OTC
 * channel's CHCR.
 *
 * A `Bitfield::copy` of a field at a fixed position is written here as the
 * masked merge `(d & !mask) | (s & mask)` and an `acknowledge` as
 * `v & !(a & mask)`, with the field's mask as a literal.
 */
module DmacTypes {
  import opened Wrappers

  const ChannelCount: nat := 7
  const ChannelGpu: nat := 2
  const ChannelCdrom: nat := 3
  const ChannelOtc: nat := 6

  /** Bytes moved per transfer. */
  const DataSize: bv32 := 4

  datatype TransferDirection = FromChannel | ToChannel

  datatype StepDirection = Forwards | Backwards

  /** `copy` of the field `m`: the field from `s`, the rest from `d`. */
  function CopyField(d: bv32, s: bv32, m: bv32): (r: bv32)
    ensures r & m == s & m
    ensures r & !m == d & !m
  {
    (d & !m) | (s & m)
  }

  /** `acknowledge` of the field `m`: the field bits set in `a` are cleared. */
  function ClearWritten(v: bv32, a: bv32, m: bv32): (r: bv32)
    ensures r & m == v & m & !a
    ensures r & !m == v & !m
  {
    v & !(a & m)
  }

  // DICR, as the bus writes it.

  /**
   * A DICR write: bits 0-5, 15, 16-22 and 23 are copied from the written
   * value, bits 24-30 are write-1-to-clear, and bit 31 is cleared.
   */
  function DicrWrite(reg: bv32, value: bv32): (r: bv32)
    ensures r & 0x00FF_803F == value & 0x00FF_803F
    ensures r & 0x0000_7FC0 == reg & 0x0000_7FC0
    ensures r & 0x7F00_0000 == reg & !value & 0x7F00_0000
    ensures r & 0x8000_0000 == 0
  {
    var r := CopyField(reg, value, 0x0000_003F);
    var r := CopyField(r, value, 0x0000_8000);
    var r := CopyField(r, value, 0x007F_0000);
    var r := CopyField(r, value, 0x0080_0000);
    var r := ClearWritten(r, value, 0x7F00_0000);
    r & !0x8000_0000
  }

  /** Writing the same value twice is writing it once. */
  lemma DicrWriteIdempotent(reg: bv32, value: bv32)
    ensures DicrWrite(DicrWrite(reg, value), value) == DicrWrite(reg, value)
  {
    var r1 := DicrWrite(reg, value);
    var r2 := DicrWrite(r1, value);
    DicrWriteClosed(reg, value);
    DicrWriteClosed(r1, value);
    DicrClosedTwice(reg, value, r1, r2);
  }

  /** The DICR write in one expression. */
  lemma DicrWriteClosed(reg: bv32, value: bv32)
    ensures DicrWrite(reg, value) == (reg & 0x0000_7FC0) | (value & 0x00FF_803F) | (reg & !value & 0x7F00_0000)
  {
  }

  lemma DicrClosedTwice(reg: bv32, value: bv32, r1: bv32, r2: bv32)
    requires r1 == (reg & 0x0000_7FC0) | (value & 0x00FF_803F) | (reg & !value & 0x7F00_0000)
    requires r2 == (r1 & 0x0000_7FC0) | (value & 0x00FF_803F) | (r1 & !value & 0x7F00_0000)
    ensures r2 == r1
  {
  }

  // The OTC channel's CHCR.

  /** The OTC channel's CHCR at power-on: step backwards. */
  const OtcChcrInitial: bv32 := 0x0000_0002

  /** Bits 24 (start/busy), 28 (start/trigger) and 30. */
  const OtcChcrWritable: bv32 := 0x5100_0000

  /** A bus write to the OTC CHCR copies only bits 24, 28 and 30. */
  function OtcChcrWrite(reg: bv32, value: bv32): (r: bv32)
    ensures r & OtcChcrWritable == value & OtcChcrWritable
    ensures r & !OtcChcrWritable == reg & !OtcChcrWritable
  {
    var r := CopyField(reg, value, 0x0100_0000);
    var r := CopyField(r, value, 0x1000_0000);
    CopyField(r, value, 0x4000_0000)
  }

  /** The register after a sequence of bus writes. */
  function OtcChcrWrites(reg: bv32, values: seq<bv32>): bv32
    decreases |values|
  {
    if |values| == 0 then reg else OtcChcrWrites(OtcChcrWrite(reg, values[0]), values[1..])
  }

  /** Whatever is written, the OTC CHCR keeps every bit outside 24, 28 and 30 as it was at power-on. */
  lemma {:induction false} OtcChcrKeepsDirection(reg: bv32, values: seq<bv32>)
    requires reg & !OtcChcrWritable == OtcChcrInitial
    ensures OtcChcrWrites(reg, values) & !OtcChcrWritable == OtcChcrInitial
    decreases |values|
  {
    if |values| > 0 {
      OtcChcrKeepsDirection(OtcChcrWrite(reg, values[0]), values[1..]);
    }
  }

  // The sync-mode counters.

  /** The address one word on, in the given direction, with 32-bit wrap-around. */
  function StepAddress(a: bv32, step: StepDirection): (r: bv32)
    ensures step == Forwards ==> r - a == DataSize
    ensures step == Backwards ==> a - r == DataSize
  {
    match step
    case Forwards => a + DataSize
    case Backwards => a - DataSize
  }

  datatype ContinuousState = ContinuousState(address: bv32, targetCount: nat, currentCount: nat)

  /** `transfers_remaining`; `None` where the unsigned subtraction would underflow. */
  function ContinuousRemaining(cs: ContinuousState): (r: Option<nat>)
    ensures r.Some? <==> cs.currentCount <= cs.targetCount
    ensures r.Some? ==> r.value + cs.currentCount == cs.targetCount
  {
    if cs.currentCount <= cs.targetCount then Some(cs.targetCount - cs.currentCount) else None
  }

  /** `increment`: one word on, and one more transfer counted. */
  function ContinuousIncrement(cs: ContinuousState, step: StepDirection): (r: ContinuousState)
    ensures r.currentCount == cs.currentCount + 1 && r.targetCount == cs.targetCount
    ensures r.address == StepAddress(cs.address, step)
  {
    cs.(address := StepAddress(cs.address, step), currentCount := cs.currentCount + 1)
  }

  datatype BlocksState = BlocksState(
    address: bv32,
    bsizeCount: nat,
    targetBsize: nat,
    bamountCount: nat,
    targetBamount: nat)

  /** Words transferred so far: whole blocks plus the words of the current one. */
  function BlocksDone(bs: BlocksState): nat {
    bs.bamountCount * bs.targetBsize + bs.bsizeCount
  }

  /** `transfers_remaining`: `bs * ba - (bamount * bs + bsize)`; `None` on underflow. */
  function BlocksRemaining(bs: BlocksState): (r: Option<nat>)
    ensures r.Some? <==> BlocksDone(bs) <= bs.targetBsize * bs.targetBamount
    ensures r.Some? ==> r.value + BlocksDone(bs) == bs.targetBsize * bs.targetBamount
  {
    var target := bs.targetBsize * bs.targetBamount;
    var current := BlocksDone(bs);
    if current <= target then Some(target - current) else None
  }

  /**
   * The counting half of `increment`: one more word in the block; at the
   * block size the word count wraps to 0 and the block count goes up, and
   * the result says a new block begins.
   */
  function BlocksCount(bs: BlocksState): (r: (BlocksState, bool))
    ensures r.1 <==> bs.bsizeCount + 1 == bs.targetBsize
    ensures r.1 ==> r.0.bsizeCount == 0 && r.0.bamountCount == bs.bamountCount + 1
    ensures !r.1 ==> r.0.bsizeCount == bs.bsizeCount + 1 && r.0.bamountCount == bs.bamountCount
    ensures r.0.address == bs.address && r.0.targetBsize == bs.targetBsize && r.0.targetBamount == bs.targetBamount
  {
    var n := bs.bsizeCount + 1;
    if n == bs.targetBsize then (bs.(bsizeCount := 0, bamountCount := bs.bamountCount + 1), true)
    else (bs.(bsizeCount := n), false)
  }

  /** `increment` of the blocks state: one word on in the given direction, then counted. */
  function BlocksIncrement(bs: BlocksState, step: StepDirection): (r: BlocksState)
    ensures r.address == StepAddress(bs.address, step)
    ensures BlocksDone(r) == BlocksDone(bs) + 1
  {
    BlocksCountDone(bs);
    BlocksCount(bs.(address := StepAddress(bs.address, step))).0
  }

  /** The counters of a blocks transfer that has not overrun: a word count below the block size, and no word past the last block. */
  predicate BlocksValid(bs: BlocksState) {
    && 0 < bs.targetBsize
    && bs.bsizeCount < bs.targetBsize
    && (bs.bamountCount < bs.targetBamount || (bs.bamountCount == bs.targetBamount && bs.bsizeCount == 0))
  }

  /** Counting a word adds exactly one to the words done, whether or not a block ends. */
  lemma BlocksCountDone(bs: BlocksState)
    ensures BlocksDone(BlocksCount(bs).0) == BlocksDone(bs) + 1
  {
    var r := BlocksCount(bs).0;
    if bs.bsizeCount + 1 == bs.targetBsize {
      assert BlocksDone(r) == (bs.bamountCount + 1) * bs.targetBsize;
      MulSucc(bs.bamountCount, bs.targetBsize);
    }
  }

  lemma MulSucc(a: nat, b: nat)
    ensures (a + 1) * b == a * b + b
  {
  }

  /** Valid counters never underflow `transfers_remaining`. */
  lemma BlocksValidRemaining(bs: BlocksState)
    requires BlocksValid(bs)
    ensures BlocksRemaining(bs).Some?
  {
    if bs.bamountCount < bs.targetBamount {
      MulMonotone(bs.bamountCount + 1, bs.targetBamount, bs.targetBsize);
      MulSucc(bs.bamountCount, bs.targetBsize);
      MulComm(bs.targetBamount, bs.targetBsize);
    } else {
      MulComm(bs.targetBamount, bs.targetBsize);
    }
  }

  lemma MulMonotone(a: nat, b: nat, m: nat)
    requires a <= b
    ensures a * m <= b * m
  {
  }

  lemma MulComm(a: nat, b: nat)
    ensures a * b == b * a
  {
  }

  /** While words remain, counting one keeps the counters valid and leaves one fewer to go. */
  lemma BlocksCountStep(bs: BlocksState)
    requires BlocksValid(bs) && BlocksRemaining(bs).Some? && BlocksRemaining(bs).value > 0
    ensures BlocksValid(BlocksCount(bs).0)
    ensures BlocksRemaining(BlocksCount(bs).0) == Some(BlocksRemaining(bs).value - 1)
  {
    BlocksCountDone(bs);
    var r := BlocksCount(bs).0;
    if bs.bamountCount == bs.targetBamount {
      MulComm(bs.targetBamount, bs.targetBsize);
      assert false;
    }
  }

  datatype LinkedListState = LinkedListState(
    currentHeader: bv32,
    nextHeader: bv32,
    targetCount: nat,
    currentCount: nat)

  /** `transfers_remaining`; `None` on underflow. */
  function LinkedListRemaining(ls: LinkedListState): (r: Option<nat>)
    ensures r.Some? <==> ls.currentCount <= ls.targetCount
    ensures r.Some? ==> r.value + ls.currentCount == ls.targetCount
  {
    if ls.currentCount <= ls.targetCount then Some(ls.targetCount - ls.currentCount) else None
  }

  // The per-channel transfer state.

  datatype SyncModeState =
    | Undefined
    | Continuous(cs: ContinuousState)
    | Blocks(bs: BlocksState)
    | LinkedList(ls: LinkedListState)

  datatype TransferState = TransferState(
    started: bool,
    direction: TransferDirection,
    step: StepDirection,
    sync: SyncModeState,
    delayCycles: nat,
    interruptEnabled: bool,
    interrupted: bool)

  /** `TransferState::reset`: not started and no sync mode. */
  function ResetTransfer(): (r: TransferState)
    ensures !r.started && r.sync.Undefined? && !r.interrupted
  {
    TransferState(false, FromChannel, Forwards, Undefined, 0, false, false)
  }

  /** The whole controller: every channel's transfer state and the master interrupt flags. */
  datatype Controller = Controller(channels: seq<TransferState>, masterEnabled: bool, masterInterrupted: bool) {
    predicate Valid() {
      |channels| == ChannelCount
    }
  }

  function NewController(): (r: Controller)
    ensures r.Valid()
    ensures forall i :: 0 <= i < ChannelCount ==> !r.channels[i].started && !r.channels[i].interrupted
  {
    Controller(seq(ChannelCount, _ => ResetTransfer()), false, false)
  }
}

=== FILE: exception.dfy ===
/**
 * Exception entry and interrupt polling for the R3000: `set_exception`
 * saves the restart address in EPC, records the cause, pushes the
 * interrupt-enable / mode stack and jumps to the general exception vector;
 * `handle_interrupts` raises an interrupt exception when an unmasked
 * interrupt is pending.
 */
module Exception {
  import opened Alu
  import opened Bits
  import opened BranchDelay
  import opened R3000State

  /**
   * `set_exception`. The source asserts that no branch is pending (an
   * exception in a delay slot is not implemented) and handles only the
   * interrupt and syscall codes; any other code reaches `unimplemented!`.
   * The restart address is computed by `RestartAddress`.
   */
  function SetException(cpu: Cpu, cp0: Cp0, exccode: nat): (r: (Cpu, Cp0))
    requires Valid(cpu) && Cp0Valid(cp0)
    requires !Branching(cpu.delay)
    requires exccode == ExccodeInt || exccode == ExccodeSyscall
    ensures Valid(r.0) && Cp0Valid(r.1)
  {
    var status := StatusPushException(Status(cp0));
    var cause := if exccode == ExccodeInt then Insert(CauseExccode, Cause(cp0), 0) else Insert(CauseExccode, Cause(cp0), 8);
    var base := if Extract(StatusBev, status) != 0 then 0xBF80_0100 else 0x8000_0000;
    (cpu.(pc := base + 0x80), Cp0(cp0.regs[StatusIndex := status][CauseIndex := cause][EpcIndex := FromWord(RestartAddress(cpu.pc, exccode))]))
  }

  /**
   * The address saved in EPC: `pc` is the instruction after the one
   * executing, so a syscall saves `pc - 4`; an interrupt is taken before
   * the instruction at `pc` runs, and the source adds the 4 back.
   */
  function RestartAddress(pc: Word, exccode: nat): Word {
    if exccode == ExccodeInt then Wrap(Wrap(pc - 4) + 4) else Wrap(pc - 4)
  }

  /** An interrupt restarts the instruction at `pc`: the 4 taken off and added back cancel. */
  lemma InterruptRestartsAtPc(pc: Word)
    ensures RestartAddress(pc, ExccodeInt) == pc
  {
    WrapCongruent(Wrap(pc - 4) + 4, pc);
  }

  /** The vector is chosen by BEV before entry, which the stack push does not touch. */
  lemma PushKeepsBev(s: bv32)
    ensures Extract(StatusBev, StatusPushException(s)) == Extract(StatusBev, s)
  {
    StatusFields(s);
    StatusFields(StatusPushException(s));
  }

  /** The three registers entry writes, and the vector, as computed from the registers before entry. */
  lemma EntryRegisters(cpu: Cpu, cp0: Cp0, exccode: nat)
    requires Valid(cpu) && Cp0Valid(cp0)
    requires !Branching(cpu.delay)
    requires exccode == ExccodeInt || exccode == ExccodeSyscall
    ensures exccode == ExccodeInt ==> Cause(SetException(cpu, cp0, exccode).1) == Insert(CauseExccode, Cause(cp0), 0)
    ensures exccode == ExccodeSyscall ==> Cause(SetException(cpu, cp0, exccode).1) == Insert(CauseExccode, Cause(cp0), 8)
    ensures Status(SetException(cpu, cp0, exccode).1) == StatusPushException(Status(cp0))
    ensures SetException(cpu, cp0, exccode).0.pc
         == (if Extract(StatusBev, StatusPushException(Status(cp0))) != 0 then 0xBF80_0100 else 0x8000_0000) + 0x80
  {
  }

  /** EPC holds the address of the instruction to restart: `pc - 4` for a syscall, `pc` itself for an interrupt. */
  lemma EntryEpc(cpu: Cpu, cp0: Cp0, exccode: nat)
    requires Valid(cpu) && Cp0Valid(cp0)
    requires !Branching(cpu.delay)
    requires exccode == ExccodeInt || exccode == ExccodeSyscall
    ensures exccode == ExccodeInt ==> Epc(SetException(cpu, cp0, exccode).1) == FromWord(cpu.pc)
    ensures exccode == ExccodeSyscall ==> Epc(SetException(cpu, cp0, exccode).1) == FromWord(Wrap(cpu.pc - 4))
  {
    EntryEpcRegister(cpu, cp0, exccode);
    if exccode == ExccodeInt {
      InterruptRestartsAtPc(cpu.pc);
    }
  }

  lemma EntryEpcRegister(cpu: Cpu, cp0: Cp0, exccode: nat)
    requires Valid(cpu) && Cp0Valid(cp0)
    requires !Branching(cpu.delay)
    requires exccode == ExccodeInt || exccode == ExccodeSyscall
    ensures Epc(SetException(cpu, cp0, exccode).1) == FromWord(RestartAddress(cpu.pc, exccode))
  {
  }

  /** Writing a five-bit code into bits 2-6 reads back the code and keeps the other bits. */
  lemma CodeFieldRoundTrip(c: bv32, x: bv32)
    requires x < 32
    ensures ((((c & 0xFFFF_FF83) | ((x & 0x1F) << 2)) >> 2) & 0x1F) == x
    ensures ((c & 0xFFFF_FF83) | ((x & 0x1F) << 2)) & 0xFFFF_FF83 == c & 0xFFFF_FF83
  {
  }

  /** A code below 32 written into the exception code field reads back, and the other cause bits are kept. */
  lemma CauseCode(c: bv32, x: bv32)
    requires x < 32
    ensures Extract(CauseExccode, Insert(CauseExccode, c, x)) == x
    ensures Insert(CauseExccode, c, x) & 0xFFFF_FF83 == c & 0xFFFF_FF83
  {
    CauseExccodeField(c, x);
    CauseExccodeField(Insert(CauseExccode, c, x), 0);
    CodeFieldRoundTrip(c, x);
  }

  /** The exception code field of cause holds the code of the exception taken. */
  lemma EntryCause(cpu: Cpu, cp0: Cp0, exccode: nat)
    requires Valid(cpu) && Cp0Valid(cp0)
    requires !Branching(cpu.delay)
    requires exccode == ExccodeInt || exccode == ExccodeSyscall
    ensures exccode == ExccodeInt ==> Extract(CauseExccode, Cause(SetException(cpu, cp0, exccode).1)) == 0
    ensures exccode == ExccodeSyscall ==> Extract(CauseExccode, Cause(SetException(cpu, cp0, exccode).1)) == 8
  {
    EntryRegisters(cpu, cp0, exccode);
    CauseAfterEntry(Cause(cp0), Cause(SetException(cpu, cp0, exccode).1), exccode);
  }

  /**
   * The cause word entry writes, given the one before: the code reads back
   * and every bit outside the exception code field is kept.
   */
  lemma CauseAfterEntry(before: bv32, after: bv32, exccode: nat)
    requires exccode == ExccodeInt || exccode == ExccodeSyscall
    requires exccode == ExccodeInt ==> after == Insert(CauseExccode, before, 0)
    requires exccode == ExccodeSyscall ==> after == Insert(CauseExccode, before, 8)
    ensures exccode == ExccodeInt ==> Extract(CauseExccode, after) == 0
    ensures exccode == ExccodeSyscall ==> Extract(CauseExccode, after) == 8
    ensures after & 0xFFFF_FF83 == before & 0xFFFF_FF83
  {
    if exccode == ExccodeInt {
      CauseCode(before, 0);
    } else {
      CauseCode(before, 8);
    }
  }

  /**
   * Entry disables interrupts, and the program counter is the general
   * vector: 0xBF80_0180 when BEV was set, 0x8000_0080 otherwise.
   */
  lemma EntryVector(cpu: Cpu, cp0: Cp0, exccode: nat)
    requires Valid(cpu) && Cp0Valid(cp0)
    requires !Branching(cpu.delay)
    requires exccode == ExccodeInt || exccode == ExccodeSyscall
    ensures Extract(StatusIec, Status(SetException(cpu, cp0, exccode).1)) == 0
    ensures SetException(cpu, cp0, exccode).0.pc == (if Extract(StatusBev, Status(cp0)) != 0 then 0xBF80_0180 else 0x8000_0080)
  {
    EntryRegisters(cpu, cp0, exccode);
    var status := StatusPushException(Status(cp0));
    PushException(Status(cp0));
    StatusFields(status);
    PushKeepsBev(Status(cp0));
  }

  /** Entry leaves the registers, hi, lo, the delay slot and the other coprocessor registers alone. */
  lemma EntryFrame(cpu: Cpu, cp0: Cp0, exccode: nat)
    requires Valid(cpu) && Cp0Valid(cp0)
    requires !Branching(cpu.delay)
    requires exccode == ExccodeInt || exccode == ExccodeSyscall
    ensures var (c, p) := SetException(cpu, cp0, exccode);
      && c.gpr == cpu.gpr && c.hi == cpu.hi && c.lo == cpu.lo && c.delay == cpu.delay
      && forall i :: 0 <= i < 32 && i != StatusIndex && i != CauseIndex && i != EpcIndex ==> p.regs[i] == cp0.regs[i]
  {
  }

  /** An unmasked pending interrupt: some bit set in both the status mask and the cause pending field. */
  predicate InterruptRequested(status: bv32, cause: bv32) {
    Extract(StatusIm, status) & Extract(CauseIp, cause) != 0
  }

  /** `update_ip_field`: copies the interrupt controller's line into cause bit 10. */
  function UpdateIpField(cp0: Cp0, intcPending: bool): (r: Cp0)
    requires Cp0Valid(cp0)
    ensures Cp0Valid(r)
  {
    Cp0(cp0.regs[CauseIndex := Insert(CauseIpIntc, Cause(cp0), if intcPending then 1 else 0)])
  }

  /**
   * Sampling the line sets cause bit 10 to the line's level and leaves every
   * other cause bit and every other coprocessor register as it was.
   */
  lemma SampleIntcLine(cp0: Cp0, intcPending: bool)
    requires Cp0Valid(cp0)
    ensures var r := UpdateIpField(cp0, intcPending);
      && (Cause(r) >> 10) & 1 == (if intcPending then 1 else 0)
      && Cause(r) & 0xFFFF_FBFF == Cause(cp0) & 0xFFFF_FBFF
      && forall i :: 0 <= i < 32 && i != CauseIndex ==> r.regs[i] == cp0.regs[i]
  {
    var f: bv32 := if intcPending then 1 else 0;
    var c := Cause(cp0);
    var r := UpdateIpField(cp0, intcPending);
    CauseIntcField(c, f);
    assert Cause(r) == Insert(CauseIpIntc, c, f);
    IntcBitSet(c, f, Cause(r));
  }

  lemma IntcBitSet(c: bv32, f: bv32, d: bv32)
    requires f < 2 && d == (c & 0xFFFF_FBFF) | ((f & 1) << 10)
    ensures (d >> 10) & 1 == f && d & 0xFFFF_FBFF == c & 0xFFFF_FBFF
  {
  }

  /** `clear_ip_field`: releases the interrupt controller's line and clears every pending bit in cause. */
  function ClearIpField(m: Machine): (r: Machine)
    requires MachineValid(m)
    ensures MachineValid(r) && !r.intcPending
  {
    m.(cp0 := Cp0(m.cp0.regs[CauseIndex := Insert(CauseIp, Cause(m.cp0), 0)]), intcPending := false)
  }

  /**
   * `handle_interrupts`, called before every instruction: nothing happens
   * while interrupts are disabled or a branch is pending; otherwise the
   * interrupt controller's line is copied into cause and an interrupt
   * exception is raised if it or another pending bit is unmasked.
   */
  function HandleInterrupts(m: Machine): (r: Machine)
    requires MachineValid(m)
    ensures MachineValid(r)
  {
    if Extract(StatusIec, Status(m.cp0)) == 0 then m
    else if Branching(m.cpu.delay) then m
    else
      var cp0 := UpdateIpField(m.cp0, m.intcPending);
      if InterruptRequested(Status(cp0), Cause(cp0)) then
        var (cpu', cp0') := SetException(m.cpu, cp0, ExccodeInt);
        m.(cpu := cpu', cp0 := cp0')
      else
        m.(cp0 := cp0)
  }

  /** With interrupts disabled, or during a branch delay, polling changes nothing. */
  lemma InterruptsHeld(m: Machine)
    requires MachineValid(m)
    requires Extract(StatusIec, Status(m.cp0)) == 0 || Branching(m.cpu.delay)
    ensures HandleInterrupts(m) == m
  {
  }

  /**
   * With interrupts enabled and no branch pending, an interrupt exception is
   * taken exactly when an unmasked bit is pending after the interrupt
   * controller's line is sampled: then the CPU restarts at the vector with
   * EPC = pc, and otherwise only cause bit 10 changes.
   */
  lemma InterruptTaken(m: Machine)
    requires MachineValid(m)
    requires Extract(StatusIec, Status(m.cp0)) != 0 && !Branching(m.cpu.delay)
    ensures var cp0 := UpdateIpField(m.cp0, m.intcPending);
      && (InterruptRequested(Status(m.cp0), Cause(cp0)) ==>
            HandleInterrupts(m).cpu.pc in {0xBF80_0180, 0x8000_0080} && Epc(HandleInterrupts(m).cp0) == FromWord(m.cpu.pc)
            && Extract(StatusIec, Status(HandleInterrupts(m).cp0)) == 0)
      && (!InterruptRequested(Status(m.cp0), Cause(cp0)) ==>
            HandleInterrupts(m) == m.(cp0 := cp0))
  {
    var cp0 := UpdateIpField(m.cp0, m.intcPending);
    if InterruptRequested(Status(m.cp0), Cause(cp0)) {
      EntryEpc(m.cpu, cp0, ExccodeInt);
      EntryVector(m.cpu, cp0, ExccodeInt);
    }
  }

  /** An interrupt controller request with its mask bit (status bit 10) set is taken, whatever else cause holds. */
  lemma IntcRequestTaken(m: Machine)
    requires MachineValid(m)
    requires Extract(StatusIec, Status(m.cp0)) != 0 && !Branching(m.cpu.delay)
    requires m.intcPending && (Status(m.cp0) >> 10) & 1 == 1
    ensures Epc(HandleInterrupts(m).cp0) == FromWord(m.cpu.pc)
    ensures HandleInterrupts(m).cpu.pc in {0xBF80_0180, 0x8000_0080}
  {
    var cp0 := UpdateIpField(m.cp0, true);
    CauseIntcField(Cause(m.cp0), 1);
    CauseIpField(Cause(cp0));
    StatusFields(Status(m.cp0));
    assert InterruptRequested(Status(cp0), Cause(cp0));
    InterruptTaken(m);
  }

  /** After `clear_ip_field` no interrupt is requested, whatever the mask. */
  lemma ClearedNothingRequested(m: Machine)
    requires MachineValid(m)
    ensures !InterruptRequested(Status(ClearIpField(m).cp0), Cause(ClearIpField(m).cp0))
  {
    CauseIpClear(Cause(m.cp0));
    CauseIpField(Cause(ClearIpField(m).cp0));
  }
}

=== FILE: execute.dfy ===
/**
 * The R3000 instruction handlers: what one decoded instruction does to the
 * machine. A handler either completes, stalls on a bus hazard (the machine
 * is left as it was and the instruction is retried later), fails with the
 * error the source reports for behaviour it does not implement, or reaches
 * an `unimplemented!` panic (address translation into kseg2).
 *
 * The program counter a handler sees is the address of the instruction
 * after it, that is, of the branch delay slot.
 */
module Execute {
  import opened Wrappers
  import opened Alu
  import opened Bits
  import opened BranchDelay
  import opened MemoryController
  import opened R3000State
  import opened Exception
  import opened Unaligned
  import opened Primitive
  import I = Instructions

  datatype Outcome =
    | Done(m: Machine)
    | Stalled(hazard: Hazard)
    | Failed(message: string)
    | Panicked(reason: string)

  function Reg(m: Machine, i: nat): Word
    requires MachineValid(m) && i < 32
  {
    m.cpu.gpr[i]
  }

  /** Everything but general purpose register `i` is the same in both machines. */
  predicate OthersUnchanged(m: Machine, m': Machine, i: nat)
    requires MachineValid(m) && MachineValid(m') && i < 32
  {
    && m'.cpu.pc == m.cpu.pc && m'.cpu.delay == m.cpu.delay
    && m'.cpu.hi == m.cpu.hi && m'.cpu.lo == m.cpu.lo
    && m'.cp0 == m.cp0 && m'.bus == m.bus && m'.intcPending == m.intcPending
    && (forall j :: 0 <= j < 32 && j != i ==> m'.cpu.gpr[j] == m.cpu.gpr[j])
  }

  /** A register write followed by `handle_zero`: register `i` holds `v` unless it is register 0. */
  function WriteReg(m: Machine, i: nat, v: Word): (r: Machine)
    requires MachineValid(m) && i < 32
    ensures MachineValid(r) && OthersUnchanged(m, r, i)
    ensures i != 0 ==> r.cpu.gpr[i] == v
  {
    m.(cpu := SetGpr(m.cpu, i, v))
  }

  // Handler groups.

  predicate IsShift(h: I.Handler) {
    h.Sll? || h.Srl? || h.Sra? || h.Sllv? || h.Srlv? || h.Srav?
  }

  predicate IsRegisterArith(h: I.Handler) {
    h.Add? || h.Addu? || h.Sub? || h.Subu? || h.And? || h.Or? || h.Xor? || h.Nor? || h.Slt? || h.Sltu?
  }

  predicate IsImmediateArith(h: I.Handler) {
    h.Addi? || h.Addiu? || h.Slti? || h.Sltiu? || h.Andi? || h.Ori? || h.Xori? || h.Lui?
  }

  predicate IsHiLo(h: I.Handler) {
    h.Mfhi? || h.Mthi? || h.Mflo? || h.Mtlo? || h.Mult? || h.Multu? || h.Div? || h.Divu?
  }

  predicate IsConditionalBranch(h: I.Handler) {
    h.Bltz? || h.Bgez? || h.Beq? || h.Bne? || h.Blez? || h.Bgtz?
  }

  predicate IsJump(h: I.Handler) {
    h.Jr? || h.Jalr? || h.J? || h.Jal?
  }

  predicate IsLoad(h: I.Handler) {
    h.Lb? || h.Lh? || h.Lwl? || h.Lw? || h.Lbu? || h.Lhu? || h.Lwr?
  }

  predicate IsStore(h: I.Handler) {
    h.Sb? || h.Sh? || h.Swl? || h.Sw? || h.Swr?
  }

  /** The handlers that only return the source's "not implemented" error. */
  predicate IsUnimplemented(h: I.Handler) {
    h.Break? || h.Bltzal? || h.Bgezal? || h.Bc0f? || h.Bc0t? || h.Tlbr? || h.Tlbwi? || h.Tlbwr? || h.Tlbp?
  }

  /** The geometry transformation engine's instructions, which are not part of this model. */
  predicate IsCop2(h: I.Handler) {
    h.Lwc2? || h.Swc2? || h.Mfc2? || h.Cfc2? || h.Mtc2? || h.Ctc2?
    || h.Rtps? || h.Nclip? || h.Op? || h.Dpcs? || h.Intpl? || h.Mvmva? || h.Ncds? || h.Cdp?
    || h.Ncdt? || h.Nccs? || h.Cc? || h.Ncs? || h.Nct? || h.Sqr? || h.Dcpl? || h.Dpct?
    || h.Avsz3? || h.Avsz4? || h.Rtpt? || h.Gpf? || h.Gpl? || h.Ncct?
  }

  // Bitwise operations on words.

  function BitAnd(a: Word, b: Word): Word {
    ToWord(FromWord(a) & FromWord(b))
  }

  function BitOr(a: Word, b: Word): Word {
    ToWord(FromWord(a) | FromWord(b))
  }

  function BitXor(a: Word, b: Word): Word {
    ToWord(FromWord(a) ^ FromWord(b))
  }

  function BitNor(a: Word, b: Word): Word {
    ToWord(!(FromWord(a) | FromWord(b)))
  }

  /** The 16-bit immediate sign-extended to a word (`i_imm() as i32 as u32`). */
  function SImmWord(w: bv32): Word {
    Wrap(SignExtend16(I.UImm(w)))
  }

  /** The 16-bit immediate zero-extended to a word (`u_imm() as u32`). */
  function UImmWord(w: bv32): (r: Word)
    ensures r < 0x1_0000
  {
    I.UImm(w) as int
  }

  /** The 26-bit jump target field as a number. */
  function JumpField(w: bv32): (r: nat)
    ensures r < 0x400_0000
  {
    AddrTopByte(w);
    BytesWordBelow(LeBytes32(I.Addr(w)));
    ToWord(I.Addr(w))
  }

  /** The jump field leaves the top six bits clear, so its top byte is below 4. */
  lemma AddrTopByte(w: bv32)
    ensures LeBytes32(I.Addr(w))[3] < 4
  {
  }

  /** `sll`, `srl`, `sra` by the shamt field and `sllv`, `srlv`, `srav` by a register. */
  function ExecShift(m: Machine, h: I.Handler, w: bv32): (r: Outcome)
    requires MachineValid(m) && IsShift(h)
    ensures r.Done? && MachineValid(r.m) && OthersUnchanged(m, r.m, I.Rd(w))
  {
    var rt := Reg(m, I.Rt(w));
    var rs := Reg(m, I.Rs(w));
    var v :=
      if h.Sll? then ShiftLeft(rt, I.Shamt(w))
      else if h.Srl? then ShiftRightLogical(rt, I.Shamt(w))
      else if h.Sra? then ShiftRightArithmetic(rt, I.Shamt(w))
      else if h.Sllv? then Alu.Sllv(rt, rs)
      else if h.Srlv? then Alu.Srlv(rt, rs)
      else Alu.Srav(rt, rs);
    Done(WriteReg(m, I.Rd(w), v))
  }

  /**
   * The three-register arithmetic, logic and comparisons. `add` reports
   * signed overflow as an error (the overflow exception is not implemented)
   * and then changes nothing.
   */
  function ExecRegisterArith(m: Machine, h: I.Handler, w: bv32): (r: Outcome)
    requires MachineValid(m) && IsRegisterArith(h)
    ensures r.Done? || r.Failed?
    ensures r.Failed? <==> h.Add? && Alu.Add(Reg(m, I.Rs(w)), Reg(m, I.Rt(w))).None?
    ensures r.Done? ==> MachineValid(r.m) && OthersUnchanged(m, r.m, I.Rd(w))
  {
    var rs := Reg(m, I.Rs(w));
    var rt := Reg(m, I.Rt(w));
    if h.Add? then
      match Alu.Add(rs, rt)
      case None => Failed("Overflowing exception not implemented (add)")
      case Some(v) => Done(WriteReg(m, I.Rd(w), v))
    else
      Done(WriteReg(m, I.Rd(w), RegisterArithValue(h, rs, rt)))
  }

  /** The value a three-register instruction other than `add` writes to rd. */
  function RegisterArithValue(h: I.Handler, rs: Word, rt: Word): Word
    requires IsRegisterArith(h) && !h.Add?
  {
    if h.Addu? then Alu.Addu(rs, rt)
    else if h.Sub? then Alu.Sub(rs, rt)
    else if h.Subu? then Alu.Subu(rs, rt)
    else if h.And? then BitAnd(rs, rt)
    else if h.Or? then BitOr(rs, rt)
    else if h.Xor? then BitXor(rs, rt)
    else if h.Nor? then BitNor(rs, rt)
    else if h.Slt? then Alu.Slt(rs, rt)
    else Alu.Sltu(rs, rt)
  }

  /**
   * The immediate arithmetic, which writes rt. `addi` reports signed
   * overflow as an error; `slti` compares signed values, `sltiu` compares
   * unsigned values with the sign-extended immediate; the logical
   * immediates zero-extend.
   */
  function ExecImmediateArith(m: Machine, h: I.Handler, w: bv32): (r: Outcome)
    requires MachineValid(m) && IsImmediateArith(h)
    ensures r.Done? || r.Failed?
    ensures r.Failed? <==> h.Addi? && OverflowingAdd(Signed(Reg(m, I.Rs(w))), SignExtend16(I.UImm(w))).1
    ensures r.Done? ==> MachineValid(r.m) && OthersUnchanged(m, r.m, I.Rt(w))
  {
    var rs := Reg(m, I.Rs(w));
    if h.Addi? then
      var (sum, overflow) := OverflowingAdd(Signed(rs), SignExtend16(I.UImm(w)));
      if overflow then Failed("Overflowing exception not implemented (addi)")
      else Done(WriteReg(m, I.Rt(w), Wrap(sum)))
    else
      Done(WriteReg(m, I.Rt(w), ImmediateArithValue(h, rs, w)))
  }

  /** Every immediate instruction but `addi` writes its value to rt and cannot fail. */
  lemma ImmediateArithWrites(m: Machine, h: I.Handler, w: bv32)
    requires MachineValid(m) && IsImmediateArith(h) && !h.Addi?
    ensures ExecImmediateArith(m, h, w) == Done(WriteReg(m, I.Rt(w), ImmediateArithValue(h, Reg(m, I.Rs(w)), w)))
  {
  }

  /** `addi` without overflow writes the exact signed sum, wrapped to a word. */
  lemma AddiWrites(m: Machine, w: bv32)
    requires MachineValid(m)
    requires -Two31 <= Signed(Reg(m, I.Rs(w))) + SignExtend16(I.UImm(w)) < Two31
    ensures ExecImmediateArith(m, I.Addi, w) == Done(WriteReg(m, I.Rt(w), Wrap(Signed(Reg(m, I.Rs(w))) + SignExtend16(I.UImm(w)))))
  {
  }

  /** `addiu` writes rs plus the sign-extended immediate, modulo 2^32. */
  lemma AddiuValue(rs: Word, w: bv32)
    ensures ImmediateArithValue(I.Addiu, rs, w) == Wrap(rs + SignExtend16(I.UImm(w)))
  {
    WrapCongruent(rs + SImmWord(w), rs + SignExtend16(I.UImm(w)));
  }

  /** The value an immediate instruction other than `addi` writes to rt. */
  function ImmediateArithValue(h: I.Handler, rs: Word, w: bv32): Word
    requires IsImmediateArith(h) && !h.Addi?
  {
    if h.Addiu? then Alu.Addu(rs, SImmWord(w))
    else if h.Slti? then (if Signed(rs) < SignExtend16(I.UImm(w)) then 1 else 0)
    else if h.Sltiu? then Alu.Sltu(rs, SImmWord(w))
    else if h.Andi? then BitAnd(rs, UImmWord(w))
    else if h.Ori? then BitOr(rs, UImmWord(w))
    else if h.Xori? then BitXor(rs, UImmWord(w))
    else UImmWord(w) * 0x1_0000
  }

  /** Rust's panic for `i32::MIN % -1`, which `div` computes first. */
  const DivOverflowPanic := "attempt to calculate the remainder with overflow"

  /**
   * The moves to and from hi and lo, and the multiplications and divisions
   * that write them as (hi, lo). A division by zero leaves hi and lo as
   * they were; `div` of -2^31 by -1 panics, as the source's `i32` division
   * does.
   */
  function ExecHiLo(m: Machine, h: I.Handler, w: bv32): (r: Outcome)
    requires MachineValid(m) && IsHiLo(h)
    ensures r.Done? || r.Panicked?
    ensures r.Panicked? <==> h.Div? && Reg(m, I.Rt(w)) != 0 && Alu.DivAsWritten(Reg(m, I.Rs(w)), Reg(m, I.Rt(w))).None?
    ensures r.Done? ==> MachineValid(r.m)
    ensures r.Done? ==> r.m.cpu.pc == m.cpu.pc && r.m.cpu.delay == m.cpu.delay
    ensures r.Done? ==> r.m.cp0 == m.cp0 && r.m.bus == m.bus && r.m.intcPending == m.intcPending
    ensures r.Done? && !(h.Mfhi? || h.Mflo?) ==> r.m.cpu.gpr == m.cpu.gpr
    ensures h.Mfhi? && I.Rd(w) != 0 ==> r.m.cpu.gpr[I.Rd(w)] == m.cpu.hi
    ensures h.Mflo? && I.Rd(w) != 0 ==> r.m.cpu.gpr[I.Rd(w)] == m.cpu.lo
    ensures h.Mfhi? || h.Mflo? ==> r.m.cpu.hi == m.cpu.hi && r.m.cpu.lo == m.cpu.lo
    ensures h.Mthi? ==> r.m.cpu.hi == Reg(m, I.Rs(w)) && r.m.cpu.lo == m.cpu.lo
    ensures h.Mtlo? ==> r.m.cpu.lo == Reg(m, I.Rs(w)) && r.m.cpu.hi == m.cpu.hi
    ensures (h.Div? || h.Divu?) && Reg(m, I.Rt(w)) == 0 ==> r == Done(m)
    ensures h.Mult? ==> (r.m.cpu.hi, r.m.cpu.lo) == Alu.Mult(Reg(m, I.Rs(w)), Reg(m, I.Rt(w)))
    ensures h.Multu? ==> (r.m.cpu.hi, r.m.cpu.lo) == Alu.Multu(Reg(m, I.Rs(w)), Reg(m, I.Rt(w)))
    ensures r.Done? && h.Div? && Reg(m, I.Rt(w)) != 0 ==> (r.m.cpu.hi, r.m.cpu.lo) == Alu.Div(Reg(m, I.Rs(w)), Reg(m, I.Rt(w)))
    ensures h.Divu? && Reg(m, I.Rt(w)) != 0 ==> (r.m.cpu.hi, r.m.cpu.lo) == Alu.Divu(Reg(m, I.Rs(w)), Reg(m, I.Rt(w)))
  {
    var rs := Reg(m, I.Rs(w));
    var rt := Reg(m, I.Rt(w));
    if h.Mfhi? then Done(WriteReg(m, I.Rd(w), m.cpu.hi))
    else if h.Mflo? then Done(WriteReg(m, I.Rd(w), m.cpu.lo))
    else if h.Mthi? then Done(m.(cpu := m.cpu.(hi := rs)))
    else if h.Mtlo? then Done(m.(cpu := m.cpu.(lo := rs)))
    else if h.Mult? then Done(SetHiLo(m, Alu.Mult(rs, rt)))
    else if h.Multu? then Done(SetHiLo(m, Alu.Multu(rs, rt)))
    else if rt == 0 then Done(m)
    else if h.Divu? then Done(SetHiLo(m, Alu.Divu(rs, rt)))
    else
      match Alu.DivAsWritten(rs, rt)
      case None => Panicked(DivOverflowPanic)
      case Some(p) => Done(SetHiLo(m, p))
  }

  /** The machine with hi and lo set to the pair (hi, lo). */
  function SetHiLo(m: Machine, p: (Word, Word)): Machine {
    m.(cpu := m.cpu.(hi := p.0, lo := p.1))
  }

  /** `pc.wrapping_add(((i_imm as i32) << 2) as u32)`: the target of a taken conditional branch. */
  function BranchTarget(pc: Word, w: bv32): (t: Word)
    ensures (t - (pc + 4 * SignExtend16(I.UImm(w)))) % Two32 == 0
  {
    WrapInnerSum(pc, SignExtend16(I.UImm(w)) * 4);
    Wrap(pc + Wrap(SignExtend16(I.UImm(w)) * 4))
  }

  /** Whether a conditional branch is taken, on the registers it compares. */
  function BranchCondition(h: I.Handler, rs: Word, rt: Word): bool
    requires IsConditionalBranch(h)
  {
    if h.Bltz? then Signed(rs) < 0
    else if h.Bgez? then Signed(rs) >= 0
    else if h.Beq? then rs == rt
    else if h.Bne? then rs != rt
    else if h.Blez? then Signed(rs) <= 0
    else Signed(rs) > 0
  }

  /** A taken branch sets the delay slot to the target with one instruction to go; an untaken one changes nothing. */
  function ExecConditionalBranch(m: Machine, h: I.Handler, w: bv32): (r: Outcome)
    requires MachineValid(m) && IsConditionalBranch(h)
    ensures r.Done? && MachineValid(r.m)
  {
    if BranchCondition(h, Reg(m, I.Rs(w)), Reg(m, I.Rt(w))) then
      Done(m.(cpu := m.cpu.(delay := Set(m.cpu.delay, BranchTarget(m.cpu.pc, w), 1))))
    else
      Done(m)
  }

  /**
   * `jr`/`jalr` jump to a register, `j`/`jal` to the 26-bit field within
   * the current 256 MiB region; `jalr` writes the return address to rd
   * (after reading the target) and `jal` to register 31.
   */
  function ExecJump(m: Machine, h: I.Handler, w: bv32): (r: Outcome)
    requires MachineValid(m) && IsJump(h)
    ensures r.Done? && MachineValid(r.m) && Branching(r.m.cpu.delay)
    ensures r.m.cpu.pc == m.cpu.pc && r.m.cpu.hi == m.cpu.hi && r.m.cpu.lo == m.cpu.lo
    ensures r.m.cp0 == m.cp0 && r.m.bus == m.bus
  {
    var target := if h.Jr? || h.Jalr? then Reg(m, I.Rs(w)) else JumpTarget(m.cpu.pc, JumpField(w));
    var m' := m.(cpu := m.cpu.(delay := Set(m.cpu.delay, target, 1)));
    if h.Jalr? then Done(WriteReg(m', I.Rd(w), Wrap(m.cpu.pc + 4)))
    else if h.Jal? then Done(WriteReg(m', 31, Wrap(m.cpu.pc + 4)))
    else Done(m')
  }

  /**
   * `syscall` (an error inside a branch delay slot, otherwise the syscall
   * exception), `mfc0`/`mtc0`, and `rfe`, which pops the status stack,
   * flushes any pending branch into the program counter and clears the
   * pending-interrupt field.
   */
  function ExecSystem(m: Machine, h: I.Handler, w: bv32): (r: Outcome)
    requires MachineValid(m) && (h.Syscall? || h.Mfc0? || h.Mtc0? || h.Rfe?)
    ensures r.Done? || r.Failed?
    ensures r.Failed? <==> h.Syscall? && Branching(m.cpu.delay)
    ensures r.Done? ==> MachineValid(r.m) && r.m.bus == m.bus
  {
    if h.Syscall? then
      if Branching(m.cpu.delay) then Failed("SYSCALL in branch delay slot not handled")
      else
        var (cpu', cp0') := SetException(m.cpu, m.cp0, ExccodeSyscall);
        Done(m.(cpu := cpu', cp0 := cp0'))
    else if h.Mfc0? then
      Done(WriteReg(m, I.Rt(w), ToWord(m.cp0.regs[I.Rd(w)])))
    else if h.Mtc0? then
      Done(m.(cp0 := Cp0(m.cp0.regs[I.Rd(w) := FromWord(Reg(m, I.Rt(w)))])))
    else
      var status := StatusPopException(Status(m.cp0));
      var (delay', target) := AdvanceAll(m.cpu.delay);
      var pc' := if target.Some? then target.value else m.cpu.pc;
      var m' := m.(cpu := m.cpu.(delay := delay', pc := pc'), cp0 := Cp0(m.cp0.regs[StatusIndex := status]));
      Done(ClearIpField(m'))
  }

  /** Whether status isolates the cache: loads then read 0 and stores write nothing. */
  predicate IsolateCache(m: Machine)
    requires MachineValid(m)
  {
    Extract(StatusIsc, Status(m.cp0)) != 0
  }

  /** The physical address of a load or store: rs plus the sign-extended immediate, translated; None for kseg2. */
  function EffectiveAddress(m: Machine, w: bv32): Option<Word>
    requires MachineValid(m)
  {
    TranslateAddress(Alu.Addu(Reg(m, I.Rs(w)), SImmWord(w)))
  }

  const Kseg2Panic := "Address translation reached kseg2 - unimplemented"

  /** `addr & !3`: the address of the aligned word holding `pa`; `pa % 4` is the byte's place in it. */
  function AlignDown(pa: Word): (r: Word)
    ensures r % 4 == 0 && r <= pa < r + 4
  {
    pa - pa % 4
  }

  /** The panic of a half-word or word access at a misaligned address. */
  const MisalignedPanic := "Non aligned offset"

  /** The address and width of the first bus access of a load or store: the aligned word for `lwl`, `lwr`, `swl` and `swr`. */
  function AccessAddress(h: I.Handler, pa: Word): Word
    requires IsLoad(h) || IsStore(h)
  {
    if h.Lwl? || h.Lwr? || h.Swl? || h.Swr? then AlignDown(pa) else pa
  }

  function AccessWidth(h: I.Handler): (n: nat)
    requires IsLoad(h) || IsStore(h)
    ensures n == 1 || n == 2 || n == 4
  {
    if h.Lb? || h.Lbu? || h.Sb? then 1 else if h.Lh? || h.Lhu? || h.Sh? then 2 else 4
  }

  /** The access reaches a device at an address not aligned to its width, where the device panics. */
  predicate AccessPanics(bus: Bus, h: I.Handler, pa: Word)
    requires IsLoad(h) || IsStore(h)
  {
    PanicsAt(bus, AccessAddress(h, pa), AccessWidth(h))
  }

  /** The value `lb`, `lh`, `lw`, `lbu` or `lhu` reads: sign-extended for the signed loads, zero-extended otherwise. */
  function LoadValue(bus: Bus, h: I.Handler, pa: Word): (r: Access<Word>)
    requires h.Lb? || h.Lh? || h.Lw? || h.Lbu? || h.Lhu?
    ensures r.Misaligned? <==> AccessPanics(bus, h, pa)
  {
    if h.Lb? || h.Lbu? then
      match ReadU8(bus, pa)
      case Value(b) => Value(if h.Lb? then Wrap(SignExtend8(b)) else b as int)
      case Hazarded(e) => Hazarded(e)
      case Misaligned(a) => Access<Word>.Misaligned(a)
    else if h.Lh? || h.Lhu? then
      match ReadU16(bus, pa)
      case Value(v) => Value(if h.Lh? then Wrap(SignExtend16(v)) else v as int)
      case Hazarded(e) => Hazarded(e)
      case Misaligned(a) => Misaligned(a)
    else
      match ReadU32(bus, pa)
      case Value(v) => Value(ToWord(v))
      case Hazarded(e) => Hazarded(e)
      case Misaligned(a) => Misaligned(a)
  }

  /** `lb` and `lbu` read the same byte: sign-extended and zero-extended. */
  lemma ByteLoadValues(bus: Bus, pa: Word)
    ensures ReadU8(bus, pa).Value? ==> LoadValue(bus, I.Lb, pa) == Value(Wrap(SignExtend8(ReadU8(bus, pa).value)))
    ensures ReadU8(bus, pa).Value? ==> LoadValue(bus, I.Lbu, pa) == Value(ReadU8(bus, pa).value as int)
    ensures ReadU8(bus, pa).Hazarded? ==> LoadValue(bus, I.Lb, pa) == LoadValue(bus, I.Lbu, pa) == Hazarded(ReadU8(bus, pa).hazard)
    ensures !LoadValue(bus, I.Lb, pa).Misaligned?
  {
  }

  /** `lw` reads the word at the address, as an unsigned value. */
  lemma LwValue(bus: Bus, pa: Word, v: bv32)
    requires ReadU32(bus, pa) == Value(v)
    ensures LoadValue(bus, I.Lw, pa) == Value(ToWord(v))
  {
  }

  /**
   * The loads. `lwl` and `lwr` read the aligned word containing the address
   * and merge it into rt by the address's low two bits. With the cache
   * isolated the bus is not read and the loaded value is 0.
   */
  function ExecLoad(m: Machine, h: I.Handler, w: bv32): (r: Outcome)
    requires MachineValid(m) && IsLoad(h)
    ensures r.Done? || r.Stalled? || r.Panicked?
    ensures r.Panicked? <==>
      (EffectiveAddress(m, w).None? || (!IsolateCache(m) && AccessPanics(m.bus, h, EffectiveAddress(m, w).value)))
    ensures r.Done? ==> MachineValid(r.m) && OthersUnchanged(m, r.m, I.Rt(w))
  {
    match EffectiveAddress(m, w)
    case None => Panicked(Kseg2Panic)
    case Some(pa) =>
      if h.Lwl? || h.Lwr? then
        var k := pa % 4;
        var mem := if IsolateCache(m) then Value(0) else ReadU32(m.bus, AlignDown(pa));
        match mem
        case Hazarded(e) => Stalled(e)
        case Misaligned(_) => Panicked(MisalignedPanic)
        case Value(v) =>
          var rt := FromWord(Reg(m, I.Rt(w)));
          var merged := if h.Lwl? then Lwl(rt, v, k) else Lwr(rt, v, k);
          Done(WriteReg(m, I.Rt(w), ToWord(merged)))
      else
        var loaded := if IsolateCache(m) then Value(0) else LoadValue(m.bus, h, pa);
        match loaded
        case Hazarded(e) => Stalled(e)
        case Misaligned(_) => Panicked(MisalignedPanic)
        case Value(v) => Done(WriteReg(m, I.Rt(w), v))
  }

  /** Off the isolated cache, a load other than `lwl`/`lwr` stalls on the hazard the bus read reports, panics where it does, or writes the value read. */
  lemma LoadThroughBus(m: Machine, h: I.Handler, w: bv32)
    requires MachineValid(m) && (h.Lb? || h.Lh? || h.Lw? || h.Lbu? || h.Lhu?)
    requires EffectiveAddress(m, w).Some? && !IsolateCache(m)
    ensures var v := LoadValue(m.bus, h, EffectiveAddress(m, w).value);
      && (v.Hazarded? ==> ExecLoad(m, h, w) == Stalled(v.hazard))
      && (v.Misaligned? ==> ExecLoad(m, h, w) == Panicked(MisalignedPanic))
      && (v.Value? ==> ExecLoad(m, h, w) == Done(WriteReg(m, I.Rt(w), v.value)))
  {
  }

  /** Off the isolated cache, `lwl` and `lwr` stall on the hazard of reading the aligned word, and never panic on alignment. */
  lemma MergeLoadThroughBus(m: Machine, h: I.Handler, w: bv32)
    requires MachineValid(m) && (h.Lwl? || h.Lwr?)
    requires EffectiveAddress(m, w).Some? && !IsolateCache(m)
    ensures var pa := EffectiveAddress(m, w).value;
      ReadU32(m.bus, AlignDown(pa)).Hazarded? ==> ExecLoad(m, h, w) == Stalled(ReadU32(m.bus, AlignDown(pa)).hazard)
    ensures !ExecLoad(m, h, w).Panicked?
  {
  }

  /** Off the isolated cache, a store stalls on the hazard the bus reports, panics where it does, or leaves everything but the bus alone. */
  lemma StoreThroughBus(m: Machine, h: I.Handler, w: bv32)
    requires MachineValid(m) && IsStore(h)
    requires EffectiveAddress(m, w).Some? && !IsolateCache(m)
    ensures var b := StoreBus(m.bus, h, EffectiveAddress(m, w).value, Reg(m, I.Rt(w)));
      && (b.Hazarded? ==> ExecStore(m, h, w) == Stalled(b.hazard))
      && (b.Misaligned? ==> ExecStore(m, h, w) == Panicked(MisalignedPanic))
      && (b.Value? ==> ExecStore(m, h, w) == Done(m.(bus := b.value)))
  {
  }

  /** The bus after a store of `rt`, the hazard that stopped it, or its panic. */
  function StoreBus(bus: Bus, h: I.Handler, pa: Word, rt: Word): (r: Access<Bus>)
    requires IsStore(h)
    ensures r.Misaligned? <==> AccessPanics(bus, h, pa)
  {
    if h.Sb? then WriteU8(bus, pa, ExtractU8(FromWord(rt), 0))
    else if h.Sh? then WriteU16(bus, pa, ExtractU16(FromWord(rt), 0))
    else if h.Sw? then WriteU32(bus, pa, FromWord(rt))
    else
      var k := pa % 4;
      match ReadU32(bus, AlignDown(pa))
      case Hazarded(e) => Hazarded(e)
      case Misaligned(a) => Misaligned(a)
      case Value(v) => WriteU32(bus, AlignDown(pa), if h.Swl? then Swl(FromWord(rt), v, k) else Swr(FromWord(rt), v, k))
  }

  /** `sw` writes the whole register as a word. */
  lemma SwBus(bus: Bus, pa: Word, rt: Word)
    ensures StoreBus(bus, I.Sw, pa, rt) == WriteU32(bus, pa, FromWord(rt))
  {
  }

  /** On a locked bus every store reports the hazard of its first bus access: the read of the aligned word for `swl`/`swr`, the write otherwise. */
  lemma StoreBusLocked(bus: Bus, h: I.Handler, pa: Word, rt: Word)
    requires IsStore(h) && bus.locked
    ensures StoreBus(bus, h, pa, rt) == Hazarded(if h.Swl? || h.Swr? then BusLockedMemoryRead(AlignDown(pa)) else BusLockedMemoryWrite(pa))
  {
    if h.Swl? || h.Swr? {
      LockedBusIsHazard(bus, AlignDown(pa), 0, 0, 0);
    } else {
      var v := FromWord(rt);
      LockedBusIsHazard(bus, pa, ExtractU8(v, 0), ExtractU16(v, 0), v);
    }
  }

  /**
   * The stores: `sb` and `sh` write the low byte and half of rt, `swl` and
   * `swr` read the aligned word and write it back merged with rt. With the
   * cache isolated nothing is written.
   */
  function ExecStore(m: Machine, h: I.Handler, w: bv32): (r: Outcome)
    requires MachineValid(m) && IsStore(h)
    ensures r.Done? || r.Stalled? || r.Panicked?
    ensures r.Panicked? <==>
      (EffectiveAddress(m, w).None? || (!IsolateCache(m) && AccessPanics(m.bus, h, EffectiveAddress(m, w).value)))
    ensures r.Done? ==> r.m.cpu == m.cpu && r.m.cp0 == m.cp0 && r.m.intcPending == m.intcPending
  {
    match EffectiveAddress(m, w)
    case None => Panicked(Kseg2Panic)
    case Some(pa) =>
      if IsolateCache(m) then Done(m)
      else
        match StoreBus(m.bus, h, pa, Reg(m, I.Rt(w)))
        case Hazarded(e) => Stalled(e)
        case Misaligned(_) => Panicked(MisalignedPanic)
        case Value(bus) => Done(m.(bus := bus))
  }

  /**
   * One instruction: the handler `Lookup` returned for the word `w`, run on
   * the machine. None for the coprocessor 2 instructions, which are not
   * part of this model. Only the loads and stores stall on a bus hazard or
   * panic, on a kseg2 address or a misaligned half-word or word access;
   * `div` panics only on -2^31 / -1, and only the unimplemented handlers,
   * `add`, `addi` and `syscall` report an error.
   */
  function Step(m: Machine, h: I.Handler, w: bv32): (r: Option<Outcome>)
    requires MachineValid(m)
    ensures r.None? <==> IsCop2(h)
    ensures r.Some? && r.value.Done? ==> MachineValid(r.value.m)
    ensures r.Some? && r.value.Stalled? ==> I.IsMemoryAccess(h)
    ensures r.Some? && r.value.Panicked? ==> I.IsMemoryAccess(h) || h.Div?
    ensures h.Div? && Reg(m, I.Rt(w)) != 0 ==> (r.value.Panicked? <==> Alu.DivAsWritten(Reg(m, I.Rs(w)), Reg(m, I.Rt(w))).None?)
    ensures r.Some? && r.value.Failed? ==> IsUnimplemented(h) || h.Add? || h.Addi? || h.Syscall?
  {
    if IsCop2(h) then None
    else if IsShift(h) then Some(ExecShift(m, h, w))
    else if IsRegisterArith(h) then Some(ExecRegisterArith(m, h, w))
    else if IsImmediateArith(h) then Some(ExecImmediateArith(m, h, w))
    else if IsHiLo(h) then Some(ExecHiLo(m, h, w))
    else if IsConditionalBranch(h) then Some(ExecConditionalBranch(m, h, w))
    else if IsJump(h) then Some(ExecJump(m, h, w))
    else if IsLoad(h) then Some(ExecLoad(m, h, w))
    else if IsStore(h) then Some(ExecStore(m, h, w))
    else if h.Syscall? || h.Mfc0? || h.Mtc0? || h.Rfe? then Some(ExecSystem(m, h, w))
    else Some(Failed("Instruction not implemented"))
  }
}

=== FILE: execute_properties.dfy ===
/**
 * Properties of the instruction handlers: how they relate to one another
 * (the constant and variable shifts, the signed and unsigned forms, the
 * moves to and from hi, lo and coprocessor 0), to the arithmetic they
 * compute, to exception entry and return, and to the bus.
 */
module ExecuteProperties {
  import opened Wrappers
  import opened Alu
  import opened Bits
  import opened BranchDelay
  import opened MemoryController
  import opened Primitive
  import opened R3000State
  import opened Exception
  import opened Execute
  import I = Instructions

  // Shifts.

  /** A variable shift by a register holding the shamt field does what the constant shift does. */
  lemma VariableShiftMatchesConstant(m: Machine, w: bv32)
    requires MachineValid(m) && Reg(m, I.Rs(w)) == I.Shamt(w)
    ensures ExecShift(m, I.Sllv, w) == ExecShift(m, I.Sll, w)
    ensures ExecShift(m, I.Srlv, w) == ExecShift(m, I.Srl, w)
    ensures ExecShift(m, I.Srav, w) == ExecShift(m, I.Sra, w)
  {
  }

  /**
   * `srav` by 32 or more fills the register with the sign bit, which is
   * what an arithmetic shift by 31 does.
   */
  lemma SravSaturatesLikeSra31(m: Machine, w: bv32)
    requires MachineValid(m) && Reg(m, I.Rs(w)) >= 32
    ensures ExecShift(m, I.Srav, w).m.cpu.gpr == WriteReg(m, I.Rd(w), ShiftRightArithmetic(Reg(m, I.Rt(w)), 31)).cpu.gpr
  {
    var rt, rs := Reg(m, I.Rt(w)), Reg(m, I.Rs(w));
    assert ExecShift(m, I.Srav, w) == Done(WriteReg(m, I.Rd(w), Alu.Srav(rt, rs)));
    SravSaturates(rt, rs);
  }

  // Register arithmetic.

  /**
   * `add` fails exactly when the signed sum leaves the i32 range and then
   * writes nothing; otherwise it does what `addu` does.
   */
  lemma AddFailsExactlyOnOverflow(m: Machine, w: bv32)
    requires MachineValid(m)
    ensures var rs, rt := Signed(Reg(m, I.Rs(w))), Signed(Reg(m, I.Rt(w)));
      ExecRegisterArith(m, I.Add, w).Failed? <==> !(-Two31 <= rs + rt < Two31)
    ensures ExecRegisterArith(m, I.Add, w).Done? ==> ExecRegisterArith(m, I.Add, w) == ExecRegisterArith(m, I.Addu, w)
  {
    AddOverflow(Reg(m, I.Rs(w)), Reg(m, I.Rt(w)));
  }

  /** `sub` and `subu` write the same value: the signed subtraction does not check overflow. */
  lemma SubMatchesSubu(m: Machine, w: bv32)
    requires MachineValid(m)
    ensures ExecRegisterArith(m, I.Sub, w) == ExecRegisterArith(m, I.Subu, w)
  {
    SubAgrees(Reg(m, I.Rs(w)), Reg(m, I.Rt(w)));
  }

  /** `addi` that does not overflow writes what `addiu` writes. */
  lemma AddiMatchesAddiu(m: Machine, w: bv32)
    requires MachineValid(m)
    ensures ExecImmediateArith(m, I.Addi, w).Done? ==> ExecImmediateArith(m, I.Addi, w) == ExecImmediateArith(m, I.Addiu, w)
  {
    var rs := Reg(m, I.Rs(w));
    var e := SignExtend16(I.UImm(w));
    if -Two31 <= Signed(rs) + e < Two31 {
      AddiWrites(m, w);
      ImmediateArithWrites(m, I.Addiu, w);
      AddiuValue(rs, w);
      WrapCongruent(Signed(rs) + e, rs + e);
    }
  }

  /** `addiu` writes rs plus the sign-extended immediate, modulo 2^32. */
  lemma AddiuAddsSignedImmediate(m: Machine, w: bv32)
    requires MachineValid(m) && I.Rt(w) != 0
    ensures (ExecImmediateArith(m, I.Addiu, w).m.cpu.gpr[I.Rt(w)] - (Reg(m, I.Rs(w)) + SignExtend16(I.UImm(w)))) % Two32 == 0
  {
    var rs := Reg(m, I.Rs(w));
    ImmediateArithWrites(m, I.Addiu, w);
    AddiuValue(rs, w);
  }

  /** `slt` is `sltu` on the operands with their sign bits flipped. */
  lemma SltIsBiasedSltu(m: Machine, w: bv32, m': Machine)
    requires MachineValid(m) && MachineValid(m')
    requires m'.cpu.gpr[I.Rs(w)] == Wrap(Reg(m, I.Rs(w)) + Two31)
    requires m'.cpu.gpr[I.Rt(w)] == Wrap(Reg(m, I.Rt(w)) + Two31)
    requires I.Rd(w) != 0
    ensures ExecRegisterArith(m, I.Slt, w).m.cpu.gpr[I.Rd(w)] == ExecRegisterArith(m', I.Sltu, w).m.cpu.gpr[I.Rd(w)]
  {
    ArithWritesRd(m, I.Slt, w);
    ArithWritesRd(m', I.Sltu, w);
    SltBySltu(Reg(m, I.Rs(w)), Reg(m, I.Rt(w)));
  }

  lemma ArithWritesRd(m: Machine, h: I.Handler, w: bv32)
    requires MachineValid(m) && IsRegisterArith(h) && !h.Add? && I.Rd(w) != 0
    ensures ExecRegisterArith(m, h, w).m.cpu.gpr[I.Rd(w)] == RegisterArithValue(h, Reg(m, I.Rs(w)), Reg(m, I.Rt(w)))
  {
  }

  // hi and lo.

  /** A division by zero, signed or unsigned, changes nothing. */
  lemma DivideByZeroKeepsHiLo(m: Machine, w: bv32)
    requires MachineValid(m) && Reg(m, I.Rt(w)) == 0
    ensures ExecHiLo(m, I.Div, w) == Done(m)
    ensures ExecHiLo(m, I.Divu, w) == Done(m)
  {
  }

  /** `divu` leaves the quotient in lo and the remainder in hi: lo * rt + hi == rs with hi < rt. */
  lemma DivuQuotientRemainder(m: Machine, w: bv32)
    requires MachineValid(m) && Reg(m, I.Rt(w)) != 0
    ensures var c := ExecHiLo(m, I.Divu, w).m.cpu;
      c.lo * Reg(m, I.Rt(w)) + c.hi == Reg(m, I.Rs(w)) && c.hi < Reg(m, I.Rt(w))
  {
  }

  /** `div` leaves the truncated signed quotient in lo and the remainder, with the dividend's sign, in hi. */
  lemma DivTruncates(m: Machine, w: bv32)
    requires MachineValid(m) && Reg(m, I.Rt(w)) != 0
    requires !(Signed(Reg(m, I.Rs(w))) == -Two31 && Signed(Reg(m, I.Rt(w))) == -1)
    ensures var c := ExecHiLo(m, I.Div, w).m.cpu;
      var a, b := Signed(Reg(m, I.Rs(w))), Signed(Reg(m, I.Rt(w)));
      && Signed(c.lo) * b + Signed(c.hi) == a
      && Abs(Signed(c.hi)) < Abs(b)
      && (Signed(c.hi) == 0 || (Signed(c.hi) < 0 <==> a < 0))
  {
    DivIsTruncating(Reg(m, I.Rs(w)), Reg(m, I.Rt(w)));
  }

  /** `div` of -2^31 by -1 panics, as Rust's `i32` remainder does, and `Step` reports the panic. */
  lemma DivOverflowPanicsInStep(m: Machine, w: bv32)
    requires MachineValid(m) && Reg(m, I.Rs(w)) == 0x8000_0000 && Reg(m, I.Rt(w)) == 0xFFFF_FFFF
    ensures ExecHiLo(m, I.Div, w) == Panicked(DivOverflowPanic)
    ensures Step(m, I.Div, w) == Some(Panicked(DivOverflowPanic))
  {
    DivOverflowPanics();
  }

  /** `mult` and `multu` leave the same low word in lo. */
  lemma MultLoMatchesMultu(m: Machine, w: bv32)
    requires MachineValid(m)
    ensures ExecHiLo(m, I.Mult, w).m.cpu.lo == ExecHiLo(m, I.Multu, w).m.cpu.lo
  {
    MultLowAgrees(Reg(m, I.Rs(w)), Reg(m, I.Rt(w)));
  }

  /** `mthi` then `mfhi` copies a register through hi, and likewise through lo. */
  lemma MoveThroughHiLo(m: Machine, w: bv32, w2: bv32)
    requires MachineValid(m) && I.Rd(w2) != 0
    ensures ExecHiLo(ExecHiLo(m, I.Mthi, w).m, I.Mfhi, w2).m.cpu.gpr[I.Rd(w2)] == Reg(m, I.Rs(w))
    ensures ExecHiLo(ExecHiLo(m, I.Mtlo, w).m, I.Mflo, w2).m.cpu.gpr[I.Rd(w2)] == Reg(m, I.Rs(w))
  {
  }

  // Branches and jumps.

  /** Of `bltz`/`bgez`, `blez`/`bgtz` and `beq`/`bne`, exactly one of each pair is taken. */
  lemma ComplementaryBranches(rs: Word, rt: Word)
    ensures BranchCondition(I.Bltz, rs, rt) != BranchCondition(I.Bgez, rs, rt)
    ensures BranchCondition(I.Blez, rs, rt) != BranchCondition(I.Bgtz, rs, rt)
    ensures BranchCondition(I.Beq, rs, rt) != BranchCondition(I.Bne, rs, rt)
    ensures BranchCondition(I.Bltz, rs, rt) ==> BranchCondition(I.Blez, rs, rt)
  {
  }

  /**
   * A taken branch executes the delay slot and then continues at the
   * target, pc + 4 * the signed immediate (modulo 2^32); an untaken branch
   * changes nothing.
   */
  lemma BranchThroughDelaySlot(m: Machine, h: I.Handler, w: bv32)
    requires MachineValid(m) && IsConditionalBranch(h)
    ensures var r := ExecConditionalBranch(m, h, w).m;
      if BranchCondition(h, Reg(m, I.Rs(w)), Reg(m, I.Rt(w))) then
        var d := r.cpu.delay;
        && Advance(d).1.None?
        && Advance(Advance(d).0).1.Some?
        && (Advance(Advance(d).0).1.value - (m.cpu.pc + 4 * SignExtend16(I.UImm(w)))) % Two32 == 0
        && !Branching(Advance(Advance(d).0).0)
      else r == m
  {
    if BranchCondition(h, Reg(m, I.Rs(w)), Reg(m, I.Rt(w))) {
      SetThenAdvance(m.cpu.delay, BranchTarget(m.cpu.pc, w));
    }
  }

  /** `jal` links the address after its delay slot in register 31 and jumps within the current 256 MiB region. */
  lemma JalLinks(m: Machine, w: bv32)
    requires MachineValid(m)
    ensures var r := ExecJump(m, I.Jal, w).m;
      && r.cpu.gpr[31] == Wrap(m.cpu.pc + 4)
      && r.cpu.delay.target.value / 0x1000_0000 == m.cpu.pc / 0x1000_0000
      && r.cpu.delay.target.value % 4 == 0
  {
  }

  /** `jalr` reads its target before writing the link register, so `jalr r, r` jumps to the old value of `r`. */
  lemma JalrReadsTargetFirst(m: Machine, w: bv32)
    requires MachineValid(m) && I.Rd(w) != 0
    ensures var r := ExecJump(m, I.Jalr, w).m;
      && r.cpu.delay == BranchDelaySlot(Some(Reg(m, I.Rs(w))), 1)
      && r.cpu.gpr[I.Rd(w)] == Wrap(m.cpu.pc + 4)
  {
  }

  // Coprocessor 0 and exceptions.

  /** `mtc0` then `mfc0` of the same coprocessor register copies a general purpose register through it. */
  lemma MoveThroughCp0(m: Machine, w: bv32, w2: bv32)
    requires MachineValid(m) && I.Rd(w2) == I.Rd(w) && I.Rt(w2) != 0
    ensures var m1 := ExecSystem(m, I.Mtc0, w).m;
      ExecSystem(m1, I.Mfc0, w2).m.cpu.gpr[I.Rt(w2)] == Reg(m, I.Rt(w))
  {
    var m1 := ExecSystem(m, I.Mtc0, w).m;
    assert m1.cp0.regs[I.Rd(w)] == FromWord(Reg(m, I.Rt(w)));
    ToFromWord(Reg(m, I.Rt(w)));
  }

  /**
   * `syscall` outside a delay slot enters the exception handler: EPC is
   * the address of the `syscall` itself, cause holds code 8, interrupts
   * are off and the program counter is the general vector.
   */
  lemma SyscallEntersHandler(m: Machine, w: bv32)
    requires MachineValid(m) && !Branching(m.cpu.delay)
    ensures ExecSystem(m, I.Syscall, w).Done?
    ensures var m1 := ExecSystem(m, I.Syscall, w).m;
      && Epc(m1.cp0) == FromWord(Wrap(m.cpu.pc - 4))
      && Extract(CauseExccode, Cause(m1.cp0)) == 8
      && Extract(StatusIec, Status(m1.cp0)) == 0
      && m1.cpu.pc == (if Extract(StatusBev, Status(m.cp0)) != 0 then 0xBF80_0180 else 0x8000_0080)
      && m1.cpu.gpr == m.cpu.gpr
  {
    EntryEpc(m.cpu, m.cp0, ExccodeSyscall);
    EntryCause(m.cpu, m.cp0, ExccodeSyscall);
    EntryVector(m.cpu, m.cp0, ExccodeSyscall);
  }

  /** `rfe` pops the status stack and leaves no interrupt requested. */
  lemma RfePopsStatus(m: Machine, w: bv32)
    requires MachineValid(m)
    ensures var r := ExecSystem(m, I.Rfe, w).m;
      && Status(r.cp0) == StatusPopException(Status(m.cp0))
      && !InterruptRequested(Status(r.cp0), Cause(r.cp0))
      && !r.intcPending
  {
    var (delay', target) := AdvanceAll(m.cpu.delay);
    var pc' := if target.Some? then target.value else m.cpu.pc;
    var m' := m.(cpu := m.cpu.(delay := delay', pc := pc'), cp0 := Cp0(m.cp0.regs[StatusIndex := StatusPopException(Status(m.cp0))]));
    assert ExecSystem(m, I.Rfe, w).m == ClearIpField(m');
    ClearedNothingRequested(m');
  }

  /**
   * `rfe` after a `syscall` entry restores the interrupt-enable and mode
   * bits and the rest of status as they were before the entry.
   */
  lemma RfeAfterSyscall(m: Machine, w: bv32)
    requires MachineValid(m) && !Branching(m.cpu.delay)
    ensures var m2 := ExecSystem(ExecSystem(m, I.Syscall, w).m, I.Rfe, w).m;
      && Status(m2.cp0) & 0xF == Status(m.cp0) & 0xF
      && Status(m2.cp0) & 0xFFFF_FFC0 == Status(m.cp0) & 0xFFFF_FFC0
  {
    var m1 := ExecSystem(m, I.Syscall, w).m;
    assert Status(m1.cp0) == StatusPushException(Status(m.cp0));
    RfePopsStatus(m1, w);
    PopUndoesPush(Status(m.cp0));
  }

  /** `rfe` flushes a pending branch: its target becomes the program counter and nothing is left pending. */
  lemma RfeFlushesBranch(m: Machine, w: bv32)
    requires MachineValid(m)
    ensures var r := ExecSystem(m, I.Rfe, w).m;
      && !Branching(r.cpu.delay)
      && r.cpu.pc == (if Branching(m.cpu.delay) then m.cpu.delay.target.value else m.cpu.pc)
  {
  }

  // Loads and stores.

  /**
   * With the cache isolated a byte, half or word load writes 0 without
   * touching the bus, whether or not the bus is locked.
   */
  lemma IsolatedLoadReadsZero(m: Machine, h: I.Handler, w: bv32)
    requires MachineValid(m) && (h.Lb? || h.Lh? || h.Lw? || h.Lbu? || h.Lhu?)
    requires IsolateCache(m) && EffectiveAddress(m, w).Some? && I.Rt(w) != 0
    ensures ExecLoad(m, h, w).Done? && ExecLoad(m, h, w).m.cpu.gpr[I.Rt(w)] == 0
  {
  }

  /** With the cache isolated a store writes nothing, whether or not the bus is locked. */
  lemma IsolatedStoreWritesNothing(m: Machine, h: I.Handler, w: bv32)
    requires MachineValid(m) && IsStore(h)
    requires IsolateCache(m) && EffectiveAddress(m, w).Some?
    ensures ExecStore(m, h, w) == Done(m)
  {
  }

  /** An address in kseg2 panics before the bus or the cache isolation bit is consulted. */
  lemma Kseg2Panics(m: Machine, h: I.Handler, w: bv32)
    requires MachineValid(m) && (IsLoad(h) || IsStore(h))
    requires 0xC000_0000 <= Alu.Addu(Reg(m, I.Rs(w)), SImmWord(w)) < 0xFFFE_0000
    ensures IsLoad(h) ==> ExecLoad(m, h, w).Panicked?
    ensures IsStore(h) ==> ExecStore(m, h, w).Panicked?
  {
  }

  /**
   * On a locked bus a load that is not isolated stalls with the bus-locked
   * read hazard for its physical address (the aligned word for `lwl` and
   * `lwr`), and the machine is not changed.
   */
  lemma LockedLoadStalls(m: Machine, h: I.Handler, w: bv32)
    requires MachineValid(m) && IsLoad(h)
    requires m.bus.locked && !IsolateCache(m) && EffectiveAddress(m, w).Some?
    ensures var pa := EffectiveAddress(m, w).value;
      ExecLoad(m, h, w) == Stalled(BusLockedMemoryRead(if h.Lwl? || h.Lwr? then AlignDown(pa) else pa))
  {
    var pa := EffectiveAddress(m, w).value;
    if h.Lwl? || h.Lwr? {
      LockedBusIsHazard(m.bus, AlignDown(pa), 0, 0, 0);
      MergeLoadThroughBus(m, h, w);
    } else {
      LockedBusIsHazard(m.bus, pa, 0, 0, 0);
      assert LoadValue(m.bus, h, pa) == Hazarded(BusLockedMemoryRead(pa));
      LoadThroughBus(m, h, w);
    }
  }

  /**
   * On a locked bus a store that is not isolated stalls: `swl` and `swr`
   * on reading the aligned word, the others on the write.
   */
  lemma LockedStoreStalls(m: Machine, h: I.Handler, w: bv32)
    requires MachineValid(m) && IsStore(h)
    requires m.bus.locked && !IsolateCache(m) && EffectiveAddress(m, w).Some?
    ensures var pa := EffectiveAddress(m, w).value;
      ExecStore(m, h, w) == Stalled(if h.Swl? || h.Swr? then BusLockedMemoryRead(AlignDown(pa)) else BusLockedMemoryWrite(pa))
  {
    StoreBusLocked(m.bus, h, EffectiveAddress(m, w).value, Reg(m, I.Rt(w)));
    StoreThroughBus(m, h, w);
  }

  /**
   * `lb` and `lbu` load the same low byte; they agree entirely when the
   * byte's top bit is clear, and `lb` fills the upper bits with ones when
   * it is set.
   */
  lemma SignedAndUnsignedByteLoads(m: Machine, w: bv32)
    requires MachineValid(m) && I.Rt(w) != 0
    requires ExecLoad(m, I.Lbu, w).Done?
    ensures ExecLoad(m, I.Lb, w).Done?
    ensures var u := ExecLoad(m, I.Lbu, w).m.cpu.gpr[I.Rt(w)];
      var s := ExecLoad(m, I.Lb, w).m.cpu.gpr[I.Rt(w)];
      && u < 0x100
      && (u < 0x80 ==> s == u)
      && (u >= 0x80 ==> s == u + 0xFFFF_FF00)
  {
    var pa := EffectiveAddress(m, w).value;
    if !IsolateCache(m) {
      LoadThroughBus(m, I.Lbu, w);
      LoadThroughBus(m, I.Lb, w);
      ByteLoadValues(m.bus, pa);
      SignExtendByte(ReadU8(m.bus, pa).value);
    }
  }

  lemma SignExtendByte(b: bv8)
    ensures b as int < 0x100
    ensures b as int < 0x80 ==> Wrap(SignExtend8(b)) == b as int
    ensures b as int >= 0x80 ==> Wrap(SignExtend8(b)) == b as int + 0xFFFF_FF00
  {
  }

  /**
   * A word stored with `sw` to mapped memory on an unlocked bus, with the
   * cache not isolated, panics at an address not divisible by 4; at any
   * other address it is read back by an `lw` from the same address.
   */
  lemma StoreThenLoadWord(m: Machine, w: bv32, w2: bv32)
    requires MachineValid(m) && !m.bus.locked && !IsolateCache(m)
    requires EffectiveAddress(m, w).Some? && Mapped(m.bus, EffectiveAddress(m, w).value, 4)
    requires I.Rt(w2) != 0
    ensures EffectiveAddress(m, w).value % 4 != 0 ==> ExecStore(m, I.Sw, w) == Panicked(MisalignedPanic)
    ensures EffectiveAddress(m, w).value % 4 == 0 ==> ExecStore(m, I.Sw, w).Done?
    ensures EffectiveAddress(m, w).value % 4 == 0 ==>
      var m1 := ExecStore(m, I.Sw, w).m;
      EffectiveAddress(m1, w2) == EffectiveAddress(m, w) ==>
        ExecLoad(m1, I.Lw, w2).Done? && ExecLoad(m1, I.Lw, w2).m.cpu.gpr[I.Rt(w2)] == Reg(m, I.Rt(w))
  {
    var pa := EffectiveAddress(m, w).value;
    var v := Reg(m, I.Rt(w));
    WriteThenReadU32(m.bus, pa, FromWord(v));
    SwBus(m.bus, pa, v);
    StoreThroughBus(m, I.Sw, w);
    if pa % 4 == 0 {
      var m1 := ExecStore(m, I.Sw, w).m;
      if EffectiveAddress(m1, w2) == EffectiveAddress(m, w) {
        LwValue(m1.bus, pa, FromWord(v));
        LoadThroughBus(m1, I.Lw, w2);
        ToFromWord(v);
      }
    }
  }

  /**
   * A half-word or word load or store that reaches mapped memory on an
   * unlocked bus at an address not aligned to its width panics, as every
   * device behind the bus does; `lwl`, `lwr`, `swl` and `swr` never do.
   */
  lemma MisalignedAccessPanics(m: Machine, h: I.Handler, w: bv32)
    requires MachineValid(m) && (IsLoad(h) || IsStore(h))
    requires !m.bus.locked && !IsolateCache(m) && EffectiveAddress(m, w).Some?
    requires Mapped(m.bus, EffectiveAddress(m, w).value, AccessWidth(h))
    ensures var pa := EffectiveAddress(m, w).value;
      var r := if IsLoad(h) then ExecLoad(m, h, w) else ExecStore(m, h, w);
      && ((h.Lh? || h.Lhu? || h.Sh?) ==> (r.Panicked? <==> pa % 2 != 0))
      && ((h.Lw? || h.Sw?) ==> (r.Panicked? <==> pa % 4 != 0))
      && ((h.Lb? || h.Lbu? || h.Sb? || h.Lwl? || h.Lwr? || h.Swl? || h.Swr?) ==> !r.Panicked?)
  {
    var pa := EffectiveAddress(m, w).value;
    if h.Lwl? || h.Lwr? || h.Swl? || h.Swr? {
      assert AlignDown(pa) % 4 == 0;
    }
  }
}

=== FILE: fifo.dfy ===
/**
 * A bounded first-in first-out queue, as the peripherals' ring buffers
 * behave: a read from an empty queue and a write to a full one fail and
 * change nothing.
 */
module Fifos {
  import opened Wrappers

  datatype Fifo<T> = Fifo(items: seq<T>, capacity: nat) {
    predicate Valid() {
      |items| <= capacity
    }

    function ReadAvailable(): nat {
      |items|
    }

    /** `read_one`: the oldest item and the queue without it, or `None` when empty. */
    function ReadOne(): (r: Option<(T, Fifo<T>)>)
      ensures r.Some? <==> |items| > 0
      ensures r.Some? ==> [r.value.0] + r.value.1.items == items
      ensures r.Some? ==> r.value.1.capacity == capacity
    {
      if |items| == 0 then None else Some((items[0], Fifo(items[1..], capacity)))
    }

    /** `write_one`: the queue with `x` appended, or `None` when full. */
    function WriteOne(x: T): (r: Option<Fifo<T>>)
      ensures r.Some? <==> |items| < capacity
      ensures r.Some? ==> r.value.items == items + [x] && r.value.capacity == capacity
    {
      if |items| < capacity then Some(Fifo(items + [x], capacity)) else None
    }
  }

  /** Items leave in the order they arrived: a write never changes what the next read returns, and into an empty queue it is what the read returns. */
  lemma WriteThenRead<T>(q: Fifo<T>, x: T)
    requires |q.items| < q.capacity
    ensures q.WriteOne(x).value.ReadOne().Some?
    ensures |q.items| > 0 ==> q.WriteOne(x).value.ReadOne().value.0 == q.ReadOne().value.0
    ensures |q.items| == 0 ==> q.WriteOne(x).value.ReadOne().value == (x, q)
  {
  }

  /** Reads and writes keep a queue within its capacity. */
  lemma ValidPreserved<T>(q: Fifo<T>, x: T)
    requires q.Valid()
    ensures q.ReadOne().Some? ==> q.ReadOne().value.1.Valid()
    ensures q.WriteOne(x).Some? ==> q.WriteOne(x).value.Valid()
  {
  }
}

=== FILE: gpu_command.dfy ===
/**
 * How GP0 words become commands: every word waiting in the GP0 FIFO is
 * appended to the command buffer; the first word's index selects the
 * command; its word count is computed once and cached; and when the buffer
 * holds that many words the command runs on exactly those words, which are
 * then removed, and the cache is reset.
 */
module GpuCommand {
  import opened Wrappers
  import opened Ints
  import opened GpuGp0

  /** The command buffer and the cached word count of the command at its head. */
  datatype CommandState = CommandState(buffer: seq<U32>, required: Option<nat>)

  /**
   * What one call did: nothing yet, ran a command, met an index it does not
   * know (a panic), or ran a command on no words at all because a count of 0
   * was cached, where reading the slice's first word panics.
   */
  datatype Step =
    | Waiting(cs: CommandState)
    | Executed(cs: CommandState, command: seq<U32>)
    | Unknown(index: Byte)
    | EmptyCommand

  /**
   * `handle_command`, with `incoming` the words drained from the GP0 FIFO.
   * The command's handler runs on `command`; it does not touch the buffer.
   */
  function HandleCommand(cs: CommandState, incoming: seq<U32>): (r: Step)
    ensures |cs.buffer + incoming| == 0 ==> r == Waiting(CommandState([], cs.required))
    ensures r.Executed? ==>
      && r.command + r.cs.buffer == cs.buffer + incoming
      && |r.command| >= 1 && r.cs.required.None?
      && Known(CommandIndex(r.command[0]))
    ensures r.Waiting? ==> r.cs.buffer == cs.buffer + incoming
    ensures r.Unknown? <==> |cs.buffer + incoming| > 0 && !Known(CommandIndex((cs.buffer + incoming)[0]))
  {
    var buffer := cs.buffer + incoming;
    if |buffer| == 0 then Waiting(CommandState(buffer, cs.required))
    else
      var index := CommandIndex(buffer[0]);
      if !Known(index) then Unknown(index)
      else
        var required :=
          if cs.required.Some? then cs.required
          else RequiredLength(index, buffer);
        match required
        case None => Waiting(CommandState(buffer, None))
        case Some(n) =>
          if |buffer| < n then Waiting(CommandState(buffer, required))
          else if n == 0 then EmptyCommand
          else Executed(CommandState(buffer[n..], None), buffer[..n])
  }

  /** The cache holds the word count of the command at the head of the buffer, if any. */
  predicate Consistent(cs: CommandState) {
    cs.required.Some? ==>
      |cs.buffer| > 0 && Known(CommandIndex(cs.buffer[0]))
      && RequiredLength(CommandIndex(cs.buffer[0]), cs.buffer) == cs.required
  }

  /** A known word count does not change as more words arrive. */
  lemma RequiredLengthStable(index: Byte, buffer: seq<U32>, more: seq<U32>)
    requires Known(index) && RequiredLength(index, buffer).Some?
    ensures RequiredLength(index, buffer + more) == RequiredLength(index, buffer)
  {
    if index == 0xA0 {
      assert (buffer + more)[2] == buffer[2];
    }
  }

  /** Every call keeps the cache consistent, and with a consistent cache the empty-command panic cannot happen. */
  lemma HandleCommandConsistent(cs: CommandState, incoming: seq<U32>)
    requires Consistent(cs)
    ensures HandleCommand(cs, incoming).Waiting? ==> Consistent(HandleCommand(cs, incoming).cs)
    ensures HandleCommand(cs, incoming).Executed? ==> Consistent(HandleCommand(cs, incoming).cs)
    ensures !HandleCommand(cs, incoming).EmptyCommand?
  {
    var buffer := cs.buffer + incoming;
    if cs.required.Some? {
      assert buffer[0] == cs.buffer[0];
      RequiredLengthStable(CommandIndex(cs.buffer[0]), cs.buffer, incoming);
    }
  }

  /**
   * Caching is invisible: with a consistent cache a call does what it would
   * do had it recomputed the word count, and it runs the command exactly
   * when the buffer holds that many words.
   */
  lemma CacheTransparent(cs: CommandState, incoming: seq<U32>)
    requires Consistent(cs)
    ensures var b := cs.buffer + incoming;
      |b| > 0 && Known(CommandIndex(b[0])) ==>
        var n := RequiredLength(CommandIndex(b[0]), b);
        && (HandleCommand(cs, incoming).Executed? <==> n.Some? && |b| >= n.value)
        && (HandleCommand(cs, incoming).Executed? ==> HandleCommand(cs, incoming).command == b[..n.value])
  {
    var b := cs.buffer + incoming;
    if cs.required.Some? {
      assert b[0] == cs.buffer[0];
      RequiredLengthStable(CommandIndex(cs.buffer[0]), cs.buffer, incoming);
    }
    if |b| > 0 && Known(CommandIndex(b[0])) {
      var n := RequiredLength(CommandIndex(b[0]), b);
      if n.Some? {
        A0LengthPositive(b);
      }
    }
  }

  lemma A0LengthPositive(b: seq<U32>)
    requires |b| > 0 && Known(CommandIndex(b[0])) && RequiredLength(CommandIndex(b[0]), b).Some?
    ensures RequiredLength(CommandIndex(b[0]), b).value >= 1
  {
  }

  /** An empty buffer with nothing arriving is left as it is. */
  lemma EmptyWaits(required: Option<nat>)
    ensures HandleCommand(CommandState([], required), []) == Waiting(CommandState([], required))
  {
  }

  /** A word with an index not in the table is rejected as soon as it reaches the head of the buffer. */
  lemma UnknownRejected(cs: CommandState, incoming: seq<U32>)
    requires |cs.buffer| > 0 && !Known(CommandIndex(cs.buffer[0]))
    ensures HandleCommand(cs, incoming) == Unknown(CommandIndex(cs.buffer[0]))
  {
    assert (cs.buffer + incoming)[0] == cs.buffer[0];
  }

  /** A one-word E-command arriving alone into an empty buffer runs at once and leaves the buffer empty. */
  lemma SingleWordRuns(word: U32)
    requires 0xE1 <= CommandIndex(word) <= 0xE6
    ensures HandleCommand(CommandState([], None), [word]) == Executed(CommandState([], None), [word])
  {
  }

  /** An A0 copy whose size word has not arrived waits without caching, then runs once header and pixels are all there. */
  lemma A0WaitsForSize(w0: U32, w1: U32, w2: U32, pixels: seq<U32>)
    requires CommandIndex(w0) == 0xA0 && w2 == 0x0001_0002 && |pixels| == 1
    ensures HandleCommand(CommandState([], None), [w0, w1]) == Waiting(CommandState([w0, w1], None))
    ensures HandleCommand(CommandState([w0, w1], None), [w2]) == Waiting(CommandState([w0, w1, w2], Some(4)))
    ensures HandleCommand(CommandState([w0, w1, w2], Some(4)), pixels) ==
      Executed(CommandState([], None), [w0, w1, w2] + pixels)
  {
    assert ([w0, w1] + [w2])[2] == w2;
  }
}

=== FILE: gpu_data.dfy ===
/**
 * How the GPU reads the fields of its command words: vertex positions and
 * sizes through per-command "modifiers" that mask or sign-extend them, the
 * texture page's transparency and colour modes, RGB colours and the CLUT
 * base. Words are numbers below 2^32, positions are `isize` values and
 * every mask is written as a modulus (which is what `&` with a low mask of
 * ones does to a two's complement number).
 */
module GpuData {
  import opened Ints

  /** `default_render_{x,y}_position_modifier`: the low 11 bits, through i16, shifted left then arithmetically right by 5. */
  function RenderPosition(d: int): (r: int)
    ensures -0x400 <= r < 0x400
    ensures (r - d) % 0x800 == 0
  {
    var x := ToI16(d) % 0x800;
    RenderPositionValue(d, x, ToI16(x * 32));
    ToI16(x * 32) / 32
  }

  /** The i16 shifts give the 11-bit field `x` of `d` back as a two's complement number. */
  lemma RenderPositionValue(d: int, x: int, s: int)
    requires x == ToI16(d) % 0x800 && s == ToI16(x * 32)
    ensures -0x400 <= s / 32 < 0x400 && (s / 32 - d) % 0x800 == 0
  {
    var t := ToI16(d);
    var k := (t - d) / 0x1_0000;
    assert t - d == k * 0x1_0000;
    var j := t / 0x800;
    assert t == j * 0x800 + x;
    var y := if x < 0x400 then x else x - 0x800;
    assert s == y * 32;
    ModUnique(s, y, 0, 32);
    assert y - d == (k * 32 - j - (if x < 0x400 then 0 else 1)) * 0x800;
    MulMod(k * 32 - j - (if x < 0x400 then 0 else 1), 0x800);
  }

  /** The sign-extended value is the unique number in [-1024, 1024) that agrees with `d` in its low 11 bits. */
  lemma RenderPositionUnique(d: int, y: int)
    requires -0x400 <= y < 0x400 && (y - d) % 0x800 == 0
    ensures RenderPosition(d) == y
  {
    var r := RenderPosition(d);
    CongruentInWindow(r, y, d);
  }

  /** Two numbers in one window of 2048 that agree with `d` modulo 2048 are equal. */
  lemma CongruentInWindow(a: int, b: int, d: int)
    requires -0x400 <= a < 0x400 && -0x400 <= b < 0x400
    requires (a - d) % 0x800 == 0 && (b - d) % 0x800 == 0
    ensures a == b
  {
    var ka, kb := (a - d) / 0x800, (b - d) / 0x800;
    assert a - d == ka * 0x800;
    assert b - d == kb * 0x800;
    assert a - b == (ka - kb) * 0x800;
  }

  /** `default_fill_x_position_modifier`: `d & 0x3F0`, the low 10 bits rounded down to a multiple of 16. */
  function FillXPosition(d: int): (r: int)
    ensures 0 <= r <= 0x3F0 && r % 16 == 0
    ensures r <= d % 0x400 < r + 16
  {
    (d % 0x400) / 16 * 16
  }

  /** `d & 0x1FF`: the fill y position and size, and the copy y position. */
  function Low9(d: int): (r: int)
    ensures 0 <= r < 0x200 && (r - d) % 0x200 == 0
  {
    d % 0x200
  }

  /** `d & 0x3FF`: the copy x position. */
  function Low10(d: int): (r: int)
    ensures 0 <= r < 0x400 && (r - d) % 0x400 == 0
  {
    d % 0x400
  }

  /** `default_fill_x_size_modifier`: the low 10 bits rounded up to a multiple of 16. */
  function FillXSize(d: int): (r: int)
    ensures 0 <= r <= 0x400 && r % 16 == 0
    ensures r - 16 < d % 0x400 <= r
  {
    ((d % 0x400) + 0xF) / 16 * 16
  }

  /** `default_copy_x_size_modifier`: `((d - 1) & 0x3FF) + 1`, a width in 1..=1024 where 0 means 1024. */
  function CopyXSize(d: int): (r: int)
    ensures 1 <= r <= 0x400 && (r - d) % 0x400 == 0
  {
    ((d - 1) % 0x400) + 1
  }

  /** `default_copy_y_size_modifier`: a height in 1..=512 where 0 means 512. */
  function CopyYSize(d: int): (r: int)
    ensures 1 <= r <= 0x200 && (r - d) % 0x200 == 0
  {
    ((d - 1) % 0x200) + 1
  }

  /** A zero copy size is the largest size, and a size within range is kept. */
  lemma CopySizeZeroIsMaximum(d: int)
    ensures CopyXSize(0) == 0x400 && CopyYSize(0) == 0x200
    ensures 1 <= d <= 0x400 ==> CopyXSize(d) == d
    ensures 1 <= d <= 0x200 ==> CopyYSize(d) == d
  {
  }

  datatype TransparencyMode = Average | Additive | Difference | Quarter
  datatype ClutMode = Bits4 | Bits8 | Bits15 | Reserved

  /** The transparency mode a 2-bit code selects; every code has one, so the source's `unreachable!` is never reached. */
  function TransparencyOfCode(code: nat): (r: TransparencyMode)
    requires code < 4
  {
    if code == 0 then Average else if code == 1 then Additive else if code == 2 then Difference else Quarter
  }

  function TransparencyCode(m: TransparencyMode): (r: nat)
    ensures r < 4
  {
    match m
    case Average => 0
    case Additive => 1
    case Difference => 2
    case Quarter => 3
  }

  /** The CLUT mode a 2-bit code selects. */
  function ClutOfCode(code: nat): (r: ClutMode)
    requires code < 4
  {
    if code == 0 then Bits4 else if code == 1 then Bits8 else if code == 2 then Bits15 else Reserved
  }

  function ClutCode(m: ClutMode): (r: nat)
    ensures r < 4
  {
    match m
    case Bits4 => 0
    case Bits8 => 1
    case Bits15 => 2
    case Reserved => 3
  }

  /** The code tables are bijections: decoding then encoding gives the code back, and the other way round. */
  lemma ModeCodesRoundTrip(code: nat, t: TransparencyMode, c: ClutMode)
    requires code < 4
    ensures TransparencyCode(TransparencyOfCode(code)) == code && TransparencyOfCode(TransparencyCode(t)) == t
    ensures ClutCode(ClutOfCode(code)) == code && ClutOfCode(ClutCode(c)) == c
  {
  }

  /** `extract_texpage_transparency_mode`: the 2-bit field at bit 21. */
  function TexpageTransparency(raw: U32): (r: TransparencyMode)
    ensures TransparencyCode(r) == (raw / 0x20_0000) % 4
  {
    TransparencyOfCode((raw / 0x20_0000) % 4)
  }

  /** `extract_texpage_clut_mode`: the 2-bit field at bit 23. */
  function TexpageClut(raw: U32): (r: ClutMode)
    ensures ClutCode(r) == (raw / 0x80_0000) % 4
  {
    ClutOfCode((raw / 0x80_0000) % 4)
  }

  datatype Color = Color(r: Byte, g: Byte, b: Byte, a: Byte)

  /** `extract_color_rgb`: red, green and blue from bytes 0, 1 and 2, with the given alpha. */
  function ColorRgb(raw: U32, alpha: Byte): (c: Color)
    ensures c.r + c.g * 0x100 + c.b * 0x1_0000 == raw % 0x100_0000
    ensures c.a == alpha
  {
    ColorDigits(raw);
    Color(raw % 0x100, (raw / 0x100) % 0x100, (raw / 0x1_0000) % 0x100, alpha)
  }

  /** The low three bytes of a number, in base 256. */
  lemma ColorDigits(raw: int)
    ensures raw % 0x100 + ((raw / 0x100) % 0x100) * 0x100 + ((raw / 0x1_0000) % 0x100) * 0x1_0000 == raw % 0x100_0000
  {
    ModSplit(raw, 0x100, 0x1_0000);
    ModSplit(raw / 0x100, 0x100, 0x100);
    DivDiv(raw, 0x100, 0x100);
  }

  datatype Point = Point(x: int, y: int)

  /** `extract_clut_base`: in the upper half-word, x is the 6-bit field times 16 and y the 9-bit field above it. */
  function ClutBase(raw: U32): (p: Point)
    ensures 0 <= p.x <= 0x3F0 && p.x % 16 == 0 && 0 <= p.y < 0x200
    ensures p.x / 16 + 64 * p.y == (raw / 0x1_0000) % 0x8000
  {
    var clut := raw / 0x1_0000;
    Point((clut % 64) * 16, (clut / 64) % 512)
  }

  /** `extract_point`/`extract_size`: the two half-words of the word, each through its modifier. */
  function HalfWords(raw: U32, xm: int -> int, ym: int -> int): Point {
    Point(xm(raw % 0x1_0000), ym(raw / 0x1_0000))
  }

  /** A rendered vertex is the sign-extended 11-bit value of each half-word; the x half needs no separate cut. */
  lemma RenderVertex(raw: U32)
    ensures var p := HalfWords(raw, RenderPosition, RenderPosition);
      p.x == RenderPosition(raw) && -0x400 <= p.y < 0x400 && (p.y - raw / 0x1_0000) % 0x800 == 0
  {
    var x := RenderPosition(raw % 0x1_0000);
    DropHighHalf(x, raw % 0x1_0000, raw / 0x1_0000);
    assert raw == raw % 0x1_0000 + (raw / 0x1_0000) * 0x1_0000;
    RenderPositionUnique(raw, x);
  }

  lemma DropHighHalf(a: int, b: int, q: int)
    requires (a - b) % 0x800 == 0
    ensures (a - (b + q * 0x1_0000)) % 0x800 == 0
  {
    var k := (a - b) / 0x800;
    assert a - b == k * 0x800;
    assert a - (b + q * 0x1_0000) == (k - q * 32) * 0x800;
  }
}

=== FILE: gpu_gp0.dfy ===
/**
 * The GP0 commands' word counts and the handlers that only set GPU state:
 * the draw-mode (E1), texture-window (E2), drawing-area (E3, E4),
 * drawing-offset (E5) and mask (E6) settings, and the VRAM-to-CPU copy
 * (C0) that packs a framebuffer rectangle into the read buffer.
 *
 * Command words are numbers below 2^32; a field `Bitfield::new(p, w)` of a
 * word `d` is `(d / 2^p) % 2^w`, written with literal powers of two.
 */
module GpuGp0 {
  import opened Wrappers
  import opened Ints
  import opened GpuData
  import opened ArrayUtils

  /** The command index: the top byte of the first word. */
  function CommandIndex(word: U32): (r: Byte)
    ensures r * 0x100_0000 <= word < (r + 1) * 0x100_0000
  {
    word / 0x100_0000
  }

  /** The indices `get_command_handler` knows; every other index is an unimplemented panic. */
  predicate Known(index: Byte) {
    index in {0x00, 0x01, 0x02, 0x05, 0x06, 0x0C, 0x28, 0x2C, 0x2D, 0x30, 0x38, 0x3C,
              0x50, 0x65, 0x6F, 0x80, 0xA0, 0xC0, 0xE1, 0xE2, 0xE3, 0xE4, 0xE5, 0xE6}
  }

  /** The pixel count of a size word: its low half-word (width) times its high half-word (height). */
  function Pixels(size: U32): (r: nat)
    ensures r == (size % 0x1_0000) * (size / 0x1_0000)
  {
    var width := size % 0x1_0000;
    var height := size / 0x1_0000;
    ProductNonNegative(width, height, width * height);
    width * height
  }

  lemma ProductNonNegative(a: int, b: int, p: int)
    requires a >= 0 && b >= 0 && p == a * b
    ensures p >= 0
  {
  }

  /**
   * `command_a0_length`: with fewer than three words the size is not known
   * yet; otherwise three words of header and the `width * height` half-word
   * pixels, two to a word, rounded up.
   */
  function A0Length(data: seq<U32>): (r: Option<nat>)
    ensures r.Some? <==> |data| >= 3
    ensures r.Some? ==> r.value >= 3 && Pixels(data[2]) <= 2 * (r.value - 3) <= Pixels(data[2]) + 1
  {
    if |data| < 3 then None
    else Some(3 + HalfUp(Pixels(data[2])))
  }

  /** Half of `n`, rounded up: the least count of words whose double covers `n` half-words. */
  function HalfUp(n: int): (r: nat)
    requires n >= 0
    ensures n <= 2 * r <= n + 1
  {
    (n + 1) / 2
  }

  /** The `*_length` function of a known command: a fixed count, or the A0 count. */
  function RequiredLength(index: Byte, data: seq<U32>): (r: Option<nat>)
    requires Known(index)
    ensures index != 0xA0 ==> r.Some? && r.value >= 1
    ensures index == 0xA0 ==> r == A0Length(data)
  {
    if index == 0xA0 then A0Length(data)
    else if index == 0x02 || index == 0x6F || index == 0xC0 then Some(3)
    else if index == 0x28 then Some(5)
    else if index == 0x2C || index == 0x2D then Some(9)
    else if index == 0x30 then Some(6)
    else if index == 0x38 then Some(8)
    else if index == 0x3C then Some(12)
    else if index == 0x50 || index == 0x65 || index == 0x80 then Some(4)
    else Some(1)
  }

  /**
   * The word count of a drawing command (0x20-0x7F) read off its index:
   * bit 4 gives a colour per vertex, bit 3 a fourth vertex (polygons) or a
   * fixed size (rectangles), bit 2 a texture coordinate per vertex.
   */
  function DrawLength(index: Byte): (r: nat)
    requires 0x20 <= index < 0x80
    ensures r >= 2
  {
    var shaded := (index / 16) % 2 == 1;
    var textured := (index / 4) % 2 == 1;
    if index < 0x40 then
      var vertices := if (index / 8) % 2 == 1 then 4 else 3;
      (if shaded then vertices else 1) + vertices + (if textured then vertices else 0)
    else if index < 0x60 then
      (if shaded then 2 else 1) + 2
    else
      var variableSize := (index / 8) % 4 == 0;
      2 + (if textured then 1 else 0) + (if variableSize then 1 else 0)
  }

  /** Every known drawing command's fixed count is the count its index describes. */
  lemma DrawLengthsAgree(index: Byte, data: seq<U32>)
    requires Known(index) && 0x20 <= index < 0x80
    ensures RequiredLength(index, data) == Some(DrawLength(index))
  {
  }

  /** Values of one-, two- and four-bit fields. */
  type Field1 = x: int | 0 <= x < 2
  type Field2 = x: int | 0 <= x < 4
  type Field4 = x: int | 0 <= x < 16

  /** The draw-mode bits of the GPU status register that GP0 commands set. */
  datatype DrawStat = DrawStat(
    texpageX: Field4, texpageY: Field1, transparency: Field2, texpageColors: Field2,
    dither: bool, drawDisplay: bool, drawMask: bool, drawPixels: bool, textureDisable: bool)

  function BoolBit(b: bool): (r: nat)
    ensures r < 2 && (r == 1 <==> b)
  {
    if b then 1 else 0
  }

  /** Status bits 0-10: texpage x 0-3, y 4, transparency 5-6, colours 7-8, dither 9, draw-to-display 10. */
  function StatLow(s: DrawStat): (r: nat)
    ensures r < 0x800
  {
    s.texpageX + s.texpageY * 0x10 + s.transparency * 0x20 + s.texpageColors * 0x80
      + BoolBit(s.dither) * 0x200 + BoolBit(s.drawDisplay) * 0x400
  }

  /** The status bits 0-12 and 15 as a number: the low bits, then mask 11, pixels 12 and texture disable 15. */
  function StatBits(s: DrawStat): nat {
    StatLow(s) + BoolBit(s.drawMask) * 0x800 + BoolBit(s.drawPixels) * 0x1000
      + BoolBit(s.textureDisable) * 0x8000
  }

  /** Status bits 0-10 are the low part and bits 11 and 12 the mask and pixel bits. */
  lemma StatFields(s: DrawStat)
    ensures StatBits(s) % 0x800 == StatLow(s)
    ensures (StatBits(s) / 0x800) % 4 == BoolBit(s.drawMask) + 2 * BoolBit(s.drawPixels)
  {
    var hi := BoolBit(s.drawMask) + 2 * BoolBit(s.drawPixels) + 16 * BoolBit(s.textureDisable);
    assert StatBits(s) == hi * 0x800 + StatLow(s);
    ModUnique(StatBits(s), hi, StatLow(s), 0x800);
    assert StatBits(s) / 0x800 == hi;
    ModUnique(hi, 4 * BoolBit(s.textureDisable), BoolBit(s.drawMask) + 2 * BoolBit(s.drawPixels), 4);
  }

  /** The low 11 bits of a word, field by field as E1 reads them. */
  lemma E1Digits(d: nat)
    ensures d % 0x800 == d % 0x10 + 0x10 * ((d / 0x10) % 2) + 0x20 * ((d / 0x20) % 4)
      + 0x80 * ((d / 0x80) % 4) + 0x200 * ((d / 0x200) % 2) + 0x400 * ((d / 0x400) % 2)
  {
    ModSplit(d, 0x10, 0x80);
    ModSplit(d / 0x10, 2, 0x40);
    assert d / 0x10 / 2 == d / 0x20;
    ModSplit(d / 0x20, 4, 0x10);
    assert d / 0x20 / 4 == d / 0x80;
    ModSplit(d / 0x80, 4, 4);
    assert d / 0x80 / 4 == d / 0x200;
    ModSplit(d / 0x200, 2, 2);
    assert d / 0x200 / 2 == d / 0x400;
  }

  /** The low 20 bits of a word as four 5-bit fields. */
  lemma E2Digits(d: nat)
    ensures d % 0x10_0000 == d % 0x20 + 0x20 * ((d / 0x20) % 0x20) + 0x400 * ((d / 0x400) % 0x20)
      + 0x8000 * ((d / 0x8000) % 0x20)
  {
    ModSplit(d, 0x20, 0x8000);
    ModSplit(d / 0x20, 0x20, 0x400);
    assert d / 0x20 / 0x20 == d / 0x400;
    ModSplit(d / 0x400, 0x20, 0x20);
    assert d / 0x400 / 0x20 == d / 0x8000;
  }

  /** The rendering state GP0 commands set. */
  datatype Controller = Controller(
    windowMaskX: nat, windowMaskY: nat, windowOffsetX: nat, windowOffsetY: nat,
    areaX1: nat, areaY1: nat, areaX2: nat, areaY2: nat,
    offsetX: int, offsetY: int,
    texpageBaseX: nat, texpageBaseY: nat,
    transparency: TransparencyMode, clut: ClutMode,
    rectXFlip: bool, rectYFlip: bool,
    readBuffer: seq<U32>)

  /** The controller state, the status bits and the GPUREAD FIFO's contents. */
  datatype GpuState = GpuState(ctl: Controller, stat: DrawStat, read: seq<U32>)

  /** The status half of E1: bits 0-10 of the word go to status bits 0-10, and bit 11 to bit 15. */
  function E1Stat(s: DrawStat, d: U32): (r: DrawStat)
    ensures StatBits(r) % 0x800 == d % 0x800
    ensures r.textureDisable <==> (d / 0x800) % 2 == 1
    ensures r.drawMask == s.drawMask && r.drawPixels == s.drawPixels
  {
    E1Digits(d);
    var r := s.(texpageX := d % 0x10, texpageY := (d / 0x10) % 2,
       transparency := (d / 0x20) % 4, texpageColors := (d / 0x80) % 4,
       dither := (d / 0x200) % 2 == 1, drawDisplay := (d / 0x400) % 2 == 1,
       textureDisable := (d / 0x800) % 2 == 1);
    StatFields(r);
    r
  }

  /**
   * `command_e1_handler` as written: the status bits and the texture page
   * base come from the word's own fields, but the controller's
   * transparency and CLUT modes are read with the polygon-attribute
   * extractors, from bits 21-22 and 23-24 of the command word.
   */
  function E1AsWritten(g: GpuState, d: U32): (r: GpuState)
    ensures r.stat == E1Stat(g.stat, d) && r.read == g.read
    ensures r.ctl.transparency == TransparencyOfCode((d / 0x20_0000) % 4)
    ensures r.ctl.clut == ClutOfCode((d / 0x80_0000) % 4)
  {
    var ctl := g.ctl.(texpageBaseX := d % 0x10, texpageBaseY := (d / 0x10) % 2,
                      transparency := TexpageTransparency(d), clut := TexpageClut(d),
                      rectXFlip := (d / 0x1000) % 2 == 1, rectYFlip := (d / 0x2000) % 2 == 1);
    GpuState(ctl, E1Stat(g.stat, d), g.read)
  }

  /**
   * The E1 handler with the modes taken from the fields it writes to the
   * status register, bits 5-6 and 7-8: the texture page base, the modes and
   * the rectangle flips (bits 12, 13) all agree with the word.
   */
  function E1(g: GpuState, d: U32): (r: GpuState)
    ensures r.stat == E1Stat(g.stat, d) && r.read == g.read
    ensures r.ctl.texpageBaseX == r.stat.texpageX && r.ctl.texpageBaseY == r.stat.texpageY
    ensures TransparencyCode(r.ctl.transparency) == r.stat.transparency
    ensures ClutCode(r.ctl.clut) == r.stat.texpageColors
    ensures (r.ctl.rectXFlip <==> (d / 0x1000) % 2 == 1) && (r.ctl.rectYFlip <==> (d / 0x2000) % 2 == 1)
    ensures r.ctl == g.ctl.(texpageBaseX := r.ctl.texpageBaseX, texpageBaseY := r.ctl.texpageBaseY,
                            transparency := r.ctl.transparency, clut := r.ctl.clut,
                            rectXFlip := r.ctl.rectXFlip, rectYFlip := r.ctl.rectYFlip)
  {
    var stat := E1Stat(g.stat, d);
    ModeCodesRoundTrip(stat.transparency, Average, Bits4);
    ModeCodesRoundTrip(stat.texpageColors, Average, Bits4);
    var ctl := g.ctl.(texpageBaseX := d % 0x10, texpageBaseY := (d / 0x10) % 2,
                      transparency := TransparencyOfCode(stat.transparency),
                      clut := ClutOfCode(stat.texpageColors),
                      rectXFlip := (d / 0x1000) % 2 == 1, rectYFlip := (d / 0x2000) % 2 == 1);
    GpuState(ctl, stat, g.read)
  }

  /**
   * Bit 24 of every E1 word is set (it is part of the index 0xE1), so the
   * handler as written always selects the 15-bit or the reserved CLUT mode,
   * whatever the word's colour bits say.
   */
  lemma E1AsWrittenClutIgnoresWord(g: GpuState, d: U32)
    requires CommandIndex(d) == 0xE1
    ensures E1AsWritten(g, d).ctl.clut in {Bits15, Reserved}
  {
    var k := d / 0x80_0000;
    assert k == 2 * 0xE1 + (d % 0x100_0000) / 0x80_0000;
  }

  /** For the word 0xE100_0000, which asks for 4-bit colours, the handler as written picks 15-bit colours. */
  lemma E1AsWrittenExample(g: GpuState)
    ensures E1(g, 0xE100_0000).ctl.clut == Bits4
    ensures E1AsWritten(g, 0xE100_0000).ctl.clut == Bits15
  {
  }

  /** `command_e2_handler`: the four 5-bit texture-window fields, which together are the low 20 bits. */
  function E2(g: GpuState, d: U32): (r: GpuState)
    ensures var c := r.ctl;
      c.windowMaskX < 32 && c.windowMaskY < 32 && c.windowOffsetX < 32 && c.windowOffsetY < 32
      && c.windowMaskX + c.windowMaskY * 0x20 + c.windowOffsetX * 0x400 + c.windowOffsetY * 0x8000 == d % 0x10_0000
    ensures r == g.(ctl := g.ctl.(windowMaskX := r.ctl.windowMaskX, windowMaskY := r.ctl.windowMaskY,
                                  windowOffsetX := r.ctl.windowOffsetX, windowOffsetY := r.ctl.windowOffsetY))
  {
    E2Digits(d);
    g.(ctl := g.ctl.(windowMaskX := d % 0x20, windowMaskY := (d / 0x20) % 0x20,
                     windowOffsetX := (d / 0x400) % 0x20, windowOffsetY := (d / 0x8000) % 0x20))
  }

  /** A drawing-area corner: x the 10-bit field at 0 and y the 9-bit field at 10, together the low 19 bits. */
  function AreaCorner(d: U32): (r: (nat, nat))
    ensures r.0 < 0x400 && r.1 < 0x200 && r.0 + r.1 * 0x400 == d % 0x8_0000
  {
    ModSplit(d, 0x400, 0x200);
    (d % 0x400, (d / 0x400) % 0x200)
  }

  /** `command_e3_handler`: the top-left drawing-area corner. */
  function E3(g: GpuState, d: U32): (r: GpuState)
    ensures (r.ctl.areaX1, r.ctl.areaY1) == AreaCorner(d)
    ensures r == g.(ctl := g.ctl.(areaX1 := r.ctl.areaX1, areaY1 := r.ctl.areaY1))
  {
    var (x, y) := AreaCorner(d);
    g.(ctl := g.ctl.(areaX1 := x, areaY1 := y))
  }

  /** `command_e4_handler`: the bottom-right drawing-area corner. */
  function E4(g: GpuState, d: U32): (r: GpuState)
    ensures (r.ctl.areaX2, r.ctl.areaY2) == AreaCorner(d)
    ensures r == g.(ctl := g.ctl.(areaX2 := r.ctl.areaX2, areaY2 := r.ctl.areaY2))
  {
    var (x, y) := AreaCorner(d);
    g.(ctl := g.ctl.(areaX2 := x, areaY2 := y))
  }

  /** An 11-bit field as `i16`, shifted left then arithmetically right by 5: its two's complement value. */
  function SignExtend11(x: int): (r: int)
    requires 0 <= x < 0x800
    ensures r == if x < 0x400 then x else x - 0x800
  {
    ToI16(x * 32) / 32
  }

  /** `command_e5_handler`: the drawing offset, x from bits 0-10 and y from bits 11-21, each sign-extended. */
  function E5(g: GpuState, d: U32): (r: GpuState)
    ensures -0x400 <= r.ctl.offsetX < 0x400 && -0x400 <= r.ctl.offsetY < 0x400
    ensures (r.ctl.offsetX - d) % 0x800 == 0 && (r.ctl.offsetY - d / 0x800) % 0x800 == 0
    ensures r == g.(ctl := g.ctl.(offsetX := r.ctl.offsetX, offsetY := r.ctl.offsetY))
  {
    g.(ctl := g.ctl.(offsetX := SignExtend11(d % 0x800), offsetY := SignExtend11((d / 0x800) % 0x800)))
  }

  /** The drawing offset as written is the one the render position modifier gives: both read an 11-bit two's complement number. */
  lemma E5MatchesRenderPosition(g: GpuState, d: U32)
    ensures E5(g, d).ctl.offsetX == RenderPosition(d)
    ensures E5(g, d).ctl.offsetY == RenderPosition(d / 0x800)
  {
    var r := E5(g, d);
    RenderPositionUnique(d, r.ctl.offsetX);
    RenderPositionUnique(d / 0x800, r.ctl.offsetY);
  }

  /** `command_e6_handler`: status bit 11 from bit 0 and bit 12 from bit 1. */
  function E6(g: GpuState, d: U32): (r: GpuState)
    ensures (StatBits(r.stat) / 0x800) % 4 == d % 4
    ensures r == g.(stat := g.stat.(drawMask := r.stat.drawMask, drawPixels := r.stat.drawPixels))
  {
    ModSplit(d, 2, 2);
    var r := g.(stat := g.stat.(drawMask := d % 2 == 1, drawPixels := (d / 2) % 2 == 1));
    StatFields(r.stat);
    r
  }

  /** Two half-words to a word, low half first; an odd last half-word is paired with 0. */
  function PackHalfwords(p: seq<U16>): (r: seq<U32>)
    ensures |r| == (|p| + 1) / 2
    decreases |p|
  {
    if |p| == 0 then []
    else if |p| == 1 then [p[0]]
    else [p[0] + (p[1] as int) * 0x1_0000] + PackHalfwords(p[2..])
  }

  /** The half-words of the words, low half first. */
  function UnpackWords(w: seq<U32>): (r: seq<U16>)
    ensures |r| == 2 * |w|
  {
    if |w| == 0 then [] else [w[0] % 0x1_0000, w[0] / 0x1_0000] + UnpackWords(w[1..])
  }

  /** Unpacking the packed words gives the half-words back, with the 0 padding for an odd count. */
  lemma {:induction false} PackRoundTrip(p: seq<U16>)
    ensures UnpackWords(PackHalfwords(p)) == p + (if |p| % 2 == 1 then [0] else [])
    decreases |p|
  {
    if |p| >= 2 {
      PackRoundTrip(p[2..]);
      assert p == [p[0], p[1]] + p[2..];
    }
  }

  /** Packing the half-words of any words gives the words back. */
  lemma {:induction false} UnpackRoundTrip(w: seq<U32>)
    ensures PackHalfwords(UnpackWords(w)) == w
    decreases |w|
  {
    if |w| > 0 {
      UnpackRoundTrip(w[1..]);
      var u := UnpackWords(w);
      assert u[2..] == UnpackWords(w[1..]);
      assert w == [w[0]] + w[1..];
    }
  }

  /** What a handler did: the new state, an error it returned, or a panic. */
  datatype Handled = Done(g: GpuState) | Failed(message: string) | Panicked

  /**
   * `command_c0_handler`. The rectangle's size comes from the copy size
   * modifiers, so its area is never 0 and the area assertion cannot fail.
   * `framebuffer` is what the backend reads (None when there is no
   * backend); it is flipped row by row, must hold exactly the area (a panic
   * otherwise), and is packed into the read buffer after both read queues
   * are cleared.
   */
  function C0(g: GpuState, data: seq<U32>, framebuffer: Option<seq<U16>>): (r: Handled)
    requires |data| >= 3
    ensures framebuffer.None? ==> r.Failed?
    ensures r.Done? ==> r.g == g.(read := [], ctl := g.ctl.(readBuffer := r.g.ctl.readBuffer))
    ensures r.Done? ==> var size := HalfWords(data[2], CopyXSize, CopyYSize);
      2 * |r.g.ctl.readBuffer| - 1 <= size.x * size.y <= 2 * |r.g.ctl.readBuffer|
  {
    var size := HalfWords(data[2], CopyXSize, CopyYSize);
    var count := size.x * size.y;
    if count == 0 then assert false; Panicked
    else match framebuffer
      case None => Failed("No backend available for reading framebuffer")
      case Some(pixels) =>
        match FlipRows(pixels, size.x)
        case None => Panicked
        case Some(flipped) =>
          if |flipped| != count then Panicked
          else Done(g.(read := [], ctl := g.ctl.(readBuffer := PackHalfwords(flipped))))
  }

  /**
   * A successful C0 leaves in the read buffer the framebuffer's rows in
   * reverse order, two pixels to a word, low half first.
   */
  lemma C0ReadBuffer(g: GpuState, data: seq<U32>, pixels: seq<U16>)
    requires |data| >= 3 && C0(g, data, Some(pixels)).Done?
    ensures var width := HalfWords(data[2], CopyXSize, CopyYSize).x;
      FlipRows(pixels, width).Some? &&
      UnpackWords(C0(g, data, Some(pixels)).g.ctl.readBuffer) ==
        FlipRows(pixels, width).value + (if |pixels| % 2 == 1 then [0] else [])
  {
    var width := HalfWords(data[2], CopyXSize, CopyYSize).x;
    PackRoundTrip(FlipRows(pixels, width).value);
  }

  /** C0 succeeds exactly when the backend returns a whole rectangle of the requested size. */
  lemma C0Succeeds(g: GpuState, data: seq<U32>, pixels: seq<U16>)
    requires |data| >= 3
    ensures var size := HalfWords(data[2], CopyXSize, CopyYSize);
      C0(g, data, Some(pixels)).Done? <==> |pixels| == size.x * size.y
  {
    var size := HalfWords(data[2], CopyXSize, CopyYSize);
    MulMod(size.y, size.x);
  }
}

=== FILE: instruction.dfy ===
/**
 * Decoding of R3000 (MIPS I) instruction words: the fields of a word and
 * the nested dispatch on opcode, function code and register fields that
 * yields the handler for the instruction together with its cycle cost.
 *
 * The field layout is the standard MIPS I one: opcode in bits 26-31, rs in
 * 21-25, rt in 16-20, rd in 11-15, shamt in 6-10, funct in 0-5, the 16-bit
 * immediate in 0-15 and the 26-bit jump target in 0-25. For coprocessor
 * instructions `c` is bit 25 and `rs4` the four bits 21-24 below it.
 */
module Instructions {
  import opened Wrappers

  // Fields of an instruction word, as small naturals.

  function Opcode(w: bv32): (r: nat)
    ensures r < 64
  {
    ((w >> 26) as bv8) as nat
  }

  function Rs(w: bv32): (r: nat)
    ensures r < 32
  {
    (((w >> 21) & 0x1F) as bv8) as nat
  }

  function Rt(w: bv32): (r: nat)
    ensures r < 32
  {
    (((w >> 16) & 0x1F) as bv8) as nat
  }

  function Rd(w: bv32): (r: nat)
    ensures r < 32
  {
    (((w >> 11) & 0x1F) as bv8) as nat
  }

  function Shamt(w: bv32): (r: nat)
    ensures r < 32
  {
    (((w >> 6) & 0x1F) as bv8) as nat
  }

  function Funct(w: bv32): (r: nat)
    ensures r < 64
  {
    ((w & 0x3F) as bv8) as nat
  }

  /** The coprocessor operation flag, bit 25. */
  function C(w: bv32): bool {
    (w >> 25) & 1 == 1
  }

  /** The low four bits of rs, bits 21-24. */
  function Rs4(w: bv32): (r: nat)
    ensures r < 16
  {
    (((w >> 21) & 0xF) as bv8) as nat
  }

  /** The 16-bit immediate, unsigned. */
  function UImm(w: bv32): bv16 {
    (w & 0xFFFF) as bv16
  }

  /** The 26-bit jump target field. */
  function Addr(w: bv32): bv32 {
    w & 0x03FF_FFFF
  }

  /** Every instruction handler the dispatch can return. */
  datatype Handler =
    | Sll | Srl | Sra | Sllv | Srlv | Srav | Jr | Jalr | Syscall | Break
    | Mfhi | Mthi | Mflo | Mtlo | Mult | Multu | Div | Divu
    | Add | Addu | Sub | Subu | And | Or | Xor | Nor | Slt | Sltu
    | Bltz | Bgez | Bltzal | Bgezal
    | J | Jal | Beq | Bne | Blez | Bgtz
    | Addi | Addiu | Slti | Sltiu | Andi | Ori | Xori | Lui
    | Mfc0 | Mtc0 | Bc0f | Bc0t | Tlbr | Tlbwi | Tlbwr | Tlbp | Rfe
    | Lb | Lh | Lwl | Lw | Lbu | Lhu | Lwr | Sb | Sh | Swl | Sw | Swr
    | Lwc2 | Swc2
    | Mfc2 | Cfc2 | Mtc2 | Ctc2
    | Rtps | Nclip | Op | Dpcs | Intpl | Mvmva | Ncds | Cdp | Ncdt | Nccs
    | Cc | Ncs | Nct | Sqr | Dcpl | Dpct | Avsz3 | Avsz4 | Rtpt | Gpf | Gpl | Ncct

  /** Loads and stores, including the coprocessor 2 ones. */
  predicate IsMemoryAccess(h: Handler) {
    h in {Lb, Lh, Lwl, Lw, Lbu, Lhu, Lwr, Sb, Sh, Swl, Sw, Swr, Lwc2, Swc2}
  }

  /**
   * The cycle cost by kind of instruction: one cycle for the shifts by a
   * constant or register, the moves to and from hi and lo, the
   * multiplications and the register and immediate arithmetic; two for
   * everything that jumps, branches, traps, divides, touches memory or a
   * coprocessor.
   */
  function Cost(h: Handler): nat {
    if h in {Sll, Srl, Sra, Sllv, Srlv, Srav, Mfhi, Mthi, Mflo, Mtlo, Mult, Multu,
             Add, Addu, Sub, Subu, And, Or, Xor, Nor, Slt, Sltu,
             Addi, Addiu, Slti, Sltiu, Andi, Ori, Xori, Lui}
    then 1
    else 2
  }

  /** `lookup`: the handler and cycle cost for an instruction word, or None for a word it does not know. */
  function Lookup(w: bv32): Option<(Handler, nat)> {
    match Opcode(w)
    case 0 => LookupSpecial(w)
    case 1 => LookupRegimm(w)
    case 2 => Some((J, 2))
    case 3 => Some((Jal, 2))
    case 4 => Some((Beq, 2))
    case 5 => Some((Bne, 2))
    case 6 => Some((Blez, 2))
    case 7 => Some((Bgtz, 2))
    case 8 => Some((Addi, 1))
    case 9 => Some((Addiu, 1))
    case 10 => Some((Slti, 1))
    case 11 => Some((Sltiu, 1))
    case 12 => Some((Andi, 1))
    case 13 => Some((Ori, 1))
    case 14 => Some((Xori, 1))
    case 15 => Some((Lui, 1))
    case 16 => LookupCop0(w)
    case 32 => Some((Lb, 2))
    case 33 => Some((Lh, 2))
    case 34 => Some((Lwl, 2))
    case 35 => Some((Lw, 2))
    case 36 => Some((Lbu, 2))
    case 37 => Some((Lhu, 2))
    case 38 => Some((Lwr, 2))
    case 40 => Some((Sb, 2))
    case 41 => Some((Sh, 2))
    case 42 => Some((Swl, 2))
    case 43 => Some((Sw, 2))
    case 46 => Some((Swr, 2))
    case 18 => LookupCop2(w)
    case 50 => Some((Lwc2, 2))
    case 58 => Some((Swc2, 2))
    case _ => None
  }

  /** Opcode 0 (SPECIAL), by function code. */
  function LookupSpecial(w: bv32): Option<(Handler, nat)> {
    match Funct(w)
    case 0 => Some((Sll, 1))
    case 2 => Some((Srl, 1))
    case 3 => Some((Sra, 1))
    case 4 => Some((Sllv, 1))
    case 6 => Some((Srlv, 1))
    case 7 => Some((Srav, 1))
    case 8 => Some((Jr, 2))
    case 9 => Some((Jalr, 2))
    case 12 => Some((Syscall, 2))
    case 13 => Some((Break, 2))
    case 16 => Some((Mfhi, 1))
    case 17 => Some((Mthi, 1))
    case 18 => Some((Mflo, 1))
    case 19 => Some((Mtlo, 1))
    case 24 => Some((Mult, 1))
    case 25 => Some((Multu, 1))
    case 26 => Some((Div, 2))
    case 27 => Some((Divu, 2))
    case 32 => Some((Add, 1))
    case 33 => Some((Addu, 1))
    case 34 => Some((Sub, 1))
    case 35 => Some((Subu, 1))
    case 36 => Some((And, 1))
    case 37 => Some((Or, 1))
    case 38 => Some((Xor, 1))
    case 39 => Some((Nor, 1))
    case 42 => Some((Slt, 1))
    case 43 => Some((Sltu, 1))
    case _ => None
  }

  /** Opcode 1 (REGIMM), by rt. */
  function LookupRegimm(w: bv32): Option<(Handler, nat)> {
    match Rt(w)
    case 0 => Some((Bltz, 2))
    case 1 => Some((Bgez, 2))
    case 16 => Some((Bltzal, 2))
    case 17 => Some((Bgezal, 2))
    case _ => None
  }

  /** Opcode 16 (COP0): moves and branches by rs4 without `c`, operations by function code with it. */
  function LookupCop0(w: bv32): Option<(Handler, nat)> {
    if !C(w) then
      match Rs4(w)
      case 0 => Some((Mfc0, 2))
      case 4 => Some((Mtc0, 2))
      case 8 =>
        (match Rt(w)
         case 0 => Some((Bc0f, 2))
         case 1 => Some((Bc0t, 2))
         case _ => None)
      case _ => None
    else if Rs4(w) == 0 then
      match Funct(w)
      case 1 => Some((Tlbr, 2))
      case 2 => Some((Tlbwi, 2))
      case 6 => Some((Tlbwr, 2))
      case 8 => Some((Tlbp, 2))
      case 16 => Some((Rfe, 2))
      case _ => None
    else None
  }

  /** `lookup_cop2`: the GTE (coprocessor 2) instructions, by function code. */
  function LookupCop2(w: bv32): Option<(Handler, nat)> {
    match Funct(w)
    case 0 =>
      (match Rs(w)
       case 0 => Some((Mfc2, 2))
       case 2 => Some((Cfc2, 2))
       case 4 => Some((Mtc2, 2))
       case 6 => Some((Ctc2, 2))
       case _ => None)
    case 1 => Some((Rtps, 2))
    case 6 => Some((Nclip, 2))
    case 12 => Some((Op, 2))
    case 16 => Some((Dpcs, 2))
    case 17 => Some((Intpl, 2))
    case 18 => Some((Mvmva, 2))
    case 19 => Some((Ncds, 2))
    case 20 => Some((Cdp, 2))
    case 22 => Some((Ncdt, 2))
    case 27 => Some((Nccs, 2))
    case 28 => Some((Cc, 2))
    case 30 => Some((Ncs, 2))
    case 32 => Some((Nct, 2))
    case 40 => Some((Sqr, 2))
    case 41 => Some((Dcpl, 2))
    case 42 => Some((Dpct, 2))
    case 45 => Some((Avsz3, 2))
    case 46 => Some((Avsz4, 2))
    case 48 => Some((Rtpt, 2))
    case 61 => Some((Gpf, 2))
    case 62 => Some((Gpl, 2))
    case 63 => Some((Ncct, 2))
    case _ => None
  }

  // The function codes and register selectors each level of the dispatch accepts.

  const SpecialFuncts: set<nat> := {0, 2, 3, 4, 6, 7, 8, 9, 12, 13, 16, 17, 18, 19, 24, 25, 26, 27,
                                    32, 33, 34, 35, 36, 37, 38, 39, 42, 43}
  const RegimmRts: set<nat> := {0, 1, 16, 17}
  const Cop2Functs: set<nat> := {0, 1, 6, 12, 16, 17, 18, 19, 20, 22, 27, 28, 30, 32, 40, 41, 42, 45, 46, 48, 61, 62, 63}

  /** The cost a dispatch table gives is always its handler's. */
  predicate CostsAgree(r: Option<(Handler, nat)>) {
    r.Some? ==> r.value.1 == Cost(r.value.0)
  }

  lemma SpecialCost(w: bv32)
    ensures CostsAgree(LookupSpecial(w))
  {
  }

  lemma Cop0Cost(w: bv32)
    ensures CostsAgree(LookupCop0(w))
  {
  }

  lemma Cop2Cost(w: bv32)
    ensures CostsAgree(LookupCop2(w))
  {
  }

  lemma LookupCostsAgree(w: bv32)
    ensures CostsAgree(Lookup(w))
  {
    SpecialCost(w);
    Cop0Cost(w);
    Cop2Cost(w);
  }

  lemma MemoryAccessCost(h: Handler)
    ensures IsMemoryAccess(h) ==> Cost(h) == 2
    ensures Cost(h) in {1, 2}
  {
  }

  /** The returned cycle cost is always the cost of the handler's kind, so 1 or 2, and 2 for every load and store. */
  lemma LookupCost(w: bv32)
    ensures Lookup(w).Some? ==> Lookup(w).value.1 == Cost(Lookup(w).value.0)
    ensures Lookup(w).Some? ==> Lookup(w).value.1 in {1, 2}
    ensures Lookup(w).Some? && IsMemoryAccess(Lookup(w).value.0) ==> Lookup(w).value.1 == 2
  {
    LookupCostsAgree(w);
    var r := Lookup(w);
    if r.Some? {
      MemoryAccessCost(r.value.0);
    }
  }

  /** A SPECIAL word (opcode 0) decodes exactly when its function code is one of the listed ones. */
  lemma SpecialDecodes(w: bv32)
    requires Opcode(w) == 0
    ensures Lookup(w).Some? <==> Funct(w) in SpecialFuncts
  {
  }

  /** A REGIMM word (opcode 1) decodes exactly when rt is 0, 1, 16 or 17, and only to a branch. */
  lemma RegimmDecodes(w: bv32)
    requires Opcode(w) == 1
    ensures Lookup(w).Some? <==> Rt(w) in RegimmRts
    ensures Lookup(w).Some? ==> Lookup(w).value.0 in {Bltz, Bgez, Bltzal, Bgezal}
  {
  }

  /**
   * COP0 (opcode 16): without the `c` flag only rs4 values 0, 4 and 8
   * decode; with it rs4 must be 0 and the function code one of 1, 2, 6, 8
   * and 16.
   */
  lemma Cop0Decodes(w: bv32)
    requires Opcode(w) == 16
    ensures !C(w) && Lookup(w).Some? ==> Rs4(w) in {0, 4, 8}
    ensures C(w) ==> (Lookup(w).Some? <==> Rs4(w) == 0 && Funct(w) in {1, 2, 6, 8, 16})
  {
  }

  /** Opcode 18 is decoded by `lookup_cop2`, which accepts exactly the listed function codes, and with function code 0 only rs 0, 2, 4 and 6. */
  lemma Cop2Decodes(w: bv32)
    requires Opcode(w) == 18
    ensures Lookup(w) == LookupCop2(w)
    ensures Funct(w) != 0 ==> (Lookup(w).Some? <==> Funct(w) in Cop2Functs)
    ensures Funct(w) == 0 ==> (Lookup(w).Some? <==> Rs(w) in {0, 2, 4, 6})
  {
  }

  /** Primary opcodes the dispatch does not list decode to None. */
  lemma UnlistedOpcode(w: bv32)
    requires Opcode(w) !in {0, 1, 2, 3, 4, 5, 6, 7, 8, 9, 10, 11, 12, 13, 14, 15, 16, 18,
                            32, 33, 34, 35, 36, 37, 38, 40, 41, 42, 43, 46, 50, 58}
    ensures Lookup(w).None?
  {
  }

  // A canonical word for every handler: the fields the dispatch looks at,
  // every other field zero.

  function SpecialWord(funct: bv32): bv32 { funct }
  function RegimmWord(rt: bv32): bv32 { (1 << 26) | (rt << 16) }
  function PrimaryWord(op: bv32): bv32 { op << 26 }
  function Cop0Word(rs4: bv32, rt: bv32): bv32 { (16 << 26) | (rs4 << 21) | (rt << 16) }
  function Cop0CoWord(funct: bv32): bv32 { (16 << 26) | (1 << 25) | funct }
  function Cop2Word(rs: bv32, funct: bv32): bv32 { (18 << 26) | (rs << 21) | funct }

  function Encode(h: Handler): bv32 {
    match h
    case Sll => SpecialWord(0)
    case Srl => SpecialWord(2)
    case Sra => SpecialWord(3)
    case Sllv => SpecialWord(4)
    case Srlv => SpecialWord(6)
    case Srav => SpecialWord(7)
    case Jr => SpecialWord(8)
    case Jalr => SpecialWord(9)
    case Syscall => SpecialWord(12)
    case Break => SpecialWord(13)
    case Mfhi => SpecialWord(16)
    case Mthi => SpecialWord(17)
    case Mflo => SpecialWord(18)
    case Mtlo => SpecialWord(19)
    case Mult => SpecialWord(24)
    case Multu => SpecialWord(25)
    case Div => SpecialWord(26)
    case Divu => SpecialWord(27)
    case Add => SpecialWord(32)
    case Addu => SpecialWord(33)
    case Sub => SpecialWord(34)
    case Subu => SpecialWord(35)
    case And => SpecialWord(36)
    case Or => SpecialWord(37)
    case Xor => SpecialWord(38)
    case Nor => SpecialWord(39)
    case Slt => SpecialWord(42)
    case Sltu => SpecialWord(43)
    case Bltz => RegimmWord(0)
    case Bgez => RegimmWord(1)
    case Bltzal => RegimmWord(16)
    case Bgezal => RegimmWord(17)
    case J => PrimaryWord(2)
    case Jal => PrimaryWord(3)
    case Beq => PrimaryWord(4)
    case Bne => PrimaryWord(5)
    case Blez => PrimaryWord(6)
    case Bgtz => PrimaryWord(7)
    case Addi => PrimaryWord(8)
    case Addiu => PrimaryWord(9)
    case Slti => PrimaryWord(10)
    case Sltiu => PrimaryWord(11)
    case Andi => PrimaryWord(12)
    case Ori => PrimaryWord(13)
    case Xori => PrimaryWord(14)
    case Lui => PrimaryWord(15)
    case Mfc0 => Cop0Word(0, 0)
    case Mtc0 => Cop0Word(4, 0)
    case Bc0f => Cop0Word(8, 0)
    case Bc0t => Cop0Word(8, 1)
    case Tlbr => Cop0CoWord(1)
    case Tlbwi => Cop0CoWord(2)
    case Tlbwr => Cop0CoWord(6)
    case Tlbp => Cop0CoWord(8)
    case Rfe => Cop0CoWord(16)
    case Lb => PrimaryWord(32)
    case Lh => PrimaryWord(33)
    case Lwl => PrimaryWord(34)
    case Lw => PrimaryWord(35)
    case Lbu => PrimaryWord(36)
    case Lhu => PrimaryWord(37)
    case Lwr => PrimaryWord(38)
    case Sb => PrimaryWord(40)
    case Sh => PrimaryWord(41)
    case Swl => PrimaryWord(42)
    case Sw => PrimaryWord(43)
    case Swr => PrimaryWord(46)
    case Lwc2 => PrimaryWord(50)
    case Swc2 => PrimaryWord(58)
    case Mfc2 => Cop2Word(0, 0)
    case Cfc2 => Cop2Word(2, 0)
    case Mtc2 => Cop2Word(4, 0)
    case Ctc2 => Cop2Word(6, 0)
    case Rtps => Cop2Word(0, 1)
    case Nclip => Cop2Word(0, 6)
    case Op => Cop2Word(0, 12)
    case Dpcs => Cop2Word(0, 16)
    case Intpl => Cop2Word(0, 17)
    case Mvmva => Cop2Word(0, 18)
    case Ncds => Cop2Word(0, 19)
    case Cdp => Cop2Word(0, 20)
    case Ncdt => Cop2Word(0, 22)
    case Nccs => Cop2Word(0, 27)
    case Cc => Cop2Word(0, 28)
    case Ncs => Cop2Word(0, 30)
    case Nct => Cop2Word(0, 32)
    case Sqr => Cop2Word(0, 40)
    case Dcpl => Cop2Word(0, 41)
    case Dpct => Cop2Word(0, 42)
    case Avsz3 => Cop2Word(0, 45)
    case Avsz4 => Cop2Word(0, 46)
    case Rtpt => Cop2Word(0, 48)
    case Gpf => Cop2Word(0, 61)
    case Gpl => Cop2Word(0, 62)
    case Ncct => Cop2Word(0, 63)
  }

  // The canonical words decode back, one handler at a time (each case costs
  // the solver an evaluation of the whole dispatch).

  lemma DecodeEncodeSll(h: Handler)
    ensures h == Sll ==> Lookup(Encode(h)) == Some((h, Cost(h)))
  {
  }

  lemma DecodeEncodeSrl(h: Handler)
    ensures h == Srl ==> Lookup(Encode(h)) == Some((h, Cost(h)))
  {
  }

  lemma DecodeEncodeSra(h: Handler)
    ensures h == Sra ==> Lookup(Encode(h)) == Some((h, Cost(h)))
  {
  }

  lemma DecodeEncodeSllv(h: Handler)
    ensures h == Sllv ==> Lookup(Encode(h)) == Some((h, Cost(h)))
  {
  }

  lemma DecodeEncodeSrlv(h: Handler)
    ensures h == Srlv ==> Lookup(Encode(h)) == Some((h, Cost(h)))
  {
  }

  lemma DecodeEncodeSrav(h: Handler)
    ensures h == Srav ==> Lookup(Encode(h)) == Some((h, Cost(h)))
  {
  }

  lemma DecodeEncodeJr(h: Handler)
    ensures h == Jr ==> Lookup(Encode(h)) == Some((h, Cost(h)))
  {
  }

  lemma DecodeEncodeJalr(h: Handler)
    ensures h == Jalr ==> Lookup(Encode(h)) == Some((h, Cost(h)))
  {
  }

  lemma DecodeEncodeSyscall(h: Handler)
    ensures h == Syscall ==> Lookup(Encode(h)) == Some((h, Cost(h)))
  {
  }

  lemma DecodeEncodeBreak(h: Handler)
    ensures h == Break ==> Lookup(Encode(h)) == Some((h, Cost(h)))
  {
  }

  lemma DecodeEncodeMfhi(h: Handler)
    ensures h == Mfhi ==> Lookup(Encode(h)) == Some((h, Cost(h)))
  {
  }

  lemma DecodeEncodeMthi(h: Handler)
    ensures h == Mthi ==> Lookup(Encode(h)) == Some((h, Cost(h)))
  {
  }

  lemma DecodeEncodeMflo(h: Handler)
    ensures h == Mflo ==> Lookup(Encode(h)) == Some((h, Cost(h)))
  {
  }

  lemma DecodeEncodeMtlo(h: Handler)
    ensures h == Mtlo ==> Lookup(Encode(h)) == Some((h, Cost(h)))
  {
  }

  lemma DecodeEncodeMult(h: Handler)
    ensures h == Mult ==> Lookup(Encode(h)) == Some((h, Cost(h)))
  {
  }

  lemma DecodeEncodeMultu(h: Handler)
    ensures h == Multu ==> Lookup(Encode(h)) == Some((h, Cost(h)))
  {
  }

  lemma DecodeEncodeDiv(h: Handler)
    ensures h == Div ==> Lookup(Encode(h)) == Some((h, Cost(h)))
  {
  }

  lemma DecodeEncodeDivu(h: Handler)
    ensures h == Divu ==> Lookup(Encode(h)) == Some((h, Cost(h)))
  {
  }

  lemma DecodeEncodeAdd(h: Handler)
    ensures h == Add ==> Lookup(Encode(h)) == Some((h, Cost(h)))
  {
  }

  lemma DecodeEncodeAddu(h: Handler)
    ensures h == Addu ==> Lookup(Encode(h)) == Some((h, Cost(h)))
  {
  }

  lemma DecodeEncodeSub(h: Handler)
    ensures h == Sub ==> Lookup(Encode(h)) == Some((h, Cost(h)))
  {
  }

  lemma DecodeEncodeSubu(h: Handler)
    ensures h == Subu ==> Lookup(Encode(h)) == Some((h, Cost(h)))
  {
  }

  lemma DecodeEncodeAnd(h: Handler)
    ensures h == And ==> Lookup(Encode(h)) == Some((h, Cost(h)))
  {
  }

  lemma DecodeEncodeOr(h: Handler)
    ensures h == Or ==> Lookup(Encode(h)) == Some((h, Cost(h)))
  {
  }

  lemma DecodeEncodeXor(h: Handler)
    ensures h == Xor ==> Lookup(Encode(h)) == Some((h, Cost(h)))
  {
  }

  lemma DecodeEncodeNor(h: Handler)
    ensures h == Nor ==> Lookup(Encode(h)) == Some((h, Cost(h)))
  {
  }

  lemma DecodeEncodeSlt(h: Handler)
    ensures h == Slt ==> Lookup(Encode(h)) == Some((h, Cost(h)))
  {
  }

  lemma DecodeEncodeSltu(h: Handler)
    ensures h == Sltu ==> Lookup(Encode(h)) == Some((h, Cost(h)))
  {
  }

  lemma DecodeEncodeBltz(h: Handler)
    ensures h == Bltz ==> Lookup(Encode(h)) == Some((h, Cost(h)))
  {
  }

  lemma DecodeEncodeBgez(h: Handler)
    ensures h == Bgez ==> Lookup(Encode(h)) == Some((h, Cost(h)))
  {
  }

  lemma DecodeEncodeBltzal(h: Handler)
    ensures h == Bltzal ==> Lookup(Encode(h)) == Some((h, Cost(h)))
  {
  }

  lemma DecodeEncodeBgezal(h: Handler)
    ensures h == Bgezal ==> Lookup(Encode(h)) == Some((h, Cost(h)))
  {
  }

  lemma DecodeEncodeJ(h: Handler)
    ensures h == J ==> Lookup(Encode(h)) == Some((h, Cost(h)))
  {
  }

  lemma DecodeEncodeJal(h: Handler)
    ensures h == Jal ==> Lookup(Encode(h)) == Some((h, Cost(h)))
  {
  }

  lemma DecodeEncodeBeq(h: Handler)
    ensures h == Beq ==> Lookup(Encode(h)) == Some((h, Cost(h)))
  {
  }

  lemma DecodeEncodeBne(h: Handler)
    ensures h == Bne ==> Lookup(Encode(h)) == Some((h, Cost(h)))
  {
  }

  lemma DecodeEncodeBlez(h: Handler)
    ensures h == Blez ==> Lookup(Encode(h)) == Some((h, Cost(h)))
  {
  }

  lemma DecodeEncodeBgtz(h: Handler)
    ensures h == Bgtz ==> Lookup(Encode(h)) == Some((h, Cost(h)))
  {
  }

  lemma DecodeEncodeAddi(h: Handler)
    ensures h == Addi ==> Lookup(Encode(h)) == Some((h, Cost(h)))
  {
  }

  lemma DecodeEncodeAddiu(h: Handler)
    ensures h == Addiu ==> Lookup(Encode(h)) == Some((h, Cost(h)))
  {
  }

  lemma DecodeEncodeSlti(h: Handler)
    ensures h == Slti ==> Lookup(Encode(h)) == Some((h, Cost(h)))
  {
  }

  lemma DecodeEncodeSltiu(h: Handler)
    ensures h == Sltiu ==> Lookup(Encode(h)) == Some((h, Cost(h)))
  {
  }

  lemma DecodeEncodeAndi(h: Handler)
    ensures h == Andi ==> Lookup(Encode(h)) == Some((h, Cost(h)))
  {
  }

  lemma DecodeEncodeOri(h: Handler)
    ensures h == Ori ==> Lookup(Encode(h)) == Some((h, Cost(h)))
  {
  }

  lemma DecodeEncodeXori(h: Handler)
    ensures h == Xori ==> Lookup(Encode(h)) == Some((h, Cost(h)))
  {
  }

  lemma DecodeEncodeLui(h: Handler)
    ensures h == Lui ==> Lookup(Encode(h)) == Some((h, Cost(h)))
  {
  }

  lemma DecodeEncodeMfc0(h: Handler)
    ensures h == Mfc0 ==> Lookup(Encode(h)) == Some((h, Cost(h)))
  {
  }

  lemma DecodeEncodeMtc0(h: Handler)
    ensures h == Mtc0 ==> Lookup(Encode(h)) == Some((h, Cost(h)))
  {
  }

  lemma DecodeEncodeBc0f(h: Handler)
    ensures h == Bc0f ==> Lookup(Encode(h)) == Some((h, Cost(h)))
  {
  }

  lemma DecodeEncodeBc0t(h: Handler)
    ensures h == Bc0t ==> Lookup(Encode(h)) == Some((h, Cost(h)))
  {
  }

  lemma DecodeEncodeTlbr(h: Handler)
    ensures h == Tlbr ==> Lookup(Encode(h)) == Some((h, Cost(h)))
  {
  }

  lemma DecodeEncodeTlbwi(h: Handler)
    ensures h == Tlbwi ==> Lookup(Encode(h)) == Some((h, Cost(h)))
  {
  }

  lemma DecodeEncodeTlbwr(h: Handler)
    ensures h == Tlbwr ==> Lookup(Encode(h)) == Some((h, Cost(h)))
  {
  }

  lemma DecodeEncodeTlbp(h: Handler)
    ensures h == Tlbp ==> Lookup(Encode(h)) == Some((h, Cost(h)))
  {
  }

  lemma DecodeEncodeRfe(h: Handler)
    ensures h == Rfe ==> Lookup(Encode(h)) == Some((h, Cost(h)))
  {
  }

  lemma DecodeEncodeLb(h: Handler)
    ensures h == Lb ==> Lookup(Encode(h)) == Some((h, Cost(h)))
  {
  }

  lemma DecodeEncodeLh(h: Handler)
    ensures h == Lh ==> Lookup(Encode(h)) == Some((h, Cost(h)))
  {
  }

  lemma DecodeEncodeLwl(h: Handler)
    ensures h == Lwl ==> Lookup(Encode(h)) == Some((h, Cost(h)))
  {
  }

  lemma DecodeEncodeLw(h: Handler)
    ensures h == Lw ==> Lookup(Encode(h)) == Some((h, Cost(h)))
  {
  }

  lemma DecodeEncodeLbu(h: Handler)
    ensures h == Lbu ==> Lookup(Encode(h)) == Some((h, Cost(h)))
  {
  }

  lemma DecodeEncodeLhu(h: Handler)
    ensures h == Lhu ==> Lookup(Encode(h)) == Some((h, Cost(h)))
  {
  }

  lemma DecodeEncodeLwr(h: Handler)
    ensures h == Lwr ==> Lookup(Encode(h)) == Some((h, Cost(h)))
  {
  }

  lemma DecodeEncodeSb(h: Handler)
    ensures h == Sb ==> Lookup(Encode(h)) == Some((h, Cost(h)))
  {
  }

  lemma DecodeEncodeSh(h: Handler)
    ensures h == Sh ==> Lookup(Encode(h)) == Some((h, Cost(h)))
  {
  }

  lemma DecodeEncodeSwl(h: Handler)
    ensures h == Swl ==> Lookup(Encode(h)) == Some((h, Cost(h)))
  {
  }

  lemma DecodeEncodeSw(h: Handler)
    ensures h == Sw ==> Lookup(Encode(h)) == Some((h, Cost(h)))
  {
  }

  lemma DecodeEncodeSwr(h: Handler)
    ensures h == Swr ==> Lookup(Encode(h)) == Some((h, Cost(h)))
  {
  }

  lemma DecodeEncodeLwc2(h: Handler)
    ensures h == Lwc2 ==> Lookup(Encode(h)) == Some((h, Cost(h)))
  {
  }

  lemma DecodeEncodeSwc2(h: Handler)
    ensures h == Swc2 ==> Lookup(Encode(h)) == Some((h, Cost(h)))
  {
  }

  lemma DecodeEncodeMfc2(h: Handler)
    ensures h == Mfc2 ==> Lookup(Encode(h)) == Some((h, Cost(h)))
  {
  }

  lemma DecodeEncodeCfc2(h: Handler)
    ensures h == Cfc2 ==> Lookup(Encode(h)) == Some((h, Cost(h)))
  {
  }

  lemma DecodeEncodeMtc2(h: Handler)
    ensures h == Mtc2 ==> Lookup(Encode(h)) == Some((h, Cost(h)))
  {
  }

  lemma DecodeEncodeCtc2(h: Handler)
    ensures h == Ctc2 ==> Lookup(Encode(h)) == Some((h, Cost(h)))
  {
  }

  lemma DecodeEncodeRtps(h: Handler)
    ensures h == Rtps ==> Lookup(Encode(h)) == Some((h, Cost(h)))
  {
  }

  lemma DecodeEncodeNclip(h: Handler)
    ensures h == Nclip ==> Lookup(Encode(h)) == Some((h, Cost(h)))
  {
  }

  lemma DecodeEncodeOp(h: Handler)
    ensures h == Op ==> Lookup(Encode(h)) == Some((h, Cost(h)))
  {
  }

  lemma DecodeEncodeDpcs(h: Handler)
    ensures h == Dpcs ==> Lookup(Encode(h)) == Some((h, Cost(h)))
  {
  }

  lemma DecodeEncodeIntpl(h: Handler)
    ensures h == Intpl ==> Lookup(Encode(h)) == Some((h, Cost(h)))
  {
  }

  lemma DecodeEncodeMvmva(h: Handler)
    ensures h == Mvmva ==> Lookup(Encode(h)) == Some((h, Cost(h)))
  {
  }

  lemma DecodeEncodeNcds(h: Handler)
    ensures h == Ncds ==> Lookup(Encode(h)) == Some((h, Cost(h)))
  {
  }

  lemma DecodeEncodeCdp(h: Handler)
    ensures h == Cdp ==> Lookup(Encode(h)) == Some((h, Cost(h)))
  {
  }

  lemma DecodeEncodeNcdt(h: Handler)
    ensures h == Ncdt ==> Lookup(Encode(h)) == Some((h, Cost(h)))
  {
  }

  lemma DecodeEncodeNccs(h: Handler)
    ensures h == Nccs ==> Lookup(Encode(h)) == Some((h, Cost(h)))
  {
  }

  lemma DecodeEncodeCc(h: Handler)
    ensures h == Cc ==> Lookup(Encode(h)) == Some((h, Cost(h)))
  {
  }

  lemma DecodeEncodeNcs(h: Handler)
    ensures h == Ncs ==> Lookup(Encode(h)) == Some((h, Cost(h)))
  {
  }

  lemma DecodeEncodeNct(h: Handler)
    ensures h == Nct ==> Lookup(Encode(h)) == Some((h, Cost(h)))
  {
  }

  lemma DecodeEncodeSqr(h: Handler)
    ensures h == Sqr ==> Lookup(Encode(h)) == Some((h, Cost(h)))
  {
  }

  lemma DecodeEncodeDcpl(h: Handler)
    ensures h == Dcpl ==> Lookup(Encode(h)) == Some((h, Cost(h)))
  {
  }

  lemma DecodeEncodeDpct(h: Handler)
    ensures h == Dpct ==> Lookup(Encode(h)) == Some((h, Cost(h)))
  {
  }

  lemma DecodeEncodeAvsz3(h: Handler)
    ensures h == Avsz3 ==> Lookup(Encode(h)) == Some((h, Cost(h)))
  {
  }

  lemma DecodeEncodeAvsz4(h: Handler)
    ensures h == Avsz4 ==> Lookup(Encode(h)) == Some((h, Cost(h)))
  {
  }

  lemma DecodeEncodeRtpt(h: Handler)
    ensures h == Rtpt ==> Lookup(Encode(h)) == Some((h, Cost(h)))
  {
  }

  lemma DecodeEncodeGpf(h: Handler)
    ensures h == Gpf ==> Lookup(Encode(h)) == Some((h, Cost(h)))
  {
  }

  lemma DecodeEncodeGpl(h: Handler)
    ensures h == Gpl ==> Lookup(Encode(h)) == Some((h, Cost(h)))
  {
  }

  lemma DecodeEncodeNcct(h: Handler)
    ensures h == Ncct ==> Lookup(Encode(h)) == Some((h, Cost(h)))
  {
  }

  /**
   * Every handler is reachable: its canonical word decodes to it, at the
   * cost of its kind. As `Lookup` is a function, no two handlers share a
   * canonical word.
   */
  lemma DecodeEncode(h: Handler)
    ensures Lookup(Encode(h)) == Some((h, Cost(h)))
  {
    DecodeEncodeSll(h);
    DecodeEncodeSrl(h);
    DecodeEncodeSra(h);
    DecodeEncodeSllv(h);
    DecodeEncodeSrlv(h);
    DecodeEncodeSrav(h);
    DecodeEncodeJr(h);
    DecodeEncodeJalr(h);
    DecodeEncodeSyscall(h);
    DecodeEncodeBreak(h);
    DecodeEncodeMfhi(h);
    DecodeEncodeMthi(h);
    DecodeEncodeMflo(h);
    DecodeEncodeMtlo(h);
    DecodeEncodeMult(h);
    DecodeEncodeMultu(h);
    DecodeEncodeDiv(h);
    DecodeEncodeDivu(h);
    DecodeEncodeAdd(h);
    DecodeEncodeAddu(h);
    DecodeEncodeSub(h);
    DecodeEncodeSubu(h);
    DecodeEncodeAnd(h);
    DecodeEncodeOr(h);
    DecodeEncodeXor(h);
    DecodeEncodeNor(h);
    DecodeEncodeSlt(h);
    DecodeEncodeSltu(h);
    DecodeEncodeBltz(h);
    DecodeEncodeBgez(h);
    DecodeEncodeBltzal(h);
    DecodeEncodeBgezal(h);
    DecodeEncodeJ(h);
    DecodeEncodeJal(h);
    DecodeEncodeBeq(h);
    DecodeEncodeBne(h);
    DecodeEncodeBlez(h);
    DecodeEncodeBgtz(h);
    DecodeEncodeAddi(h);
    DecodeEncodeAddiu(h);
    DecodeEncodeSlti(h);
    DecodeEncodeSltiu(h);
    DecodeEncodeAndi(h);
    DecodeEncodeOri(h);
    DecodeEncodeXori(h);
    DecodeEncodeLui(h);
    DecodeEncodeMfc0(h);
    DecodeEncodeMtc0(h);
    DecodeEncodeBc0f(h);
    DecodeEncodeBc0t(h);
    DecodeEncodeTlbr(h);
    DecodeEncodeTlbwi(h);
    DecodeEncodeTlbwr(h);
    DecodeEncodeTlbp(h);
    DecodeEncodeRfe(h);
    DecodeEncodeLb(h);
    DecodeEncodeLh(h);
    DecodeEncodeLwl(h);
    DecodeEncodeLw(h);
    DecodeEncodeLbu(h);
    DecodeEncodeLhu(h);
    DecodeEncodeLwr(h);
    DecodeEncodeSb(h);
    DecodeEncodeSh(h);
    DecodeEncodeSwl(h);
    DecodeEncodeSw(h);
    DecodeEncodeSwr(h);
    DecodeEncodeLwc2(h);
    DecodeEncodeSwc2(h);
    DecodeEncodeMfc2(h);
    DecodeEncodeCfc2(h);
    DecodeEncodeMtc2(h);
    DecodeEncodeCtc2(h);
    DecodeEncodeRtps(h);
    DecodeEncodeNclip(h);
    DecodeEncodeOp(h);
    DecodeEncodeDpcs(h);
    DecodeEncodeIntpl(h);
    DecodeEncodeMvmva(h);
    DecodeEncodeNcds(h);
    DecodeEncodeCdp(h);
    DecodeEncodeNcdt(h);
    DecodeEncodeNccs(h);
    DecodeEncodeCc(h);
    DecodeEncodeNcs(h);
    DecodeEncodeNct(h);
    DecodeEncodeSqr(h);
    DecodeEncodeDcpl(h);
    DecodeEncodeDpct(h);
    DecodeEncodeAvsz3(h);
    DecodeEncodeAvsz4(h);
    DecodeEncodeRtpt(h);
    DecodeEncodeGpf(h);
    DecodeEncodeGpl(h);
    DecodeEncodeNcct(h);
  }
}

=== FILE: intc.dfy ===
/**
 * The interrupt controller's status register (I_STAT): one pending flag per
 * interrupt line. A peripheral asserts its line; the CPU reads the flags
 * packed into bits 0-10 and acknowledges by writing a word in which every
 * line to clear has its bit at 0.
 */
module Intc {
  import opened Wrappers
  import opened Shifts
  import opened Bits

  datatype Line = Vblank | Gpu | Cdrom | Dma | Tmr0 | Tmr1 | Tmr2 | Padmc | Sio | Spu | Pio

  const LineCount: nat := 11

  /** The bit of the status word that belongs to a line. */
  function LineIndex(l: Line): (i: nat)
    ensures i < LineCount
  {
    match l
    case Vblank => 0
    case Gpu => 1
    case Cdrom => 2
    case Dma => 3
    case Tmr0 => 4
    case Tmr1 => 5
    case Tmr2 => 6
    case Padmc => 7
    case Sio => 8
    case Spu => 9
    case Pio => 10
  }

  /** The line behind a bit position. */
  function LineOf(k: nat): (l: Line)
    requires k < LineCount
    ensures LineIndex(l) == k
  {
    if k == 0 then Vblank else if k == 1 then Gpu else if k == 2 then Cdrom
    else if k == 3 then Dma else if k == 4 then Tmr0 else if k == 5 then Tmr1
    else if k == 6 then Tmr2 else if k == 7 then Padmc else if k == 8 then Sio
    else if k == 9 then Spu else Pio
  }

  /** Distinct lines own distinct bits. */
  lemma LineIndexInjective(l: Line, m: Line)
    ensures LineIndex(l) == LineIndex(m) <==> l == m
  {
  }

  /** Whether the bit that belongs to line `l` is set in the status word `v`. */
  predicate LineSet(v: bv32, l: Line) {
    match l
    case Vblank => v & 0x001 != 0
    case Gpu => v & 0x002 != 0
    case Cdrom => v & 0x004 != 0
    case Dma => v & 0x008 != 0
    case Tmr0 => v & 0x010 != 0
    case Tmr1 => v & 0x020 != 0
    case Tmr2 => v & 0x040 != 0
    case Padmc => v & 0x080 != 0
    case Sio => v & 0x100 != 0
    case Spu => v & 0x200 != 0
    case Pio => v & 0x400 != 0
  }

  /** Bit `LineIndex(l)` of a word is the line's bit. */
  lemma LineBitSet(v: bv32, l: Line)
    ensures BitSet(v, LineIndex(l)) <==> LineSet(v, l)
  {
    match l
    case Vblank => ShrNative(v, 0);
    case Gpu => ShrNative(v, 1);
    case Cdrom => ShrNative(v, 2);
    case Dma => ShrNative(v, 3);
    case Tmr0 => ShrNative(v, 4);
    case Tmr1 => ShrNative(v, 5);
    case Tmr2 => ShrNative(v, 6);
    case Padmc => ShrNative(v, 7);
    case Sio => ShrNative(v, 8);
    case Spu => ShrNative(v, 9);
    case Pio => ShrNative(v, 10);
  }

  /** The pending lines. */
  datatype Stat = Stat(pending: set<Line>)

  predicate Pending(s: Stat, l: Line) {
    l in s.pending
  }

  /** `new()`: no line pending. */
  function NewStat(): (s: Stat)
    ensures forall l: Line :: !Pending(s, l)
  {
    Stat({})
  }

  /** `assert_line`: the line becomes pending and no other line changes. */
  function AssertLine(s: Stat, l: Line): (r: Stat)
    ensures Pending(r, l)
    ensures forall m: Line :: m != l ==> Pending(r, m) == Pending(s, m)
  {
    Stat(s.pending + {l})
  }

  /** The flag `b` inserted into the one-bit field at bit `k` of `v`. */
  function InsertFlag(v: bv32, k: nat, b: bool): bv32 {
    Insert(Bitfield(k, 1), v, Flag(b))
  }

  /** `value()`: each line's flag inserted into a one-bit field at the line's bit, in line order. */
  function Value(s: Stat): bv32 {
    var P := s.pending;
    ValueOf(0, Vblank in P, Gpu in P, Cdrom in P, Dma in P, Tmr0 in P, Tmr1 in P, Tmr2 in P, Padmc in P, Sio in P, Spu in P, Pio in P)
  }

  /** The eleven inserts of `value()`, grouped in three runs. */
  function ValueOf(v: bv32, b0: bool, b1: bool, b2: bool, b3: bool, b4: bool, b5: bool, b6: bool, b7: bool, b8: bool, b9: bool, b10: bool): bv32 {
    var v := InsertLines0To3(v, b0, b1, b2, b3);
    var v := InsertLines4To7(v, b4, b5, b6, b7);
    InsertLines8To10(v, b8, b9, b10)
  }

  function InsertLines0To3(v: bv32, b0: bool, b1: bool, b2: bool, b3: bool): bv32 {
    InsertFlag(InsertFlag(InsertFlag(InsertFlag(v, 0, b0), 1, b1), 2, b2), 3, b3)
  }

  function InsertLines4To7(v: bv32, b4: bool, b5: bool, b6: bool, b7: bool): bv32 {
    InsertFlag(InsertFlag(InsertFlag(InsertFlag(v, 4, b4), 5, b5), 6, b6), 7, b7)
  }

  function InsertLines8To10(v: bv32, b8: bool, b9: bool, b10: bool): bv32 {
    InsertFlag(InsertFlag(InsertFlag(v, 8, b8), 9, b9), 10, b10)
  }

  /** A one-bit field insert of a flag: clear the bit, then or the flag in. */
  lemma FlagInsert(v: bv32, k: nat, b: bool)
    ensures InsertFlag(v, k, b) == (v & !Shl(1, k)) | Shl(Flag(b), k)
  {
    assert LowMask(1) == 1 by {
      assert Shl(1, 1) == Shl(2, 0) == 2;
    }
    assert Flag(b) & LowMask(1) == Flag(b);
    assert FieldMask(k, 1) == Shl(1, k);
  }

  lemma InsertFlag0(v: bv32, b: bool)
    ensures InsertFlag(v, 0, b) == (v & !0x1) | (Flag(b) << 0)
  {
    FlagInsert(v, 0, b);
    ShlNative(Flag(b), 0);
  }

  lemma InsertFlag1(v: bv32, b: bool)
    ensures InsertFlag(v, 1, b) == (v & !0x2) | (Flag(b) << 1)
  {
    FlagInsert(v, 1, b);
    ShlNative(Flag(b), 1);
  }

  lemma InsertFlag2(v: bv32, b: bool)
    ensures InsertFlag(v, 2, b) == (v & !0x4) | (Flag(b) << 2)
  {
    FlagInsert(v, 2, b);
    ShlNative(Flag(b), 2);
  }

  lemma InsertFlag3(v: bv32, b: bool)
    ensures InsertFlag(v, 3, b) == (v & !0x8) | (Flag(b) << 3)
  {
    FlagInsert(v, 3, b);
    ShlNative(Flag(b), 3);
  }

  lemma InsertFlag4(v: bv32, b: bool)
    ensures InsertFlag(v, 4, b) == (v & !0x10) | (Flag(b) << 4)
  {
    FlagInsert(v, 4, b);
    ShlNative(Flag(b), 4);
  }

  lemma InsertFlag5(v: bv32, b: bool)
    ensures InsertFlag(v, 5, b) == (v & !0x20) | (Flag(b) << 5)
  {
    FlagInsert(v, 5, b);
    ShlNative(Flag(b), 5);
  }

  lemma InsertFlag6(v: bv32, b: bool)
    ensures InsertFlag(v, 6, b) == (v & !0x40) | (Flag(b) << 6)
  {
    FlagInsert(v, 6, b);
    ShlNative(Flag(b), 6);
  }

  lemma InsertFlag7(v: bv32, b: bool)
    ensures InsertFlag(v, 7, b) == (v & !0x80) | (Flag(b) << 7)
  {
    FlagInsert(v, 7, b);
    ShlNative(Flag(b), 7);
  }

  lemma InsertFlag8(v: bv32, b: bool)
    ensures InsertFlag(v, 8, b) == (v & !0x100) | (Flag(b) << 8)
  {
    FlagInsert(v, 8, b);
    ShlNative(Flag(b), 8);
  }

  lemma InsertFlag9(v: bv32, b: bool)
    ensures InsertFlag(v, 9, b) == (v & !0x200) | (Flag(b) << 9)
  {
    FlagInsert(v, 9, b);
    ShlNative(Flag(b), 9);
  }

  lemma InsertFlag10(v: bv32, b: bool)
    ensures InsertFlag(v, 10, b) == (v & !0x400) | (Flag(b) << 10)
  {
    FlagInsert(v, 10, b);
    ShlNative(Flag(b), 10);
  }

  lemma InsertLines0To3Packed(v: bv32, b0: bool, b1: bool, b2: bool, b3: bool)
    ensures InsertLines0To3(v, b0, b1, b2, b3) == (v & !0xF) | (Flag(b0) << 0) | (Flag(b1) << 1) | (Flag(b2) << 2) | (Flag(b3) << 3)
  {
    InsertFlag0(v, b0);
    InsertFlag1(InsertFlag(v, 0, b0), b1);
    InsertFlag2(InsertFlag(InsertFlag(v, 0, b0), 1, b1), b2);
    InsertFlag3(InsertFlag(InsertFlag(InsertFlag(v, 0, b0), 1, b1), 2, b2), b3);
  }

  lemma InsertLines4To7Packed(v: bv32, b4: bool, b5: bool, b6: bool, b7: bool)
    ensures InsertLines4To7(v, b4, b5, b6, b7) == (v & !0xF0) | (Flag(b4) << 4) | (Flag(b5) << 5) | (Flag(b6) << 6) | (Flag(b7) << 7)
  {
    InsertFlag4(v, b4);
    InsertFlag5(InsertFlag(v, 4, b4), b5);
    InsertFlag6(InsertFlag(InsertFlag(v, 4, b4), 5, b5), b6);
    InsertFlag7(InsertFlag(InsertFlag(InsertFlag(v, 4, b4), 5, b5), 6, b6), b7);
  }

  lemma InsertLines8To10Packed(v: bv32, b8: bool, b9: bool, b10: bool)
    ensures InsertLines8To10(v, b8, b9, b10) == (v & !0x700) | (Flag(b8) << 8) | (Flag(b9) << 9) | (Flag(b10) << 10)
  {
    InsertFlag8(v, b8);
    InsertFlag9(InsertFlag(v, 8, b8), b9);
    InsertFlag10(InsertFlag(InsertFlag(v, 8, b8), 9, b9), b10);
  }

  /** The three runs compose to the packed flags. */
  lemma ComposeRuns(v: bv32, x: bv32, y: bv32, z: bv32, b0: bool, b1: bool, b2: bool, b3: bool, b4: bool, b5: bool, b6: bool, b7: bool, b8: bool, b9: bool, b10: bool)
    requires x == (v & !0xF) | (Flag(b0) << 0) | (Flag(b1) << 1) | (Flag(b2) << 2) | (Flag(b3) << 3)
    requires y == (x & !0xF0) | (Flag(b4) << 4) | (Flag(b5) << 5) | (Flag(b6) << 6) | (Flag(b7) << 7)
    requires z == (y & !0x700) | (Flag(b8) << 8) | (Flag(b9) << 9) | (Flag(b10) << 10)
    ensures z == (v & !0x7FF) | (Flag(b0) << 0) | (Flag(b1) << 1) | (Flag(b2) << 2) | (Flag(b3) << 3) | (Flag(b4) << 4) | (Flag(b5) << 5) | (Flag(b6) << 6) | (Flag(b7) << 7) | (Flag(b8) << 8) | (Flag(b9) << 9) | (Flag(b10) << 10)
  {
  }

  /** The eleven inserts put flag `k` at bit `k` and set nothing else. */
  lemma ValueOfPacked(v: bv32, b0: bool, b1: bool, b2: bool, b3: bool, b4: bool, b5: bool, b6: bool, b7: bool, b8: bool, b9: bool, b10: bool)
    ensures ValueOf(v, b0, b1, b2, b3, b4, b5, b6, b7, b8, b9, b10) == (v & !0x7FF) | (Flag(b0) << 0) | (Flag(b1) << 1) | (Flag(b2) << 2) | (Flag(b3) << 3) | (Flag(b4) << 4) | (Flag(b5) << 5) | (Flag(b6) << 6) | (Flag(b7) << 7) | (Flag(b8) << 8) | (Flag(b9) << 9) | (Flag(b10) << 10)
  {
    var x := InsertLines0To3(v, b0, b1, b2, b3);
    var y := InsertLines4To7(x, b4, b5, b6, b7);
    InsertLines0To3Packed(v, b0, b1, b2, b3);
    InsertLines4To7Packed(x, b4, b5, b6, b7);
    InsertLines8To10Packed(y, b8, b9, b10);
    ComposeRuns(v, x, y, InsertLines8To10(y, b8, b9, b10), b0, b1, b2, b3, b4, b5, b6, b7, b8, b9, b10);
  }

  /** Bit `k` of the packed flags is flag `k`; bits 11-31 are those of `v`. */
  lemma PackedBits(r: bv32, v: bv32, b0: bool, b1: bool, b2: bool, b3: bool, b4: bool, b5: bool, b6: bool, b7: bool, b8: bool, b9: bool, b10: bool)
    requires r == (v & !0x7FF) | (Flag(b0) << 0) | (Flag(b1) << 1) | (Flag(b2) << 2) | (Flag(b3) << 3) | (Flag(b4) << 4) | (Flag(b5) << 5) | (Flag(b6) << 6) | (Flag(b7) << 7) | (Flag(b8) << 8) | (Flag(b9) << 9) | (Flag(b10) << 10)
    ensures && (r & 0x001 != 0 <==> b0) && (r & 0x002 != 0 <==> b1) && (r & 0x004 != 0 <==> b2)
      && (r & 0x008 != 0 <==> b3) && (r & 0x010 != 0 <==> b4) && (r & 0x020 != 0 <==> b5)
      && (r & 0x040 != 0 <==> b6) && (r & 0x080 != 0 <==> b7) && (r & 0x100 != 0 <==> b8)
      && (r & 0x200 != 0 <==> b9) && (r & 0x400 != 0 <==> b10) && r & !0x7FF == v & !0x7FF
  {
  }

  /** Bit `k` of `r` is flag `k`, for `k` in 0-10. */
  predicate BitsAre(r: bv32, b0: bool, b1: bool, b2: bool, b3: bool, b4: bool, b5: bool, b6: bool, b7: bool, b8: bool, b9: bool, b10: bool) {
    && (r & 0x001 != 0 <==> b0) && (r & 0x002 != 0 <==> b1) && (r & 0x004 != 0 <==> b2)
      && (r & 0x008 != 0 <==> b3) && (r & 0x010 != 0 <==> b4) && (r & 0x020 != 0 <==> b5)
      && (r & 0x040 != 0 <==> b6) && (r & 0x080 != 0 <==> b7) && (r & 0x100 != 0 <==> b8)
      && (r & 0x200 != 0 <==> b9) && (r & 0x400 != 0 <==> b10)
  }

  /** Bit `k` of `ValueOf(v, ...)` is flag `k`; bits 11-31 are those of `v`. */
  lemma ValueOfBits(r: bv32, v: bv32, b0: bool, b1: bool, b2: bool, b3: bool, b4: bool, b5: bool, b6: bool, b7: bool, b8: bool, b9: bool, b10: bool)
    requires r == ValueOf(v, b0, b1, b2, b3, b4, b5, b6, b7, b8, b9, b10)
    ensures BitsAre(r, b0, b1, b2, b3, b4, b5, b6, b7, b8, b9, b10)
    ensures r & !0x7FF == v & !0x7FF
  {
    ValueOfPacked(v, b0, b1, b2, b3, b4, b5, b6, b7, b8, b9, b10);
    PackedBits(r, v, b0, b1, b2, b3, b4, b5, b6, b7, b8, b9, b10);
  }

  /** The flag among `b0` ... `b10` that belongs to line `l`. */
  function Pick(l: Line, b0: bool, b1: bool, b2: bool, b3: bool, b4: bool, b5: bool, b6: bool, b7: bool, b8: bool, b9: bool, b10: bool): bool {
    match l
    case Vblank => b0
    case Gpu => b1
    case Cdrom => b2
    case Dma => b3
    case Tmr0 => b4
    case Tmr1 => b5
    case Tmr2 => b6
    case Padmc => b7
    case Sio => b8
    case Spu => b9
    case Pio => b10
  }

  lemma PickMember(P: set<Line>, l: Line)
    ensures Pick(l, Vblank in P, Gpu in P, Cdrom in P, Dma in P, Tmr0 in P, Tmr1 in P, Tmr2 in P, Padmc in P, Sio in P, Spu in P, Pio in P) <==> l in P
  {
  }

  /** A word whose bit `k` is flag `k` has a line's bit set exactly when the line's flag is. */
  lemma LineOfWord(r: bv32, l: Line, b0: bool, b1: bool, b2: bool, b3: bool, b4: bool, b5: bool, b6: bool, b7: bool, b8: bool, b9: bool, b10: bool)
    requires (r & 0x001 != 0 <==> b0) && (r & 0x002 != 0 <==> b1) && (r & 0x004 != 0 <==> b2)
      && (r & 0x008 != 0 <==> b3) && (r & 0x010 != 0 <==> b4) && (r & 0x020 != 0 <==> b5)
      && (r & 0x040 != 0 <==> b6) && (r & 0x080 != 0 <==> b7) && (r & 0x100 != 0 <==> b8)
      && (r & 0x200 != 0 <==> b9) && (r & 0x400 != 0 <==> b10)
    ensures LineSet(r, l) <==> Pick(l, b0, b1, b2, b3, b4, b5, b6, b7, b8, b9, b10)
  {
    match l
    case Vblank =>
    case Gpu =>
    case Cdrom =>
    case Dma =>
    case Tmr0 =>
    case Tmr1 =>
    case Tmr2 =>
    case Padmc =>
    case Sio =>
    case Spu =>
    case Pio =>
  }

  /** A word whose line bits are the pending flags has line `l`'s bit set exactly when `l` is pending. */
  lemma WordLines(r: bv32, s: Stat, l: Line)
    requires BitsAre(r, Vblank in s.pending, Gpu in s.pending, Cdrom in s.pending, Dma in s.pending, Tmr0 in s.pending, Tmr1 in s.pending, Tmr2 in s.pending, Padmc in s.pending, Sio in s.pending, Spu in s.pending, Pio in s.pending)
    ensures LineSet(r, l) <==> Pending(s, l)
  {
    LineOfWord(r, l, Vblank in s.pending, Gpu in s.pending, Cdrom in s.pending, Dma in s.pending, Tmr0 in s.pending, Tmr1 in s.pending, Tmr2 in s.pending, Padmc in s.pending, Sio in s.pending, Spu in s.pending, Pio in s.pending);
    PickMember(s.pending, l);
  }

  /** `value()` has a line's bit set exactly when the line is pending. */
  lemma ValueLine(s: Stat, l: Line)
    ensures LineSet(Value(s), l) <==> Pending(s, l)
  {
    ValueBitsAre(s);
    WordLines(Value(s), s, l);
  }

  lemma ValueBitsAre(s: Stat)
    ensures BitsAre(Value(s), Vblank in s.pending, Gpu in s.pending, Cdrom in s.pending, Dma in s.pending, Tmr0 in s.pending, Tmr1 in s.pending, Tmr2 in s.pending, Padmc in s.pending, Sio in s.pending, Spu in s.pending, Pio in s.pending)
  {
    ValueOfBits(Value(s), 0, Vblank in s.pending, Gpu in s.pending, Cdrom in s.pending, Dma in s.pending, Tmr0 in s.pending, Tmr1 in s.pending, Tmr2 in s.pending, Padmc in s.pending, Sio in s.pending, Spu in s.pending, Pio in s.pending);
  }

  /** `value()` has a line's bit set exactly when the line is pending. */
  lemma ValueBits(s: Stat)
    ensures forall l: Line :: LineSet(Value(s), l) <==> Pending(s, l)
  {
    forall l: Line
      ensures LineSet(Value(s), l) <==> Pending(s, l)
    {
      ValueLine(s, l);
    }
  }

  /** `value()` sets no bit above bit 10. */
  lemma ValueHigh(s: Stat)
    ensures Value(s) & !0x7FF == 0
  {
    var P := s.pending;
    ValueOfBits(Value(s), 0, Vblank in P, Gpu in P, Cdrom in P, Dma in P, Tmr0 in P, Tmr1 in P, Tmr2 in P, Padmc in P, Sio in P, Spu in P, Pio in P);
  }

  /**
   * One step of `acknowledge`'s loop over bits 0-31: a 0 at bit `i` clears
   * line `i`; bits 11-31 name no line and are ignored.
   */
  function AcknowledgeBit(s: Stat, mask: bv32, i: nat): Stat {
    if !BitSet(mask, i) && i < LineCount then Stat(s.pending - {LineOf(i)}) else s
  }

  /** The loop of `acknowledge` from bit `i` on. */
  function AcknowledgeFrom(s: Stat, mask: bv32, i: nat): Stat
    decreases 32 - i
  {
    if i >= 32 then s else AcknowledgeFrom(AcknowledgeBit(s, mask, i), mask, i + 1)
  }

  /** `acknowledge`. */
  function Acknowledge(s: Stat, mask: bv32): Stat {
    AcknowledgeFrom(s, mask, 0)
  }

  /** The loop from bit `i` on keeps a line iff it was pending and its bit is below `i` or set. */
  lemma {:induction false} AcknowledgeFromPending(s: Stat, mask: bv32, i: nat, l: Line)
    requires i <= 32
    ensures Pending(AcknowledgeFrom(s, mask, i), l) <==> Pending(s, l) && (LineIndex(l) < i || BitSet(mask, LineIndex(l)))
    decreases 32 - i
  {
    if i < 32 {
      var t := AcknowledgeBit(s, mask, i);
      AcknowledgeFromPending(t, mask, i + 1, l);
      if i < LineCount {
        LineIndexInjective(LineOf(i), l);
      }
    }
  }

  /** `write_u32`: a line stays pending exactly when it was and its bit of the written word is 1. */
  lemma AcknowledgeClears(s: Stat, mask: bv32, l: Line)
    ensures Pending(Acknowledge(s, mask), l) <==> Pending(s, l) && LineSet(mask, l)
  {
    AcknowledgeFromPending(s, mask, 0, l);
    LineBitSet(mask, l);
  }

  /** Acknowledging never makes a line pending. */
  lemma AcknowledgeShrinks(s: Stat, mask: bv32)
    ensures Acknowledge(s, mask).pending <= s.pending
  {
    forall l: Line | l in Acknowledge(s, mask).pending
      ensures l in s.pending
    {
      AcknowledgeClears(s, mask, l);
    }
  }

  lemma LineSetLow(v: bv32, l: Line)
    ensures LineSet(v & 0x7FF, l) <==> LineSet(v, l)
  {
  }

  /** Bits 11-31 of the written word do not matter. */
  lemma AcknowledgeIgnoresHighBits(s: Stat, mask: bv32)
    ensures Acknowledge(s, mask) == Acknowledge(s, mask & 0x7FF)
  {
    forall l: Line
      ensures l in Acknowledge(s, mask).pending <==> l in Acknowledge(s, mask & 0x7FF).pending
    {
      AcknowledgeClears(s, mask, l);
      AcknowledgeClears(s, mask & 0x7FF, l);
      LineSetLow(mask, l);
    }
  }

  /** Writing back the value just read clears nothing. */
  lemma WriteBackValue(s: Stat)
    ensures Acknowledge(s, Value(s)) == s
  {
    forall l: Line
      ensures l in Acknowledge(s, Value(s)).pending <==> l in s.pending
    {
      AcknowledgeClears(s, Value(s), l);
      ValueLine(s, l);
    }
  }

  /** Writing zero clears every line. */
  lemma AcknowledgeZero(s: Stat)
    ensures Acknowledge(s, 0) == NewStat()
  {
    forall l: Line
      ensures l !in Acknowledge(s, 0).pending
    {
      AcknowledgeClears(s, 0, l);
    }
  }

  /** A line just asserted reads back as set, and the other lines read as before. */
  lemma AssertLineRead(s: Stat, l: Line, m: Line)
    ensures LineSet(ReadU32(AssertLine(s, l)), l)
    ensures m != l ==> (LineSet(ReadU32(AssertLine(s, l)), m) <==> LineSet(ReadU32(s), m))
  {
    ValueLine(AssertLine(s, l), l);
    ValueLine(AssertLine(s, l), m);
    ValueLine(s, m);
  }

  /** `read_u32`. */
  function ReadU32(s: Stat): bv32 {
    Value(s)
  }

  /** `write_u32`. */
  function WriteU32(s: Stat, v: bv32): Stat {
    Acknowledge(s, v)
  }

  /** `read_u16`: only offset 0 exists; the source asserts it. */
  function ReadU16(s: Stat, offset: nat): (r: Option<bv16>)
    ensures r.Some? <==> offset == 0
    ensures r.Some? ==> r.value as bv32 == Value(s)
  {
    if offset != 0 then None
    else
      ValueHigh(s);
      Some(Value(s) as bv16)
  }

  /** `write_u16`: only offset 0 exists; the halfword is acknowledged zero-extended. */
  function WriteU16(s: Stat, offset: nat, v: bv16): (r: Option<Stat>)
    ensures r.Some? <==> offset == 0
    ensures r.Some? ==> forall l: Line :: Pending(r.value, l) <==> Pending(s, l) && LineSet(v as bv32, l)
  {
    if offset != 0 then None
    else
      forall l: Line ensures Pending(Acknowledge(s, v as bv32), l) <==> Pending(s, l) && LineSet(v as bv32, l) {
        AcknowledgeClears(s, v as bv32, l);
      }
      Some(Acknowledge(s, v as bv32))
  }
}

=== FILE: ints.dfy ===
/**
 * The source's fixed-width integers as subset types of `int`, with Rust's
 * truncating casts and `clamp` written out.
 */
module Ints {
  type Byte = x: int | 0 <= x < 0x100
  type U16 = x: int | 0 <= x < 0x1_0000
  type I16 = x: int | -0x8000 <= x < 0x8000
  type U32 = x: int | 0 <= x < 0x1_0000_0000

  predicate InI16(x: int) {
    -0x8000 <= x < 0x8000
  }

  /** Rust's `as i16`: the low 16 bits, read as two's complement. */
  function ToI16(x: int): (r: I16)
    ensures (r - x) % 0x1_0000 == 0
    ensures InI16(x) ==> r == x
  {
    (x + 0x8000) % 0x1_0000 - 0x8000
  }

  /** Rust's `as u16`: the low 16 bits. */
  function ToU16(x: int): (r: U16)
    ensures (r - x) % 0x1_0000 == 0
    ensures 0 <= x < 0x1_0000 ==> r == x
  {
    x % 0x1_0000
  }

  /** Rust's `clamp(x, lo, hi)`. */
  function Clamp(x: int, lo: int, hi: int): (r: int)
    requires lo <= hi
    ensures lo <= r <= hi
    ensures lo <= x <= hi ==> r == x
    ensures x < lo ==> r == lo
    ensures x > hi ==> r == hi
  {
    if x < lo then lo else if x > hi then hi else x
  }

  function Pow2(k: nat): (r: nat)
    ensures r >= 1
  {
    if k == 0 then 1 else 2 * Pow2(k - 1)
  }

  /** Exponents add: 2^(a+b) = 2^a * 2^b. */
  lemma {:induction false} Pow2Add(a: nat, b: nat)
    ensures Pow2(a + b) == Pow2(a) * Pow2(b)
    decreases a
  {
    if a > 0 {
      Pow2Add(a - 1, b);
      assert Pow2(a + b) == 2 * Pow2(a - 1 + b);
    }
  }

  /** Dividing by `m` then by `n` is dividing by `m * n`. */
  lemma DivDiv(x: int, m: int, n: int)
    requires m > 0 && n > 0
    ensures x / m / n == x / (m * n)
  {
    var q1, r1 := x / m, x % m;
    var q2, r2 := q1 / n, q1 % n;
    TwoDigits(x, m, n, q1, r1, q2, r2);
    ModUnique(x, q2, m * r2 + r1, m * n);
  }

  /** Two digits, in bases `m` then `n`, make one digit in base `m * n`. */
  lemma TwoDigits(x: int, m: int, n: int, q1: int, r1: int, q2: int, r2: int)
    requires m > 0 && n > 0 && x == q1 * m + r1 && 0 <= r1 < m && q1 == q2 * n + r2 && 0 <= r2 < n
    ensures x == q2 * (m * n) + (m * r2 + r1) && 0 <= m * r2 + r1 < m * n
  {
    assert q1 * m == q2 * (m * n) + m * r2 by {
      MulAddRight(q2 * n, r2, m);
      MulAssoc(q2, n, m);
    }
    assert m * r2 + m <= m * n by {
      MulAddRight(r2, 1, m);
      MulMonotone(r2 + 1, n, m);
    }
  }

  lemma MulAddRight(a: int, b: int, m: int)
    ensures (a + b) * m == a * m + b * m
  {
  }

  lemma MulAssoc(a: int, n: int, m: int)
    ensures (a * n) * m == a * (m * n)
  {
  }

  /** Euclidean division is unique: a remainder in `[0, m)` is the remainder, and `q` the quotient. */
  lemma ModUnique(y: int, q: int, r: int, m: int)
    requires m > 0 && 0 <= r < m && y == q * m + r
    ensures y % m == r && y / m == q
  {
    var q2, r2 := y / m, y % m;
    assert y == q2 * m + r2;
    MulSub(q, q2, m);
    if q > q2 {
      MulAtLeast(q - q2, m);
    } else if q < q2 {
      MulAtLeast(q2 - q, m);
    }
  }

  lemma MulSub(a: int, b: int, m: int)
    ensures (a - b) * m == a * m - b * m
  {
  }

  lemma MulAtLeast(k: int, m: int)
    requires k >= 1 && m > 0
    ensures k * m >= m
  {
    assert k * m == (k - 1) * m + m;
  }

  /**
   * Splitting a remainder: the remainder modulo `a * b` is the remainder
   * modulo `a` plus `a` times the next digit in base `a`.
   */
  lemma ModSplit(x: int, a: int, b: int)
    requires a > 0 && b > 0
    ensures x % (a * b) == x % a + a * ((x / a) % b)
  {
    var q, r := x / a, x % a;
    var q2, r2 := q / b, q % b;
    TwoDigits(x, a, b, q, r, q2, r2);
    ModUnique(x, q2, a * r2 + r, a * b);
  }

  /** A multiple of `m` leaves no remainder. */
  lemma MulMod(q: int, m: int)
    requires m > 0
    ensures (q * m) % m == 0
  {
    ModUnique(q * m, q, 0, m);
  }

  lemma MulMonotone(x: int, y: int, m: int)
    requires x <= y && m >= 0
    ensures x * m <= y * m
  {
    assert y * m - x * m == (y - x) * m;
  }

  /** Multiplying by a positive number keeps strict order, so it can be cancelled. */
  lemma MulLessCancel(x: int, y: int, m: int)
    requires m > 0 && x * m < y * m
    ensures x < y
  {
    if x >= y {
      MulMonotone(y, x, m);
    }
  }
}

=== FILE: memory.dfy ===
/**
 * `B8Memory`: a flat byte array with byte, half-word and word access.
 * Wider accesses read and write the bytes little-endian (the host order the
 * emulator runs on). A misaligned half-word or word offset fails an
 * assertion and an index past the end panics; both are None here.
 */
module Memory {
  import opened Wrappers
  import opened Primitive

  datatype B8Memory = B8Memory(bytes: seq<bv8>)

  /** `new(size)`: `size` zero bytes. */
  function New(size: nat): (m: B8Memory)
    ensures |m.bytes| == size
    ensures forall i :: 0 <= i < size ==> m.bytes[i] == 0
  {
    B8Memory(seq(size, _ => 0))
  }

  /** `new_initialized(size, value)`: `size` copies of `value`. */
  function NewInitialized(size: nat, value: bv8): (m: B8Memory)
    ensures |m.bytes| == size
    ensures forall i :: 0 <= i < size ==> m.bytes[i] == value
  {
    B8Memory(seq(size, _ => value))
  }

  /** `read_raw(offset)`: the bytes from `offset` to the end; a slice starting past the end panics. */
  function ReadRaw(m: B8Memory, offset: nat): (r: Option<seq<bv8>>)
    ensures r.Some? <==> offset <= |m.bytes|
    ensures r.Some? ==> |r.value| == |m.bytes| - offset
    ensures r.Some? ==> forall i :: 0 <= i < |r.value| ==> r.value[i] == m.bytes[offset + i]
  {
    if offset <= |m.bytes| then Some(m.bytes[offset..]) else None
  }

  /** `write_raw(offset, data)`: copies `data` over the bytes from `offset`; a range past the end panics. */
  function WriteRaw(m: B8Memory, offset: nat, data: seq<bv8>): (r: Option<B8Memory>)
    ensures r.Some? <==> offset + |data| <= |m.bytes|
  {
    if offset + |data| <= |m.bytes| then Some(B8Memory(m.bytes[..offset] + data + m.bytes[offset + |data|..]))
    else None
  }

  /** An access of `width` bytes at `offset`: aligned to the width and inside the memory. */
  predicate InBounds(m: B8Memory, offset: nat, width: nat)
    requires width > 0
  {
    offset % width == 0 && offset + width <= |m.bytes|
  }

  function ReadU8(m: B8Memory, offset: nat): (r: Option<bv8>)
    ensures r.Some? <==> InBounds(m, offset, 1)
  {
    if offset < |m.bytes| then Some(m.bytes[offset]) else None
  }

  function WriteU8(m: B8Memory, offset: nat, value: bv8): (r: Option<B8Memory>)
    ensures r.Some? <==> InBounds(m, offset, 1)
  {
    if offset < |m.bytes| then Some(B8Memory(m.bytes[offset := value])) else None
  }

  function ReadU16(m: B8Memory, offset: nat): (r: Option<bv16>)
    ensures r.Some? <==> InBounds(m, offset, 2)
  {
    if InBounds(m, offset, 2) then Some(FromLeBytes16(m.bytes[offset..offset + 2])) else None
  }

  function WriteU16(m: B8Memory, offset: nat, value: bv16): (r: Option<B8Memory>)
    ensures r.Some? <==> InBounds(m, offset, 2)
  {
    if InBounds(m, offset, 2) then WriteRaw(m, offset, LeBytes16(value)) else None
  }

  function ReadU32(m: B8Memory, offset: nat): (r: Option<bv32>)
    ensures r.Some? <==> InBounds(m, offset, 4)
  {
    if InBounds(m, offset, 4) then Some(FromLeBytes32(m.bytes[offset..offset + 4])) else None
  }

  function WriteU32(m: B8Memory, offset: nat, value: bv32): (r: Option<B8Memory>)
    ensures r.Some? <==> InBounds(m, offset, 4)
  {
    if InBounds(m, offset, 4) then WriteRaw(m, offset, LeBytes32(value)) else None
  }

  /** `write_raw` changes exactly the bytes `[offset, offset + |data|)`, which then hold `data`. */
  lemma WriteRawExact(m: B8Memory, offset: nat, data: seq<bv8>)
    requires offset + |data| <= |m.bytes|
    ensures |WriteRaw(m, offset, data).value.bytes| == |m.bytes|
    ensures forall i :: 0 <= i < |data| ==> WriteRaw(m, offset, data).value.bytes[offset + i] == data[i]
    ensures forall i :: 0 <= i < |m.bytes| && !(offset <= i < offset + |data|) ==>
      WriteRaw(m, offset, data).value.bytes[i] == m.bytes[i]
  {
  }

  /** Reading back a written raw range gives the data. */
  lemma ReadRawWriteRaw(m: B8Memory, offset: nat, data: seq<bv8>)
    requires offset + |data| <= |m.bytes|
    ensures ReadRaw(WriteRaw(m, offset, data).value, offset).value[..|data|] == data
  {
    WriteRawExact(m, offset, data);
  }

  /**
   * A half-word write panics exactly at an odd offset or past the end, as
   * the read does. Otherwise a read at the same offset returns the value and
   * every other byte is unchanged.
   */
  lemma ReadWriteU16(m: B8Memory, offset: nat, value: bv16)
    ensures WriteU16(m, offset, value).None? <==> offset % 2 != 0 || offset + 2 > |m.bytes|
    ensures WriteU16(m, offset, value).Some? ==> ReadU16(WriteU16(m, offset, value).value, offset) == Some(value)
    ensures WriteU16(m, offset, value).Some? ==> forall i :: 0 <= i < |m.bytes| && !(offset <= i < offset + 2) ==>
      WriteU16(m, offset, value).value.bytes[i] == m.bytes[i]
  {
    if InBounds(m, offset, 2) {
      WriteRawExact(m, offset, LeBytes16(value));
      var w := WriteU16(m, offset, value).value;
      assert w.bytes[offset..offset + 2] == LeBytes16(value);
      LeBytes16RoundTrip(value, []);
    }
  }

  /**
   * A word write panics exactly at an offset not divisible by 4 or past the
   * end. Otherwise a read at the same offset returns the value and every
   * other byte is unchanged.
   */
  lemma ReadWriteU32(m: B8Memory, offset: nat, value: bv32)
    ensures WriteU32(m, offset, value).None? <==> offset % 4 != 0 || offset + 4 > |m.bytes|
    ensures WriteU32(m, offset, value).Some? ==> ReadU32(WriteU32(m, offset, value).value, offset) == Some(value)
    ensures WriteU32(m, offset, value).Some? ==> forall i :: 0 <= i < |m.bytes| && !(offset <= i < offset + 4) ==>
      WriteU32(m, offset, value).value.bytes[i] == m.bytes[i]
  {
    if InBounds(m, offset, 4) {
      WriteRawExact(m, offset, LeBytes32(value));
      var w := WriteU32(m, offset, value).value;
      assert w.bytes[offset..offset + 4] == LeBytes32(value);
      LeBytes32RoundTrip(value, []);
    }
  }

  lemma HalfOffsets(offset: nat)
    requires offset % 4 == 0
    ensures offset % 2 == 0 && (offset + 2) % 2 == 0
  {
    var q := offset / 4;
    assert offset == 4 * q;
    Even(2 * q);
    Even(2 * q + 1);
  }

  lemma Even(k: int)
    ensures (2 * k) % 2 == 0
  {
  }

  /**
   * A word is its two half-words, low half first: `u32 = u16(o) | u16(o + 2) << 16`.
   * Both half-word offsets are themselves aligned.
   */
  lemma WordFromHalves(m: B8Memory, offset: nat)
    requires offset % 4 == 0 && offset + 4 <= |m.bytes|
    ensures ReadU16(m, offset).Some? && ReadU16(m, offset + 2).Some?
    ensures ReadU32(m, offset).value == (ReadU16(m, offset).value as bv32) | ((ReadU16(m, offset + 2).value as bv32) << 16)
  {
    HalfOffsets(offset);
    var w := m.bytes[offset..offset + 4];
    assert w[..2] == m.bytes[offset..offset + 2];
    assert w[2..] == m.bytes[offset + 2..offset + 4];
    WordOfHalves(w);
  }

  /**
   * The layout test: bytes 00, 11, 22, 33 read as half-words 0x1100 and
   * 0x3322 and word 0x33221100. A half-word read at offset 1 and a word read
   * at offset 2 fail the alignment assertion.
   */
  lemma LayoutExample()
    ensures var m1 := WriteU8(New(4), 0, 0x00).value;
      var m2 := WriteU8(m1, 1, 0x11).value;
      var m3 := WriteU8(m2, 2, 0x22).value;
      var m := WriteU8(m3, 3, 0x33).value;
      && ReadU8(m, 0) == Some(0x00) && ReadU8(m, 1) == Some(0x11)
      && ReadU8(m, 2) == Some(0x22) && ReadU8(m, 3) == Some(0x33)
      && ReadU16(m, 0) == Some(0x1100) && ReadU16(m, 2) == Some(0x3322)
      && ReadU32(m, 0) == Some(0x3322_1100)
      && ReadU16(m, 1) == None && ReadU32(m, 2) == None
  {
    var m1 := WriteU8(New(4), 0, 0x00).value;
    var m2 := WriteU8(m1, 1, 0x11).value;
    var m3 := WriteU8(m2, 2, 0x22).value;
    var m := WriteU8(m3, 3, 0x33).value;
    assert m.bytes == [0x00, 0x11, 0x22, 0x33];
    assert m.bytes[0..2] == [0x00, 0x11];
    assert m.bytes[2..4] == [0x22, 0x33];
    assert m.bytes[0..4] == m.bytes;
  }
}

=== FILE: memory_controller.dfy ===
/**
 * The R3000 side of memory access: virtual-to-physical address
 * translation for the PlayStation's fixed segment mapping, and the bus
 * accesses that first check whether another controller holds the bus.
 *
 * The bus behind the controller is not part of this model; it is
 * abstracted as a partial map from physical byte addresses to bytes. An
 * access to an address outside the map is the bus error the source turns
 * into a `MemoryRead`/`MemoryWrite` hazard.
 */
module MemoryController {
  import opened Wrappers
  import opened Alu
  import opened Primitive

  /** `translate_address`: None for the kseg2 range, which the source does not implement (it panics). */
  function TranslateAddress(va: Word): (pa: Option<Word>)
    ensures va < 0x8000_0000 ==> pa == Some(va)
    ensures 0x8000_0000 <= va < 0xA000_0000 ==> pa == Some(va - 0x8000_0000)
    ensures 0xA000_0000 <= va < 0xC000_0000 ==> pa == Some(va - 0xA000_0000)
    ensures pa.None? <==> 0xC000_0000 <= va < 0xFFFE_0000
    ensures 0xFFFE_0000 <= va ==> pa == Some(va)
  {
    if va < 0x8000_0000 then Some(va)
    else if va < 0xA000_0000 then Some(va - 0x8000_0000)
    else if va < 0xC000_0000 then Some(va - 0xA000_0000)
    else if va < 0xFFFE_0000 then None
    else Some(va)
  }

  /** The cached (kseg0) and uncached (kseg1) windows both land in the low 512 MiB and alias each other. */
  lemma KernelSegmentsAlias(p: Word)
    requires p < 0x2000_0000
    ensures TranslateAddress(p + 0x8000_0000) == Some(p)
    ensures TranslateAddress(p + 0xA000_0000) == Some(p)
  {
  }

  /** Every physical address translation produces is either below 0x8000_0000 or in the I/O window, and so translates to itself. */
  lemma TranslateIdempotent(va: Word)
    requires TranslateAddress(va).Some?
    ensures var pa := TranslateAddress(va).value;
      (pa < 0x8000_0000 || 0xFFFE_0000 <= pa) && TranslateAddress(pa) == Some(pa)
  {
  }

  datatype Hazard =
    | BusLockedMemoryRead(readAddress: Word)
    | BusLockedMemoryWrite(writeAddress: Word)
    | MemoryRead(failedReadAddress: Word)
    | MemoryWrite(failedWriteAddress: Word)

  /** The shared bus: whether another controller has locked it, and the bytes it maps. */
  datatype Bus = Bus(locked: bool, bytes: map<int, bv8>)

  /** Every byte address in `[pa, pa + width)` is mapped. */
  predicate Mapped(bus: Bus, pa: Word, width: nat) {
    forall a :: pa <= a < pa + width ==> a in bus.bytes
  }

  function BusRead(bus: Bus, pa: Word, width: nat): (r: seq<bv8>)
    requires Mapped(bus, pa, width)
    ensures |r| == width
    ensures forall i :: 0 <= i < width ==> r[i] == bus.bytes[pa + i]
  {
    seq(width, i requires 0 <= i < width => bus.bytes[pa + i])
  }

  function BusWrite(bus: Bus, pa: Word, data: seq<bv8>): (r: Bus)
    requires Mapped(bus, pa, |data|)
    ensures r.locked == bus.locked && r.bytes.Keys == bus.bytes.Keys
    ensures forall i :: 0 <= i < |data| ==> r.bytes[pa + i] == data[i]
    ensures forall a :: a in bus.bytes && !(pa <= a < pa + |data|) ==> r.bytes[a] == bus.bytes[a]
  {
    Bus(bus.locked, map a | a in bus.bytes :: if pa <= a < pa + |data| then data[a - pa] else bus.bytes[a])
  }

  /**
   * A read of `width` bytes at a physical address: a locked bus is a hazard
   * and the bus is not consulted; an unmapped address is a read hazard.
   */
  function Read(bus: Bus, pa: Word, width: nat): (r: Result<seq<bv8>, Hazard>)
    ensures bus.locked ==> r == Err(BusLockedMemoryRead(pa))
    ensures !bus.locked && !Mapped(bus, pa, width) ==> r == Err(MemoryRead(pa))
    ensures r.Ok? ==> !bus.locked && Mapped(bus, pa, width) && r.value == BusRead(bus, pa, width)
  {
    if bus.locked then Err(BusLockedMemoryRead(pa))
    else if !Mapped(bus, pa, width) then Err(MemoryRead(pa))
    else Ok(BusRead(bus, pa, width))
  }

  /** A write at a physical address: on a locked bus a hazard, and the bus is not changed. */
  function Write(bus: Bus, pa: Word, data: seq<bv8>): (r: Result<Bus, Hazard>)
    ensures bus.locked ==> r == Err(BusLockedMemoryWrite(pa))
    ensures !bus.locked && !Mapped(bus, pa, |data|) ==> r == Err(MemoryWrite(pa))
    ensures r.Ok? ==> !bus.locked && Mapped(bus, pa, |data|) && r.value == BusWrite(bus, pa, data)
  {
    if bus.locked then Err(BusLockedMemoryWrite(pa))
    else if !Mapped(bus, pa, |data|) then Err(MemoryWrite(pa))
    else Ok(BusWrite(bus, pa, data))
  }

  /**
   * What a typed access gives: the value, the hazard the CPU waits on, or a
   * panic at a misaligned address. Every device behind the bus panics on a
   * half-word access at an odd address or a word access at an address not
   * divisible by 4: main memory and the BIOS through `B8Memory`'s
   * alignment assertion, the I/O registers through their "Non aligned
   * offset" check. The lock and the mapping are checked first.
   */
  datatype Access<T> = Value(value: T) | Hazarded(hazard: Hazard) | Misaligned(address: Word)

  /** A device is reached at `pa` with an access of `width` bytes that is not aligned to the width. */
  predicate PanicsAt(bus: Bus, pa: Word, width: nat)
    requires width > 0
  {
    !bus.locked && Mapped(bus, pa, width) && pa % width != 0
  }

  /** A read of `width` bytes as a typed access. */
  function ReadAccess(bus: Bus, pa: Word, width: nat): (r: Access<seq<bv8>>)
    requires width > 0
    ensures r.Misaligned? <==> PanicsAt(bus, pa, width)
    ensures r.Hazarded? <==> Read(bus, pa, width).Err?
    ensures r.Hazarded? ==> r.hazard == Read(bus, pa, width).error
    ensures r.Value? ==> pa % width == 0 && r.value == Read(bus, pa, width).value
  {
    match Read(bus, pa, width)
    case Err(h) => Hazarded(h)
    case Ok(b) => if pa % width != 0 then Misaligned(pa) else Value(b)
  }

  /** A write of `data` as a typed access: a misaligned write panics before any byte is written. */
  function WriteAccess(bus: Bus, pa: Word, data: seq<bv8>): (r: Access<Bus>)
    requires |data| > 0
    ensures r.Misaligned? <==> PanicsAt(bus, pa, |data|)
    ensures r.Hazarded? <==> Write(bus, pa, data).Err?
    ensures r.Hazarded? ==> r.hazard == Write(bus, pa, data).error
    ensures r.Value? ==> pa % |data| == 0 && r.value == Write(bus, pa, data).value
  {
    match Write(bus, pa, data)
    case Err(h) => Hazarded(h)
    case Ok(b) => if pa % |data| != 0 then Misaligned(pa) else Value(b)
  }

  /** `read_u8` */
  function ReadU8(bus: Bus, pa: Word): Access<bv8> {
    match ReadAccess(bus, pa, 1)
    case Value(b) => Value(b[0])
    case Hazarded(h) => Hazarded(h)
    case Misaligned(a) => Misaligned(a)
  }

  /** `read_u16`: two bytes, little-endian. */
  function ReadU16(bus: Bus, pa: Word): Access<bv16> {
    match ReadAccess(bus, pa, 2)
    case Value(b) => Value(FromLeBytes16(b))
    case Hazarded(h) => Hazarded(h)
    case Misaligned(a) => Misaligned(a)
  }

  /** `read_u32`: four bytes, little-endian. */
  function ReadU32(bus: Bus, pa: Word): Access<bv32> {
    match ReadAccess(bus, pa, 4)
    case Value(b) => Value(FromLeBytes32(b))
    case Hazarded(h) => Hazarded(h)
    case Misaligned(a) => Misaligned(a)
  }

  function WriteU8(bus: Bus, pa: Word, v: bv8): Access<Bus> {
    WriteAccess(bus, pa, [v])
  }

  function WriteU16(bus: Bus, pa: Word, v: bv16): Access<Bus> {
    WriteAccess(bus, pa, LeBytes16(v))
  }

  function WriteU32(bus: Bus, pa: Word, v: bv32): Access<Bus> {
    WriteAccess(bus, pa, LeBytes32(v))
  }

  /** While the bus is locked every access of every width is a hazard naming the address, and nothing is read or written. */
  lemma LockedBusIsHazard(bus: Bus, pa: Word, b: bv8, h: bv16, w: bv32)
    requires bus.locked
    ensures ReadU8(bus, pa) == Hazarded(BusLockedMemoryRead(pa))
    ensures ReadU16(bus, pa) == Hazarded(BusLockedMemoryRead(pa))
    ensures ReadU32(bus, pa) == Hazarded(BusLockedMemoryRead(pa))
    ensures WriteU8(bus, pa, b) == Hazarded(BusLockedMemoryWrite(pa))
    ensures WriteU16(bus, pa, h) == Hazarded(BusLockedMemoryWrite(pa))
    ensures WriteU32(bus, pa, w) == Hazarded(BusLockedMemoryWrite(pa))
  {
  }

  /**
   * A byte access never panics. On an unlocked bus a half-word or word
   * access to mapped memory panics exactly when it is misaligned, and
   * reading and writing then panic alike.
   */
  lemma MisalignedPanics(bus: Bus, pa: Word, b: bv8, h: bv16, w: bv32)
    ensures !ReadU8(bus, pa).Misaligned? && !WriteU8(bus, pa, b).Misaligned?
    ensures !bus.locked && Mapped(bus, pa, 2) ==>
      (ReadU16(bus, pa).Misaligned? <==> pa % 2 != 0) && (WriteU16(bus, pa, h).Misaligned? <==> pa % 2 != 0)
    ensures !bus.locked && Mapped(bus, pa, 4) ==>
      (ReadU32(bus, pa).Misaligned? <==> pa % 4 != 0) && (WriteU32(bus, pa, w).Misaligned? <==> pa % 4 != 0)
  {
  }

  /**
   * On an unlocked bus a word written to mapped memory at an address
   * divisible by 4 reads back; at any other address the write panics.
   */
  lemma WriteThenReadU32(bus: Bus, pa: Word, w: bv32)
    requires !bus.locked && Mapped(bus, pa, 4)
    ensures pa % 4 != 0 ==> WriteU32(bus, pa, w) == Misaligned(pa)
    ensures pa % 4 == 0 ==> WriteU32(bus, pa, w).Value?
    ensures pa % 4 == 0 ==> ReadU32(WriteU32(bus, pa, w).value, pa) == Value(w)
  {
    if pa % 4 == 0 {
      var after := BusWrite(bus, pa, LeBytes32(w));
      assert Mapped(after, pa, 4);
      assert BusRead(after, pa, 4) == LeBytes32(w);
      LeBytes32RoundTrip(w, []);
    }
  }

  /** A write leaves every byte outside the written range as it was. */
  lemma WriteFrame(bus: Bus, pa: Word, data: seq<bv8>, a: int)
    requires Write(bus, pa, data).Ok?
    requires a in bus.bytes && !(pa <= a < pa + |data|)
    ensures a in Write(bus, pa, data).value.bytes
    ensures Write(bus, pa, data).value.bytes[a] == bus.bytes[a]
  {
  }
}

=== FILE: memory_mapper.dfy ===
/**
 * The byte-addressed memory mapper: an address is split into a directory
 * field (the top bits), a page field and an offset field (the low bits);
 * each mapped page names the owner behind it and the address its mapping
 * started at, and an access goes to that owner at an offset into it.
 *
 * The two-level table of the source (a vector of directories, each a
 * vector of pages, both filled lazily) is a map from page numbers,
 * `directory * 2^pageBits + page`, to pages: an absent directory and an
 * absent page both read as an absent key, and both panic on lookup.
 * Objects are named by numbers; a panic is None.
 */
module MemoryMapper {
  import opened Wrappers
  import opened Ints

  /** A bit field: `length` bits starting at bit `start`. */
  datatype Field = Field(start: nat, length: nat)

  /** `Bitfield::extract_from`. */
  function Extract(f: Field, a: nat): (r: nat)
    ensures r < Pow2(f.length)
  {
    (a / Pow2(f.start)) % Pow2(f.length)
  }

  /** What a mapped page holds: the owner and the address its mapping started at. */
  datatype Page = Page(owner: nat, base: nat)

  datatype Mapper = Mapper(typeBits: nat, directory: Field, page: Field, offset: Field, pages: map<nat, Page>)

  /** The fields tile the word, offset lowest, and every mapped page number is in range. */
  predicate Valid(m: Mapper) {
    && m.offset.start == 0
    && m.page.start == m.offset.length
    && m.directory.start == m.page.start + m.page.length
    && m.directory.start + m.directory.length == m.typeBits
    && forall k :: k in m.pages ==> k < PageCount(m)
  }

  /** The number of pages the table can hold: every directory times every page. */
  function PageCount(m: Mapper): nat {
    Pow2(m.directory.length) * Pow2(m.page.length)
  }

  /** The bytes one page covers. */
  function PageSize(m: Mapper): (r: nat)
    ensures r >= 1
  {
    Pow2(m.offset.length)
  }

  /**
   * `B8MemoryMapper::new` for a word of `typeBits` bits: the directory is
   * the top `directoryBits`, the page the next `pageBits` and the offset
   * the rest, and nothing is mapped. More directory and page bits than the
   * word has underflow the offset width (a panic).
   */
  function New(typeBits: nat, directoryBits: nat, pageBits: nat): (r: Option<Mapper>)
    ensures r.Some? <==> directoryBits + pageBits <= typeBits
    ensures r.Some? ==> Valid(r.value) && r.value.pages == map[]
    ensures r.Some? ==> r.value.directory.length == directoryBits && r.value.page.length == pageBits
    ensures r.Some? ==> r.value.offset.length + pageBits + directoryBits == typeBits
  {
    if directoryBits + pageBits > typeBits then None
    else
      var offsetBits := typeBits - directoryBits - pageBits;
      Some(Mapper(typeBits, Field(typeBits - directoryBits, directoryBits),
                  Field(offsetBits, pageBits), Field(0, offsetBits), map[]))
  }

  /** The page number of an address: its directory field, then its page field. */
  function PageNumber(m: Mapper, a: nat): (r: nat)
    ensures r < PageCount(m)
  {
    var d, p := Extract(m.directory, a), Extract(m.page, a);
    DigitBound(d, p, Pow2(m.directory.length), Pow2(m.page.length));
    d * Pow2(m.page.length) + p
  }

  /** Two digits below `high` and `low` make a number below `high * low`. */
  lemma DigitBound(d: int, p: int, high: int, low: int)
    requires 0 <= d < high && 0 <= p < low
    ensures d * low + p < high * low
  {
    MulMonotone(d + 1, high, low);
  }

  /**
   * The masks partition the word: an address below 2^typeBits is its
   * directory field, page field and offset field put back together.
   */
  lemma Partition(m: Mapper, a: nat)
    requires Valid(m) && a < Pow2(m.typeBits)
    ensures a == Extract(m.directory, a) * Pow2(m.directory.start)
      + Extract(m.page, a) * Pow2(m.page.start) + Extract(m.offset, a)
    ensures a == PageNumber(m, a) * PageSize(m) + Extract(m.offset, a)
  {
    var o, p, d := m.offset.length, m.page.length, m.directory.length;
    Pow2Add(o, p);
    Pow2Add(o + p, d);
    var po, pp, pd := Pow2(o), Pow2(p), Pow2(d);
    assert Pow2(m.typeBits) == (po * pp) * pd;
    ThreeDigits(a, po, pp, pd);
  }

  /** An address split into a top digit, a middle digit in base `pp` and a low digit in base `po`. */
  lemma ThreeDigits(a: nat, po: nat, pp: nat, pd: nat)
    requires po > 0 && pp > 0 && pd > 0 && a < (po * pp) * pd
    ensures (a / (po * pp)) % pd == a / (po * pp)
    ensures a == (a / (po * pp)) % pd * (po * pp) + (a / po) % pp * po + (a / 1) % po
    ensures a == ((a / (po * pp)) % pd * pp + (a / po) % pp) * po + (a / 1) % po
  {
    var q := a / po;
    var top := a / (po * pp);
    var mid := q % pp;
    var low := a % po;
    assert a == q * po + low;
    DivDiv(a, po, pp);
    assert q == top * pp + mid;
    TopBound(a, po * pp, pd);
    assert a == (top * pp + mid) * po + low;
    assert (top * pp + mid) * po == top * (po * pp) + mid * po;
  }

  lemma TopBound(a: nat, low: nat, high: nat)
    requires low > 0 && a < low * high
    ensures a / low < high && (a / low) % high == a / low
  {
    var q := a / low;
    assert a == q * low + a % low;
    MulLessCancel(q, high, low);
    ModUnique(q, 0, q, high);
  }

  /**
   * The loop of `map`: `ceil(size / page size)` pages, one per page's worth
   * of the size.
   */
  function PagesFor(size: nat, pageSize: nat): (r: nat)
    requires pageSize >= 1
    decreases size
  {
    if size == 0 then 0 else 1 + PagesFor(if size <= pageSize then 0 else size - pageSize, pageSize)
  }

  /** The page count is the smallest count whose pages cover the size. */
  lemma {:induction false} PagesForCovers(size: nat, pageSize: nat)
    requires pageSize >= 1
    ensures PagesFor(size, pageSize) * pageSize >= size
    ensures size > 0 ==> (PagesFor(size, pageSize) - 1) * pageSize < size
    ensures size > 0 ==> PagesFor(size, pageSize) >= 1
    decreases size
  {
    if size > pageSize {
      PagesForCovers(size - pageSize, pageSize);
    }
  }

  /** Maps `count` pages from page number `first` to `entry`; a page already mapped panics. */
  function MapPages(pages: map<nat, Page>, first: nat, count: nat, entry: Page): (r: Option<map<nat, Page>>)
    decreases count
  {
    if count == 0 then Some(pages)
    else if first in pages then None
    else MapPages(pages[first := entry], first + 1, count - 1, entry)
  }

  /**
   * Mapping succeeds exactly when none of the pages is mapped yet; then the
   * pages map to the entry and every other page is as it was.
   */
  lemma {:induction false} MapPagesEffect(pages: map<nat, Page>, first: nat, count: nat, entry: Page)
    ensures MapPages(pages, first, count, entry).Some? <==> forall k :: first <= k < first + count ==> k !in pages
    ensures MapPages(pages, first, count, entry).Some? ==>
      var r := MapPages(pages, first, count, entry).value;
      && (forall k :: k in r <==> k in pages || first <= k < first + count)
      && (forall k :: first <= k < first + count ==> r[k] == entry)
      && (forall k :: k in pages ==> r[k] == pages[k])
    decreases count
  {
    if count > 0 && first !in pages {
      var p2 := pages[first := entry];
      MapPagesEffect(p2, first + 1, count - 1, entry);
      if forall k :: first + 1 <= k < first + count ==> k !in p2 {
        forall k | first <= k < first + count
          ensures k !in pages
        {
          if k != first {
            assert k !in p2;
          }
        }
      }
    }
  }

  /**
   * `map`: a size of 0 fails the debug assertion; the pages from the
   * address's page number on, as many as the size needs, are mapped to the
   * owner and the address; running past the last directory is an index
   * panic, and so is a page that is already mapped.
   */
  function Map(m: Mapper, address: nat, size: nat, owner: nat): (r: Option<Mapper>)
    requires Valid(m)
    ensures r.Some? ==> Valid(r.value) && r.value == m.(pages := r.value.pages)
    ensures size == 0 ==> r.None?
  {
    if size == 0 then None
    else
      var first := PageNumber(m, address);
      var count := PagesFor(size, PageSize(m));
      if first + count > PageCount(m) then None
      else
        match MapPages(m.pages, first, count, Page(owner, address))
        case None => None
        case Some(pages) =>
          MapPagesEffect(m.pages, first, count, Page(owner, address));
          Some(m.(pages := pages))
  }

  /** `object_at`: the page behind an address; a missing directory or page panics. */
  function Lookup(m: Mapper, a: nat): (r: Option<Page>)
    ensures r.Some? <==> PageNumber(m, a) in m.pages
    ensures r.Some? ==> r.value == m.pages[PageNumber(m, a)]
  {
    var k := PageNumber(m, a);
    if k in m.pages then Some(m.pages[k]) else None
  }

  /** A new mapper has nothing mapped: every access panics. */
  lemma NewLookupPanics(typeBits: nat, directoryBits: nat, pageBits: nat, a: nat)
    requires New(typeBits, directoryBits, pageBits).Some?
    ensures Lookup(New(typeBits, directoryBits, pageBits).value, a).None?
  {
  }

  /**
   * After a map, an address whose page is among the mapped ones finds the
   * owner and the mapping's address; every other address finds what it
   * found before.
   */
  lemma MapThenLookup(m: Mapper, address: nat, size: nat, owner: nat, a: nat)
    requires Valid(m) && Map(m, address, size, owner).Some?
    ensures var first := PageNumber(m, address);
      var count := PagesFor(size, PageSize(m));
      var m2 := Map(m, address, size, owner).value;
      && (first <= PageNumber(m, a) < first + count ==> Lookup(m2, a) == Some(Page(owner, address)))
      && (!(first <= PageNumber(m, a) < first + count) ==> Lookup(m2, a) == Lookup(m, a))
  {
    var first := PageNumber(m, address);
    var count := PagesFor(size, PageSize(m));
    MapPagesEffect(m.pages, first, count, Page(owner, address));
  }

  /** Mapping an address a second time panics: its first page is taken. */
  lemma MapTwicePanics(m: Mapper, address: nat, size: nat, owner: nat, size2: nat, owner2: nat)
    requires Valid(m) && Map(m, address, size, owner).Some?
    ensures Map(Map(m, address, size, owner).value, address, size2, owner2).None?
  {
    var m2 := Map(m, address, size, owner).value;
    PagesForCovers(size, PageSize(m));
    MapThenLookup(m, address, size, owner, address);
    if size2 > 0 {
      PagesForCovers(size2, PageSize(m));
      var first := PageNumber(m2, address);
      var count := PagesFor(size2, PageSize(m2));
      MapPagesEffect(m2.pages, first, count, Page(owner2, address));
    }
  }

  /**
   * The accessors as written: the owner's offset is the distance from the
   * mapping's address plus the address's offset field. An address below
   * the mapping's address underflows the subtraction (a panic).
   */
  function AccessAsWritten(m: Mapper, a: nat): (r: Option<(nat, nat)>)
    ensures r.Some? ==> Lookup(m, a).Some? && r.value.0 == Lookup(m, a).value.owner
    ensures r.Some? ==> r.value.1 == a - Lookup(m, a).value.base + Extract(m.offset, a)
  {
    match Lookup(m, a)
    case None => None
    case Some(page) =>
      if a < page.base then None
      else Some((page.owner, a - page.base + Extract(m.offset, a)))
  }

  /** The accessors with the offset field left out: the offset is the distance from the mapping's address. */
  function Access(m: Mapper, a: nat): (r: Option<(nat, nat)>)
    ensures r.Some? ==> Lookup(m, a).Some? && r.value.0 == Lookup(m, a).value.owner
    ensures r.Some? ==> a == Lookup(m, a).value.base + r.value.1
  {
    match Lookup(m, a)
    case None => None
    case Some(page) =>
      if a < page.base then None
      else Some((page.owner, a - page.base))
  }

  /** With no offset bits (one-byte pages, as in the 16/16 split of a 32-bit word) the two agree. */
  lemma AccessAgreesWithoutOffsetBits(m: Mapper, a: nat)
    requires m.offset.length == 0
    ensures AccessAsWritten(m, a) == Access(m, a)
  {
  }

  /**
   * With offset bits the offset field is counted twice: with 8 directory
   * and 8 page bits of a 32-bit word, an owner mapped at 0x1000_0000 is
   * reached at offset 8 for the address 0x1000_0004, which is 4 bytes in.
   */
  lemma AccessAsWrittenCountsOffsetTwice()
    ensures var m := Map(New(32, 8, 8).value, 0x1000_0000, 0x1_0000, 7).value;
      && AccessAsWritten(m, 0x1000_0004) == Some((7, 8))
      && Access(m, 0x1000_0004) == Some((7, 4))
  {
    var m0 := New(32, 8, 8).value;
    Pow2Value16();
    assert PageNumber(m0, 0x1000_0000) == 0x1000 by {
      Pow2Value8();
    }
    assert PagesFor(0x1_0000, 0x1_0000) == 1;
    var m := Map(m0, 0x1000_0000, 0x1_0000, 7).value;
    assert PageNumber(m, 0x1000_0004) == 0x1000 by {
      Pow2Value8();
    }
    MapThenLookup(m0, 0x1000_0000, 0x1_0000, 7, 0x1000_0004);
  }

  lemma Pow2Value8()
    ensures Pow2(8) == 0x100 && Pow2(24) == 0x100_0000
  {
    assert Pow2(4) == 16;
    assert Pow2(8) == 0x100;
    assert Pow2(16) == 0x1_0000;
  }

  lemma Pow2Value16()
    ensures Pow2(16) == 0x1_0000
  {
    assert Pow2(4) == 16;
    assert Pow2(8) == 0x100;
  }

  /**
   * A mapping that starts on a page boundary reaches every byte of the
   * mapped range: each address in it goes to the owner, at its distance
   * from the mapping's address.
   */
  lemma MapCoversRange(m: Mapper, address: nat, size: nat, owner: nat, a: nat)
    requires Valid(m) && Map(m, address, size, owner).Some?
    requires address % PageSize(m) == 0 && address <= a < address + size && a < Pow2(m.typeBits)
    ensures Access(Map(m, address, size, owner).value, a) == Some((owner, a - address))
  {
    var ps := PageSize(m);
    var first := PageNumber(m, address);
    var count := PagesFor(size, ps);
    Partition(m, a);
    Partition(m, address);
    assert Extract(m.offset, address) == address % ps;
    PagesForCovers(size, ps);
    PageWithinRange(a, address, size, ps, PageNumber(m, a), first, Extract(m.offset, a), count);
    MapThenLookup(m, address, size, owner, a);
  }

  /** The page of an address inside an aligned range is among the range's pages. */
  lemma PageWithinRange(a: nat, address: nat, size: nat, ps: nat, ka: nat, k0: nat, oa: nat, count: nat)
    requires ps >= 1 && address <= a < address + size
    requires a == ka * ps + oa && 0 <= oa < ps && address == k0 * ps
    requires count * ps >= size
    ensures k0 <= ka < k0 + count
  {
    assert (ka + 1) * ps == ka * ps + ps;
    MulLessCancel(k0, ka + 1, ps);
    assert (k0 + count) * ps == k0 * ps + count * ps;
    MulLessCancel(ka, k0 + count, ps);
  }
}

=== FILE: primitive.dfy ===
/**
 * Little-endian sub-word access to 32- and 16-bit values: a value is viewed
 * as its byte sequence, least significant byte first, and a byte or
 * half-word at an offset is read from or written into that view.
 */
module Primitive {
  /** The four bytes of `v`, least significant first (`to_le_bytes`). */
  function LeBytes32(v: bv32): (r: seq<bv8>)
    ensures |r| == 4
  {
    [(v & 0xFF) as bv8, ((v >> 8) & 0xFF) as bv8, ((v >> 16) & 0xFF) as bv8, (v >> 24) as bv8]
  }

  /** The value whose little-endian bytes are `b` (`from_le_bytes`). */
  function FromLeBytes32(b: seq<bv8>): bv32
    requires |b| == 4
  {
    (b[0] as bv32) | ((b[1] as bv32) << 8) | ((b[2] as bv32) << 16) | ((b[3] as bv32) << 24)
  }

  function LeBytes16(v: bv16): (r: seq<bv8>)
    ensures |r| == 2
  {
    [(v & 0xFF) as bv8, (v >> 8) as bv8]
  }

  function FromLeBytes16(b: seq<bv8>): bv16
    requires |b| == 2
  {
    (b[0] as bv16) | ((b[1] as bv16) << 8)
  }

  lemma LeBytes32RoundTrip(v: bv32, b: seq<bv8>)
    ensures FromLeBytes32(LeBytes32(v)) == v
    ensures |b| == 4 ==> LeBytes32(FromLeBytes32(b)) == b
  {
  }

  lemma LeBytes16RoundTrip(v: bv16, b: seq<bv8>)
    ensures FromLeBytes16(LeBytes16(v)) == v
    ensures |b| == 2 ==> LeBytes16(FromLeBytes16(b)) == b
  {
  }

  /** A word assembled from four bytes equals the word assembled from its two half-words, low half first. */
  lemma HalvesCompose(b0: bv8, b1: bv8, b2: bv8, b3: bv8)
    ensures (b0 as bv32) | ((b1 as bv32) << 8) | ((b2 as bv32) << 16) | ((b3 as bv32) << 24)
         == (((b0 as bv16) | ((b1 as bv16) << 8)) as bv32) | ((((b2 as bv16) | ((b3 as bv16) << 8)) as bv32) << 16)
  {
  }

  lemma WordOfHalves(w: seq<bv8>)
    requires |w| == 4
    ensures FromLeBytes32(w) == (FromLeBytes16(w[..2]) as bv32) | ((FromLeBytes16(w[2..]) as bv32) << 16)
  {
    assert FromLeBytes16(w[..2]) == (w[0] as bv16) | ((w[1] as bv16) << 8);
    assert FromLeBytes16(w[2..]) == (w[2] as bv16) | ((w[3] as bv16) << 8);
    HalvesCompose(w[0], w[1], w[2], w[3]);
  }

  // Sub-word access to a 32-bit value. An offset outside the value is an
  // out-of-bounds index, which panics; callers must not pass one.

  function ExtractU8(v: bv32, offset: nat): bv8
    requires offset < 4
  {
    LeBytes32(v)[offset]
  }

  function InsertU8(v: bv32, offset: nat, b: bv8): bv32
    requires offset < 4
  {
    FromLeBytes32(LeBytes32(v)[offset := b])
  }

  /** Half-word `offset` is bytes `2 * offset` and `2 * offset + 1`. */
  function ExtractU16(v: bv32, offset: nat): bv16
    requires offset < 2
  {
    FromLeBytes16(LeBytes32(v)[2 * offset .. 2 * offset + 2])
  }

  function InsertU16(v: bv32, offset: nat, h: bv16): bv32
    requires offset < 2
  {
    var hb := LeBytes16(h);
    FromLeBytes32(LeBytes32(v)[2 * offset := hb[0]][2 * offset + 1 := hb[1]])
  }

  // Byte access to a 16-bit value.

  function ExtractU8Of16(v: bv16, offset: nat): bv8
    requires offset < 2
  {
    LeBytes16(v)[offset]
  }

  function InsertU8Of16(v: bv16, offset: nat, b: bv8): bv16
    requires offset < 2
  {
    FromLeBytes16(LeBytes16(v)[offset := b])
  }

  /** Writing a byte and reading it back gives the byte; every other byte keeps its value. */
  lemma InsertU8Bytes(v: bv32, offset: nat, b: bv8)
    requires offset < 4
    ensures LeBytes32(InsertU8(v, offset, b)) == LeBytes32(v)[offset := b]
    ensures ExtractU8(InsertU8(v, offset, b), offset) == b
    ensures forall j :: 0 <= j < 4 && j != offset ==> ExtractU8(InsertU8(v, offset, b), j) == ExtractU8(v, j)
  {
    LeBytes32RoundTrip(v, LeBytes32(v)[offset := b]);
  }

  /** Writing a half-word and reading it back gives it; the other half keeps its value. */
  lemma InsertU16Halves(v: bv32, offset: nat, h: bv16)
    requires offset < 2
    ensures ExtractU16(InsertU16(v, offset, h), offset) == h
    ensures ExtractU16(InsertU16(v, offset, h), 1 - offset) == ExtractU16(v, 1 - offset)
  {
    var hb := LeBytes16(h);
    var bytes := LeBytes32(v)[2 * offset := hb[0]][2 * offset + 1 := hb[1]];
    LeBytes32RoundTrip(v, bytes);
    LeBytes16RoundTrip(h, []);
  }

  /** The byte round trip on a 16-bit value, and the frame on the other byte. */
  lemma InsertU8Of16Bytes(v: bv16, offset: nat, b: bv8)
    requires offset < 2
    ensures ExtractU8Of16(InsertU8Of16(v, offset, b), offset) == b
    ensures ExtractU8Of16(InsertU8Of16(v, offset, b), 1 - offset) == ExtractU8Of16(v, 1 - offset)
  {
    LeBytes16RoundTrip(v, LeBytes16(v)[offset := b]);
  }

  /** Byte `k` is the value's bits `8k .. 8k + 7`. */
  lemma ExtractU8Bits(v: bv32)
    ensures ExtractU8(v, 0) as bv32 == v & 0xFF
    ensures ExtractU8(v, 1) as bv32 == (v >> 8) & 0xFF
    ensures ExtractU8(v, 2) as bv32 == (v >> 16) & 0xFF
    ensures ExtractU8(v, 3) as bv32 == v >> 24
  {
  }

  /** Half-word 0 is the low 16 bits and half-word 1 the high 16 bits. */
  lemma ExtractU16Bits(v: bv32)
    ensures ExtractU16(v, 0) as bv32 == v & 0xFFFF
    ensures ExtractU16(v, 1) as bv32 == v >> 16
  {
  }
}

=== FILE: r3000_state.dfy ===
/**
 * The state the R3000 instruction handlers work on: the integer unit
 * (program counter, branch delay slot, 32 general purpose registers, hi and
 * lo), the system control coprocessor's registers, and the shared bus.
 *
 * Register 0 reads as zero: every handler that writes a general purpose
 * register writes 0 back into register 0 afterwards (`handle_zero`).
 */
module R3000State {
  import opened Alu
  import opened Bits
  import opened Shifts
  import opened BranchDelay
  import opened MemoryController

  datatype Cpu = Cpu(pc: Word, delay: BranchDelaySlot, gpr: seq<Word>, hi: Word, lo: Word)

  /** 32 registers, register 0 holding zero. */
  predicate Valid(c: Cpu) {
    |c.gpr| == 32 && c.gpr[0] == 0
  }

  /** A register write followed by `handle_zero`. */
  function SetGpr(c: Cpu, i: nat, v: Word): (r: Cpu)
    requires Valid(c) && i < 32
    ensures Valid(r)
    ensures i != 0 ==> r.gpr[i] == v
    ensures forall j :: 0 <= j < 32 && j != i ==> r.gpr[j] == c.gpr[j]
    ensures r.pc == c.pc && r.delay == c.delay && r.hi == c.hi && r.lo == c.lo
  {
    c.(gpr := c.gpr[i := v][0 := 0])
  }

  /**
   * The system control coprocessor's 32 registers, addressed by the `rd`
   * field of `mfc0`/`mtc0`. Status, cause and EPC are registers 12, 13 and
   * 14, as on every MIPS I processor. The source's named registers are a
   * flat file here: every index has storage.
   */
  datatype Cp0 = Cp0(regs: seq<bv32>)

  const StatusIndex: nat := 12
  const CauseIndex: nat := 13
  const EpcIndex: nat := 14

  predicate Cp0Valid(c: Cp0) {
    |c.regs| == 32
  }

  function Status(c: Cp0): bv32
    requires Cp0Valid(c)
  {
    c.regs[StatusIndex]
  }

  function Cause(c: Cp0): bv32
    requires Cp0Valid(c)
  {
    c.regs[CauseIndex]
  }

  function Epc(c: Cp0): bv32
    requires Cp0Valid(c)
  {
    c.regs[EpcIndex]
  }

  /** Everything the handlers touch: the CPU, coprocessor 0, the bus, and the interrupt controller's line into the CPU. */
  datatype Machine = Machine(cpu: Cpu, cp0: Cp0, bus: Bus, intcPending: bool)

  predicate MachineValid(m: Machine) {
    Valid(m.cpu) && Cp0Valid(m.cp0)
  }

  // Fields of the status and cause registers.

  const StatusIec := Bitfield(0, 1)
  const StatusKuc := Bitfield(1, 1)
  const StatusIm := Bitfield(8, 8)
  const StatusIsc := Bitfield(16, 1)
  const StatusBev := Bitfield(22, 1)
  const CauseExccode := Bitfield(2, 5)
  const CauseIp := Bitfield(8, 8)
  const CauseIpIntc := Bitfield(10, 1)

  const ExccodeInt: nat := 0
  const ExccodeSyscall: nat := 8

  /** The status fields the handlers read, as masks and shifts. */
  lemma StatusFields(s: bv32)
    ensures Extract(StatusIec, s) == s & 1
    ensures Extract(StatusIsc, s) == (s >> 16) & 1
    ensures Extract(StatusBev, s) == (s >> 22) & 1
    ensures Extract(StatusIm, s) == (s >> 8) & 0xFF
  {
    ExtractAtNative(StatusIec.start, StatusIec.length, s);
    FieldMaskNative(StatusIec.start, StatusIec.length);
    ExtractAtNative(StatusIsc.start, StatusIsc.length, s);
    FieldMaskNative(StatusIsc.start, StatusIsc.length);
    ExtractAtNative(StatusBev.start, StatusBev.length, s);
    FieldMaskNative(StatusBev.start, StatusBev.length);
    ExtractAtNative(StatusIm.start, StatusIm.length, s);
    FieldMaskNative(StatusIm.start, StatusIm.length);
  }

  /** The pending-interrupt field of cause, as a mask and shift. */
  lemma CauseIpField(c: bv32)
    ensures Extract(CauseIp, c) == (c >> 8) & 0xFF
  {
    ExtractAtNative(CauseIp.start, CauseIp.length, c);
    FieldMaskNative(CauseIp.start, CauseIp.length);
  }

  /** The exception code field of cause, read and written as a mask and shift. */
  lemma CauseExccodeField(c: bv32, x: bv32)
    ensures Extract(CauseExccode, c) == (c >> 2) & 0x1F
    ensures Insert(CauseExccode, c, x) == (c & 0xFFFF_FF83) | ((x & 0x1F) << 2)
  {
    ExtractAtNative(CauseExccode.start, CauseExccode.length, c);
    FieldMaskNative(CauseExccode.start, CauseExccode.length);
    InsertAtNative(CauseExccode.start, CauseExccode.length, c, x);
    ShlNative(1, CauseExccode.length);
  }

  /** The interrupt controller's pending bit, bit 10 of cause. */
  lemma CauseIntcField(c: bv32, f: bv32)
    ensures Insert(CauseIpIntc, c, f) == (c & 0xFFFF_FBFF) | ((f & 1) << 10)
  {
    InsertAtNative(CauseIpIntc.start, CauseIpIntc.length, c, f);
    FieldMaskNative(CauseIpIntc.start, CauseIpIntc.length);
    ShlNative(1, CauseIpIntc.length);
  }

  /** Clearing the pending-interrupt field clears bits 8-15 of cause and nothing else. */
  lemma CauseIpClear(c: bv32)
    ensures Insert(CauseIp, c, 0) == c & 0xFFFF_00FF
  {
    InsertAtNative(CauseIp.start, CauseIp.length, c, 0);
    FieldMaskNative(CauseIp.start, CauseIp.length);
  }

  // The interrupt-enable / kernel-mode stack in status bits 0-5: (IEc, KUc)
  // in bits 0-1, the previous pair in 2-3 and the old pair in 4-5.

  /** Exception entry pushes the stack: each pair moves up one place and the current pair becomes (0, 0), kernel mode with interrupts off. */
  function StatusPushException(s: bv32): bv32 {
    (s & 0xFFFF_FFC0) | ((s << 2) & 0x3F)
  }

  /** `rfe` pops the stack: the previous pair becomes current and the old pair becomes previous; the old pair is kept. */
  function StatusPopException(s: bv32): bv32 {
    (s & 0xFFFF_FFF0) | ((s >> 2) & 0xF)
  }

  /** Entry disables interrupts, saves the current pair as the previous one and leaves bits 6 and up alone. */
  lemma PushException(s: bv32)
    ensures StatusPushException(s) & 3 == 0
    ensures (StatusPushException(s) >> 2) & 3 == s & 3
    ensures (StatusPushException(s) >> 4) & 3 == (s >> 2) & 3
    ensures StatusPushException(s) & 0xFFFF_FFC0 == s & 0xFFFF_FFC0
  {
  }

  /** Returning from an exception restores the interrupt-enable and mode bits (0-3) saved at entry, and the rest of status. */
  lemma PopUndoesPush(s: bv32)
    ensures StatusPopException(StatusPushException(s)) & 0xF == s & 0xF
    ensures StatusPopException(StatusPushException(s)) & 0xFFFF_FFC0 == s & 0xFFFF_FFC0
  {
  }

  /** `j`/`jal` target: the 26-bit field times 4, in the 256 MiB region of `pc` (the address of the delay slot). */
  function JumpTarget(pc: Word, addr: nat): (t: Word)
    requires addr < 0x400_0000
    ensures t / 0x1000_0000 == pc / 0x1000_0000
    ensures t % 4 == 0
  {
    var region := pc / 0x1000_0000;
    region * 0x1000_0000 + addr * 4
  }
}

=== FILE: registers.dfy ===
/**
 * The shared peripheral register types.
 *
 * - Level registers (`B32/B16/B8LevelRegister`) hold a value that either
 *   side reads and writes at any time, as a whole, by byte or half-word
 *   (little-endian), or by bitfield.
 * - `B32Register` is a word that can be made read-only, in which case every
 *   write is ignored; it is also reachable through a memory map that checks
 *   the access offset.
 * - `B32EdgeRegister` latches each bus access: while a latch is pending
 *   every further access fails, until the peripheral acknowledges it.
 *
 * The atomics and the mutex around the values are left out: each operation
 * here is one step from a state to the next.
 */
module Registers {
  import opened Bits
  import opened Primitive
  import opened Wrappers

  // Level registers.

  datatype Level32 = Level32(value: bv32)
  datatype Level16 = Level16(value: bv16)
  datatype Level8 = Level8(value: bv8)

  function Level32ReadU8(r: Level32, offset: nat): bv8
    requires offset < 4
  {
    ExtractU8(r.value, offset)
  }

  function Level32WriteU8(r: Level32, offset: nat, b: bv8): Level32
    requires offset < 4
  {
    Level32(InsertU8(r.value, offset, b))
  }

  function Level32ReadU16(r: Level32, offset: nat): bv16
    requires offset < 2
  {
    ExtractU16(r.value, offset)
  }

  function Level32WriteU16(r: Level32, offset: nat, h: bv16): Level32
    requires offset < 2
  {
    Level32(InsertU16(r.value, offset, h))
  }

  function Level32ReadBitfield(r: Level32, f: Bitfield): bv32 {
    Extract(f, r.value)
  }

  function Level32WriteBitfield(r: Level32, f: Bitfield, v: bv32): Level32 {
    Level32(Insert(f, r.value, v))
  }

  function Level16ReadU8(r: Level16, offset: nat): bv8
    requires offset < 2
  {
    ExtractU8Of16(r.value, offset)
  }

  function Level16WriteU8(r: Level16, offset: nat, b: bv8): Level16
    requires offset < 2
  {
    Level16(InsertU8Of16(r.value, offset, b))
  }

  /** A bitfield of a 16-bit value, computed on the value zero-extended and cut back to 16 bits. */
  function Level16ReadBitfield(r: Level16, f: Bitfield): bv16 {
    (Extract(f, r.value as bv32) & 0xFFFF) as bv16
  }

  function Level16WriteBitfield(r: Level16, f: Bitfield, v: bv16): Level16 {
    Level16((Insert(f, r.value as bv32, v as bv32) & 0xFFFF) as bv16)
  }

  function Level8ReadBitfield(r: Level8, f: Bitfield): bv8 {
    (Extract(f, r.value as bv32) & 0xFF) as bv8
  }

  function Level8WriteBitfield(r: Level8, f: Bitfield, v: bv8): Level8 {
    Level8((Insert(f, r.value as bv32, v as bv32) & 0xFF) as bv8)
  }

  /** `write_bitfield` changes only the field, and `read_bitfield` then returns the written value cut to the field. */
  lemma Level32Bitfield(r: Level32, f: Bitfield, v: bv32)
    requires Fits(f)
    ensures Level32WriteBitfield(r, f, v).value & !ShiftedMask(f) == r.value & !ShiftedMask(f)
    ensures Level32ReadBitfield(Level32WriteBitfield(r, f, v), f) == v & UnshiftedMask(f)
  {
    InsertFrame(f, r.value, v);
    ExtractInsert(f, r.value, v);
  }

  /** Writing a byte then reading it back gives the byte; the other bytes keep their values. */
  lemma Level32Bytes(r: Level32, offset: nat, b: bv8)
    requires offset < 4
    ensures Level32ReadU8(Level32WriteU8(r, offset, b), offset) == b
    ensures forall j :: 0 <= j < 4 && j != offset ==> Level32ReadU8(Level32WriteU8(r, offset, b), j) == Level32ReadU8(r, j)
  {
    InsertU8Bytes(r.value, offset, b);
  }

  /** The 32-bit layout test: bytes 00, 33, 22, 11 at offsets 0..3. */
  lemma Level32LayoutExample()
    ensures var r := Level32WriteU8(Level32WriteU8(Level32WriteU8(Level32WriteU8(Level32(0), 0, 0x00), 1, 0x33), 2, 0x22), 3, 0x11);
      r.value == 0x1122_3300 &&
      Level32ReadU8(r, 0) == 0x00 && Level32ReadU8(r, 1) == 0x33 && Level32ReadU8(r, 2) == 0x22 && Level32ReadU8(r, 3) == 0x11 &&
      Level32ReadU16(r, 0) == 0x3300 && Level32ReadU16(r, 1) == 0x1122 &&
      Level32ReadBitfield(r, Bitfield(9, 4)) == 9
  {
  }

  /** The 16- and 8-bit layout and bitfield tests. */
  lemma Level16And8Examples()
    ensures var r := Level16WriteU8(Level16WriteU8(Level16(0), 0, 0x00), 1, 0x33);
      r.value == 0x3300 && Level16ReadU8(r, 0) == 0x00 && Level16ReadU8(r, 1) == 0x33 &&
      Level16ReadBitfield(r, Bitfield(9, 4)) == 9
    ensures Level8ReadBitfield(Level8(0x33), Bitfield(5, 3)) == 1
  {
  }

  // `B32Register`: a word with a read-only flag.

  datatype B32Register = B32Register(value: bv32, readOnly: bool)

  function B32RegisterReadU16(r: B32Register, index: nat): bv16
    requires index < 2
  {
    ExtractU16(r.value, index)
  }

  function B32RegisterReadU8(r: B32Register, index: nat): bv8
    requires index < 4
  {
    ExtractU8(r.value, index)
  }

  function B32RegisterWriteU32(r: B32Register, v: bv32): (r': B32Register)
    ensures r'.readOnly == r.readOnly
  {
    if r.readOnly then r else r.(value := v)
  }

  /** Half-word `index` of the word, read through the union on a little-endian host. */
  function B32RegisterWriteU16(r: B32Register, index: nat, h: bv16): (r': B32Register)
    requires index < 2
    ensures r'.readOnly == r.readOnly
  {
    if r.readOnly then r else r.(value := InsertU16(r.value, index, h))
  }

  function B32RegisterWriteU8(r: B32Register, index: nat, b: bv8): (r': B32Register)
    requires index < 4
    ensures r'.readOnly == r.readOnly
  {
    if r.readOnly then r else r.(value := InsertU8(r.value, index, b))
  }

  function B32RegisterReadBitfield(r: B32Register, f: Bitfield): bv32 {
    Extract(f, r.value)
  }

  function B32RegisterWriteBitfield(r: B32Register, f: Bitfield, v: bv32): (r': B32Register)
    ensures r'.readOnly == r.readOnly
  {
    B32RegisterWriteU32(r, Insert(f, r.value, v))
  }

  /** A read-only register ignores every write, whatever its width. */
  lemma ReadOnlyIgnoresWrites(r: B32Register, v: bv32, index: nat, h: bv16, b: bv8, f: Bitfield)
    requires r.readOnly && index < 2
    ensures B32RegisterWriteU32(r, v) == r
    ensures B32RegisterWriteU16(r, index, h) == r
    ensures B32RegisterWriteU8(r, index, b) == r
    ensures B32RegisterWriteBitfield(r, f, v) == r
  {
  }

  /** A writable register's word write replaces the value; a bitfield write changes only the field, which then reads back. */
  lemma WritableWrites(r: B32Register, v: bv32, f: Bitfield)
    requires !r.readOnly && Fits(f)
    ensures B32RegisterWriteU32(r, v).value == v
    ensures B32RegisterWriteBitfield(r, f, v).value & !ShiftedMask(f) == r.value & !ShiftedMask(f)
    ensures B32RegisterReadBitfield(B32RegisterWriteBitfield(r, f, v), f) == v & UnshiftedMask(f)
  {
    InsertFrame(f, r.value, v);
    ExtractInsert(f, r.value, v);
  }

  // The memory-map view of `B32Register`: byte offsets into the word.

  /**
   * A mapped half-word access panics on an odd offset and otherwise uses
   * half-word `offset / 2`, which panics past the word's two halves.
   */
  function MappedReadU16(r: B32Register, offset: nat): (h: Option<bv16>)
    ensures h.Some? <==> offset % 2 == 0 && offset < 4
  {
    if offset % 2 != 0 || offset / 2 >= 2 then None
    else Some(B32RegisterReadU16(r, offset / 2))
  }

  function MappedWriteU16(r: B32Register, offset: nat, h: bv16): (r': Option<B32Register>)
    ensures r'.Some? <==> offset % 2 == 0 && offset < 4
    ensures r'.Some? ==> r'.value.readOnly == r.readOnly
  {
    if offset % 2 != 0 || offset / 2 >= 2 then None
    else Some(B32RegisterWriteU16(r, offset / 2, h))
  }

  /** A mapped word access panics unless the offset is 0. */
  function MappedReadU32(r: B32Register, offset: nat): (v: Option<bv32>)
    ensures v.Some? <==> offset == 0
    ensures v.Some? ==> v.value == r.value
  {
    if offset != 0 then None else Some(r.value)
  }

  function MappedWriteU32(r: B32Register, offset: nat, v: bv32): (r': Option<B32Register>)
    ensures r'.Some? <==> offset == 0
    ensures r'.Some? ==> r'.value.value == (if r.readOnly then r.value else v)
  {
    if offset != 0 then None else Some(B32RegisterWriteU32(r, v))
  }

  /** Mapped half-word 2 is the high half of the word, and writing it keeps the low half. */
  lemma MappedHalves(r: B32Register, h: bv16)
    requires !r.readOnly
    ensures MappedReadU16(r, 0).value as bv32 == r.value & 0xFFFF
    ensures MappedReadU16(r, 2).value as bv32 == r.value >> 16
    ensures MappedReadU16(MappedWriteU16(r, 2, h).value, 2) == Some(h)
    ensures MappedReadU16(MappedWriteU16(r, 2, h).value, 0) == MappedReadU16(r, 0)
    ensures MappedReadU16(r, 1).None? && MappedReadU16(r, 4).None? && MappedReadU32(r, 2).None?
  {
    ExtractU16Bits(r.value);
    InsertU16Halves(r.value, 1, h);
  }

  // `B32EdgeRegister`: a word with a latch for the pending access.

  datatype LatchKind = Read | Write

  datatype EdgeRegister = EdgeRegister(value: bv32, latch: Option<LatchKind>)

  /** `new()`: value 0, no latch pending. */
  const NewEdgeRegister := EdgeRegister(0, None)

  /**
   * `try_op`: fails, changing nothing, while a latch is pending; otherwise
   * records the latch kind and applies the operation to the value.
   */
  function TryOp(r: EdgeRegister, kind: LatchKind, op: bv32 -> bv32): Result<EdgeRegister, ()> {
    if r.latch.Some? then Err(()) else Ok(EdgeRegister(op(r.value), Some(kind)))
  }

  function EdgeReadU32(r: EdgeRegister): Result<(bv32, EdgeRegister), ()> {
    match TryOp(r, Read, v => v)
    case Err(e) => Err(e)
    case Ok(r') => Ok((r.value, r'))
  }

  function EdgeWriteU32(r: EdgeRegister, v: bv32): Result<EdgeRegister, ()> {
    TryOp(r, Write, _ => v)
  }

  function EdgeReadU16(r: EdgeRegister, index: nat): Result<(bv16, EdgeRegister), ()>
    requires index < 2
  {
    match TryOp(r, Read, v => v)
    case Err(e) => Err(e)
    case Ok(r') => Ok((ExtractU16(r.value, index), r'))
  }

  function EdgeWriteU16(r: EdgeRegister, index: nat, h: bv16): Result<EdgeRegister, ()>
    requires index < 2
  {
    TryOp(r, Write, v => InsertU16(v, index, h))
  }

  function EdgeReadU8(r: EdgeRegister, index: nat): Result<(bv8, EdgeRegister), ()>
    requires index < 4
  {
    match TryOp(r, Read, v => v)
    case Err(e) => Err(e)
    case Ok(r') => Ok((ExtractU8(r.value, index), r'))
  }

  function EdgeWriteU8(r: EdgeRegister, index: nat, b: bv8): Result<EdgeRegister, ()>
    requires index < 4
  {
    TryOp(r, Write, v => InsertU8(v, index, b))
  }

  /** `acknowledge`: with a latch pending, applies the handler to the value and the latch kind and clears the latch. */
  function Acknowledge(r: EdgeRegister, op: (bv32, LatchKind) -> bv32): (r': EdgeRegister)
    ensures r'.latch.None?
  {
    match r.latch
    case None => r
    case Some(kind) => EdgeRegister(op(r.value, kind), None)
  }

  /** `update`: applies the operation whatever the latch. */
  function Update(r: EdgeRegister, op: bv32 -> bv32): (r': EdgeRegister)
    ensures r'.latch == r.latch
  {
    r.(value := op(r.value))
  }

  /** An access while a latch is pending fails and changes nothing; otherwise it succeeds and records its kind. */
  lemma EdgeAccessLatches(r: EdgeRegister, v: bv32)
    ensures EdgeWriteU32(r, v).IsFailure() <==> r.latch.Some?
    ensures EdgeReadU32(r).IsFailure() <==> r.latch.Some?
    ensures r.latch.None? ==> EdgeWriteU32(r, v) == Ok(EdgeRegister(v, Some(Write)))
    ensures r.latch.None? ==> EdgeReadU32(r) == Ok((r.value, r.(latch := Some(Read))))
  {
  }

  /** After a successful access, a second one fails until the latch is acknowledged, and then succeeds. */
  lemma EdgeAcknowledgeReopens(r: EdgeRegister, v: bv32, w: bv32, op: (bv32, LatchKind) -> bv32)
    requires r.latch.None?
    ensures EdgeWriteU32(EdgeWriteU32(r, v).value, w).IsFailure()
    ensures Acknowledge(EdgeWriteU32(r, v).value, op) == EdgeRegister(op(v, Write), None)
    ensures !EdgeWriteU32(Acknowledge(EdgeWriteU32(r, v).value, op), w).IsFailure()
  {
  }

  /** `acknowledge` with no latch pending changes nothing. */
  lemma AcknowledgeIdle(r: EdgeRegister, op: (bv32, LatchKind) -> bv32)
    ensures r.latch.None? ==> Acknowledge(r, op) == r
  {
  }
}

=== FILE: shifts.dfy ===
/**
 * Shifts of a 32-bit word by a count of bit positions. `Shl(x, n)` is
 * `x << n` and `Shr(x, n)` is `x >> n` for `n < 32`, written as `n`
 * single-bit shifts; a count of 32 or more shifts every bit out. The
 * solver reasons cheaply about a shift by one, so each fact about a shift
 * by `n` is proved by induction on `n`; each lemma states one fact.
 */
module Shifts {
  const Ones: bv32 := 0xFFFF_FFFF
  const TopBit: bv32 := 0x8000_0000

  function Shl(x: bv32, n: nat): bv32
    decreases n
  {
    if n == 0 then x else Shl(x << 1, n - 1)
  }

  function Shr(x: bv32, n: nat): bv32
    decreases n
  {
    if n == 0 then x else Shr(x >> 1, n - 1)
  }

  /** `x` has no bit outside `m`. */
  predicate Within(x: bv32, m: bv32) {
    x & !m == 0
  }

  lemma {:induction false} ShlLast(x: bv32, n: nat)
    ensures n > 0 ==> Shl(x, n) == Shl(x, n - 1) << 1
    decreases n
  {
    if n > 1 {
      ShlLast(x << 1, n - 1);
    }
  }

  lemma {:induction false} ShrLast(x: bv32, n: nat)
    ensures n > 0 ==> Shr(x, n) == Shr(x, n - 1) >> 1
    decreases n
  {
    if n > 1 {
      ShrLast(x >> 1, n - 1);
    }
  }

  lemma ShlShrOne(x: bv32, c: bv32)
    ensures ((x << 1) & c) >> 1 == x & (c >> 1)
  {
  }

  lemma ShrShlOne(x: bv32, c: bv32)
    ensures ((x >> 1) & c) << 1 == x & (c << 1)
  {
  }

  lemma AndShlOne(a: bv32, b: bv32)
    ensures (a & b) << 1 == (a << 1) & (b << 1)
  {
  }

  lemma AndShrOne(a: bv32, b: bv32)
    ensures (a & b) >> 1 == (a >> 1) & (b >> 1)
  {
  }

  lemma NegShlOne(x: bv32)
    ensures (-x) << 1 == -(x << 1)
  {
  }

  /** Shifting left then right by the same count clears the top `n` bits. */
  lemma {:induction false} ShlShr(x: bv32, n: nat)
    ensures Shr(Shl(x, n), n) == x & Shr(Ones, n)
    decreases n
  {
    if n > 0 {
      ShlShr(x << 1, n - 1);
      ShrLast(Shl(x, n), n);
      ShrLast(Ones, n);
      ShlShrOne(x, Shr(Ones, n - 1));
    }
  }

  /** Shifting right then left by the same count clears the low `n` bits. */
  lemma {:induction false} ShrShl(x: bv32, n: nat)
    ensures Shl(Shr(x, n), n) == x & Shl(Ones, n)
    decreases n
  {
    if n > 0 {
      ShrShl(x >> 1, n - 1);
      ShlLast(Shr(x, n), n);
      ShlLast(Ones, n);
      ShrShlOne(x, Shl(Ones, n - 1));
    }
  }

  lemma {:induction false} ShlAnd(a: bv32, b: bv32, n: nat)
    ensures Shl(a & b, n) == Shl(a, n) & Shl(b, n)
    decreases n
  {
    if n > 0 {
      ShlAnd(a, b, n - 1);
      ShlLast(a & b, n);
      ShlLast(a, n);
      ShlLast(b, n);
      AndShlOne(Shl(a, n - 1), Shl(b, n - 1));
    }
  }

  lemma {:induction false} ShrAnd(a: bv32, b: bv32, n: nat)
    ensures Shr(a & b, n) == Shr(a, n) & Shr(b, n)
    decreases n
  {
    if n > 0 {
      ShrAnd(a, b, n - 1);
      ShrLast(a & b, n);
      ShrLast(a, n);
      ShrLast(b, n);
      AndShrOne(Shr(a, n - 1), Shr(b, n - 1));
    }
  }

  /** A left shift keeps one word's bits inside another's. */
  lemma ShlSubset(x: bv32, m: bv32, n: nat)
    ensures x & m == x ==> Shl(x, n) & Shl(m, n) == Shl(x, n)
  {
    ShlAnd(x, m, n);
  }

  /** A left shift commutes with two's-complement negation. */
  lemma {:induction false} ShlNeg(x: bv32, n: nat)
    ensures Shl(-x, n) == -Shl(x, n)
    decreases n
  {
    if n > 0 {
      var y, z := x << 1, (-x) << 1;
      NegShlOne(x);
      assert z == -y;
      ShlNeg(y, n - 1);
      assert Shl(-x, n) == Shl(z, n - 1);
      assert Shl(x, n) == Shl(y, n - 1);
    }
  }

  /** All-ones shifted left is the negation of one shifted left. */
  lemma OnesShlNeg(n: nat)
    ensures Shl(Ones, n) == -Shl(1, n)
  {
    ShlNeg(1, n);
    assert -(1 as bv32) == Ones;
  }

  /** All-ones shifted left by 31 leaves only the top bit. */
  lemma OnesShl31()
    ensures Shl(Ones, 31) == TopBit
  {
    ShlLast(Ones, 1);
    ShlLast(Ones, 2);
    ShlLast(Ones, 3);
    ShlLast(Ones, 4);
    ShlLast(Ones, 5);
    ShlLast(Ones, 6);
    ShlLast(Ones, 7);
    ShlLast(Ones, 8);
    ShlLast(Ones, 9);
    ShlLast(Ones, 10);
    ShlLast(Ones, 11);
    ShlLast(Ones, 12);
    ShlLast(Ones, 13);
    ShlLast(Ones, 14);
    ShlLast(Ones, 15);
    ShlLast(Ones, 16);
    ShlLast(Ones, 17);
    ShlLast(Ones, 18);
    ShlLast(Ones, 19);
    ShlLast(Ones, 20);
    ShlLast(Ones, 21);
    ShlLast(Ones, 22);
    ShlLast(Ones, 23);
    ShlLast(Ones, 24);
    ShlLast(Ones, 25);
    ShlLast(Ones, 26);
    ShlLast(Ones, 27);
    ShlLast(Ones, 28);
    ShlLast(Ones, 29);
    ShlLast(Ones, 30);
    ShlLast(Ones, 31);
  }

  /** All-ones shifted right by 31 leaves only the bottom bit. */
  lemma OnesShr31()
    ensures Shr(Ones, 31) == 1
  {
    ShrLast(Ones, 1);
    ShrLast(Ones, 2);
    ShrLast(Ones, 3);
    ShrLast(Ones, 4);
    ShrLast(Ones, 5);
    ShrLast(Ones, 6);
    ShrLast(Ones, 7);
    ShrLast(Ones, 8);
    ShrLast(Ones, 9);
    ShrLast(Ones, 10);
    ShrLast(Ones, 11);
    ShrLast(Ones, 12);
    ShrLast(Ones, 13);
    ShrLast(Ones, 14);
    ShrLast(Ones, 15);
    ShrLast(Ones, 16);
    ShrLast(Ones, 17);
    ShrLast(Ones, 18);
    ShrLast(Ones, 19);
    ShrLast(Ones, 20);
    ShrLast(Ones, 21);
    ShrLast(Ones, 22);
    ShrLast(Ones, 23);
    ShrLast(Ones, 24);
    ShrLast(Ones, 25);
    ShrLast(Ones, 26);
    ShrLast(Ones, 27);
    ShrLast(Ones, 28);
    ShrLast(Ones, 29);
    ShrLast(Ones, 30);
    ShrLast(Ones, 31);
  }

  /** Each further left shift of all-ones keeps a subset of the bits. */
  lemma OnesShlShrinks(n: nat)
    ensures Within(Shl(Ones, n + 1), Shl(Ones, n))
  {
    ShlAnd(Ones << 1, Ones, n);
  }

  lemma OnesShrShrinks(n: nat)
    ensures Within(Shr(Ones, n + 1), Shr(Ones, n))
  {
    ShrAnd(Ones >> 1, Ones, n);
  }

  lemma WithinTrans(a: bv32, b: bv32, c: bv32)
    ensures Within(a, b) && Within(b, c) ==> Within(a, c)
  {
  }

  /** All-ones shifted left by fewer than 32 keeps the top bit. */
  lemma {:induction false} OnesShlTop(n: nat)
    ensures n < 32 ==> Shl(Ones, n) & TopBit != 0
    decreases 32 - n
  {
    if n < 31 {
      OnesShlTop(n + 1);
      OnesShlShrinks(n);
    } else if n == 31 {
      OnesShl31();
    }
  }

  /** All-ones shifted right by fewer than 32 keeps the bottom bit. */
  lemma {:induction false} OnesShrBottom(n: nat)
    ensures n < 32 ==> Shr(Ones, n) & 1 == 1
    decreases 32 - n
  {
    if n < 31 {
      OnesShrBottom(n + 1);
      OnesShrShrinks(n);
    } else if n == 31 {
      OnesShr31();
    }
  }

  lemma CoverStep(a: bv32, b: bv32)
    ensures a & TopBit != 0 && (a << 1) | b == Ones ==> a | (b >> 1) == Ones
  {
  }

  /**
   * The high ones from bit `m` up and the low ones below bit `32 - k`
   * cover the word when `m <= 32 - k`.
   */
  lemma {:induction false} OnesCover(m: nat, k: nat)
    ensures m + k <= 32 ==> Shl(Ones, m) | Shr(Ones, k) == Ones
    decreases k
  {
    if k > 0 && m + k <= 32 {
      OnesCover(m + 1, k - 1);
      ShlLast(Ones, m + 1);
      ShrLast(Ones, k);
      OnesShlTop(m);
      CoverStep(Shl(Ones, m), Shr(Ones, k - 1));
    }
  }

  // For a count below 32 the stepped shifts agree with the native ones,
  // which lets a field at a fixed position be evaluated directly.

  lemma CastSucc(k: nat)
    ensures k < 31 ==> (k as bv5) + 1 == (k + 1) as bv5
  {
    if k == 0 {} else if k == 1 {} else if k == 2 {} else if k == 3 {} else if k == 4 {} else if k == 5 {} else
    if k == 6 {} else if k == 7 {} else if k == 8 {} else if k == 9 {} else if k == 10 {} else if k == 11 {} else
    if k == 12 {} else if k == 13 {} else if k == 14 {} else if k == 15 {} else if k == 16 {} else if k == 17 {} else
    if k == 18 {} else if k == 19 {} else if k == 20 {} else if k == 21 {} else if k == 22 {} else if k == 23 {} else
    if k == 24 {} else if k == 25 {} else if k == 26 {} else if k == 27 {} else if k == 28 {} else if k == 29 {} else
    if k == 30 {}
  }

  lemma ShlStep(x: bv32, k: bv5)
    ensures k < 31 ==> (x << k) << 1 == x << (k + 1)
  {
    // One constant shift per count: the solver evaluates each directly.
    if k == 0 {} else if k == 1 {} else if k == 2 {} else if k == 3 {} else if k == 4 {} else if k == 5 {} else
    if k == 6 {} else if k == 7 {} else if k == 8 {} else if k == 9 {} else if k == 10 {} else if k == 11 {} else
    if k == 12 {} else if k == 13 {} else if k == 14 {} else if k == 15 {} else if k == 16 {} else if k == 17 {} else
    if k == 18 {} else if k == 19 {} else if k == 20 {} else if k == 21 {} else if k == 22 {} else if k == 23 {} else
    if k == 24 {} else if k == 25 {} else if k == 26 {} else if k == 27 {} else if k == 28 {} else if k == 29 {} else
    if k == 30 {}
  }

  lemma ShrStep(x: bv32, k: bv5)
    ensures k < 31 ==> (x >> k) >> 1 == x >> (k + 1)
  {
    // One constant shift per count: the solver evaluates each directly.
    if k == 0 {} else if k == 1 {} else if k == 2 {} else if k == 3 {} else if k == 4 {} else if k == 5 {} else
    if k == 6 {} else if k == 7 {} else if k == 8 {} else if k == 9 {} else if k == 10 {} else if k == 11 {} else
    if k == 12 {} else if k == 13 {} else if k == 14 {} else if k == 15 {} else if k == 16 {} else if k == 17 {} else
    if k == 18 {} else if k == 19 {} else if k == 20 {} else if k == 21 {} else if k == 22 {} else if k == 23 {} else
    if k == 24 {} else if k == 25 {} else if k == 26 {} else if k == 27 {} else if k == 28 {} else if k == 29 {} else
    if k == 30 {}
  }

  lemma {:induction false} ShlNative(x: bv32, n: nat)
    ensures n < 32 ==> Shl(x, n) == x << (n as bv5)
    decreases n
  {
    if 0 < n < 32 {
      ShlNative(x, n - 1);
      ShlLast(x, n);
      ShlStep(x, (n - 1) as bv5);
      CastSucc(n - 1);
    }
  }

  lemma {:induction false} ShrNative(x: bv32, n: nat)
    ensures n < 32 ==> Shr(x, n) == x >> (n as bv5)
    decreases n
  {
    if 0 < n < 32 {
      ShrNative(x, n - 1);
      ShrLast(x, n);
      ShrStep(x, (n - 1) as bv5);
      CastSucc(n - 1);
    }
  }

  lemma {:induction false} ShlZero(n: nat)
    ensures Shl(0, n) == 0
    decreases n
  {
    if n > 0 {
      ShlZero(n - 1);
    }
  }
}

=== FILE: spu_adpcm.dfy ===
/**
 * The SPU's ADPCM decoder. A 16-byte block holds a two-byte header (shift,
 * filter and loop flags) and 14 bytes of packed 4-bit samples, low nibble
 * first; each nibble becomes a 16-bit sample through the shift, a
 * prediction from the two previous samples and a clamp to the 16-bit range.
 */
module SpuAdpcm {
  import opened Wrappers
  import opened Ints
  import opened SpuTypes

  /** The decoded block header. */
  datatype AdpcmParams = AdpcmParams(shift: nat, filter: nat, loopEnd: bool, loopRepeat: bool, loopStart: bool)

  function BoolBit(b: bool): nat {
    if b then 1 else 0
  }

  /**
   * `decode_header`: shift and filter are the low and high nibbles of byte 0;
   * loop end, loop repeat and loop start are bits 0, 1 and 2 of byte 1.
   */
  function DecodeHeader(b0: Byte, b1: Byte): (r: AdpcmParams)
    ensures r.shift < 16 && r.filter < 16 && r.filter * 16 + r.shift == b0
    ensures BoolBit(r.loopStart) * 4 + BoolBit(r.loopRepeat) * 2 + BoolBit(r.loopEnd) == b1 % 8
  {
    HeaderFlags(b1);
    AdpcmParams(b0 % 16, b0 / 16, b1 % 2 == 1, (b1 / 2) % 2 == 1, (b1 / 4) % 2 == 1)
  }

  /** Bits 0, 1 and 2 of `b` are the three binary digits of `b % 8`. */
  lemma HeaderFlags(b: int)
    ensures BoolBit((b / 4) % 2 == 1) * 4 + BoolBit((b / 2) % 2 == 1) * 2 + BoolBit(b % 2 == 1) == b % 8
  {
    ModSplit(b, 2, 4);
    ModSplit(b / 2, 2, 2);
    DivDiv(b, 2, 2);
  }

  /** The filter tables: filters 0-4 have coefficients, any other filter number indexes past the tables and panics. */
  function FilterCoefficients(filter: nat): (r: Option<(int, int)>)
    ensures r.Some? <==> filter < 5
    ensures r.Some? ==> 0 <= r.value.0 <= 122 && -60 <= r.value.1 <= 0
    ensures filter == 0 ==> r == Some((0, 0))
  {
    if filter == 0 then Some((0, 0))
    else if filter == 1 then Some((60, 0))
    else if filter == 2 then Some((115, -52))
    else if filter == 3 then Some((98, -55))
    else if filter == 4 then Some((122, -60))
    else None
  }

  /** An arithmetic right shift by `k`: `k` halvings, each rounding down. */
  function ShiftRight(x: int, k: nat): (r: int)
    ensures x >= 0 ==> 0 <= r <= x
    ensures x < 0 ==> x <= r < 0
  {
    if k == 0 then x else ShiftRight(x, k - 1) / 2
  }

  /** A nibble read as a 4-bit two's complement number. */
  function SignedNibble(n: nat): (r: int)
    requires n < 16
    ensures -8 <= r < 8 && (r - n) % 16 == 0
  {
    if n < 8 then n else n - 16
  }

  /** `(nibble as i16) << 12` keeps only 16 bits, which makes the nibble a signed 4-bit number in the top bits. */
  lemma NibbleShift(n: nat)
    requires n < 16
    ensures ToI16(n * 0x1000) == SignedNibble(n) * 0x1000
  {
  }

  /**
   * The prediction before the clamp: the shifted nibble (an arithmetic right
   * shift, which rounds down) plus the two filtered previous samples, each
   * also shifted right by 6.
   */
  function Predicted(n: nat, shift: nat, pos: int, neg: int, last: I16, beforeLast: I16): int
    requires n < 16
  {
    ShiftRight(ToI16(n * 0x1000), shift) + (last * pos) / 64 + (beforeLast * neg) / 64
  }

  /** One sample of `decode_frame`: the prediction, clamped to the 16-bit range. */
  function DecodeSample(n: nat, shift: nat, pos: int, neg: int, last: I16, beforeLast: I16): (r: I16)
    requires n < 16
    ensures InI16(Predicted(n, shift, pos, neg, last, beforeLast)) ==> r == Predicted(n, shift, pos, neg, last, beforeLast)
    ensures Predicted(n, shift, pos, neg, last, beforeLast) < -0x8000 ==> r == -0x8000
    ensures Predicted(n, shift, pos, neg, last, beforeLast) > 0x7FFF ==> r == 0x7FFF
  {
    Clamp(Predicted(n, shift, pos, neg, last, beforeLast), -0x8000, 0x7FFF)
  }

  /** With the table coefficients the prediction never leaves the 32-bit range the source computes it in. */
  lemma PredictedFitsI32(n: nat, shift: nat, filter: nat, last: I16, beforeLast: I16)
    requires n < 16 && FilterCoefficients(filter).Some?
    ensures var (pos, neg) := FilterCoefficients(filter).value;
      -0x8000_0000 <= Predicted(n, shift, pos, neg, last, beforeLast) < 0x8000_0000
  {
    var (pos, neg) := FilterCoefficients(filter).value;
    var s := ToI16(n * 0x1000);
    assert -0x8000 * 122 <= last * pos <= 0x7FFF * 122;
    assert -0x7FFF * 60 <= beforeLast * neg <= 0x8000 * 60;
  }

  /** The low nibble, decoded first. */
  function Low(d: Byte): nat { d % 16 }

  /** The high nibble, decoded second. */
  function High(d: Byte): nat { d / 16 }

  /**
   * `decode_frame` and the loop of `decode_all_frames`: each byte gives two
   * samples, low nibble first, and after every sample the previous sample
   * becomes the one before it. Returns the samples and the decoder's last
   * two samples afterwards.
   */
  function DecodeFrames(bytes: seq<Byte>, shift: nat, pos: int, neg: int, last: I16, beforeLast: I16): (r: (seq<I16>, I16, I16))
    ensures |r.0| == 2 * |bytes|
    ensures |bytes| == 0 ==> r.1 == last && r.2 == beforeLast
    ensures |bytes| > 0 ==> r.1 == r.0[|r.0| - 1] && r.2 == r.0[|r.0| - 2]
    decreases |bytes|
  {
    if |bytes| == 0 then ([], last, beforeLast)
    else
      var s0 := DecodeSample(Low(bytes[0]), shift, pos, neg, last, beforeLast);
      var s1 := DecodeSample(High(bytes[0]), shift, pos, neg, s0, last);
      var rest := DecodeFrames(bytes[1..], shift, pos, neg, s1, s0);
      ([s0, s1] + rest.0, rest.1, rest.2)
  }

  /** The nibbles of the bytes in decoding order: for each byte the low nibble, then the high one. */
  function Nibbles(bytes: seq<Byte>): (r: seq<nat>)
    ensures |r| == 2 * |bytes|
    ensures forall i :: 0 <= i < |bytes| ==> r[2 * i] == bytes[i] % 16 && r[2 * i + 1] == bytes[i] / 16
    ensures forall k :: 0 <= k < |r| ==> r[k] < 16
  {
    if |bytes| == 0 then [] else [Low(bytes[0]), High(bytes[0])] + Nibbles(bytes[1..])
  }

  /** The reference decoder: one sample per nibble, each predicted from the two samples before it. */
  function DecodeStream(nibbles: seq<nat>, shift: nat, pos: int, neg: int, last: I16, beforeLast: I16): seq<I16>
    requires forall k :: 0 <= k < |nibbles| ==> nibbles[k] < 16
    decreases |nibbles|
  {
    if |nibbles| == 0 then []
    else
      var s := DecodeSample(nibbles[0], shift, pos, neg, last, beforeLast);
      [s] + DecodeStream(nibbles[1..], shift, pos, neg, s, last)
  }

  /** Decoding frame by frame is decoding the nibble stream sample by sample. */
  lemma {:induction false} DecodeFramesIsStream(bytes: seq<Byte>, shift: nat, pos: int, neg: int, last: I16, beforeLast: I16)
    ensures DecodeFrames(bytes, shift, pos, neg, last, beforeLast).0 == DecodeStream(Nibbles(bytes), shift, pos, neg, last, beforeLast)
    decreases |bytes|
  {
    if |bytes| > 0 {
      var s0 := DecodeSample(Low(bytes[0]), shift, pos, neg, last, beforeLast);
      var s1 := DecodeSample(High(bytes[0]), shift, pos, neg, s0, last);
      DecodeFramesIsStream(bytes[1..], shift, pos, neg, s1, s0);
      var ns := Nibbles(bytes);
      assert ns[2..] == Nibbles(bytes[1..]);
      assert ns[1..][1..] == ns[2..];
    }
  }

  /** Every sample is the clamped prediction from its nibble and the two samples before it, the first two from the decoder's memory. */
  lemma {:induction false} DecodeStreamRecurrence(nibbles: seq<nat>, shift: nat, pos: int, neg: int, last: I16, beforeLast: I16, k: nat)
    requires forall j :: 0 <= j < |nibbles| ==> nibbles[j] < 16
    requires k < |nibbles|
    ensures var out := DecodeStream(nibbles, shift, pos, neg, last, beforeLast);
      |out| == |nibbles| &&
      out[k] == DecodeSample(nibbles[k], shift, pos, neg,
                             if k >= 1 then out[k - 1] else last,
                             if k >= 2 then out[k - 2] else if k == 1 then last else beforeLast)
    decreases k
  {
    StreamLength(nibbles, shift, pos, neg, last, beforeLast);
    if k > 0 {
      var s := DecodeSample(nibbles[0], shift, pos, neg, last, beforeLast);
      DecodeStreamRecurrence(nibbles[1..], shift, pos, neg, s, last, k - 1);
    }
  }

  lemma {:induction false} StreamLength(nibbles: seq<nat>, shift: nat, pos: int, neg: int, last: I16, beforeLast: I16)
    requires forall j :: 0 <= j < |nibbles| ==> nibbles[j] < 16
    ensures |DecodeStream(nibbles, shift, pos, neg, last, beforeLast)| == |nibbles|
    decreases |nibbles|
  {
    if |nibbles| > 0 {
      var s := DecodeSample(nibbles[0], shift, pos, neg, last, beforeLast);
      StreamLength(nibbles[1..], shift, pos, neg, s, last);
    }
  }

  /** Bytes in one block: the two header bytes, then 14 bytes of samples. */
  const BlockSize: nat := 16

  /** What one call of `handle_adpcm_block` leaves: the voice, the repeat address register and whether the voice's loop-end status bit was set. */
  datatype BlockResult = BlockResult(voice: Voice, raddr: U16, loopEndReached: bool)

  /** The address the block is decoded from: the repeat address (in 8-byte units) when a loop end asked for it, else the current one. */
  function DecodingAddress(v: Voice, raddr: U16): (r: nat)
    ensures v.adpcm.copyRepeatAddress ==> r == raddr * 8
    ensures !v.adpcm.copyRepeatAddress ==> r == v.currentAddress
  {
    if v.adpcm.copyRepeatAddress then raddr * 8 else v.currentAddress
  }

  /**
   * `handle_adpcm_block`: both addresses must be 8-byte aligned (a panic
   * otherwise); a block already decoded is left alone. Otherwise the block at
   * the decoding address is read (a panic past the end of sound memory),
   * decoded into the buffer with the decoder's memory carried on, and
   * remembered as decoded. A loop start stores the block address / 8 in the
   * repeat register; a loop end sets the status bit and the repeat-copy flag
   * and, without loop repeat, puts the envelope into Release at volume 0.
   * None is a panic.
   */
  function HandleAdpcmBlock(v: Voice, raddr: U16, memory: seq<Byte>): (r: Option<BlockResult>)
    ensures r.None? <==>
      || v.currentAddress % 8 != 0 || v.adpcm.decodedAddress % 8 != 0
      || (v.currentAddress != v.adpcm.decodedAddress &&
          (DecodingAddress(v, raddr) + BlockSize > |memory| ||
           DecodeHeader(memory[DecodingAddress(v, raddr)], memory[DecodingAddress(v, raddr) + 1]).filter >= 5))
    ensures r.Some? && v.currentAddress == v.adpcm.decodedAddress ==> r.value == BlockResult(v, raddr, false)
  {
    if v.currentAddress % 8 != 0 || v.adpcm.decodedAddress % 8 != 0 then None
    else if v.currentAddress == v.adpcm.decodedAddress then Some(BlockResult(v, raddr, false))
    else
      var address := DecodingAddress(v, raddr);
      var v1 := v.(currentAddress := address, adpcm := v.adpcm.(copyRepeatAddress := false));
      if address + BlockSize > |memory| then None
      else
        var params := DecodeHeader(memory[address], memory[address + 1]);
        match FilterCoefficients(params.filter)
        case None => None
        case Some((pos, neg)) =>
          var (samples, last, beforeLast) :=
            DecodeFrames(memory[address + 2..address + BlockSize], params.shift, pos, neg, v1.adpcm.last, v1.adpcm.beforeLast);
          var v2 := v1.(adpcm := v1.adpcm.(last := last, beforeLast := beforeLast, decodedAddress := address, sampleBuffer := samples));
          var raddr2 := if params.loopStart then ToU16(address / 8) else raddr;
          var v3 :=
            if !params.loopEnd then v2
            else if params.loopRepeat then v2.(adpcm := v2.adpcm.(copyRepeatAddress := true))
            else v2.(adpcm := v2.adpcm.(copyRepeatAddress := true), adsr := AdsrState(Release, 0, 0, 0));
          Some(BlockResult(v3, raddr2, params.loopEnd))
  }

  /**
   * A decoded block: the voice now plays it from the decoding address, its
   * 28 samples are those of the 14 sample bytes, and the decoder's memory
   * holds the last two of them.
   */
  lemma BlockDecoded(v: Voice, raddr: U16, memory: seq<Byte>)
    requires HandleAdpcmBlock(v, raddr, memory).Some? && v.currentAddress != v.adpcm.decodedAddress
    ensures var a := DecodingAddress(v, raddr);
      var params := DecodeHeader(memory[a], memory[a + 1]);
      var (pos, neg) := FilterCoefficients(params.filter).value;
      var r := HandleAdpcmBlock(v, raddr, memory).value;
      && r.voice.currentAddress == a && r.voice.adpcm.decodedAddress == a
      && |r.voice.adpcm.sampleBuffer| == 28
      && r.voice.adpcm.sampleBuffer ==
           DecodeStream(Nibbles(memory[a + 2..a + BlockSize]), params.shift, pos, neg, v.adpcm.last, v.adpcm.beforeLast)
      && r.voice.adpcm.last == r.voice.adpcm.sampleBuffer[27]
      && r.voice.adpcm.beforeLast == r.voice.adpcm.sampleBuffer[26]
      && r.voice.adpcm.copyRepeatAddress == params.loopEnd
      && r.loopEndReached == params.loopEnd
      && (params.loopStart ==> r.raddr == ToU16(a / 8))
      && (!params.loopStart ==> r.raddr == raddr)
      && (params.loopEnd && !params.loopRepeat ==> r.voice.adsr == AdsrState(Release, 0, 0, 0))
      && (!(params.loopEnd && !params.loopRepeat) ==> r.voice.adsr == v.adsr)
  {
    var a := DecodingAddress(v, raddr);
    var params := DecodeHeader(memory[a], memory[a + 1]);
    var (pos, neg) := FilterCoefficients(params.filter).value;
    DecodeFramesIsStream(memory[a + 2..a + BlockSize], params.shift, pos, neg, v.adpcm.last, v.adpcm.beforeLast);
  }

  /** Decoding is done once per block: a second call on the result finds the block decoded and changes nothing. */
  lemma DecodedOnce(v: Voice, raddr: U16, memory: seq<Byte>)
    requires HandleAdpcmBlock(v, raddr, memory).Some?
    ensures var r := HandleAdpcmBlock(v, raddr, memory).value;
      HandleAdpcmBlock(r.voice, r.raddr, memory) == Some(BlockResult(r.voice, r.raddr, false))
  {
    var r := HandleAdpcmBlock(v, raddr, memory).value;
    if v.currentAddress != v.adpcm.decodedAddress {
      var a := DecodingAddress(v, raddr);
      BlockAddresses(v, raddr, memory);
      assert a % 8 == 0 by {
        if v.adpcm.copyRepeatAddress { MulMod(raddr, 8); }
      }
    }
    assert r.voice.currentAddress == r.voice.adpcm.decodedAddress && r.voice.currentAddress % 8 == 0;
  }

  /** A decoded block leaves both of the voice's addresses at the decoding address. */
  lemma BlockAddresses(v: Voice, raddr: U16, memory: seq<Byte>)
    requires HandleAdpcmBlock(v, raddr, memory).Some? && v.currentAddress != v.adpcm.decodedAddress
    ensures var r := HandleAdpcmBlock(v, raddr, memory).value;
      r.voice.currentAddress == DecodingAddress(v, raddr) && r.voice.adpcm.decodedAddress == DecodingAddress(v, raddr)
  {
  }
}

=== FILE: spu_adsr.dfy ===
/**
 * The SPU's integer ADSR envelope. Each voice's envelope runs through
 * Attack, Decay, Sustain and Release; every tick that is not spent waiting
 * applies the volume computed on the previous tick and computes the next
 * one from the phase's rate, shift, direction and mode in the voice's
 * 32-bit ADSR register.
 *
 * Register layout: sustain level 0-3, decay shift 4-7, attack step 8-9,
 * attack shift 10-14, attack mode 15, release shift 16-20, release mode 21,
 * sustain step 22-23, sustain shift 24-28, sustain direction 30, sustain
 * mode 31. The register is a number below 2^32 and each field is read by
 * dividing by a power of two and reducing modulo the field's size.
 */
module SpuAdsr {
  import opened Wrappers
  import opened Ints
  import opened SpuTypes


  const I16Max: int := 0x7FFF

  datatype AdsrDirection = Increase | Decrease
  datatype AdsrMode = Linear | Exponential

  /** The rate of one phase. */
  datatype PhaseParams = PhaseParams(step: nat, shift: nat, direction: AdsrDirection, mode: AdsrMode)

  function ModeOf(bit: int): AdsrMode {
    if bit > 0 then Exponential else Linear
  }

  /** `extract_phase_params`: Decay and Release always decrease with step 0; Decay is always exponential. */
  function ExtractPhaseParams(v: U32, phase: AdsrPhase): (r: PhaseParams)
    ensures r.step < 4 && r.shift < 32
    ensures phase == Attack ==> r.direction == Increase
    ensures phase in {Decay, Release} ==> r.direction == Decrease && r.step == 0
    ensures phase == Decay ==> r.mode == Exponential && r.shift < 16
  {
    match phase
    case Attack => PhaseParams((v / 0x100) % 4, (v / 0x400) % 32, Increase, ModeOf((v / 0x8000) % 2))
    case Decay => PhaseParams(0, (v / 0x10) % 16, Decrease, Exponential)
    case Sustain =>
      PhaseParams((v / 0x40_0000) % 4, (v / 0x100_0000) % 32,
                  if (v / 0x4000_0000) % 2 > 0 then Decrease else Increase, ModeOf((v / 0x8000_0000) % 2))
    case Release => PhaseParams(0, (v / 0x1_0000) % 32, Decrease, ModeOf((v / 0x20_0000) % 2))
  }

  /** `extract_adsr_sustain_level`: (raw + 1) * 0x800 for the 4-bit raw level, capped at the largest i16. */
  function SustainLevel(v: U32): (r: I16)
    ensures 0x800 <= r <= I16Max
    ensures v % 16 < 15 ==> r == (v % 16 + 1) * 0x800
    ensures v % 16 == 15 ==> r == I16Max
  {
    var raw := v % 16;
    if (raw + 1) * 0x800 < I16Max then (raw + 1) * 0x800 else I16Max
  }

  /** Rust's signed `a / 0x8000`: the quotient rounded towards zero. */
  function TruncDiv8000(a: int): (r: int)
    ensures a >= 0 ==> 0 <= r <= a && r * 0x8000 <= a < r * 0x8000 + 0x8000
    ensures a < 0 ==> a <= r <= 0 && r * 0x8000 - 0x8000 < a <= r * 0x8000
  {
    if a >= 0 then a / 0x8000 else -((-a) / 0x8000)
  }

  /** The wait before the next volume: 1 << max(0, shift - 11), four times as long for an exponential increase above 0x6000. */
  function WaitCycles(params: PhaseParams, current: I16): (r: nat)
    ensures r >= 1
    ensures params.shift <= 11 && !(params.mode == Exponential && params.direction == Increase && current > 0x6000) ==> r == 1
  {
    var base := Pow2(if params.shift > 11 then params.shift - 11 else 0);
    if params.mode == Exponential && params.direction == Increase && current > 0x6000 then base * 4 else base
  }

  /**
   * The step of `calculate_envelope_delta` before its clamp: 7 - step up or
   * -8 + step down, shifted left by max(0, 11 - shift); an exponential
   * decrease scales it by the current level / 0x8000.
   */
  function RawStep(params: PhaseParams, current: I16): (r: int)
    requires params.step < 4
    ensures params.direction == Increase ==> r >= 1
    ensures params.direction == Decrease && current >= 0 ==> r <= 0
    ensures params.direction == Decrease && params.mode == Linear ==> r <= -5
  {
    var base := if params.direction == Increase then 7 - params.step else -8 + params.step;
    var step := base * Pow2(if params.shift < 11 then 11 - params.shift else 0);
    if params.mode == Exponential && params.direction == Decrease then TruncDiv8000(step * current) else step
  }

  /**
   * `calculate_envelope_delta` as written: the step clamped to [0, 0x7FFF]
   * and the wait. The clamp cuts every decreasing step to 0.
   */
  function EnvelopeDeltaAsWritten(params: PhaseParams, current: I16): (r: (I16, nat))
    requires params.step < 4
    ensures 0 <= r.0 <= I16Max && r.1 == WaitCycles(params, current)
    ensures params.direction == Decrease && current >= 0 ==> r.0 == 0
  {
    (Clamp(RawStep(params, current), 0, I16Max), WaitCycles(params, current))
  }

  /** `calculate_envelope_delta` with the clamp to the i16 range, which lets a decreasing step through. */
  function EnvelopeDelta(params: PhaseParams, current: I16): (r: (I16, nat))
    requires params.step < 4
    ensures r.1 == WaitCycles(params, current)
    ensures InI16(RawStep(params, current)) ==> r.0 == RawStep(params, current)
    ensures params.direction == Increase ==> r.0 >= 1
    ensures params.direction == Decrease && current >= 0 ==> r.0 <= 0
  {
    (Clamp(RawStep(params, current), -0x8000, I16Max), WaitCycles(params, current))
  }

  /**
   * The phase rules of `handle_adsr_envelope` on the new volume: Attack caps
   * at 0x7FFF and moves to Decay there; Decay floors at the sustain level and
   * moves to Sustain there; Sustain clamps to [0, 0x7FFF]; Release floors at
   * 0. Returns the volume before its cast to i16 and the phase.
   */
  function ApplyPhase(phase: AdsrPhase, next: int, sustain: int): (r: (int, AdsrPhase))
    ensures phase == Attack ==> r.0 <= I16Max && r.0 >= (if next < I16Max then next else I16Max)
    ensures phase == Attack ==> (r.1 == Decay <==> r.0 == I16Max) && (r.1 != Decay ==> r.1 == Attack)
    ensures phase == Decay ==> r.0 >= sustain && (r.1 == Sustain <==> r.0 == sustain) && (r.1 != Sustain ==> r.1 == Decay)
    ensures phase == Sustain ==> 0 <= r.0 <= I16Max && r.1 == Sustain
    ensures phase == Release ==> r.0 >= 0 && r.1 == Release
    ensures phase != Sustain && InI16(next) && next >= 0 && (phase != Decay || next >= sustain) ==> r.0 == if phase == Attack && next > I16Max then I16Max else next
  {
    match phase
    case Attack =>
      var n := if next < I16Max then next else I16Max;
      (n, if n == I16Max then Decay else Attack)
    case Decay =>
      var n := if next > sustain then next else sustain;
      (n, if n == sustain then Sustain else Decay)
    case Sustain => (Clamp(next, 0, I16Max), Sustain)
    case Release => (if next > 0 then next else 0, Release)
  }

  /** One tick of the envelope: the state afterwards and the value written to the current-volume register, if any. */
  datatype EnvelopeTick = EnvelopeTick(adsr: AdsrState, cvol: Option<U16>)

  /** The body of `handle_adsr_envelope` once the wait is over, given the envelope step it uses. */
  function Advance(s: AdsrState, v: U32, delta: (I16, nat)): (r: EnvelopeTick)
  {
    var current := s.nextVolume;
    var (next, phase) := ApplyPhase(s.phase, current + delta.0, SustainLevel(v));
    EnvelopeTick(AdsrState(phase, current, ToI16(next), delta.1), Some(ToU16(current)))
  }

  /** `handle_adsr_envelope` as written, with the step clamped to [0, 0x7FFF]. */
  function HandleAdsrEnvelopeAsWritten(s: AdsrState, v: U32): (r: EnvelopeTick)
    ensures s.waitCycles > 0 ==> r == EnvelopeTick(s.(waitCycles := s.waitCycles - 1), None)
    ensures s.waitCycles == 0 ==> r.adsr.currentVolume == s.nextVolume && r.cvol == Some(ToU16(s.nextVolume))
  {
    if s.waitCycles > 0 then EnvelopeTick(s.(waitCycles := s.waitCycles - 1), None)
    else
      var params := ExtractPhaseParams(v, s.phase);
      Advance(s, v, EnvelopeDeltaAsWritten(params, s.nextVolume))
  }

  /**
   * `handle_adsr_envelope`: a waiting envelope only counts down its wait;
   * otherwise the next volume takes effect (and is written to the
   * current-volume register) and the next one is computed by the phase.
   */
  function HandleAdsrEnvelope(s: AdsrState, v: U32): (r: EnvelopeTick)
    ensures s.waitCycles > 0 ==> r == EnvelopeTick(s.(waitCycles := s.waitCycles - 1), None)
    ensures s.waitCycles == 0 ==> r.adsr.currentVolume == s.nextVolume && r.cvol == Some(ToU16(s.nextVolume))
    ensures s.waitCycles == 0 ==> r.adsr.waitCycles == WaitCycles(ExtractPhaseParams(v, s.phase), s.nextVolume)
  {
    if s.waitCycles > 0 then EnvelopeTick(s.(waitCycles := s.waitCycles - 1), None)
    else
      var params := ExtractPhaseParams(v, s.phase);
      Advance(s, v, EnvelopeDelta(params, s.nextVolume))
  }

  /** Both volumes of a running envelope are non-negative (and, as i16 values, at most 0x7FFF). */
  predicate ValidEnvelope(s: AdsrState) {
    s.currentVolume >= 0 && s.nextVolume >= 0 && (s.phase == Decay ==> s.nextVolume >= 0x800)
  }

  /** Every tick keeps the envelope's volumes in [0, 0x7FFF], so the final cast to i16 never wraps. */
  lemma EnvelopeStaysValid(s: AdsrState, v: U32)
    requires ValidEnvelope(s)
    ensures ValidEnvelope(HandleAdsrEnvelope(s, v).adsr)
    ensures s.waitCycles == 0 ==>
      var params := ExtractPhaseParams(v, s.phase);
      HandleAdsrEnvelope(s, v).adsr.nextVolume == ApplyPhase(s.phase, s.nextVolume + EnvelopeDelta(params, s.nextVolume).0, SustainLevel(v)).0
  {
  }

  /** Attack rises by at least one each active tick, and moves to Decay exactly when it reaches 0x7FFF. */
  lemma AttackRises(s: AdsrState, v: U32)
    requires s.phase == Attack && s.waitCycles == 0 && ValidEnvelope(s)
    ensures var r := HandleAdsrEnvelope(s, v).adsr;
      && (r.nextVolume > s.nextVolume || r.nextVolume == I16Max)
      && (r.phase == Decay <==> r.nextVolume == I16Max)
      && (r.phase != Decay ==> r.phase == Attack)
  {
  }

  /**
   * Decay and Release never raise the volume: Decay falls towards the
   * sustain level and stops there (moving to Sustain), Release falls
   * towards 0.
   */
  lemma DecayAndReleaseFall(s: AdsrState, v: U32)
    requires s.phase in {Decay, Release} && s.waitCycles == 0 && ValidEnvelope(s)
    requires s.phase == Decay ==> s.nextVolume >= SustainLevel(v)
    ensures var r := HandleAdsrEnvelope(s, v).adsr;
      && r.nextVolume <= s.nextVolume
      && (s.phase == Decay ==> r.nextVolume >= SustainLevel(v) && (r.phase == Sustain <==> r.nextVolume == SustainLevel(v)))
      && (s.phase == Release ==> r.phase == Release)
  {
  }

  /** A linear Release above 0 strictly lowers the volume on every active tick. */
  lemma LinearReleaseStrictlyFalls(s: AdsrState, v: U32)
    requires s.phase == Release && s.waitCycles == 0 && ValidEnvelope(s) && s.nextVolume > 0
    requires ExtractPhaseParams(v, Release).mode == Linear
    ensures HandleAdsrEnvelope(s, v).adsr.nextVolume < s.nextVolume
  {
  }

  /** As written, a decreasing step is always cut to 0, so Decay and Release never lower the volume. */
  lemma AsWrittenNeverFalls(s: AdsrState, v: U32)
    requires s.phase in {Decay, Release} && s.waitCycles == 0 && ValidEnvelope(s)
    requires s.phase == Decay ==> s.nextVolume >= SustainLevel(v)
    ensures HandleAdsrEnvelopeAsWritten(s, v).adsr.nextVolume == s.nextVolume
  {
  }

  /** The input that shows it: at full volume in Decay with a zero register, the envelope returns to the same state every two ticks and never decays. */
  lemma AsWrittenDecayStalls()
    ensures var s := AdsrState(Decay, 0x7FFF, 0x7FFF, 0);
      HandleAdsrEnvelopeAsWritten(HandleAdsrEnvelopeAsWritten(s, 0).adsr, 0).adsr == s
  {
  }

  /** The same state with the i16 clamp: one tick halves the volume (0x7FFF less 0x3FFF). */
  lemma DecayFallsFromFull()
    ensures HandleAdsrEnvelope(AdsrState(Decay, 0x7FFF, 0x7FFF, 0), 0).adsr == AdsrState(Decay, 0x7FFF, 0x4000, 1)
  {
    assert Pow2(11) == 2048 by {
      assert Pow2(4) == 16;
      assert Pow2(8) == 256;
    }
    assert RawStep(ExtractPhaseParams(0, Decay), 0x7FFF) == -0x3FFF;
  }

  /** A higher raw sustain level never gives a lower sustain volume. */
  lemma SustainLevelMonotone(v: U32, w: U32)
    requires v % 16 <= w % 16
    ensures SustainLevel(v) <= SustainLevel(w)
  {
  }

  /** An exponential increase above 0x6000 waits four times as long as it would at a lower level. */
  lemma WaitQuadruples(params: PhaseParams, current: I16)
    requires params.mode == Exponential && params.direction == Increase && current > 0x6000
    ensures WaitCycles(params, current) == 4 * WaitCycles(params, 0)
  {
  }

  /** Above shift 11 each step of the shift doubles the wait. */
  lemma WaitDoubles(params: PhaseParams, current: I16)
    requires params.shift >= 11
    ensures WaitCycles(params.(shift := params.shift + 1), current) == 2 * WaitCycles(params, current)
  {
  }
}

=== FILE: spu_pitch.dfy ===
/**
 * The SPU pitch counter. Every tick the voice's 16-bit sample rate is added
 * to a counter whose low 12 bits interpolate between samples and whose upper
 * part indexes the 28 samples of the current ADPCM block; a carry out of the
 * index moves the block address on by one 16-byte block, within the 512 KiB
 * of sound memory.
 */
module SpuPitch {
  import opened Ints
  import opened SpuTypes

  /** Samples in one ADPCM block, and bytes in one block. */
  const SamplesPerBlock: nat := 28
  const BlockBytes: nat := 16

  /** The counter step of one whole sample. */
  const Unit: nat := 0x1000

  /** `handle_pitch_counter`; the final `& 0x7FFFF` on a non-negative address is written as `% 0x8_0000`. */
  function PitchCounter(v: Voice, srate: U16): (r: Voice)
    ensures r.samplePartial < Unit && r.sampleIndex < SamplesPerBlock && r.currentAddress < 0x8_0000
    ensures r == v.(samplePartial := r.samplePartial, sampleIndex := r.sampleIndex, currentAddress := r.currentAddress)
  {
    var partial := v.samplePartial + srate % 0x1000;
    var indexDelta := partial / 0x1000;
    var index := v.sampleIndex + srate / 0x1000 + indexDelta;
    var sampleDelta := index / 28;
    v.(samplePartial := partial % 0x1000,
       sampleIndex := index % 28,
       currentAddress := (v.currentAddress + sampleDelta * 16) % 0x8_0000)
  }

  /** The whole counter: the index in units of 0x1000 plus the interpolation part. */
  function Position(v: Voice): nat {
    v.sampleIndex * Unit + v.samplePartial
  }

  /**
   * The counter is one number advancing by the rate: the new position is the
   * old one plus the rate, modulo one block of 28 samples, and the address
   * moves one block for every block boundary crossed.
   */
  lemma PitchAdvances(v: Voice, srate: U16)
    ensures Position(PitchCounter(v, srate)) == (Position(v) + srate) % (SamplesPerBlock * Unit)
    ensures PitchCounter(v, srate).currentAddress ==
      (v.currentAddress + BlockBytes * ((Position(v) + srate) / (SamplesPerBlock * Unit))) % 0x8_0000
  {
    var t := Position(v) + srate;
    var partial := v.samplePartial + srate % 0x1000;
    var index := v.sampleIndex + srate / 0x1000 + partial / 0x1000;
    assert index == t / 0x1000;
    assert index / 28 == t / (28 * 0x1000);
  }

  /** At the rate 0x1000 the counter steps exactly one sample per tick and leaves the interpolation part alone. */
  lemma UnitRateSteps(v: Voice)
    requires v.samplePartial < Unit && v.sampleIndex < SamplesPerBlock
    ensures PitchCounter(v, 0x1000).samplePartial == v.samplePartial
    ensures PitchCounter(v, 0x1000).sampleIndex == (v.sampleIndex + 1) % SamplesPerBlock
    ensures PitchCounter(v, 0x1000).currentAddress ==
      (if v.sampleIndex == SamplesPerBlock - 1 then v.currentAddress + BlockBytes else v.currentAddress) % 0x8_0000
  {
  }

  /** A tick that crosses no block boundary leaves the block address where it was (within sound memory). */
  lemma WithinBlockKeepsAddress(v: Voice, srate: U16)
    requires Position(v) + srate < SamplesPerBlock * Unit
    ensures PitchCounter(v, srate).currentAddress == v.currentAddress % 0x8_0000
    ensures Position(PitchCounter(v, srate)) == Position(v) + srate
  {
    PitchAdvances(v, srate);
  }

  /** The index and the interpolation part are the position's quotient and remainder by one sample. */
  lemma PositionSplits(r: Voice)
    requires r.samplePartial < Unit
    ensures r.sampleIndex == Position(r) / Unit && r.samplePartial == Position(r) % Unit
  {
  }

  /** At the rate 0x800 (half speed) two ticks step exactly one sample. */
  lemma HalfRateTwoTicks(v: Voice)
    requires v.samplePartial < Unit && v.sampleIndex < SamplesPerBlock - 1
    ensures PitchCounter(PitchCounter(v, 0x800), 0x800).sampleIndex == v.sampleIndex + 1
    ensures PitchCounter(PitchCounter(v, 0x800), 0x800).samplePartial == v.samplePartial
    ensures PitchCounter(PitchCounter(v, 0x800), 0x800).currentAddress == v.currentAddress % 0x8_0000
  {
    var w := PitchCounter(v, 0x800);
    var w2 := PitchCounter(w, 0x800);
    WithinBlockKeepsAddress(v, 0x800);
    WithinBlockKeepsAddress(w, 0x800);
    PositionSplits(w2);
  }
}

=== FILE: spu_types.dfy ===
/**
 * The per-voice state of the SPU's sound generator: the ADPCM decoder's
 * memory, the ADSR envelope, the current sample block address and the
 * pitch counter.
 */
module SpuTypes {
  import opened Ints

  datatype AdsrPhase = Attack | Decay | Sustain | Release

  /** The envelope: its phase, the volume in effect, the volume to apply next and the cycles to wait before that. */
  datatype AdsrState = AdsrState(phase: AdsrPhase, currentVolume: I16, nextVolume: I16, waitCycles: nat)

  /** The decoder's memory: the last two samples (`old_sample` and `older_sample`), the address of the block in the buffer, the 28 samples and the repeat-copy flag. */
  datatype AdpcmState = AdpcmState(last: I16, beforeLast: I16, decodedAddress: nat, sampleBuffer: seq<I16>, copyRepeatAddress: bool)

  /** One voice's play state. */
  datatype Voice = Voice(adpcm: AdpcmState, adsr: AdsrState, currentAddress: nat, sampleIndex: nat, samplePartial: nat)
}

=== FILE: timers.dfy ===
/**
 * The root counters: `handle_counter` advances a timer's 16-bit count by a
 * number of ticks, resetting it on the target or at 0xFFFF, and the
 * interrupt rules decide whether a target or overflow event asserts the
 * timer's interrupt line.
 */
module Timers {
  import Intc
  import opened Ints

  datatype TimerId = Timer0 | Timer1 | Timer2

  datatype IrqType = Overflow | Target

  /** The controller-side state of one timer that the counter and the interrupt rules use. */
  datatype TimerState = TimerState(
    resetOnTarget: bool,
    targetHit: bool,
    overflowHit: bool,
    irqOnOverflow: bool,
    irqOnTarget: bool,
    oneshotMode: bool,
    irqToggle: bool,
    irqRaised: bool)

  /** The interrupt line of each timer. */
  function IrqLine(id: TimerId): (l: Intc.Line)
    ensures l == Intc.Tmr0 || l == Intc.Tmr1 || l == Intc.Tmr2
  {
    match id
    case Timer0 => Intc.Tmr0
    case Timer1 => Intc.Tmr1
    case Timer2 => Intc.Tmr2
  }

  lemma IrqLineInjective(a: TimerId, b: TimerId)
    ensures IrqLine(a) == IrqLine(b) ==> a == b
  {
  }

  /** Whether an event of this type is enabled to interrupt. */
  function Enabled(t: TimerState, irqType: IrqType): bool {
    match irqType
    case Overflow => t.irqOnOverflow
    case Target => t.irqOnTarget
  }

  /** One-shot mode after an interrupt has been raised: no further interrupt. */
  predicate Blocked(t: TimerState) {
    t.oneshotMode && t.irqRaised
  }

  /** The interrupt controller with the timer's line asserted when `raise` holds. */
  function RaiseIf(raise: bool, id: TimerId, intc: Intc.Stat): Intc.Stat {
    if raise then Intc.AssertLine(intc, IrqLine(id)) else intc
  }

  /**
   * `handle_irq_raise` as written: in toggle mode `irq_raised` is flipped
   * and the line asserted only if the flip leaves it set; in pulse mode the
   * line is always asserted. The mode register update is not part of this
   * model.
   */
  function IrqRaiseAsWritten(t: TimerState, id: TimerId, intc: Intc.Stat): (TimerState, Intc.Stat) {
    if t.irqToggle then
      var raised := !t.irqRaised;
      (t.(irqRaised := raised), RaiseIf(raised, id, intc))
    else
      (t, RaiseIf(true, id, intc))
  }

  /**
   * `handle_irq_trigger` as written: a blocked one-shot timer and a
   * disabled event do nothing; otherwise `irq_raised` is set and then
   * `handle_irq_raise` runs.
   */
  function IrqTriggerAsWritten(t: TimerState, id: TimerId, irqType: IrqType, intc: Intc.Stat): (r: (TimerState, Intc.Stat))
    ensures Blocked(t) || !Enabled(t, irqType) ==> r == (t, intc)
    ensures forall m: Intc.Line :: m != IrqLine(id) ==> Intc.Pending(r.1, m) == Intc.Pending(intc, m)
  {
    if Blocked(t) then (t, intc)
    else if Enabled(t, irqType) then IrqRaiseAsWritten(t.(irqRaised := true), id, intc)
    else (t, intc)
  }

  /**
   * As written, toggle mode never asserts the line: `irq_raised` is set
   * just before the toggle flips it back to false.
   */
  lemma ToggleNeverRaises(t: TimerState, id: TimerId, irqType: IrqType, intc: Intc.Stat)
    requires t.irqToggle
    ensures IrqTriggerAsWritten(t, id, irqType, intc).1 == intc
    ensures !Blocked(t) && Enabled(t, irqType) ==> !IrqTriggerAsWritten(t, id, irqType, intc).0.irqRaised
  {
  }

  /** A concrete instance: an enabled overflow in toggle mode leaves the interrupt controller untouched. */
  lemma ToggleNeverRaisesExample()
    ensures var t := TimerState(false, false, false, true, false, false, true, false);
      && Enabled(t, Overflow) && !Blocked(t)
      && IrqTriggerAsWritten(t, Timer1, Overflow, Intc.NewStat()) == (t, Intc.NewStat())
  {
  }

  /**
   * `handle_irq_raise` with toggle mode working: the toggle flips the value
   * `irq_raised` had before the event, and the line is asserted when the
   * flip sets it; pulse mode sets it and asserts the line.
   */
  function IrqRaise(t: TimerState, id: TimerId, intc: Intc.Stat): (TimerState, Intc.Stat) {
    var raised := if t.irqToggle then !t.irqRaised else true;
    (t.(irqRaised := raised), RaiseIf(raised, id, intc))
  }

  /** `handle_irq_trigger` with toggle mode working. */
  function IrqTrigger(t: TimerState, id: TimerId, irqType: IrqType, intc: Intc.Stat): (r: (TimerState, Intc.Stat))
    ensures Blocked(t) || !Enabled(t, irqType) ==> r == (t, intc)
    ensures forall m: Intc.Line :: m != IrqLine(id) ==> Intc.Pending(r.1, m) == Intc.Pending(intc, m)
    ensures Intc.Pending(r.1, IrqLine(id)) <==> Intc.Pending(intc, IrqLine(id)) || (r.0.irqRaised && !Blocked(t) && Enabled(t, irqType))
    ensures !t.irqToggle && !Blocked(t) && Enabled(t, irqType) ==> r.0.irqRaised && Intc.Pending(r.1, IrqLine(id))
    ensures r.0 == t.(irqRaised := r.0.irqRaised)
  {
    if Blocked(t) then (t, intc)
    else if Enabled(t, irqType) then IrqRaise(t, id, intc)
    else (t, intc)
  }

  /**
   * In toggle mode (not one-shot) two enabled events in a row assert the
   * line on the first and not on the second, and leave `irq_raised` as it
   * was.
   */
  lemma ToggleAlternates(t: TimerState, id: TimerId, irqType: IrqType, intc: Intc.Stat)
    requires t.irqToggle && !t.oneshotMode && !t.irqRaised && Enabled(t, irqType)
    ensures var (t1, i1) := IrqTrigger(t, id, irqType, intc);
      && t1.irqRaised && i1 == Intc.AssertLine(intc, IrqLine(id))
      && IrqTrigger(t1, id, irqType, i1) == (t, i1)
  {
  }

  /** In one-shot mode, once an interrupt has been raised, further events change nothing. */
  lemma OneshotRaisesOnce(t: TimerState, id: TimerId, a: IrqType, b: IrqType, intc: Intc.Stat)
    requires t.oneshotMode && !t.irqToggle && !t.irqRaised && Enabled(t, a)
    ensures var (t1, i1) := IrqTrigger(t, id, a, intc);
      && Intc.Pending(i1, IrqLine(id))
      && IrqTrigger(t1, id, b, i1) == (t1, i1)
  {
  }

  /** A timer's count register and controller state, and the interrupt controller it signals. */
  datatype Counter = Counter(count: nat, timer: TimerState, intc: Intc.Stat)

  const CountMask: nat := 0x1_0000

  /**
   * One iteration of `handle_counter`'s loop: the count goes up by one,
   * masked to 16 bits; with reset-on-target, reaching the target resets it
   * to 0 and signals a target event; otherwise reaching 0xFFFF resets it to
   * 0 and signals an overflow event. Events go through `handle_irq_trigger`
   * as written, so in toggle mode the loop never asserts the line.
   */
  function Tick(c: Counter, id: TimerId, target: nat): (r: Counter)
    ensures r.count <= 0xFFFF
    ensures !c.timer.resetOnTarget ==> r.count < 0xFFFF
    ensures c.timer.resetOnTarget && target != 0 ==> r.count != target
    ensures forall m: Intc.Line :: m != IrqLine(id) ==> Intc.Pending(r.intc, m) == Intc.Pending(c.intc, m)
    ensures r.timer.irqToggle == c.timer.irqToggle
    ensures c.timer.irqToggle ==> r.intc == c.intc
  {
    var v := (c.count + 1) % CountMask;
    if c.timer.resetOnTarget then
      if v == target then
        var (t, intc) := IrqTriggerAsWritten(c.timer.(targetHit := true), id, Target, c.intc);
        Counter(0, t, intc)
      else
        Counter(v, c.timer, c.intc)
    else if v == 0xFFFF then
      var (t, intc) := IrqTriggerAsWritten(c.timer.(overflowHit := true), id, Overflow, c.intc);
      Counter(0, t, intc)
    else
      Counter(v, c.timer, c.intc)
  }

  /** A target event: the count is reset, `target_hit` is set, and the line is asserted when the event may interrupt. */
  lemma TickTarget(c: Counter, id: TimerId, target: nat)
    requires c.timer.resetOnTarget && (c.count + 1) % CountMask == target
    ensures Tick(c, id, target).count == 0
    ensures Tick(c, id, target).timer.targetHit
    ensures !c.timer.irqToggle && !Blocked(c.timer) && c.timer.irqOnTarget ==> Intc.Pending(Tick(c, id, target).intc, IrqLine(id))
  {
  }

  /** An overflow event, with reset-on-target off. */
  lemma TickOverflow(c: Counter, id: TimerId, target: nat)
    requires !c.timer.resetOnTarget && (c.count + 1) % CountMask == 0xFFFF
    ensures Tick(c, id, target).count == 0
    ensures Tick(c, id, target).timer.overflowHit
    ensures !c.timer.irqToggle && !Blocked(c.timer) && c.timer.irqOnOverflow ==> Intc.Pending(Tick(c, id, target).intc, IrqLine(id))
  {
  }

  /** Without an event the count simply advances and nothing else changes. */
  lemma TickQuiet(c: Counter, id: TimerId, target: nat)
    requires c.timer.resetOnTarget ==> (c.count + 1) % CountMask != target
    requires !c.timer.resetOnTarget ==> (c.count + 1) % CountMask != 0xFFFF
    ensures Tick(c, id, target) == c.(count := (c.count + 1) % CountMask)
  {
  }

  /** `n` iterations of the loop. */
  function Run(c: Counter, id: TimerId, target: nat, n: nat): Counter
    decreases n
  {
    if n == 0 then c else Run(Tick(c, id, target), id, target, n - 1)
  }

  /**
   * `handle_counter` for a number of ticks; turning elapsed time into ticks
   * is not part of this model, so `ticks` is given.
   */
  method HandleCounter(c: Counter, id: TimerId, target: nat, ticks: nat) returns (r: Counter)
    ensures r == Run(c, id, target, ticks)
    ensures ticks > 0 ==> r.count <= 0xFFFF
  {
    r := c;
    var i := 0;
    while i < ticks
      invariant i <= ticks
      invariant Run(r, id, target, ticks - i) == Run(c, id, target, ticks)
      invariant i > 0 ==> r.count <= 0xFFFF
    {
      r := Tick(r, id, target);
      i := i + 1;
    }
  }

  /** Without reset-on-target the count runs through 0 ... 0xFFFE: it advances modulo 0xFFFF. */
  lemma {:induction false} FreeRunning(c: Counter, id: TimerId, target: nat, n: nat)
    requires !c.timer.resetOnTarget && c.count < 0xFFFF
    ensures Run(c, id, target, n).count == (c.count + n) % 0xFFFF
    ensures Run(c, id, target, n).timer.resetOnTarget == c.timer.resetOnTarget
    decreases n
  {
    if n > 0 {
      var d := Tick(c, id, target);
      assert d.count == (c.count + 1) % 0xFFFF;
      assert d.timer.resetOnTarget == c.timer.resetOnTarget;
      FreeRunning(d, id, target, n - 1);
      ModStep(c.count, n, 0xFFFF);
    }
  }

  /** With reset-on-target and a target in 1 ... 0xFFFF, the count advances modulo the target. */
  lemma {:induction false} ResetOnTarget(c: Counter, id: TimerId, target: nat, n: nat)
    requires c.timer.resetOnTarget && 0 < target <= 0xFFFF && c.count < target
    ensures Run(c, id, target, n).count == (c.count + n) % target
    ensures Run(c, id, target, n).timer.resetOnTarget
    decreases n
  {
    if n > 0 {
      var d := Tick(c, id, target);
      TickResetCount(c, id, target);
      FreeResetKeeps(c, id, target);
      ResetOnTarget(d, id, target, n - 1);
      assert Run(c, id, target, n) == Run(d, id, target, n - 1);
      ModStep(c.count, n, target);
    } else {
      ModUnique(c.count, 0, c.count, target);
    }
  }

  lemma FreeResetKeeps(c: Counter, id: TimerId, target: nat)
    ensures Tick(c, id, target).timer.resetOnTarget == c.timer.resetOnTarget
  {
  }

  /** Below the target, one tick is one step modulo the target. */
  lemma TickResetCount(c: Counter, id: TimerId, target: nat)
    requires c.timer.resetOnTarget && 0 < target <= 0xFFFF && c.count < target
    ensures Tick(c, id, target).count == (c.count + 1) % target
    ensures Tick(c, id, target).count < target
  {
    assert (c.count + 1) % CountMask == c.count + 1;
    if c.count + 1 == target {
      ModUnique(target, 1, 0, target);
    } else {
      ModUnique(c.count + 1, 0, c.count + 1, target);
    }
  }

  /** `((a + 1) % m + (n - 1)) % m == (a + n) % m` for `a < m` and `n > 0`. */
  lemma ModStep(a: nat, n: nat, m: nat)
    requires n > 0 && a < m
    ensures ((a + 1) % m + (n - 1)) % m == (a + n) % m
  {
    if a + 1 == m {
      ModUnique(a + 1, 1, 0, m);
      assert a + n == (n - 1) + m;
      ModAddModulus(n - 1, m);
    } else {
      ModUnique(a + 1, 0, a + 1, m);
    }
  }

  lemma ModAddModulus(x: nat, m: nat)
    requires m > 0
    ensures (x + m) % m == x % m
  {
    var q, r := x / m, x % m;
    assert x == q * m + r;
    assert x + m == (q + 1) * m + r;
    ModUnique(x + m, q + 1, r, m);
  }

  /** Every tick leaves the other lines of the interrupt controller alone. */
  lemma {:induction false} RunOnlyOwnLine(c: Counter, id: TimerId, target: nat, n: nat, m: Intc.Line)
    requires m != IrqLine(id)
    ensures Intc.Pending(Run(c, id, target, n).intc, m) == Intc.Pending(c.intc, m)
    decreases n
  {
    if n > 0 {
      RunOnlyOwnLine(Tick(c, id, target), id, target, n - 1, m);
    }
  }

  /** As written, a timer in toggle mode never asserts an interrupt, however many ticks it runs. */
  lemma {:induction false} ToggleRunSilent(c: Counter, id: TimerId, target: nat, n: nat)
    requires c.timer.irqToggle
    ensures Run(c, id, target, n).intc == c.intc
    decreases n
  {
    if n > 0 {
      ToggleRunSilent(Tick(c, id, target), id, target, n - 1);
    }
  }

  /**
   * A concrete instance: reset-on-target, target interrupts and toggle mode
   * on, count 4, target 5. The next tick hits the target and resets the
   * count, but the interrupt controller is left as it was.
   */
  lemma ToggleTargetExample()
    ensures var t := TimerState(true, false, false, false, true, false, true, false);
      var c := Counter(4, t, Intc.NewStat());
      && t.resetOnTarget && t.irqOnTarget && t.irqToggle && !t.irqRaised
      && Tick(c, Timer0, 5).count == 0
      && Tick(c, Timer0, 5).intc == Intc.NewStat()
  {
  }
}

=== FILE: unaligned.dfy ===
/**
 * The register/memory merges of the unaligned word instructions `lwl`,
 * `lwr`, `swl` and `swr`. Each is indexed by the low two bits `k` of the
 * address; the aligned memory word and the register are combined through a
 * fixed mask and shift per `k`, written out here one branch per table entry.
 */
module Unaligned {
  /** `lwl`: keeps the register under mask [0x00FF_FFFF, 0xFFFF, 0xFF, 0] and shifts memory left by [24, 16, 8, 0]. */
  function Lwl(rt: bv32, mem: bv32, k: nat): bv32
    requires k < 4
  {
    if k == 0 then (rt & 0x00FF_FFFF) | (mem << 24)
    else if k == 1 then (rt & 0x0000_FFFF) | (mem << 16)
    else if k == 2 then (rt & 0x0000_00FF) | (mem << 8)
    else (rt & 0) | mem
  }

  /** `lwr`: keeps the register under mask [0, 0xFF00_0000, 0xFFFF_0000, 0xFFFF_FF00] and shifts memory right by [0, 8, 16, 24]. */
  function Lwr(rt: bv32, mem: bv32, k: nat): bv32
    requires k < 4
  {
    if k == 0 then (rt & 0) | mem
    else if k == 1 then (rt & 0xFF00_0000) | (mem >> 8)
    else if k == 2 then (rt & 0xFFFF_0000) | (mem >> 16)
    else (rt & 0xFFFF_FF00) | (mem >> 24)
  }

  /** `swl`: shifts the register right by [24, 16, 8, 0] and keeps memory under mask [0xFFFF_FF00, 0xFFFF_0000, 0xFF00_0000, 0]. */
  function Swl(rt: bv32, mem: bv32, k: nat): bv32
    requires k < 4
  {
    if k == 0 then (rt >> 24) | (mem & 0xFFFF_FF00)
    else if k == 1 then (rt >> 16) | (mem & 0xFFFF_0000)
    else if k == 2 then (rt >> 8) | (mem & 0xFF00_0000)
    else rt | (mem & 0)
  }

  /** `swr`: shifts the register left by [0, 8, 16, 24] and keeps memory under mask [0, 0xFF, 0xFFFF, 0xFF_FFFF]. */
  function Swr(rt: bv32, mem: bv32, k: nat): bv32
    requires k < 4
  {
    if k == 0 then rt | (mem & 0)
    else if k == 1 then (rt << 8) | (mem & 0x0000_00FF)
    else if k == 2 then (rt << 16) | (mem & 0x0000_FFFF)
    else (rt << 24) | (mem & 0x00FF_FFFF)
  }

  /**
   * The little-endian word that starts `k` bytes into the aligned word `lo`
   * and continues into the next aligned word `hi`.
   */
  function Straddle(lo: bv32, hi: bv32, k: nat): bv32
    requires k < 4
  {
    if k == 0 then lo
    else if k == 1 then (lo >> 8) | (hi << 24)
    else if k == 2 then (lo >> 16) | (hi << 16)
    else (lo >> 24) | (hi << 8)
  }

  lemma LoadAt1(rt: bv32, lo: bv32, hi: bv32)
    ensures Lwl(Lwr(rt, lo, 1), hi, 0) == Straddle(lo, hi, 1)
  {
    var r := (rt & 0xFF00_0000) | (lo >> 8);
    assert Lwr(rt, lo, 1) == r;
    assert (r & 0x00FF_FFFF) | (hi << 24) == (lo >> 8) | (hi << 24);
  }

  lemma LoadAt2(rt: bv32, lo: bv32, hi: bv32)
    ensures Lwl(Lwr(rt, lo, 2), hi, 1) == Straddle(lo, hi, 2)
  {
    var r := (rt & 0xFFFF_0000) | (lo >> 16);
    assert Lwr(rt, lo, 2) == r;
    assert (r & 0x0000_FFFF) | (hi << 16) == (lo >> 16) | (hi << 16);
  }

  lemma LoadAt3(rt: bv32, lo: bv32, hi: bv32)
    ensures Lwl(Lwr(rt, lo, 3), hi, 2) == Straddle(lo, hi, 3)
  {
    var r := (rt & 0xFFFF_FF00) | (lo >> 24);
    assert Lwr(rt, lo, 3) == r;
    assert (r & 0x0000_00FF) | (hi << 8) == (lo >> 24) | (hi << 8);
  }

  /**
   * `lwr` at an address with low bits `k` followed by `lwl` at that address
   * plus 3 loads the unaligned word: whatever the register held, it ends up
   * holding the four bytes starting at the address. At an aligned address
   * (`k == 0`) `lwr` alone loads the word and `lwl` of the same word keeps it.
   */
  lemma UnalignedLoad(rt: bv32, lo: bv32, hi: bv32, k: nat)
    requires k < 4
    ensures k == 0 ==> Lwr(rt, lo, 0) == lo && Lwl(Lwr(rt, lo, 0), lo, 3) == lo
    ensures k > 0 ==> Lwl(Lwr(rt, lo, k), hi, k - 1) == Straddle(lo, hi, k)
  {
    if k == 1 {
      LoadAt1(rt, lo, hi);
    } else if k == 2 {
      LoadAt2(rt, lo, hi);
    } else if k == 3 {
      LoadAt3(rt, lo, hi);
    }
  }

  lemma Reassemble1(rt: bv32, lo: bv32, hi: bv32)
    ensures (((rt << 8) | (lo & 0xFF)) >> 8) | (((rt >> 24) | (hi & 0xFFFF_FF00)) << 24) == rt
  {
  }

  lemma StoreAt1(rt: bv32, lo: bv32, hi: bv32)
    ensures Straddle(Swr(rt, lo, 1), Swl(rt, hi, 0), 1) == rt
  {
    assert Swr(rt, lo, 1) == (rt << 8) | (lo & 0xFF);
    assert Swl(rt, hi, 0) == (rt >> 24) | (hi & 0xFFFF_FF00);
    Reassemble1(rt, lo, hi);
  }

  lemma StoreAt2(rt: bv32, lo: bv32, hi: bv32)
    ensures Straddle(Swr(rt, lo, 2), Swl(rt, hi, 1), 2) == rt
  {
    var l := (rt << 16) | (lo & 0xFFFF);
    var h := (rt >> 16) | (hi & 0xFFFF_0000);
    assert Swr(rt, lo, 2) == l && Swl(rt, hi, 1) == h;
    assert (l >> 16) | (h << 16) == rt;
  }

  lemma StoreAt3(rt: bv32, lo: bv32, hi: bv32)
    ensures Straddle(Swr(rt, lo, 3), Swl(rt, hi, 2), 3) == rt
  {
    var l := (rt << 24) | (lo & 0xFF_FFFF);
    var h := (rt >> 8) | (hi & 0xFF00_0000);
    assert Swr(rt, lo, 3) == l && Swl(rt, hi, 2) == h;
    assert (l >> 24) | (h << 8) == rt;
  }

  /**
   * `swr` with low bits `k` followed by `swl` at the address plus 3 write the
   * register's four bytes across the two aligned words; at an aligned
   * address `swr` alone writes the register.
   */
  lemma UnalignedStore(rt: bv32, lo: bv32, hi: bv32, k: nat)
    requires k < 4
    ensures k == 0 ==> Swr(rt, lo, 0) == rt && Swl(rt, Swr(rt, lo, 0), 3) == rt
    ensures k > 0 ==> Straddle(Swr(rt, lo, k), Swl(rt, hi, k - 1), k) == rt
  {
    if k == 1 {
      StoreAt1(rt, lo, hi);
    } else if k == 2 {
      StoreAt2(rt, lo, hi);
    } else if k == 3 {
      StoreAt3(rt, lo, hi);
    }
  }

  /**
   * Storing a register with `swr`/`swl` and loading the two words back with
   * `lwr`/`lwl` into any register returns the stored value.
   */
  lemma UnalignedStoreLoad(rt: bv32, lo: bv32, hi: bv32, k: nat, other: bv32)
    requires 0 < k < 4
    ensures Lwl(Lwr(other, Swr(rt, lo, k), k), Swl(rt, hi, k - 1), k - 1) == rt
  {
    UnalignedStore(rt, lo, hi, k);
    UnalignedLoad(other, Swr(rt, lo, k), Swl(rt, hi, k - 1), k);
  }

  /** The bytes of memory below the address that `swr` keeps: the low `k` bytes. */
  function SwrKept(k: nat): bv32
    requires k < 4
  {
    if k == 0 then 0 else if k == 1 then 0xFF else if k == 2 then 0xFFFF else 0xFF_FFFF
  }

  /**
   * The stores touch only the bytes of the unaligned word: `swr` keeps the
   * `k` bytes of `lo` below the address, and `swl` at the address plus 3
   * keeps the bytes of `hi` above the word's last byte.
   */
  lemma UnalignedStoreFrame(rt: bv32, lo: bv32, hi: bv32, k: nat)
    requires 0 < k < 4
    ensures Swr(rt, lo, k) & SwrKept(k) == lo & SwrKept(k)
    ensures Swl(rt, hi, k - 1) & !SwrKept(k) == hi & !SwrKept(k)
  {
    if k == 1 {
      assert (((rt << 8) | (lo & 0xFF)) & 0xFF) == lo & 0xFF;
      assert (((rt >> 24) | (hi & 0xFFFF_FF00)) & 0xFFFF_FF00) == hi & 0xFFFF_FF00;
    } else if k == 2 {
      assert (((rt << 16) | (lo & 0xFFFF)) & 0xFFFF) == lo & 0xFFFF;
      assert (((rt >> 16) | (hi & 0xFFFF_0000)) & 0xFFFF_0000) == hi & 0xFFFF_0000;
    } else {
      assert (((rt << 24) | (lo & 0xFF_FFFF)) & 0xFF_FFFF) == lo & 0xFF_FFFF;
      assert (((rt >> 8) | (hi & 0xFF00_0000)) & 0xFF00_0000) == hi & 0xFF00_0000;
    }
  }
}

=== FILE: wrappers.dfy ===
/** Option and Result, the two shapes every fallible operation of the model returns. */
module Wrappers {
  datatype Option<T> = None | Some(value: T) {
    predicate IsSome() { this.Some? }

    function GetOr(default: T): (r: T)
      ensures this.Some? ==> r == value
      ensures this.None? ==> r == default
    {
      match this
      case Some(v) => v
      case None => default
    }
  }

  datatype Result<T, E> = Ok(value: T) | Err(error: E) {
    predicate IsFailure() { this.Err? }
  }
}
